=== FILE: README.md ===
# Quizlet core in Dafny

A model of the core of the Quizlet-style learning platform: its Python back-end services and one
React component of its web client. Each module models one component:

- **Events collector.** A Kafka consumer buffers analytics events per ClickHouse table and inserts
  them in batches: `BatchBuffers`, `Mappers`, `Registry`, `Consumer`.
- **Decks service.**
  - Authentication: `DeckAuth`.
  - Cards, their images and the object-store keys behind them: `Cards`, `CardApi`, `ObjectKeys`.
  - Decks and their list pages: `Decks`, `DeckApi`.
  - Per-deck statistics: `DeckStatistics`.
  - Learning sessions: `Learn`, `LearnApi`.
  - Test results: `TestResults`.
- **Teaching service.**
  - Authentication and permissions: `TeachingAuth`, `TeachingPermissions`.
  - Courses and their deck ordering: `Courses`, `Ordering`.
  - Lessons: `Lessons`.
  - Enrollments and progress: `Enrollments`.
- **Auth service.** Tokens: `AuthTokens`.
- **Gateway.**
  - Bearer-token authentication: `GatewayAuth`.
  - The headers forwarded to services: `GatewayProxy`.
- **Users service.**
  - Field validation: `UserSchemas`.
  - The user store: `UserStore`.
- **Web client.** The flip state of a flash card: `CardFlip`.
- **Shared definitions.**
  - `Wrappers` (Option and Result), `Text` (the string functions Python provides), `Json` (the
    JSON value shapes request bodies take) and `Http` (status codes and responses).

The model is built on pure functions over immutable values:

- A database is a value: maps from ids to rows.
- A request handler is a function from that value and the request to a response and the new value.
- Anything outside the process is an input. This covers the clock, the object store's contents,
  the outcome of a ClickHouse insert, a random choice, and the other services' answers.
- An exception that reaches the web framework is a `500` response.
- An exception that reaches the consumer loop is a `raised` flag.

Where the code does something its authors evidently did not intend, the module holds two
definitions:

- the operation as written, with a lemma that exhibits the input on which it goes wrong;
- a corrected definition, with the intended property proved about it.

Where another part of the model builds on such an operation, it uses the corrected definition.
The one exception is the consumer loop, which takes its commit rule as a parameter so that the
loop can be stated under both rules. Each pair is listed under Findings.

## Model

Source paths are relative to the repository root.

| member | source | states |
|---|---|---|
| BatchBuffers.New | backend/services/events_collector/src/storage/clickhouse.py:22-27 | A new buffer for a table holds no rows, its size agrees with its rows, and its last flush is the moment of creation. |
| BatchBuffers.Add | backend/services/events_collector/src/storage/clickhouse.py:29-31 | A row is appended at the end and the rows before it are unchanged. The size stays equal to the row count. The table and the last-flush time do not change. |
| BatchBuffers.Flush | backend/services/events_collector/src/storage/clickhouse.py:40-50 | An empty buffer attempts no insert and is left exactly as it was. A non-empty buffer attempts one insert of all its rows, in order, into its own table. If that insert raises, the buffer is unchanged. Otherwise it is emptied and its last flush set to now. |
| BatchBuffers.FlushClearsDue | backend/services/events_collector/src/storage/clickhouse.py:33-50 | A successful flush of a non-empty buffer makes it not due. An empty buffer that was due is still due after a flush. |
| BatchBuffers.EmptyDueStaysDue | backend/services/events_collector/src/storage/clickhouse.py:33-42 | An empty buffer that is due stays due at every later instant, because its flush returns before resetting the clock. |
| BatchBuffers.RetryKeepsRows | backend/services/events_collector/src/storage/clickhouse.py:29-50 | Rows of a failed insert are not lost: the next successful flush inserts them, followed by any rows added since. |
| BatchBuffers.AddAll | backend/services/events_collector/src/storage/clickhouse.py:29-31 | Adding rows one by one appends them all in order, keeps size and row count equal, and changes neither the table nor the last-flush time. |
| BatchBuffers.FlushInsertsFed | backend/services/events_collector/src/storage/clickhouse.py:22-50 | A fresh buffer fed some rows and then flushed inserts exactly those rows, in that order, in one insert. |
| Mappers.RowRoundTrip | backend/services/events_collector/src/validation/mappers/content.py:9-26 | Each of the eight mappers loses nothing and invents nothing. A decoder written independently reads the row back by column position and recovers exactly the produced-at time, the event id and the payload. |
| Mappers.RowHeader | backend/services/events_collector/src/validation/mappers/course.py:12-47 | Every row has its table's column count. It starts with the payload's own timestamp, then the produced-at time, then the event id. |
| Mappers.RowInjective | backend/services/events_collector/src/validation/mappers/learning.py:9-36 | Two different events of one kind never map to the same row. |
| Mappers.CardCreatedExample | backend/services/events_collector/src/validation/mappers/content.py:19-26 | The row of a card-created event is (created_at, produced_at, event id, card id, deck id). |
| Registry.Lookup | backend/services/events_collector/src/validation/registry.py:42-87 | A (type, version) key has a descriptor exactly when the registry lists it, and the descriptor returned is the one listed under it. |
| Registry.RegistryShape | backend/services/events_collector/src/validation/registry.py:42-87 | The registry holds eight entries, all at version 1. Entry i is keyed by the type name of the i-th kind, and its schema, table and mapper all belong to that kind. |
| Registry.LookupKnown | backend/services/events_collector/src/validation/registry.py:42-87 | Every event kind is found at version 1, with its own schema and its own mapper. |
| Registry.LookupUnknown | backend/services/events_collector/src/validation/registry.py:42-87 | A version other than 1, or a type name that names no kind, finds nothing. |
| Registry.TablesDistinct | backend/services/events_collector/src/consumer/consumer.py:80-85 | The loop that creates one buffer per new table yields the eight registry tables in registry order. No table is repeated, so each descriptor gets its own buffer. |
| Registry.DedupKeepsAll | backend/services/events_collector/src/consumer/consumer.py:80-85 | Keeping only the first occurrence of each table keeps every table when none repeats. |
| Registry.TableIndex | backend/services/events_collector/src/consumer/consumer.py:131 | A table has a buffer exactly when it is a registry table, and the buffer found is that table's buffer. |
| Consumer.ParseEnvelopeAndPayload | backend/services/events_collector/src/consumer/consumer.py:22-48 | Parsing succeeds exactly when the envelope validates and the payload validates as the descriptor's schema. On success it returns both. An invalid envelope fails before the payload is looked at. |
| Consumer.Init | backend/services/events_collector/src/consumer/consumer.py:77-85 | At start there is one empty buffer per registry table, in registry order, and nothing is pending. |
| Consumer.Commit | backend/services/events_collector/src/consumer/consumer.py:163-174 | With nothing pending there is no commit. Otherwise exactly one synchronous commit is attempted, of every pending watermark plus one. It raises exactly when something is pending and the broker refuses the commit; then the pending map is kept as it was. When it does not raise, the pending map is cleared. The buffers are untouched. |
| Consumer.FlushAt | backend/services/events_collector/src/consumer/consumer.py:154-156 | Flushing one buffer leaves the other buffers and the pending watermarks alone. It raises exactly when that buffer holds rows and its insert fails. If it raises, the state is unchanged; if not, the buffer is empty. |
| Consumer.FlushAllFrom | backend/services/events_collector/src/consumer/consumer.py:158-161 | Flushing every non-empty buffer in order raises exactly when some non-empty buffer's insert fails. When nothing raises, every buffer is empty afterwards. It never commits. |
| Consumer.FlushDueFrom | backend/services/events_collector/src/consumer/consumer.py:144-150 | Due buffers are flushed in order and buffers that are not due are left as they are. It raises exactly when a due, non-empty buffer's insert fails. With no due buffer it does nothing. |
| Consumer.FlushDue | backend/services/events_collector/src/consumer/consumer.py:144-152 | With no due buffer, nothing happens. As written, the step raises exactly when a due, non-empty buffer's insert fails, or when some buffer was due, something was pending and the commit fails. A step that raises has committed nothing. When it does not raise, a commit happens exactly when some buffer was due and something was pending. |
| Consumer.CommitAfterFlush | backend/services/events_collector/src/consumer/consumer.py:140-152 | As written, the flush is followed by an immediate commit. Under the corrected policy, a commit is made only when every buffer has been emptied. A step that raises has committed nothing. |
| Consumer.Advance | backend/services/events_collector/src/consumer/consumer.py:134-138 | The watermark of the message's partition becomes the larger of its previous value and the message offset. Every other partition keeps its watermark. |
| Consumer.ProcessMessage | backend/services/events_collector/src/consumer/consumer.py:111-142 | Undecodable JSON or a missing key raises with nothing changed. An unregistered (type, version) is skipped with nothing changed. A step that raises never commits. Under the corrected policy, any commit leaves every buffer empty. |
| Consumer.Accept | backend/services/events_collector/src/consumer/consumer.py:129-142 | A valid event's row goes to its table's buffer and its watermark is advanced. A step that raises does not commit. Under the corrected policy a commit leaves every buffer empty. |
| Consumer.DescriptorUsable | backend/services/events_collector/src/consumer/consumer.py:117-131 | Every registered descriptor's schema is the kind its mapper accepts, and its table has a buffer. |
| Consumer.ProcessValid | backend/services/events_collector/src/consumer/consumer.py:127-142 | A valid event's row is appended to its table's buffer and its watermark advanced. Three cases follow. If the buffer is not due, nothing else happens. If it is due and the insert succeeds, the whole buffer is inserted and a commit of every pending watermark plus one follows. If that commit fails, the step raises with the rows inserted and the watermarks still pending. If the insert fails, the row and the watermark stay pending and the step raises. |
| Consumer.AcceptAsWritten | backend/services/events_collector/src/consumer/consumer.py:131-142 | The same cases for the valid-event branch under the source's commit rule, including a commit that fails after a successful insert. |
| Consumer.ProcessInvalid | backend/services/events_collector/src/consumer/consumer.py:22-48 | A registered event that fails validation raises and changes nothing. |
| Consumer.Drain | backend/services/events_collector/src/consumer/consumer.py:104-109 | The shutdown step raises exactly when a non-empty buffer's insert fails or something is pending and the commit fails. When an insert fails, it has made inserts only. When only the commit fails, every buffer has been inserted and emptied, the commit attempt comes last, the watermarks stay pending and the consumer is not closed. Otherwise its effects are, in this order: one insert of all rows of each non-empty buffer in buffer order, then one commit of every pending watermark + 1 (none when nothing is pending), then closing the consumer; every buffer ends empty and nothing stays pending. |
| Consumer.Iteration | backend/services/events_collector/src/consumer/consumer.py:86-102 | Only the flush on a poll timeout can make an iteration raise. An exception from processing a message is swallowed by the loop. |
| Consumer.RunLoop | backend/services/events_collector/src/consumer/consumer.py:73-109 | The loop keeps one consistent buffer per table. When it stops, every buffer is empty, nothing is pending, and its effects end with the complete shutdown sequence (inserts, commit, close) of some consistent state. |
| Consumer.ShutdownDrains | backend/services/events_collector/src/consumer/consumer.py:86-109 | After polls that leave the loop running, the shutdown signal stops it exactly when no non-empty buffer's insert fails and no commit of pending watermarks fails. The run's effects are then the polls' effects followed by the inserts of the buffers the polls left, the commit of their watermarks, and the close. If only the commit fails, the loop crashes after those inserts, with the watermarks still pending and the consumer not closed. |
| Consumer.NoShutdownNeverStops | backend/services/events_collector/src/consumer/consumer.py:86 | Without a shutdown signal the loop never stops by itself. |
| Consumer.DueFlushFailureCrashes | backend/services/events_collector/src/consumer/consumer.py:88-90 | A failed insert in the flush after a poll timeout escapes the loop. The consumer crashes without committing and without draining. |
| Consumer.DueCommitFailureCrashes | backend/services/events_collector/src/consumer/consumer.py:88-90 | A commit that fails in the flush after a poll timeout also escapes the loop, after the due buffers were inserted. The consumer crashes with those rows in ClickHouse, nothing committed and every watermark still pending, so a restart delivers them again. |
| Consumer.BrokerNoiseIgnored | backend/services/events_collector/src/consumer/consumer.py:92-96 | A partition-EOF marker or a broker error is skipped and changes nothing. |
| Consumer.AsWrittenCommitsAheadOfRows | backend/services/events_collector/src/consumer/consumer.py:144-152 | As written, a poll timeout with one empty buffer due commits every pending watermark, including those of rows still waiting in another buffer. |
| DeckAuth.MockUser | backend/services/decks/src/auth.py:15-25 | The empty token has no user. Any other token yields a manager exactly when it ends in `-manager`. The manager gets id 2 and everyone else id 1. |
| DeckAuth.AuthorizedOwners | backend/services/decks/src/auth.py:34-40 | Nobody anonymous is authorized for anything, and a manager is authorized for every owner. An ordinary user is authorized for exactly one owner, themself. |
| DeckAuth.MockAuthorization | backend/services/decks/src/auth.py:15-40 | Through the stand-in token check, a `-manager` token reaches every resource. Any other non-empty token reaches exactly user 1's resources, and the empty token reaches none. |
| ObjectKeys.ExtractKey | backend/services/decks/src/utils/minio.py:76-87 | Empty text and text without `://` are returned unchanged. A URL's result never carries a query or a fragment. |
| ObjectKeys.ExtractKeyOfUrl | backend/services/decks/src/utils/minio.py:76-87 | From a URL `scheme://host/bucket/key`, extraction recovers exactly the key, provided no part carries a URL delimiter. |
| ObjectKeys.UrlPathOf | backend/services/decks/src/utils/minio.py:82-84 | The path of `scheme://host/tail` is `tail`: the network location ends at the first slash. |
| ObjectKeys.PresignKeyIsKey | backend/services/decks/src/utils/minio.py:78-81 | A presigned upload key is already an object key: extracting the key from it gives it back unchanged, unless a part carries a colon. |
| ObjectKeys.ExtPartAsWrittenNoDot | backend/services/decks/src/card/controller.py:167-168 | As written, a file name without a dot gets itself, dot-prefixed, as its extension. |
| ObjectKeys.ExtPartAsWrittenExample | backend/services/decks/src/card/controller.py:167-169 | An upload named `photo` gets the suffix `.photo`. |
| ObjectKeys.ExtPart | backend/services/decks/src/card/controller.py:167-168 | The corrected extension suffix is empty or starts with a dot. |
| ObjectKeys.ExtPartShape | backend/services/decks/src/card/service.py:69-72 | The corrected suffix is empty, or a dot followed by text without dots or slashes that ends the name. |
| ObjectKeys.ExtPartPlain | backend/services/decks/src/card/controller.py:167-168 | For a plain file name, the corrected suffix is empty when the name has no dot. When it has one, the suffix agrees with the code. |
| ObjectKeys.ExtPartOfDotted | backend/services/decks/src/card/controller.py:167-168 | A name ending in `.ext`, with `ext` free of dots and slashes, has the suffix `.ext`. |
| ObjectKeys.ExtPartExampleNoDot | backend/services/decks/src/card/controller.py:167-168 | With the correction, `photo` gets no extension. |
| ObjectKeys.PresignKey | backend/services/decks/src/card/controller.py:166-169 | The upload key is a temporary key and ends with the corrected extension of the uploaded file's name. |
| ObjectKeys.PresignKeyAsWritten | backend/services/decks/src/card/controller.py:166-169 | The upload key as written is the user's temp directory, the random name and the as-written extension. For a plain file name with a dot it equals the corrected key. For one without a dot it is the corrected key followed by `.` and the whole name. |
| ObjectKeys.PresignKeyParts | backend/services/decks/src/card/controller.py:169 | The upload key is the user's temp directory, then the random name, then the extension. |
| ObjectKeys.PresignPreservesExtension | backend/services/decks/src/card/controller.py:166-169 | The upload key has the same extension as the uploaded file's name. |
| ObjectKeys.MovedKey | backend/services/decks/src/card/service.py:69-81 | The permanent key of a moved image lies under `decks/`, is not a temporary key, and ends with the extension of the temporary key it came from. |
| ObjectKeys.MovedKeyAsWrittenNests | backend/services/decks/src/card/service.py:69-81 | As written, a temporary key without a dot is appended whole, so the image lands in extra directories below the card. This differs from the corrected key. |
| ObjectKeys.MovePreservesExtension | backend/services/decks/src/card/service.py:69-81 | An upload keeps its file's extension when it moves from its temporary key to its card. |
| ObjectKeys.ShowImage | backend/services/decks/src/card/controller.py:30-37 | A missing image stays missing. A value is replaced by a signed GET of itself exactly when it is non-empty and not a temporary key. Otherwise it is shown as stored. |
| ObjectKeys.FreshUploadShownAsStored | backend/services/decks/src/deck/controller.py:25-42 | A freshly uploaded image is shown as stored while its key is temporary. Once moved to its card, it is shown through a signed GET. |
| Cards.NewCard | backend/services/decks/src/card/service.py:13-34 | A created card carries exactly the given deck, texts and images. Its order index is the one given, or 0 when none is given. |
| Cards.Merge | backend/services/decks/src/card/service.py:52-61 | Each field an update gives replaces the stored one, and each field it leaves out is kept. The id and deck never change. |
| Cards.MergeLaws | backend/services/decks/src/card/service.py:52-61 | An empty update changes nothing, and repeating an update changes nothing more. Two updates in a row act as one update in which the later fields win. |
| Cards.TempSource | backend/services/decks/src/card/service.py:67-69 | A stored value refers to a temporary upload exactly when it is non-empty and its object key starts with `temp/`. The key is the one extracted from the value. |
| Cards.MoveSide | backend/services/decks/src/card/service.py:67-84 | A value that is not a temporary upload leaves card and store alone. For a temporary upload, the move raises exactly when the source object is missing, and then the store is unchanged. Otherwise the object is copied to the card's permanent key and the temporary object removed. No other object changes, and the card stores the new key. |
| Cards.MoveImages | backend/services/decks/src/card/service.py:63-84 | The front image is moved first. Texts, order and identity are untouched, and each image that referred to an upload now holds its permanent key. A missing front source raises before anything is moved. |
| Cards.UpdateCard | backend/services/decks/src/card/service.py:42-88 | The given fields are merged in. Then each given image that refers to an upload is moved to the card's key. Without such an image, the result is the merge and the store is unchanged. |
| Cards.UpdateMovesUpload | backend/services/decks/src/card/service.py:63-75 | An upload given to an update ends up under the card's key with its content, and the temporary object is gone. Sending the same update again raises, because its source is missing. |
| Cards.ItemError | backend/services/decks/src/card/service.py:109-129 | An item passes its check exactly when one of two things holds. Either it has an id (0 counts as none) naming a card of this deck, or it has no id, is not a delete and has both texts non-empty. |
| Cards.Errors | backend/services/decks/src/card/service.py:101-132 | Every reported error belongs to an item that fails its check, and errors come in item order. The list is empty exactly when every item passes. |
| Cards.ErrorsComplete | backend/services/decks/src/card/service.py:109-129 | Every item that fails its check has an entry in the error list. |
| Cards.ApplyItem | backend/services/decks/src/card/service.py:136-202 | One applied item keeps every card of another deck. A delete removes exactly its card. An update replaces exactly its card with the card as earlier items left it, merged with the item and with its uploads moved. An update of a card that an earlier item deleted raises, after making its image moves. A create adds, under the next id, a card of this deck with the item's fields and its uploads moved. |
| Cards.ApplyAll | backend/services/decks/src/card/service.py:136-202 | Applying the items in order, up to the first item that raises, keeps every card of another deck unchanged and every card under its own id. |
| Cards.ApplyAllEffect | backend/services/decks/src/card/service.py:136-202 | When every item is applied, no update of a card comes after a delete of it or names a card that is not there. A deleted card is gone. Any other card is there exactly when it was, holding all its updates applied in request order. The creates add cards under consecutive new ids in request order, and no other card appears. |
| Cards.UpdatesCombine | backend/services/decks/src/card/service.py:52-61 | Updates of one card that carry no upload act as a single update in which later fields win. |
| Cards.RepeatedUpdatesAccumulate | backend/services/decks/src/card/service.py:141-153 | Two updates of the same card in one request both take effect. The second changes the card as the first left it. |
| Cards.UpdateAfterDeleteStops | backend/services/decks/src/card/service.py:136-153 | Deleting a card and then updating it in the same request stops with the deleted-row error, and the store is untouched. |
| Cards.BulkWith | backend/services/decks/src/card/service.py:95-202 | A request is rejected, with exactly the checked error list, when any item fails. Otherwise the items are applied, and cards of other decks are unchanged. An applied request leaves each card as its items say, in order, and adds the created cards in order. A request that passes the check but updates a card after deleting it stops. |
| Cards.BulkAsWritten | backend/services/decks/src/card/service.py:95-202 | The bulk operation as written rejects exactly the requests with an item that fails its check. |
| Cards.Bulk | backend/services/decks/src/card/service.py:95-202 | The corrected bulk operation is all or nothing with respect to the check. A request is rejected exactly when some item fails its check, and then nothing changes. An applied request leaves every card of another deck as it was. Inside the deck, each card holds all its updates in order or is gone when deleted, and the created cards are added in request order under new ids. Updating a card after deleting it stops the request. |
| Cards.BulkUpdateMovesTwice | backend/services/decks/src/card/service.py:145-172 | As written, a bulk update that attaches an uploaded image always fails. Updating the card has already moved the upload, so the second copy finds no source object. |
| Cards.BulkUpdateMovesOnce | backend/services/decks/src/card/service.py:141-153 | The corrected bulk operation applies the same request. The card's image is stored under its permanent key with the upload's content. |
| Cards.SingleUpdateApplies | backend/services/decks/src/card/service.py:141-153 | A checked request of one update whose image moves succeed stores exactly the updated card and the store those moves leave. |
| Cards.SingleUpdatePasses | backend/services/decks/src/card/service.py:119-125 | An update naming a card of the deck passes the bulk check. |
| CardApi.View | backend/services/decks/src/card/controller.py:30-37 | A card is returned with each image shown as the signing rule shows it. |
| CardApi.CreateCard | backend/services/decks/src/card/controller.py:40-55 | A missing deck gives 404, checked before the user: a user who neither owns the deck nor is a manager gets 403. A card is created exactly when the user is authorized. The new card takes the next id and the payload's texts and images, is stored, and is returned as shown. |
| CardApi.UpdateCardEndpoint | backend/services/decks/src/card/controller.py:58-75 | A card that is missing or in another deck gives 404. A 403 comes only when the deck exists and the user may not write it. A failure leaves the cards unchanged. Success replaces exactly this card. |
| CardApi.UpdateWithoutImages | backend/services/decks/src/card/controller.py:58-75 | An update without images returns and stores the merged card and changes nothing in storage. |
| CardApi.DeleteCardAsWritten | backend/services/decks/src/card/controller.py:78-93 | As written, a card that is missing or in another deck gives 404. Any other request fails with 500 before the permission check, and nothing is deleted. |
| CardApi.DeleteCardEndpoint | backend/services/decks/src/card/controller.py:78-93 | The corrected delete gives 404 for a card that is missing or in another deck. It gives 403 only when the deck exists and the user may not write it. Otherwise it removes exactly that card. |
| CardApi.OwnerCannotDeleteCard | backend/services/decks/src/card/controller.py:85-91 | The deck's owner gets 500 as written. The correction removes the card. |
| CardApi.DeleteCorrectionAgreesOn404 | backend/services/decks/src/card/controller.py:85-87 | Where the card check refuses, the original and the correction give the same 404. |
| CardApi.BulkEndpoint | backend/services/decks/src/card/controller.py:96-152 | A missing deck gives 404, and a user who may not write it gets 403. For an authorized user the answer is 400 exactly when some item fails its check, and it carries the checked error list. A checked request that updates a card after deleting it gives 500 and changes no card. Only a 204 changes the database. Then cards of other decks are unchanged, and the deck's cards are as the request's items say. |
| CardApi.Presign | backend/services/decks/src/card/controller.py:155-172 | Without a user the answer is 401. Otherwise the key is a temporary key keeping the file's extension. The PUT and GET URLs are signed for that same key. |
| CardApi.UploadThenAttach | backend/services/decks/src/card/controller.py:58-75 | An uploaded image is shown unsigned until an update attaches it. The card's image is then signed under its permanent key, which keeps the upload's extension. |
| Decks.Missing | backend/services/decks/src/deck/service.py:19 | The unknown slugs are exactly the slugs not among the known ones, in input order. |
| Decks.MissingAppend | backend/services/decks/src/deck/service.py:19 | The unknown slugs of two lists, one after the other, are those of the first followed by those of the second. |
| Decks.ResolveCategories | backend/services/decks/src/deck/service.py:14-22 | No slugs resolve to no categories. Resolution succeeds exactly when every slug exists, and then gives one category per slug, in input order. Otherwise it fails with the unknown slugs, which are never none. |
| Decks.GetOrCreateTags | backend/services/decks/src/deck/service.py:25-37 | There is one tag per key, in order. Afterwards the tags are the existing ones plus a new tag for each key that matched none, so every key has a tag. |
| Decks.CreateDeck | backend/services/decks/src/deck/service.py:63-91 | A deck is created exactly when every category exists and neither list repeats a slug. It carries the given owner, title, description, categories and tags. Categories are never created, and every tag named exists afterwards. A failure because of categories names exactly the unknown ones. |
| Decks.UpdateDeck | backend/services/decks/src/deck/service.py:103-137 | Title and description change only when given. Given categories are linked in addition to the existing ones, and given tags replace the deck's tags wholesale. Unknown categories fail with exactly those slugs. An update succeeds exactly when its categories exist and are not yet linked, and its tags do not repeat. |
| Decks.UpdateDeckLaws | backend/services/decks/src/deck/service.py:103-137 | An empty update changes nothing. Repeating a tag update changes nothing more. Repeating a category update is refused, because its links already exist. |
| Decks.Select | backend/services/decks/src/deck/service.py:49-57 | The query keeps exactly the decks matching every given filter, in table order. |
| Decks.ListDecks | backend/services/decks/src/deck/service.py:40-60 | A negative limit is refused by the database. Otherwise the result holds at most `limit` matching decks in ascending id order. A short page holds every match. Every match left out has a larger id than every deck returned. |
| Decks.SelectAbove | backend/services/decks/src/deck/service.py:52-53 | Moving the cursor forward narrows the selection to its decks above the new cursor. |
| Decks.NextPageSelects | backend/services/decks/src/deck/service.py:40-60 | A full page is the first decks of the selection. Continuing from its last id selects exactly the rest. |
| Decks.PagesCompose | backend/services/decks/src/deck/service.py:40-60 | Cursor paging loses and repeats nothing. After a full page of n decks, the next m from its last id are what a page of n + m holds after the first n. |
| DeckApi.PresignDeckCards | backend/services/decks/src/deck/controller.py:25-42 | Every card of a deck is shown, in order, with its images shown exactly as the card endpoints show them. |
| DeckApi.PresignLeavesTempAndEmpty | backend/services/decks/src/deck/controller.py:25-42 | An empty image or a temporary key is returned exactly as stored. Every other image is signed under its own key. |
| DeckApi.NextCursorHeader | backend/services/decks/src/deck/controller.py:69-70 | The next-cursor header is set exactly for a truthy cursor. |
| DeckApi.CursorHeaderRoundTrip | backend/services/decks/src/deck/controller.py:69-70 | A client parsing the header of a positive cursor gets the cursor back. |
| DeckApi.ServiceError | backend/services/decks/src/deck/service.py:20-21 | Unknown categories give the 400 with the slug list. A link conflict is not caught and gives 500. |
| DeckApi.CreateDeckEndpoint | backend/services/decks/src/deck/controller.py:74-98 | The answer is 401 exactly when there is no user. A non-manager naming an owner gets 403, and a refusal changes nothing. A created deck belongs to the named owner, or else to the caller. The caller is authorized for it, and it is stored under the new id with no cards. |
| DeckApi.GetDeckEndpoint | backend/services/decks/src/deck/controller.py:101-111 | A deck is returned exactly when it exists, whoever asks. Otherwise the answer is 404. |
| DeckApi.Guard | backend/services/decks/src/deck/controller.py:121-125 | A request passes exactly when the deck exists and the user is authorized for its owner. A missing deck gives 404 before a forbidden user gets 403. |
| DeckApi.UpdateDeckEndpoint | backend/services/decks/src/deck/controller.py:114-136 | A refused request changes nothing. An update replaces only this deck and never changes its id or owner. |
| DeckApi.DeleteDeckEndpoint | backend/services/decks/src/deck/controller.py:139-152 | A deck is deleted exactly when the guards pass. It removes only that deck, and a refusal changes nothing. |
| DeckApi.StatsEndpoint | backend/services/decks/src/deck/controller.py:155-174 | Statistics are returned exactly when the guards pass. Stored statistics are returned unchanged. A deck without any gets zeroed statistics, which are stored. |
| DeckApi.MissingDeckIs404 | backend/services/decks/src/deck/controller.py:107-163 | For a deck that does not exist, every endpoint that reads or writes it answers 404, whoever asks. |
| DeckApi.CreatorMayManage | backend/services/decks/src/deck/controller.py:74-174 | Whoever creates a deck may afterwards delete it and read its statistics. |
| DeckStatistics.TruncDiv | backend/services/decks/src/deck_stats/service.py:51-54 | `int(a / n)` is the quotient truncated toward zero. It is bracketed from below for non-negative and from above for negative dividends. |
| DeckStatistics.FirstCardStat | backend/services/decks/src/deck_stats/service.py:18-24 | A card's first answer gives one answer. It is correct exactly when the answer was, and its time is that answer's time. |
| DeckStatistics.FirstCardStats | backend/services/decks/src/deck_stats/service.py:17-24 | The first result gives one consistent entry, counting a single answer, to every card it answers; other entries are kept. |
| DeckStatistics.AddAnswer | backend/services/decks/src/deck_stats/service.py:59-84 | One answer to a card adds one answer to that card, and one correct answer when it was correct. Its mean time is extended by the answer's time, truncated. A card without an entry starts from zero, and every other card is untouched. |
| DeckStatistics.AddAnswers | backend/services/decks/src/deck_stats/service.py:59-84 | A later result's answers increase each card's total by its number of answers, and its correct count by its number of correct answers. Cards not answered keep their entry. |
| DeckStatistics.AddAnswersKeepsCardOk | backend/services/decks/src/deck_stats/service.py:59-84 | Adding answers never makes an entry's correct count exceed its total. |
| DeckStatistics.Extend | backend/services/decks/src/deck_stats/service.py:41-43 | Extending the mean of n values by one value gives the mean of the n + 1 values. |
| DeckStatistics.Update | backend/services/decks/src/deck_stats/service.py:7-87 | Each result adds one test. The first result sets the score, the pass indicator and the time, and gives card statistics exactly when it answers some card. A later result extends the mean score and the pass rate by this result. It also extends the mean time, truncated. |
| DeckStatistics.UpdateKeepsCardsOk | backend/services/decks/src/deck_stats/service.py:7-87 | Every update keeps every card's counters consistent. |
| DeckStatistics.Get | backend/services/decks/src/deck_stats/service.py:90-103 | Stored statistics are returned unchanged. Otherwise zeroed statistics are returned and stored. |
| DeckStatistics.ReplayCounts | backend/services/decks/src/deck_stats/service.py:37-40 | After any sequence of results, the test count is the number of results. |
| DeckStatistics.ScoreStep | backend/services/decks/src/deck_stats/service.py:41-43 | A later result extends the mean correct rate of the earlier ones by its own rate. |
| DeckStatistics.PassStep | backend/services/decks/src/deck_stats/service.py:45-49 | A later result extends the fraction of passed results by one result. |
| DeckStatistics.ReplayMeanScore | backend/services/decks/src/deck_stats/service.py:26-43 | The running average score is the mean correct rate of all results so far. |
| DeckStatistics.ReplayPassRate | backend/services/decks/src/deck_stats/service.py:26-49 | The running correct rate is the fraction of results whose rate is at least one half. |
| DeckStatistics.MeanTimeBounded | backend/services/decks/src/deck_stats/service.py:51-54 | With non-negative times, the truncated running mean time stays between zero and the largest time. |
| TestResults.SubmittedIds | backend/services/decks/src/test_result/controller.py:66 | The submitted card ids are exactly the ids of the answers, and there are none exactly when there are no answers. |
| TestResults.DeckCardIds | backend/services/decks/src/test_result/controller.py:68-73 | The valid ids are exactly the cards of this deck. |
| TestResults.CreateResult | backend/services/decks/src/test_result/controller.py:48-90 | The checks come in order: 404 for a missing deck, 500 without a user, then 403 when a non-manager submits for someone else. Next, 400 lists exactly the submitted ids that are not cards of this deck. A submission is accepted exactly when every check passes. |
| TestResults.NoAnswersManagerAccepted | backend/services/decks/src/test_result/controller.py:63-67 | A submission without answers skips the card check, and a manager may submit for anyone. |
| TestResults.ForeignCardListed | backend/services/decks/src/test_result/controller.py:66-82 | A submission naming a card of another deck is refused, and that card is listed. |
| TestResults.ListResults | backend/services/decks/src/test_result/controller.py:93-128 | A limit outside 1 to 100 gives 422. Then no user gives 401 and a missing deck 404. Otherwise a caller who may not write the deck is filtered to their own results. An owner or manager gets the filter they asked for. |
| TestResults.NonOwnerFilterFixed | backend/services/decks/src/test_result/controller.py:115-120 | An ordinary user who does not own the deck gets their own results whatever user id they ask for. |
| Learn.Answer | backend/services/decks/src/learn/service.py:227-253 | A correct answer adds a success, extends the streak and records a correct last result. A wrong one adds a failure, clears the streak and the learned mark, and records a wrong last result. The total is the sum of the counters and the rate is their ratio. The first answer sets difficulty to 0.3 or 0.8, and later answers set it to failures over answers plus one, so it stays in [0, 1). A card is learned exactly when its streak reaches three. The row stays consistent. |
| Learn.HistoryDeterminesStats | backend/services/decks/src/learn/service.py:204-253 | From a fresh row, the counters are fixed by the answer history. Successes count the correct answers and failures the wrong ones. The streak is the run of correct answers at the end, and the card is learned exactly when that run reaches three. |
| Learn.TrailingCorrectSnoc | backend/services/decks/src/learn/service.py:229-236 | A correct answer extends the final run of correct answers by one, and a wrong one ends it. |
| Learn.FreshWeight | backend/services/decks/src/learn/service.py:149-170 | A card never answered weighs 112, whatever the time. |
| Learn.WeightResponds | backend/services/decks/src/learn/service.py:10-16 | Other things equal, one more failure adds 3, one more success subtracts 1, and being learned subtracts 50. |
| Learn.Rows | backend/services/decks/src/learn/service.py:179-187 | The rows the join returns are cards of the deck that have a statistics row for the user. |
| Learn.RowList | backend/services/decks/src/learn/service.py:179-187 | The listed rows are exactly the deck's cards with a row for the user. |
| Learn.LearnedRows | backend/services/decks/src/learn/service.py:262-272 | The learned rows are exactly the user's rows for the deck that are marked learned. |
| Learn.EnsureStats | backend/services/decks/src/learn/service.py:64-104 | Every card of the deck gets a row for the user. A new row is fresh, existing rows are untouched, and nothing else is created. |
| Learn.ResetIfAllLearned | backend/services/decks/src/learn/service.py:107-129 | When the user has rows for the deck and all are learned, exactly those rows return to the fresh state. Otherwise nothing changes. |
| Learn.ResetClearsLearned | backend/services/decks/src/learn/service.py:107-129 | After a reset no row of the deck is learned, so the cycle starts over. |
| Learn.UpdateProgress | backend/services/decks/src/learn/service.py:259-281 | The session's card total never decreases and covers the user's rows for the deck. The learned count is the number of learned rows and never exceeds the total. The session completes, with an end time, once it has cards and all are learned. Otherwise its status is kept. |
| Learn.ProgressNeverReopens | backend/services/decks/src/learn/service.py:275-280 | A progress update never reopens a completed session. |
| Learn.FindActive | backend/services/decks/src/learn/service.py:23-32 | The first active session of this user on this deck is found, if there is one. Nothing is found exactly when there is none. |
| Learn.StartSession | backend/services/decks/src/learn/service.py:19-61 | An active session is reused. Otherwise a missing deck is an error, and a new session is appended, its total covering the deck's cards. The session returned belongs to this user and deck, and other sessions are untouched. Every card of the deck has a row afterwards. |
| Learn.StartKeepsOneActive | backend/services/decks/src/learn/service.py:19-61 | Starting a session never creates a second active session for the same deck and user. |
| Learn.GetSession | backend/services/decks/src/learn/service.py:132-140 | A session is found exactly when it exists and belongs to the user. |
| Learn.RecordAnswer | backend/services/decks/src/learn/service.py:204-256 | The user's row for the card, created fresh if missing, becomes exactly that row updated by one answer with this result and time: success and fail counts, streak, rate, difficulty and learned flag all follow the one-answer rule. Every other row is untouched. |
| Learn.RecordAnswerExtendsHistory | backend/services/decks/src/learn/service.py:204-256 | A row that is the replay of an answer history becomes, after one recorded answer, the replay of that history extended by the answer. |
| Learn.FinishSession | backend/services/decks/src/learn/service.py:284-289 | Finishing completes the session at the given time, whatever its progress, and keeps its counts. Other sessions are untouched. |
| Learn.Heaviest | backend/services/decks/src/learn/service.py:191-197 | The card found lies among the rows, and no row weighs more than it. |
| Learn.NextCard | backend/services/decks/src/learn/service.py:173-201 | Rows are ensured and a fully learned deck is reset first. No card is returned exactly when the deck has no cards. Otherwise a card of the deck of maximal weight is returned. |
| Learn.TopCards | backend/services/decks/src/learn/service.py:198-200 | The candidates are exactly the rows whose weight equals the maximum. |
| LearnApi.Ratio | backend/services/decks/src/learn/controller.py:42-44 | Progress is never negative and at most 1 while the learned count does not exceed the total. It is 1 exactly when all cards are learned, and 0 exactly when none are. |
| LearnApi.Progress | backend/services/decks/src/learn/controller.py:42-51 | The reported total is at least one and the session's own total when positive. The progress is learned over that total, and the session is reported completed exactly when it is. |
| LearnApi.ProgressAfterUpdate | backend/services/decks/src/learn/controller.py:140-142 | Right after a progress update, the reported progress lies in [0, 1], and it is 1 only for a completed session. |
| LearnApi.CreateSession | backend/services/decks/src/learn/controller.py:54-72 | An unknown deck gives 404 and a deck without cards 400. Otherwise the user's session on that deck is returned with a progress in [0, 1]. |
| LearnApi.Owned | backend/services/decks/src/learn/controller.py:75-84 | Another user's session, or one that does not exist, gives 404. |
| LearnApi.NextCardEndpoint | backend/services/decks/src/learn/controller.py:87-111 | The endpoint gives 404, then 400 for a session that is not active. Otherwise it returns a card of the session's deck, or none exactly when the deck has no cards, with a total of at least one and a progress in [0, 1]. |
| LearnApi.SubmitAnswer | backend/services/decks/src/learn/controller.py:114-142 | The endpoint gives 404, then 400 for a session that is not active. Otherwise the answer is recorded on the user's row for the card and the progress returned lies in [0, 1]. |
| LearnApi.SessionProgress | backend/services/decks/src/learn/controller.py:145-156 | The endpoint gives 404. Otherwise the refreshed progress lies in [0, 1], is 1 only when completed, and a finished session is reported completed. |
| LearnApi.FinishEndpoint | backend/services/decks/src/learn/controller.py:159-172 | The endpoint gives 404. Otherwise the session is completed with an end time, even if it already was. |
| LearnApi.FinishIdempotent | backend/services/decks/src/learn/controller.py:159-172 | Finishing twice reports the same as finishing once. |
| TeachingAuth.Fields | backend/services/teaching/common/auth.py:5-22 | A view reads the authenticated user's own id and manager flag. The anonymous context reads as id 0, not a manager. The framework's anonymous user has no fields to read. |
| TeachingAuth.GetUserContext | backend/services/teaching/common/auth.py:25-29 | The context is authenticated exactly when the request carries an authenticated context. An attached context of either class is returned as it is. With no context, or with the framework's anonymous user, the anonymous context (id 0, not a manager) is used. |
| TeachingAuth.TokenUser | backend/services/teaching/common/auth.py:41-48 | A token is the manager exactly when it ends in `-manager`, and the manager has id 2. Any other token is a plain user. That user's id is the integer after the last `-`, or 1 when the token has no `-` or that part is not an integer. |
| TeachingAuth.Authenticate | backend/services/teaching/common/auth.py:33-50 | A request is authenticated exactly when its header starts with `Bearer `. The user is then read from what follows that prefix. |
| TeachingAuth.RequestPrincipal | backend/services/teaching/common/auth.py:33-50 | A view sees the token's user exactly when the header starts with `Bearer `. Any other request reaches the view as the framework's anonymous user, not as the service's anonymous context. |
| TeachingAuth.TokenCarriesId | backend/services/teaching/common/auth.py:44-48 | A token ending in `-` and a decimal number authenticates a plain user with that id. |
| TeachingAuth.ManagerToken | backend/services/teaching/common/auth.py:41-42 | Every token ending in `-manager` authenticates the manager with id 2, whatever comes before the suffix. |
| TeachingAuth.RPartitionAtLast | backend/services/teaching/common/auth.py:45 | When the text after a `-` holds no `-`, the last segment of the split is exactly that text. |
| TeachingPermissions.TeacherOf | backend/services/teaching/common/permissions.py:27-32 | An object names a teacher, directly or through its course, exactly when it is not unowned. |
| TeachingPermissions.PermissionLaws | backend/services/teaching/common/permissions.py:5-43 | The anonymous context passes none of the checks, and a manager passes all the object checks. Anyone else passes the course check exactly when they are the teacher the object names, and the enrollment check exactly when they are its student. |
| Ordering.Insert | backend/services/teaching/apps/courses/views.py:155 | Inserting into a sorted sequence adds exactly that element and keeps the sequence sorted. |
| Ordering.Sort | backend/services/teaching/apps/courses/views.py:55 | The result is a permutation of the input, sorted by the key, as an `order_by` returns it. |
| Courses.VisibleCourses | backend/services/teaching/apps/courses/views.py:40-55 | The listed courses are exactly those passing the filters. A non-manager additionally sees only courses that are published or that they teach. The list is newest first. |
| Courses.VisibilityLaws | backend/services/teaching/apps/courses/views.py:52-53 | Whatever the query, a non-manager never sees another teacher's unpublished course. A manager with no filter sees every course. |
| Courses.CreateTeacher | backend/services/teaching/apps/courses/views.py:57-67 | Without a requested teacher, the creator teaches the course. A manager may name any teacher. Anyone else who names one is refused. |
| Courses.CreatorTeaches | backend/services/teaching/apps/courses/views.py:57-67 | The creator of a course that names no teacher passes the teacher-or-manager check on it. |
| Courses.CourseAccess | backend/services/teaching/apps/courses/views.py:40-84 | A request without credentials fails with 500, because the listing reads the missing `is_manager`. Otherwise a deck action reaches the course exactly when the requester sees it and teaches or manages it. A course that does not exist is 404. Any other refusal is 404, permission denied for an authenticated user, or 401 for the anonymous context. |
| Courses.CheckDeck | backend/services/teaching/apps/courses/views.py:100-114 | A deck the decks service does not return is a validation error. A manager may use any other deck. Anyone else may use exactly the decks owned by the course's teacher, and is refused any other. |
| Courses.CheckDeckValue | backend/services/teaching/common/clients/decks_client.py:19-38 | A boolean deck id is not found by the decks service, whatever the decks; an integer one gets the ordinary deck check. |
| Courses.MaxIndex | backend/services/teaching/apps/courses/views.py:116-118 | There is no maximum exactly when the course has no decks. Otherwise the maximum is the position of one of its decks and no deck of the course sits above it. |
| Courses.NextOrderIndex | backend/services/teaching/apps/courses/views.py:116-118 | The result is 0 for a course without decks. Otherwise it lies above every position of the course and is one past a position in use. |
| Courses.AttachDeck | backend/services/teaching/apps/courses/views.py:150-182 | A deck already attached is refused, then a failing deck check with that check's refusal. Otherwise the attach succeeds: exactly one relation is appended for this course and deck, at the requested position, or at exactly the next position (one past the highest, 0 for an empty course) when none is requested. |
| Courses.AttachThenAttached | backend/services/teaching/apps/courses/views.py:164-178 | After an attach without a position the course has the deck, the new relation sits above every earlier position of the course, and repeating the request is refused as a duplicate. |
| Courses.ParseMoves | backend/services/teaching/apps/courses/views.py:198-208 | The body parses exactly when every item is an object with an `id` (of any JSON type) and an integer `order_index`. The moves then name the items in order. Otherwise the message describes the first malformed item. |
| Courses.ResolveIds | backend/services/teaching/apps/courses/views.py:206-218 | The ids resolve exactly when each is an integer or a boolean (`True` is 1). Otherwise a null id means some id does not belong to the course, and an id of any other type is a server error. |
| Courses.LastMoveIsLast | backend/services/teaching/apps/courses/views.py:216-220 | The position kept for a relation is the one from a move of it that no later move of it follows. |
| Courses.MovedIds | backend/services/teaching/apps/courses/views.py:206 | The ids collected are exactly the ids the moves name. |
| Courses.CourseRelIds | backend/services/teaching/apps/courses/views.py:210 | The ids collected are exactly the ids of the course's relations. |
| Courses.ApplyMoves | backend/services/teaching/apps/courses/views.py:216-220 | Only positions change. A relation no move names is untouched, and one that is named takes the position of its last move. |
| Courses.Reorder | backend/services/teaching/apps/courses/views.py:190-225 | The checks run in order: the body must be a list, then every item well formed, then the ids resolvable, then every id a relation of this course, each with its own message. A reorder succeeds exactly when all pass, and its result is the moves applied. |
| Courses.NullIdRefused | backend/services/teaching/apps/courses/views.py:206-214 | A well-formed body with one more item whose `id` is null is refused: its ids do not all belong to the course. |
| Courses.MovesKeepPairs | backend/services/teaching/apps/courses/views.py:216-220 | A reorder keeps the course's decks unique. |
| Courses.LastItemWins | backend/services/teaching/apps/courses/views.py:216-220 | When two items name the same relation, the later item's position is the one stored. |
| Courses.ParseDeckIds | backend/services/teaching/apps/courses/views.py:245-254 | The body parses exactly when every item is an object with an integer `deck_id`. The ids are then those of the items in order. Otherwise the message describes the first bad item. |
| Courses.Elements | backend/services/teaching/apps/courses/views.py:257 | The set holds exactly the list's elements. |
| Courses.DistinctByCount | backend/services/teaching/apps/courses/views.py:257 | The set of a list is never larger than the list. It is as large exactly when the list has no repeat. |
| Courses.AttachedAmong | backend/services/teaching/apps/courses/views.py:261-265 | The set holds exactly the requested decks the course already has. |
| Courses.FirstDeckRefusal | backend/services/teaching/apps/courses/views.py:274-275 | There is no refusal exactly when every deck id as sent passes the check. Otherwise the refusal is one a requested deck draws. |
| Courses.NewRelations | backend/services/teaching/apps/courses/views.py:283-290 | One relation is made per requested deck, in request order. Ids and positions are consecutive from the given starts. |
| Courses.Batch | backend/services/teaching/apps/courses/views.py:233-295 | The body must be a non-empty list, every item well formed, with no repeats and no deck already attached, and every deck id as sent must pass its check. The batch succeeds exactly when all of this holds, and each failure has its own message. On success the decks are appended in request order, starting at the next position. |
| Courses.BooleanDeckIdNeverAttaches | backend/services/teaching/apps/courses/views.py:251-275 | A batch in which some `deck_id` is a JSON boolean never succeeds, although the validation loop accepts it as an integer. |
| Courses.AppendKeepsPairs | backend/services/teaching/apps/courses/views.py:256-271 | Appending distinct decks, none of them attached yet, keeps the course's decks unique. |
| Courses.BatchKeepsPairs | backend/services/teaching/apps/courses/views.py:233-295 | After a successful batch the course's decks stay unique, and every new deck sits after every deck the course had. |
| Courses.FindRelation | backend/services/teaching/apps/courses/views.py:321-324 | No relation is found exactly when the course has no relation with that id. Otherwise the one found belongs to the course and has that id. |
| Courses.PatchRelation | backend/services/teaching/apps/courses/views.py:335-353 | A relation outside the course is 404. A patch that sends no non-zero new deck succeeds. A new deck that fails the check is refused with that check's refusal; one that passes succeeds exactly when the course does not already have it, and is a server error otherwise. On success only that relation changes: its position becomes the requested one or stays, and its deck becomes the new deck when one is sent. A successful patch keeps the course's decks unique. |
| Courses.PatchSwapsDeck | backend/services/teaching/apps/courses/views.py:341-349 | A successful change of deck leaves the course with the new deck, without the old one, and with the relation still under its id. |
| Courses.SameDeckSkipsCheck | backend/services/teaching/apps/courses/views.py:341-343 | A patch that sends no deck, or the current one, succeeds without consulting the decks service. |
| Courses.DetachDeck | backend/services/teaching/apps/courses/views.py:318-333 | A relation outside the course is 404. Otherwise exactly that relation is removed and nothing else. |
| Courses.CourseDecks | backend/services/teaching/apps/courses/views.py:154-159 | The list holds exactly the course's relations, ordered by position and then id. |
| Lessons.OfCourseFilter | backend/services/teaching/apps/lessons/views.py:36-38 | The kept lessons are exactly those of the given course, or all lessons when no course is given. |
| Lessons.ListLessons | backend/services/teaching/apps/lessons/views.py:34-39 | The listed lessons are exactly those of the given course, or all lessons without one. The list is newest first, then ordered by id. |
| Lessons.CheckLessonDeck | backend/services/teaching/apps/lessons/views.py:46-65 | No deck, or deck id 0, needs no check. An unknown deck is a validation error, and a manager may use any other deck. Anyone else may use exactly the decks the course's teacher owns. A reply without an owner fails with an unhandled error. |
| Lessons.DeckChecksAgree | backend/services/teaching/apps/lessons/views.py:46-65 | The lesson and course deck checks agree on every reply that names an owner. On a reply without one, the lesson check fails with an unhandled error and the course check refuses. |
| Lessons.CreateLessonAsWritten | backend/services/teaching/apps/lessons/views.py:41-78 | Creation is decided by the view's own test alone, because the object permission is not consulted here. A request without credentials fails with 500 reading `is_manager`. A requester who neither teaches the course nor is a manager is refused. Anyone else, the anonymous context included, passes to the deck check. |
| Lessons.AnonymousCreatesLesson | backend/services/teaching/apps/lessons/views.py:67-78 | A lesson create without credentials fails with 500 in every course, where the corrected create refuses it with 401. With the anonymous context (id 0) in its place, it would create a lesson in a course whose teacher id is 0. |
| Lessons.CreateLesson | backend/services/teaching/apps/lessons/views.py:67-78 | A request without credentials is refused with 401. A lesson is created only by its course's teacher or a manager, and only with a deck that passes the deck check. Authenticated requests are decided as in the original. |
| Lessons.UpdateLesson | backend/services/teaching/apps/lessons/views.py:80-89 | A request without credentials gets 401. An authenticated user who neither teaches the lesson's course nor manages gets 403. Past that, the only refusal is the deck check's, for a new deck. An update keeps the lesson's id, course and creation time and takes the fields given, and keeping or clearing the deck always passes. |
| Lessons.KeepingDeckIgnoresService | backend/services/teaching/apps/lessons/views.py:85-87 | An update that keeps or clears the deck gives the same result whatever the decks service answers. |
| Enrollments.ListEnrollments | backend/services/teaching/apps/enrollments/views.py:41-57 | The listed enrollments are exactly those passing the filters. A non-manager additionally sees only enrollments where they are the student or teach the course. The list is most recent first. |
| Enrollments.EnrollmentVisibility | backend/services/teaching/apps/enrollments/views.py:52-55 | A non-manager lists only their own enrollments and those of courses they teach. A manager with no filter lists every enrollment. |
| Enrollments.EnrollmentAccess | backend/services/teaching/apps/enrollments/views.py:41-57 | A request without credentials fails with 500, because the listing reads the missing `is_manager`. Otherwise destroy and the deck actions reach an enrollment exactly when it is listed for the requester and they are its student or a manager. Any other request is 404, permission denied for an authenticated user, or 401 for the anonymous context. |
| Enrollments.TeacherListsButCannotOpen | backend/services/teaching/apps/enrollments/views.py:41-57 | A teacher who is not the student sees the student's enrollment in the list but cannot open its decks. |
| Enrollments.Enroll | backend/services/teaching/apps/enrollments/views.py:59-83 | A named student already enrolled in the course is refused first, by the uniqueness validation, with "The fields course, student_id must make a unique set." Then an unpublished course is refused, then a student named by a non-manager. A second enrollment of the requester in the same course is the "already exists" validation error. Otherwise exactly one enrollment is appended, for the requester unless a manager named the student. Enrollments stay unique. |
| Enrollments.SelfEnrollment | backend/services/teaching/apps/enrollments/views.py:68-71 | A user who enrolls without naming a student becomes the student and may act on the enrollment. |
| Enrollments.UpdateEnrollment | backend/services/teaching/apps/enrollments/views.py:85-95 | An update always answers 405 with its message and changes nothing. |
| Enrollments.CompletedLessons | backend/services/teaching/apps/enrollments/models.py:26 | The set holds exactly the lessons with a completed record for the enrollment. |
| Enrollments.CountIsLessons | backend/services/teaching/apps/enrollments/models.py:37-45 | With one record per lesson, the count of completed records equals the count of completed lessons. |
| Enrollments.ProgressPercent | backend/services/teaching/apps/enrollments/models.py:22-27 | Progress is 0 for a course without lessons. Otherwise it is the completed count over the lesson count, times 100, and never negative. |
| Enrollments.IsCompleted | backend/services/teaching/apps/enrollments/models.py:29-34 | A course without lessons is never completed. A completed enrollment has as many completed records as the course has lessons. |
| Enrollments.PercentBounds | backend/services/teaching/apps/enrollments/models.py:27 | When no more lessons are done than exist, the share is at most 100, and exactly 100 when all are done. |
| Enrollments.ProgressWithinBounds | backend/services/teaching/apps/enrollments/models.py:22-34 | When the records belong to the course's lessons, one per lesson, progress lies in [0, 100]. It is 100 exactly when the enrollment is completed. |
| Enrollments.ProgressFor | backend/services/teaching/apps/enrollments/views.py:101-109 | No record is found exactly when the enrollment has none for the course deck. Otherwise the record found is that enrollment's record for that deck. |
| Enrollments.StatusOf | backend/services/teaching/apps/enrollments/views.py:109-118 | A deck's status copies its record's fields. Without a record, the deck is not completed and has no timestamps. |
| Enrollments.EnrollmentDecks | backend/services/teaching/apps/enrollments/views.py:97-122 | There is one entry per deck of the enrollment's course, by position and then id, and every deck of the course appears. Each entry carries the enrollment's status on that deck. |
| Enrollments.GetOrCreate | backend/services/teaching/apps/enrollments/views.py:132-136 | The record returned is the enrollment's record for the course deck. An existing one is reused and the table is unchanged. Otherwise exactly one empty record is appended. |
| Enrollments.DeckDetail | backend/services/teaching/apps/enrollments/views.py:124-143 | A course deck outside the enrollment's course is 404. Otherwise the deck's status is returned, from its record or from an empty record created for it. |
| Enrollments.CompleteDeck | backend/services/teaching/apps/enrollments/views.py:145-167 | A course deck outside the enrollment's course is 404. Otherwise the deck's record, created if missing, becomes completed with last access `now`. It keeps its first completion time if it had one. No other record changes. |
| Enrollments.CompleteKeepsFirstTime | backend/services/teaching/apps/enrollments/views.py:156-159 | Completing a deck again changes only its last access time. |
| AuthTokens.IssueClaims | backend/services/auth/src/core/jwt.py:11-25 | An issued token carries its kind, a fresh `jti` and an expiry `ttl` after issue. Its subject is non-empty text that parses back to the user id. It carries no `isman` claim. |
| AuthTokens.RevocationKey | backend/services/auth/src/core/jwt.py:40 | The key is `bl:`, then the token type, then `:`, then the `jti`, and each part can be read back from its place. |
| AuthTokens.VerifyToken | backend/services/auth/src/core/jwt.py:30-47 | An empty token is invalid. A token with an expired signature is reported expired, and any other decoding error invalid. A token verifies exactly when it decodes, its type (empty when absent) is the requested one, it has `sub`, `jti` and `exp`, and its key is not revoked. On success the claims are returned unchanged. |
| AuthTokens.EmptyTokenNotDecoded | backend/services/auth/src/core/jwt.py:31-32 | An empty token is refused as invalid, whatever the decoder would answer. |
| AuthTokens.IssuedTokenVerifies | backend/services/auth/src/core/jwt.py:19-47 | An issued access token verifies as an access token exactly while it is not revoked. It never verifies as a refresh token. |
| AuthTokens.GetAccessToken | backend/services/auth/src/core/jwt.py:49-53 | The header is accepted exactly when it has a space, the part before the first space is `bearer` in any case, and something follows that space. The token is then everything after the first space, and it is non-empty. |
| AuthTokens.BearerRoundTrip | backend/services/auth/src/core/jwt.py:49-53 | `bearer`, in any case, then a space and a non-empty token gives back exactly that token. |
| GatewayAuth.SplitInTwo | backend/gateway/src/auth/service.py:20-22 | Splitting at every space gives two pieces exactly when the text holds one space. The pieces are then the two halves around it. |
| GatewayAuth.ExtractBearerToken | backend/gateway/src/auth/service.py:17-26 | No header, or an empty one, gives nothing. Otherwise a token is found exactly when the stripped header is `bearer` in any case, one space, and a token. The token is non-empty and holds no space. |
| GatewayAuth.ExtractRoundTrip | backend/gateway/src/auth/service.py:17-26 | A header of `bearer`, one space and a token without spaces or trailing whitespace gives back exactly that token. |
| GatewayAuth.DoubleSpaceRejected | backend/gateway/src/auth/service.py:20-23 | Two spaces between the scheme and the token give no token. |
| GatewayAuth.ExtractorsAgree | backend/gateway/src/auth/service.py:17-26 | On a well-formed header, the gateway and the auth service take the same token. |
| GatewayAuth.ExtractorsDisagreeOnDoubleSpace | backend/services/auth/src/core/jwt.py:49-53 | With two spaces after the scheme, the auth service accepts a token with a leading space where the gateway finds none. |
| GatewayAuth.GetUserByTokenAsWritten | backend/gateway/src/auth/service.py:29-60 | A decoding error is "Token invalid". A token without `exp` fails with a server error. A token is accepted only when it has an unexpired `exp`, a non-empty `sub` and `isman` true. It then stands for a manager with that subject. |
| GatewayAuth.MissingExpiryIsServerError | backend/gateway/src/auth/service.py:39-41 | A decodable token without `exp` ends in a server error, not 401. |
| GatewayAuth.IssuedTokensRefused | backend/gateway/src/auth/service.py:53-58 | Every token the auth service issues is refused, before or after its expiry. |
| GatewayAuth.GetUserByToken | backend/gateway/src/auth/service.py:29-60 | There is never a server error. A decoding error is "Token invalid", and a missing or past expiry is "Token expired". A token is accepted exactly when its expiry is present and not past and its `sub` is non-empty. It stands for that subject, who is a manager exactly when `isman` is true. |
| GatewayAuth.CorrectionKeepsAccepted | backend/gateway/src/auth/service.py:29-60 | Wherever the original accepts a token, or refuses it with a 401 that the correction also gives, the two agree. |
| GatewayAuth.IssuedTokenAccepted | backend/gateway/src/auth/service.py:29-60 | An access token the auth service issued, before its expiry, is an ordinary user whose id is the user id as text. |
| GatewayAuth.Middleware | backend/gateway/src/main.py:11-28 | A request without a usable bearer token goes on with no identity. A request with one goes on with the identity the token checks give, or is answered with their rejection. An identity passed on always has a non-empty id. |
| GatewayAuth.MalformedHeaderIsAnonymous | backend/gateway/src/main.py:13-16 | A header the extractor cannot read is not rejected: the request goes on as anonymous. |
| GatewayProxy.IncomingHeaders | backend/gateway/src/core/proxy.py:9 | Every header name is lower-cased, and exactly the names sent, lower-cased, are present. The first header sent keeps its value. |
| GatewayProxy.Stamp | backend/gateway/src/core/proxy.py:17-21 | The result adds exactly the secret, and the two identity headers when the middleware left an identity, with the identity's values. Every other header kept is unchanged. |
| GatewayProxy.PrepareHeadersAsWritten | backend/gateway/src/core/proxy.py:8-23 | Only the five names in exactly the spelling given are removed. The secret and, when there is an identity, the identity headers are stamped. Every other header passes unchanged. |
| GatewayProxy.ReceivedOne | backend/gateway/src/core/proxy.py:8-23 | When one key matches a name in any case, a service reading that name finds exactly its value. |
| GatewayProxy.ClientIdentityForwarded | backend/gateway/src/core/proxy.py:9-15 | On a request without a token, the service receives exactly the identity headers the client sent. |
| GatewayProxy.LowerCaseNamesPass | backend/gateway/src/core/proxy.py:11-15 | Lower-case identity headers pass the removals untouched. |
| GatewayProxy.ManagerImpersonation | backend/gateway/src/core/proxy.py:9-21 | A request without a token that sends `x-user-id: 1` and `x-user-ismanager: True` reaches the service as manager user 1. |
| GatewayProxy.WithoutReserved | backend/gateway/src/core/proxy.py:11-15 | Exactly the headers that are not reserved, in any spelling, remain, with their values. |
| GatewayProxy.PrepareHeaders | backend/gateway/src/core/proxy.py:8-23 | Every header that is not reserved passes unchanged, and no other header the client sent survives. |
| GatewayProxy.OnlyGatewayIdentity | backend/gateway/src/core/proxy.py:8-23 | Whatever the client sent, a service sees only the identity the gateway established, or none, and the gateway's secret. No `Authorization` or `host` header reaches it. |
| GatewayProxy.CorrectionAgreesOnPlainRequests | backend/gateway/src/core/proxy.py:8-23 | On a request with no reserved name in any spelling, the original and the correction produce the same headers. |
| UserSchemas.StrippedEnds | backend/services/users/app/schemas/user_schemas.py:20 | A stripped string is empty or begins and ends with something other than whitespace. |
| UserSchemas.CapitalizeIdempotent | backend/services/users/app/schemas/user_schemas.py:20 | Capitalising twice is capitalising once. |
| UserSchemas.CreateName | backend/services/users/app/schemas/user_schemas.py:15-20 | Only the empty string is refused at creation, with its message. Any other name is stored stripped, its first letter raised and the others lowered. A name of whitespace only is stored empty. |
| UserSchemas.BlankNameStoredEmpty | backend/services/users/app/schemas/user_schemas.py:17-20 | A non-empty name of whitespace only is accepted at creation and stored empty. |
| UserSchemas.CreateNameIdempotent | backend/services/users/app/schemas/user_schemas.py:15-20 | Validating a stored non-empty name again gives it back unchanged. |
| UserSchemas.BaseInfoName | backend/services/users/app/schemas/user_schemas.py:42-47 | The response schema normalises names exactly as creation does. |
| UserSchemas.UpdateName | backend/services/users/app/schemas/user_schemas.py:56-63 | An omitted name passes. A name is refused exactly when it is whitespace only. Any name accepted is non-empty. |
| UserSchemas.NameRulesCompared | backend/services/users/app/schemas/user_schemas.py:15-63 | Creation and update store the same value for every name that is not blank. A blank name is stored empty at creation but refused at update. |
| UserSchemas.CheckPassword | backend/services/users/app/schemas/user_schemas.py:22-29 | A password is accepted exactly when it has at least eight characters and no space. A short one is refused first, and one with a space next, each with its message. An accepted password is stored stripped. |
| UserSchemas.CreatePasswordAsWritten | backend/services/users/app/schemas/user_schemas.py:15-29 | At creation, the empty password is refused by the name rule. An accepted password is stored stripped and capitalised, and has at least eight characters. |
| UserSchemas.CreatePassword | backend/services/users/app/schemas/user_schemas.py:22-29 | The empty password is refused, and any other obeys the password rule alone. An accepted password without surrounding whitespace is stored exactly as typed. |
| UserSchemas.PasswordRecased | backend/services/users/app/schemas/user_schemas.py:15-29 | A password the correction keeps as typed is kept by the original capitalised. |
| UserSchemas.PasswordRecasedExample | backend/services/users/app/schemas/user_schemas.py:15-20 | `passWord1` is stored as `Password1`, not as typed. |
| UserSchemas.AsWrittenCapitalizes | backend/services/users/app/schemas/user_schemas.py:15-29 | Where both accept, the original keeps the capitalised form of what the correction keeps. |
| UserSchemas.UpdatePassword | backend/services/users/app/schemas/user_schemas.py:65-74 | An omitted password passes. A given one is accepted exactly when it has at least eight characters and no space, and is then kept stripped. |
| UserSchemas.PasswordRulesAgree | backend/services/users/app/schemas/user_schemas.py:22-74 | With the correction, a non-empty password is accepted at creation exactly when it is accepted at update. It is then stored the same way. |
| UserStore.GetUserById | backend/services/users/app/crud.py:25-31 | A user is found exactly when the row exists and is active, and the row is returned. |
| UserStore.GetUsers | backend/services/users/app/crud.py:33-39 | The listing holds exactly the active rows. |
| UserStore.UpdateUser | backend/services/users/app/crud.py:41-64 | A missing or deactivated user is not found. A null password is a server error. A null field or an e-mail another row uses is reported as an existing user. An update succeeds exactly when none of this applies. It then changes only this row: given fields are applied and a given password is hashed. The store stays valid. |
| UserStore.EmptyUpdateChangesNothing | backend/services/users/app/crud.py:47-52 | An update with no fields leaves the store unchanged. |
| UserStore.DeleteUser | backend/services/users/app/crud.py:66-74 | A delete fails exactly when the user is missing or already deactivated. Otherwise the row stays, marked inactive, and nothing else changes. |
| UserStore.DeleteIsSoft | backend/services/users/app/crud.py:66-74 | After a delete the user can no longer be read or listed, and a second delete is refused. Its row and e-mail remain, other users read as before, and the store stays valid. |
| UserStore.CreateUser | backend/services/users/app/crud.py:76-93 | Creation fails exactly when any row already has the e-mail, and is then reported as an existing user. Otherwise exactly one active, non-manager row is added, holding the hashed password. The store stays valid. |
| UserStore.DeletedEmailStaysTaken | backend/services/users/app/models.py:13 | The e-mail of a deleted user cannot be used to create another account. |
| UserStore.NoPlaintextStored | backend/services/users/app/crud.py:78-79 | With a hash that never returns its input, the stored password is never the one typed. |
| CardFlip.Reduce | frontend/features/cards/components/card.tsx:22-33 | FLIP turns the card over and leaves the animation flag alone. RESET returns to the initial state. SET_FLIPPING sets the animation flag to its payload and leaves the face alone. |
| CardFlip.FlipTwice | frontend/features/cards/components/card.tsx:24-25 | Turning the card over twice restores the state. |
| CardFlip.ResetForgets | frontend/features/cards/components/card.tsx:26-27 | Any two states reset to the same initial state. |
| CardFlip.Dispatched | frontend/features/cards/components/card.tsx:39-54 | A click dispatches FLIP exactly when no animation runs, and nothing otherwise. The start and end of a transition set the animation flag to true and false. |
| CardFlip.RunLaws | frontend/features/cards/components/card.tsx:22-54 | After a run of events the card shows its original face turned over once per effective click. The animation flag is the one the last transition event set, or unchanged when there was none. |
| CardFlip.ClicksWhileFlipping | frontend/features/cards/components/card.tsx:39-41 | While the animation runs, any number of clicks changes nothing. |

## Left out

- The Kafka client is not modelled: polling, JSON decoding of message bodies, signal handlers, logging and `consumer.close`. Messages are a datatype. The shutdown signal is an input of the loop, and so is whether the broker refuses a synchronous commit.
- The ClickHouse driver is not modelled. An insert is an effect whose success or failure is an input.
- The envelope schema and the event-contract payload classes are not part of this model. Validation is an input that yields a payload or fails.
- `migrate.py` and the events collector's `handlers/learning.py` are not modelled: the first is DDL and file I/O, and the second is not wired into the consumer.
- Database mechanics are not modelled: sessions, flush, commit, refresh, transactions, and recognising an `IntegrityError` by its message. Tables are maps or sequences, and a violated constraint is an error result.
- Object-storage calls are not modelled beyond their effect on a map from key to content. Presigned URLs are represented by the method and key they are signed for, and `ensure_bucket` is left out.
- `urlparse` is reduced to taking the path after the host, cut at the first `?` or `#`. Percent-encoding and the `;params` that `urlparse` splits off the last path segment of http(s) URLs are not modelled.
- Identifiers and clocks are parameters: `uuid4`, `datetime.now`, `datetime.utcnow` and `time.monotonic`.
- Learn.NextCard: `random.choice` among the heaviest cards becomes an index parameter `choice`. The contract states only that the card returned has maximal weight, not which of the heaviest cards the index picks.
- Floating-point values are reals: the learn weights, rates and difficulty, deck statistics means, enrollment progress, and the batch clock. Rounding is not modelled. `Learn.Weight` computes the hours since the last answer from `now` and the stored time.
- Signing, decoding and hashing are opaque: jose's `encode` and `decode`, and bcrypt. The Redis revocation list is a set of keys. The lemmas about issued tokens use a decoder that knows only the presented token (`AuthTokens.DecoderOf`). The claim checks read nothing but that token's decoding, so those lemmas hold for every decoder that agrees on it.
- GatewayAuth.GetUserByTokenAsWritten: claims are typed values. A non-integer `exp`, an `exp` too large for `fromtimestamp`, and an `isman` that is truthy but not `true` are not modelled.
- GatewayAuth.Middleware: the clock is in whole seconds, and jose's own expiry check inside decoding is part of the decoding input.
- `forward_request` in the gateway, and the teaching service's decks client, are not modelled. The decks client is reduced to an oracle from deck id to owner.
- The route modules of the auth and users services are not modelled. Neither are metrics, middlewares, Django settings, URLs, admin, serializers, configuration modules or `init_db.py`.
- Serializer field validation in the teaching service (types, required fields) is not modelled. Request bodies reach the views already validated.
- The course endpoints `publish`, `unpublish`, update and destroy are not modelled, nor lesson destroy or the detail views. They are plain ORM writes behind the permissions that `TeachingPermissions` and `Courses.CourseAccess` state.
- The cursor pagination of the teaching service's lists and of test-result listings is not modelled. The lists are given in their full order.
- The deck list endpoint (`deck/controller.py:45-71`) is not modelled, because it unpacks the list `list_decks` returns as a pair. Its next-cursor header rule is modelled by `DeckApi.NextCursorHeader`.
- test_result/service.py is not part of this model: its queries use field names the entities do not have. The model ends when a result is accepted or a filter is chosen.
- DeckStatistics: deck_stats/service.py reads attributes that differ from the entity class it loads. The model follows the service's arithmetic over its own field names.
- `get_user_by_email` and `get_user_by_email_and_password` in the users store are not modelled. They use Python `and` inside a query condition, which keeps only one comparison, and they compare salted hashes.
- Enrollments: the per-deck progress record class that the enrollment views import is not part of this model. It is modelled from its use.
- The teaching service's gateway authentication class and its header-based user context are not part of this model. `TeachingAuth` models the mock bearer scheme.
- The web client beyond the card reducer is not modelled. The reducer's default branch cannot be reached with the three typed actions.
- GatewayProxy.IncomingHeaders: of repeated headers, only the first header sent is said to keep its value. Which of several spellings of one name wins is not stated.
- Text.ParseInt: accepts optional surrounding whitespace, an optional `+`, and ASCII digits with single `_` between them, as Python's `int` does. Python's `int` also accepts other Unicode decimal digits and a `-` sign, and the model reads both as not a number. So `"-5"` is -5 in the service and no number in the model. A teaching mock token's id segment follows its last `-`, so the sign never reaches it there.
- Text: case mapping and whitespace cover ASCII only. `str.capitalize`, `lower` and `strip` are not modelled on other characters.
- Registry: the event-type strings are written as the enum member names, because the enums are not part of this model.
- CardApi.Presign: uses the corrected extension rule, so an upload named `photo` gets a key with no extension. The service as written gives it the suffix `.photo` (see `ObjectKeys.PresignKeyAsWritten`).
- CardApi.BulkEndpoint: uses the corrected bulk operation, so a bulk update attaching an uploaded image answers 204. The service as written moves the upload twice and answers 500 (see `Cards.BulkAsWritten`).
- Cards.MoveSide: uses the corrected permanent-key rule, so a temporary key without a dot moves to the card's image stem with no extension. The service as written appends the whole temporary key (see `ObjectKeys.MovedKeyAsWritten`).
- Courses.ResolveIds: an id that is not an integer, a boolean or null is one value, `OtherV`, answered with 500. The service answers that way for a non-numeric string, a list or an object, and for a numeric string or fractional number naming a relation of the course (the dictionary lookup misses it). It differs in two cases: a numeric string or fractional number naming no relation of the course is refused with 400, and a whole float such as `5.0` acts as the integer 5.
- Consumer: rows are inserted synchronously and the loop is single-threaded, as in the source. Rebalancing and partition assignment are not modelled.

## Findings

| source | as written | input that shows it | evidently intended | confidence | as-written member | corrected member |
|---|---|---|---|---|---|---|
| backend/services/events_collector/src/consumer/consumer.py:144-174 | After any flush, every pending watermark is committed, including offsets of rows still waiting in other buffers. A due but empty buffer triggers such a commit. | One row waits in a buffer that is not due, and another buffer is empty but due, at a poll timeout. | Commit offsets only once every row up to them has been inserted. | not executed | Consumer.AsWrittenCommitsAheadOfRows | Consumer.CommitAfterFlush |
| backend/gateway/src/core/proxy.py:9-15 | The identity headers are removed under mixed-case names, but the framework has already lower-cased every name. A client's own `x-user-id` and `x-user-ismanager` pass through. | A request without a token carrying `x-user-id: 1` and `x-user-ismanager: True`. | Remove the reserved names in any case, so that only the gateway sets the identity. | not executed | GatewayProxy.ManagerImpersonation | GatewayProxy.OnlyGatewayIdentity |
| backend/gateway/src/auth/service.py:39-41 | `int(expire)` runs before the test for a missing `exp`, so a token without `exp` raises and the answer is 500. | A decodable token with claims `sub` and `isman` but no `exp`. | Answer "Token expired" (401) when `exp` is missing. | not executed | GatewayAuth.MissingExpiryIsServerError | GatewayAuth.GetUserByToken |
| backend/gateway/src/auth/service.py:53-58 | A falsy `isman` claim is refused, but the auth service never issues `isman`. | Any access token from the auth service, before its expiry. | `isman` is a flag, and absent or false means an ordinary user. | not executed | GatewayAuth.IssuedTokensRefused | GatewayAuth.IssuedTokenAccepted |
| backend/services/decks/src/card/controller.py:167-169 | When the file name has no dot, `rpartition` puts the whole name in the extension, so the key ends in `.` and the name. | An upload named `photo` gets the key suffix `.photo`. | No dot means no extension. | not executed | ObjectKeys.ExtPartAsWrittenExample | ObjectKeys.ExtPartExampleNoDot |
| backend/services/decks/src/card/service.py:69-81 | The same `rpartition` on a temporary key without a dot appends the whole temporary key to the permanent key. | A card image uploaded as `temp/1/uploads/abc`. | The permanent key is the card's image stem plus the upload's extension, if it has one. | not executed | ObjectKeys.MovedKeyAsWrittenNests | ObjectKeys.MovePreservesExtension |
| backend/services/decks/src/card/service.py:145-172 | `update_card` already moves a temporary image and removes the source. The bulk loop then moves the same source again, and copying the removed key fails. | A bulk request updating one card of the deck with a `temp/` front image. | Move each uploaded image once. | not executed | Cards.BulkUpdateMovesTwice | Cards.BulkUpdateMovesOnce |
| backend/services/users/app/schemas/user_schemas.py:15-29 | The name validator also runs on `password`, before the password rule, so the stored password is capitalised. | The password `passWord1` is stored as `Password1`. | Only the password rule applies to the password. | not executed | UserSchemas.PasswordRecasedExample | UserSchemas.PasswordRulesAgree |
| backend/services/decks/src/card/controller.py:78-93 | Deleting a card calls `session.get()` with no arguments, so every delete that passes the card check fails with 500. | The owner deletes an existing card of their own deck. | Load the deck, check authorization and delete the card. | not executed | CardApi.OwnerCannotDeleteCard | CardApi.DeleteCardEndpoint |
| backend/services/teaching/apps/lessons/views.py:41-44 | Creation relies on `IsCourseTeacherOrManager`, whose view-level check admits everyone, and the object check is never called on create. A request without credentials reaches `perform_create`, which fails reading `is_manager` on the framework's anonymous user. The anonymous context (id 0) would instead pass the teacher test for a course whose teacher id is 0. | A request without an `Authorization` header creating a lesson: 500 instead of 401. | Lesson creation requires authentication, as every other lesson action does. | not executed | Lessons.AnonymousCreatesLesson | Lessons.CreateLesson |

=== FILE: auth_tokens.dfy ===
/**
 * Token handling in the auth service (auth/src/core/jwt.py): the claims an access or refresh
 * token carries, the checks `verify_token` makes after decoding, and how `get_access_token` takes
 * the token out of an `Authorization` header.
 *
 * Signing and decoding are opaque: a token's decoding is an input, either its claims or one of
 * the two errors the decoder raises. The revocation list in Redis is a set of keys.
 */
module AuthTokens {
  import opened Wrappers
  import opened Text

  /**
   * The claims the auth service and the gateway read; a claim absent from the payload is `None`.
   * `isman` is read only by the gateway.
   */
  datatype Claims = Claims(typ: Option<string>, sub: Option<string>, jti: Option<string>, exp: Option<int>,
                           isman: Option<bool>)

  /** What decoding a token gives: its claims, an expired signature, or any other decoding error. */
  datatype Decoded = Decoded(claims: Claims) | ExpiredSignature | Malformed

  /** The three exceptions `verify_token` raises. */
  datatype TokenError = Invalid | Expired | Revoked

  const AccessType: string := "access"
  const RefreshType: string := "refresh"

  /**
   * `create_access_token` / `create_refresh_token`: the subject is the user id as text, the type
   * names the kind of token, and `create_token` adds an expiry `ttl` after `now` and a fresh `jti`.
   */
  function IssueClaims(userId: nat, typ: string, now: int, ttl: int, jti: string): (c: Claims)
    ensures c.typ == Some(typ) && c.jti == Some(jti) && c.exp == Some(now + ttl)
    ensures c.sub.Some? && c.sub.value != "" && ParseInt(c.sub.value) == Some(userId)
    ensures c.isman.None?
  {
    ParseNatToString(userId);
    Claims(Some(typ), Some(IntToString(userId)), Some(jti), Some(now + ttl), None)
  }

  /** The revocation key `bl:{type}:{jti}`. */
  function RevocationKey(tokenType: string, jti: string): (k: string)
    ensures StartsWith(k, "bl:") && |k| == 4 + |tokenType| + |jti|
    ensures k[3..3 + |tokenType|] == tokenType && k[3 + |tokenType|] == ':' && k[4 + |tokenType|..] == jti
  {
    "bl:" + tokenType + ":" + jti
  }

  /**
   * `verify_token`: an empty token is invalid before any decoding; then decoding errors map to
   * `Expired` (an expired signature) or `Invalid`; then the type, read as "" when absent, must be
   * the requested one and
   * `sub`, `jti` and `exp` must all be present; then a revoked `jti` is refused.
   */
  function VerifyToken(token: string, tokenType: string, decode: string -> Decoded, revoked: set<string>)
    : (r: Result<Claims, TokenError>)
    ensures token == "" ==> r == Failure(Invalid)
    ensures token != "" && decode(token).ExpiredSignature? ==> r == Failure(Expired)
    ensures token != "" && decode(token).Malformed? ==> r == Failure(Invalid)
    ensures r.Success? <==>
      && token != "" && decode(token).Decoded?
      && var c := decode(token).claims;
      && c.typ.GetOr("") == tokenType && c.sub.Some? && c.jti.Some? && c.exp.Some?
      && RevocationKey(tokenType, c.jti.value) !in revoked
    ensures r.Success? ==> r.value == decode(token).claims
    ensures r == Failure(Revoked) ==> decode(token).Decoded? && decode(token).claims.typ.GetOr("") == tokenType
  {
    if token == "" then Failure(Invalid)
    else match decode(token)
      case ExpiredSignature => Failure(Expired)
      case Malformed => Failure(Invalid)
      case Decoded(c) =>
        if c.typ.GetOr("") != tokenType then Failure(Invalid)
        else if c.sub.None? || c.jti.None? || c.exp.None? then Failure(Invalid)
        else if RevocationKey(tokenType, c.jti.value) in revoked then Failure(Revoked)
        else Success(c)
  }

  /** An empty token is refused whatever the decoder would say: it is never decoded. */
  lemma EmptyTokenNotDecoded(tokenType: string, d1: string -> Decoded, d2: string -> Decoded, revoked: set<string>)
    ensures VerifyToken("", tokenType, d1, revoked) == VerifyToken("", tokenType, d2, revoked) == Failure(Invalid)
  {
  }

  /**
   * The decoder that knows one token: it gives `c` for `token` and finds every other token
   * malformed. The checks here read the decoding of the presented token only, so a lemma stated
   * with this decoder holds for every decoder that gives `c` for that token.
   */
  function DecoderOf(token: string, c: Claims): (decode: string -> Decoded)
    ensures decode(token) == Decoded(c)
    ensures forall t :: t != token ==> decode(t) == Malformed
  {
    t => if t == token then Decoded(c) else Malformed
  }

  /**
   * A token issued for a user verifies as its own kind until its `jti` is revoked, and never as
   * the other kind: a refresh token is no access token, nor the reverse.
   */
  lemma {:induction false} IssuedTokenVerifies(token: string, userId: nat, now: int, ttl: int, jti: string,
                                               revoked: set<string>)
    requires token != ""
    ensures var decode := DecoderOf(token, IssueClaims(userId, AccessType, now, ttl, jti));
      && (VerifyToken(token, AccessType, decode, revoked).Success? <==> RevocationKey(AccessType, jti) !in revoked)
      && VerifyToken(token, RefreshType, decode, revoked) == Failure(Invalid)
  {
    assert AccessType != RefreshType by {
      assert AccessType[0] != RefreshType[0];
    }
  }

  /**
   * `get_access_token`: the header is split at its first space; the part before must be `bearer`
   * in any letter case and the part after must not be empty. The token is everything after that
   * first space, further spaces included.
   */
  function GetAccessToken(authorization: string): (r: Result<string, TokenError>)
    ensures r.Success? <==> exists k :: 0 <= k < |authorization| && authorization[k] == ' ' && ' ' !in authorization[..k] &&
                                        Lower(authorization[..k]) == "bearer" && k + 1 < |authorization|
    ensures r.Success? ==> r.value != "" && |r.value| < |authorization| && EndsWith(authorization, r.value) &&
                           Lower(authorization[..|authorization| - |r.value| - 1]) == "bearer"
    ensures r.Failure? ==> r.error == Invalid
  {
    var p := Partition(authorization, ' ');
    if Lower(p.head) != "bearer" || p.tail == "" then Failure(Invalid)
    else
      var k := |p.head|;
      assert authorization == p.head + p.sep + p.tail;
      assert authorization[..k] == p.head && authorization[k + 1..] == p.tail;
      Success(p.tail)
  }

  /** `Bearer <token>`, with the scheme in any case, gives back exactly the token. */
  lemma {:induction false} BearerRoundTrip(scheme: string, token: string)
    requires Lower(scheme) == "bearer" && token != ""
    ensures GetAccessToken(scheme + " " + token) == Success(token)
  {
    var h := scheme + " " + token;
    assert ' ' !in scheme by {
      assert forall i :: 0 <= i < |scheme| ==> LowerChar(scheme[i]) == "bearer"[i] && scheme[i] != ' ';
    }
    assert h[|scheme|] == ' ';
    assert forall j :: 0 <= j < |scheme| ==> h[j] == scheme[j];
    var p := Partition(h, ' ');
    assert IndexOf(h, ' ') == Some(|scheme|);
    assert p.head == scheme && p.tail == token by {
      assert h[..|scheme|] == scheme && h[|scheme| + 1..] == token;
    }
  }
}

=== FILE: batch_buffer.dfy ===
/**
 * The per-table batch buffer of the events collector (storage/clickhouse.py, `BatchBuffer`).
 *
 * The monotonic clock is a parameter `now`, and the ClickHouse insert is an outcome `insertOk`
 * supplied by the caller: the insert either stores every buffered row or raises.
 */
module BatchBuffers {
  import opened Wrappers
  import opened Mappers

  /** Flush once this many rows are buffered. */
  const BatchSize: nat := 500
  /** Flush once this many seconds have passed since the last successful flush. */
  const FlushInterval: real := 3.0

  datatype Buffer = Buffer(table: string, rows: seq<Row>, lastFlush: real, size: nat)

  /** `size` mirrors the number of buffered rows. */
  predicate Valid(b: Buffer) {
    b.size == |b.rows|
  }

  /** A fresh buffer for `table`, created at time `now`. */
  function New(table: string, now: real): (b: Buffer)
    ensures Valid(b) && b.table == table && b.rows == []
    ensures b.lastFlush == now
  {
    Buffer(table, [], now, 0)
  }

  /** `add`: the row goes to the end; nothing else changes. */
  function Add(b: Buffer, row: Row): (r: Buffer)
    ensures Valid(b) ==> Valid(r)
    ensures r.table == b.table && r.lastFlush == b.lastFlush
    ensures |r.rows| == |b.rows| + 1 && r.rows[..|b.rows|] == b.rows && r.rows[|b.rows|] == row
  {
    b.(rows := b.rows + [row], size := b.size + 1)
  }

  /** `should_flush`: the batch is full, or the flush interval has elapsed. */
  predicate ShouldFlush(b: Buffer, now: real) {
    |b.rows| >= BatchSize || now - b.lastFlush >= FlushInterval
  }

  /** One `INSERT INTO table VALUES` carrying a batch of rows. */
  datatype Insert = Insert(table: string, rows: seq<Row>)

  /**
   * The result of `flush`: the buffer afterwards, the insert it attempted (if any), and whether
   * it raised.
   */
  datatype FlushOutcome = FlushOutcome(buffer: Buffer, attempted: Option<Insert>, raised: bool)

  /**
   * `flush` at time `now`. An empty buffer returns at once: no insert, and `last_flush` is NOT
   * reset. Otherwise all rows go in one insert; only when it succeeds is the buffer cleared and
   * `last_flush` set; when it raises, the buffer is left exactly as it was.
   */
  function Flush(b: Buffer, now: real, insertOk: bool): (r: FlushOutcome)
    ensures b.rows == [] ==> r == FlushOutcome(b, None, false)
    ensures b.rows != [] ==> r.attempted == Some(Insert(b.table, b.rows)) && r.raised == !insertOk
    ensures r.raised ==> r.buffer == b
    ensures b.rows != [] && !r.raised ==>
      r.buffer.rows == [] && r.buffer.lastFlush == now && r.buffer.table == b.table
    ensures Valid(b) ==> Valid(r.buffer)
  {
    if b.rows == [] then FlushOutcome(b, None, false)
    else if !insertOk then FlushOutcome(b, Some(Insert(b.table, b.rows)), true)
    else FlushOutcome(Buffer(b.table, [], now, 0), Some(Insert(b.table, b.rows)), false)
  }

  /**
   * After a successful non-empty flush the buffer is no longer due at that instant; an empty
   * buffer that was due because of the interval stays due, since its `last_flush` is not reset.
   */
  lemma FlushClearsDue(b: Buffer, now: real)
    ensures b.rows != [] ==> !ShouldFlush(Flush(b, now, true).buffer, now)
    ensures b.rows == [] && ShouldFlush(b, now) ==> ShouldFlush(Flush(b, now, true).buffer, now)
  {
  }

  /** A due empty buffer stays due at every later instant until a row arrives. */
  lemma EmptyDueStaysDue(b: Buffer, now: real, later: real)
    requires b.rows == [] && ShouldFlush(b, now) && now <= later
    ensures ShouldFlush(Flush(b, now, true).buffer, later)
  {
  }

  /**
   * No row is lost by a failed insert: after a failed flush, adding a row and flushing
   * successfully inserts the original rows followed by the new one, in order.
   */
  lemma {:induction false} RetryKeepsRows(b: Buffer, t1: real, row: Row, t2: real)
    requires b.rows != []
    ensures var failed := Flush(b, t1, false).buffer;
      Flush(Add(failed, row), t2, true).attempted == Some(Insert(b.table, b.rows + [row]))
  {
  }

  /**
   * Rows accumulate in arrival order: adding `rows` one by one to a buffer and then flushing
   * inserts exactly the earlier rows followed by `rows`.
   */
  function AddAll(b: Buffer, rows: seq<Row>): (r: Buffer)
    ensures r.table == b.table && r.lastFlush == b.lastFlush
    ensures r.rows == b.rows + rows
    ensures Valid(b) ==> Valid(r)
    decreases |rows|
  {
    if rows == [] then b
    else
      var r := AddAll(Add(b, rows[0]), rows[1..]);
      assert b.rows + [rows[0]] + rows[1..] == b.rows + rows;
      r
  }

  /** Flushing a buffer fed from empty inserts exactly what was fed, in order, in one insert. */
  lemma FlushInsertsFed(table: string, created: real, rows: seq<Row>, now: real)
    requires rows != []
    ensures Flush(AddAll(New(table, created), rows), now, true).attempted == Some(Insert(table, rows))
  {
    var b := AddAll(New(table, created), rows);
    assert b.rows == [] + rows == rows;
    assert b.table == table;
  }
}

=== FILE: card_api.dfy ===
/**
 * The card endpoints of the decks service (card/controller.py): the guards each applies before it
 * touches a card, how a card is shown, and the presigned upload.
 *
 * Decks are reduced to their owners. Presigned URLs are produced by the storage client, which is
 * not part of this model; they appear as the method and object key they are signed for.
 */
module CardApi {
  import opened Wrappers
  import opened Text
  import opened Http
  import opened DeckAuth
  import opened ObjectKeys
  import opened Cards

  /** Deck id -> owner id. */
  type Owners = map<int, int>

  /** A card as returned, with each image as `_presign_card_images` shows it. */
  datatype CardView = CardView(card: Card, front: Option<Shown>, back: Option<Shown>)

  /** `_presign_card_images`. */
  function View(c: Card): (v: CardView)
    ensures v.card == c && v.front == ShowImage(c.frontImage) && v.back == ShowImage(c.backImage)
  {
    CardView(c, ShowImage(c.frontImage), ShowImage(c.backImage))
  }

  /** An exception no handler catches. */
  function ServerError<T>(): Response<T> {
    Error(500, "Internal Server Error")
  }

  /** `SCardCreate`; `order_index` may be sent as `null`. */
  datatype CardCreate = CardCreate(frontText: string, frontImage: Option<string>, backText: string,
                                   backImage: Option<string>, orderIndex: Option<int>)

  /**
   * `POST /deck/{deck_id}/cards`: 404 for a missing deck, 403 for a user who is neither its owner
   * nor a manager, otherwise a new card with the next id. Images are stored as given; nothing is
   * moved out of the temporary area here.
   */
  function CreateCard(owners: Owners, w: World, deckId: int, user: Option<User>, payload: CardCreate)
    : (r: (Response<CardView>, World))
    ensures deckId !in owners ==> r == (Error(404, "Deck not found"), w)
    ensures deckId in owners && !Authorized(owners[deckId], user) ==> r == (Error(403, "Forbidden"), w)
    ensures r.0.Ok? <==> deckId in owners && Authorized(owners[deckId], user)
    ensures r.0.Ok? ==>
      var c := r.0.body.card;
      && c.id == w.nextId && c.deckId == deckId && r.1.nextId == w.nextId + 1
      && c.frontText == payload.frontText && c.backText == payload.backText
      && c.frontImage == payload.frontImage && c.backImage == payload.backImage
      && c.id in r.1.cards && r.1.cards[c.id] == c
      && r.0.body == View(c)
  {
    if deckId !in owners then (Error(404, "Deck not found"), w)
    else if !Authorized(owners[deckId], user) then (Error(403, "Forbidden"), w)
    else
      var c := NewCard(w.nextId, deckId, payload.frontText, payload.backText,
                       payload.frontImage, payload.backImage, payload.orderIndex);
      (Ok(View(c)), World(w.cards[c.id := c], w.nextId + 1))
  }

  /** A card with id `cardId` exists and belongs to deck `deckId`. */
  predicate CardInDeck(w: World, deckId: int, cardId: int) {
    cardId in w.cards && w.cards[cardId].deckId == deckId
  }

  /**
   * `PATCH /deck/{deck_id}/cards/{card_id}`: 404 when the card is missing or in another deck;
   * 403 only when the deck exists and the user may not write it; a storage error raised by an
   * image move is a 500 that leaves the database as it was.
   */
  function UpdateCardEndpoint(owners: Owners, w: World, s: Store, deckId: int, cardId: int,
                              user: Option<User>, p: Patch)
    : (r: (Response<CardView>, World, Store))
    requires WellKeyed(w)
    ensures !CardInDeck(w, deckId, cardId) ==> r == (Error(404, "Card not found"), w, s)
    ensures CardInDeck(w, deckId, cardId) && deckId in owners && !Authorized(owners[deckId], user) ==>
      r == (Error(403, "Forbidden"), w, s)
    ensures !r.0.Ok? ==> r.1 == w
    ensures r.0.Ok? ==>
      && CardInDeck(w, deckId, cardId)
      && (deckId !in owners || Authorized(owners[deckId], user))
      && r.0.body.card.id == cardId && r.1 == w.(cards := w.cards[cardId := r.0.body.card])
  {
    if !CardInDeck(w, deckId, cardId) then (Error(404, "Card not found"), w, s)
    else if deckId in owners && !Authorized(owners[deckId], user) then (Error(403, "Forbidden"), w, s)
    else
      var c := w.cards[cardId];
      match UpdateCard(s, c, p)
      case Raised(_, s1) => (ServerError(), w, s1)
      case Done(u, s1) => (Ok(View(u)), w.(cards := w.cards[cardId := u]), s1)
  }

  /**
   * An update with no images merges the fields given and changes nothing in storage; the merged
   * card is what is returned and stored.
   */
  lemma UpdateWithoutImages(owners: Owners, w: World, s: Store, deckId: int, cardId: int,
                            user: Option<User>, p: Patch)
    requires WellKeyed(w) && CardInDeck(w, deckId, cardId) && deckId in owners && Authorized(owners[deckId], user)
    requires p.frontImage.None? && p.backImage.None?
    ensures var r := UpdateCardEndpoint(owners, w, s, deckId, cardId, user, p);
      r.0 == Ok(View(Merge(w.cards[cardId], p))) && r.2 == s
  {
  }

  /**
   * `DELETE /deck/{deck_id}/cards/{card_id}` as written: after the card check, the deck is
   * fetched with no entity and no key, which raises before the permission check, so every request
   * that names a card of the deck fails with a 500 and deletes nothing.
   */
  function DeleteCardAsWritten(owners: Owners, w: World, deckId: int, cardId: int, user: Option<User>)
    : (r: (Response<()>, World))
    ensures r.1 == w
    ensures !CardInDeck(w, deckId, cardId) ==> r.0 == Error(404, "Card not found")
    ensures CardInDeck(w, deckId, cardId) ==> r.0 == ServerError()
  {
    if !CardInDeck(w, deckId, cardId) then (Error(404, "Card not found"), w)
    else (ServerError(), w)
  }

  /**
   * The delete endpoint as evidently intended, with the deck fetched by its id as the update
   * endpoint does: 404 for a card missing or in another deck, 403 only when the deck exists and
   * the user may not write it, otherwise the card is removed and nothing else changes.
   */
  function DeleteCardEndpoint(owners: Owners, w: World, deckId: int, cardId: int, user: Option<User>)
    : (r: (Response<()>, World))
    ensures !CardInDeck(w, deckId, cardId) ==> r == (Error(404, "Card not found"), w)
    ensures CardInDeck(w, deckId, cardId) && deckId in owners && !Authorized(owners[deckId], user) ==>
      r == (Error(403, "Forbidden"), w)
    ensures r.0.Ok? <==> CardInDeck(w, deckId, cardId) && (deckId !in owners || Authorized(owners[deckId], user))
    ensures r.0.Ok? ==> r.1 == w.(cards := w.cards - {cardId})
    ensures !r.0.Ok? ==> r.1 == w
  {
    if !CardInDeck(w, deckId, cardId) then (Error(404, "Card not found"), w)
    else if deckId in owners && !Authorized(owners[deckId], user) then (Error(403, "Forbidden"), w)
    else (Ok(()), w.(cards := w.cards - {cardId}))
  }

  /**
   * The owner of a deck cannot delete one of its cards as written, while the correction removes
   * it; the two agree on every request the card check refuses.
   */
  lemma {:induction false} OwnerCannotDeleteCard(owners: Owners, w: World, deckId: int, cardId: int, u: User)
    requires CardInDeck(w, deckId, cardId) && deckId in owners && owners[deckId] == u.id
    ensures DeleteCardAsWritten(owners, w, deckId, cardId, Some(u)).0 == Error(500, "Internal Server Error")
    ensures DeleteCardEndpoint(owners, w, deckId, cardId, Some(u)).0.Ok?
    ensures cardId !in DeleteCardEndpoint(owners, w, deckId, cardId, Some(u)).1.cards
  {
  }

  /** Where the card check refuses, the original and the correction give the same 404. */
  lemma {:induction false} DeleteCorrectionAgreesOn404(owners: Owners, w: World, deckId: int, cardId: int,
                                                       user: Option<User>)
    requires !CardInDeck(w, deckId, cardId)
    ensures DeleteCardAsWritten(owners, w, deckId, cardId, user) == DeleteCardEndpoint(owners, w, deckId, cardId, user)
  {
  }

  /** The reply of `PATCH /deck/decks/{deck_id}/cards`. */
  datatype BulkReply =
    | NoContent
    | Refused(status: nat, detail: string)
    | Invalid(errors: seq<BulkError>)

  /**
   * The bulk endpoint: 404 for a missing deck, 403 for a user who may not write it, 400 carrying
   * the error list when any item fails its check, 500 on a storage error, and 204 otherwise. Only
   * a 204 changes the database.
   */
  function BulkEndpoint(owners: Owners, w: World, s: Store, deckId: int, user: Option<User>, items: seq<BulkItem>)
    : (r: (BulkReply, World, Store))
    requires WellKeyed(w)
    ensures deckId !in owners ==> r == (Refused(404, "Deck not found"), w, s)
    ensures deckId in owners && !Authorized(owners[deckId], user) ==> r == (Refused(403, "Forbidden"), w, s)
    ensures r.0.Invalid? ==> r.0.errors == Errors(items, w.cards, deckId, 0) && r.1 == w && r.2 == s
    ensures r.0 != NoContent ==> r.1 == w
    ensures r.0 == NoContent ==> deckId in owners && Authorized(owners[deckId], user)
    ensures r.0 == NoContent ==> OtherDecksKept(w.cards, r.1.cards, deckId)
    ensures r.0 == NoContent ==> AppliedAsRequested(w, deckId, items, r.1)
    ensures deckId in owners && Authorized(owners[deckId], user) ==>
      (r.0.Invalid? <==> Errors(items, w.cards, deckId, 0) != [])
    ensures (deckId in owners && Authorized(owners[deckId], user) && Errors(items, w.cards, deckId, 0) == [] &&
             exists k :: UpdatesAfterDelete(items, k) != []) ==>
      r.0 == Refused(500, "Internal Server Error") && r.1 == w
  {
    if deckId !in owners then (Refused(404, "Deck not found"), w, s)
    else if !Authorized(owners[deckId], user) then (Refused(403, "Forbidden"), w, s)
    else match Bulk(w, s, deckId, items)
      case Rejected(errors) => (Invalid(errors), w, s)
      case Stopped(_, s1) => (Refused(500, "Internal Server Error"), w, s1)
      case Applied(w1, s1) => (NoContent, w1, s1)
  }

  /** The HTTP method a presigned URL is signed for. */
  datatype Method = Get | Put

  /** `SPresignUploadResponse`. */
  datatype PresignReply = PresignReply(putUrl: (Method, string), getUrl: (Method, string), objectKey: string)

  /**
   * `POST /deck/uploads/presign`: 401 without a user; otherwise a fresh temp key under the user's
   * upload directory (`hex` is the random name) keeping the file's extension, with PUT and GET
   * URLs signed for it.
   */
  function Presign(user: Option<User>, filename: string, hex: string): (r: Response<PresignReply>)
    ensures user.None? <==> r == Error(401, "Unauthenticated")
    ensures r.Ok? ==> var key := r.body.objectKey;
      && IsTemp(key) && EndsWith(key, ExtPart(filename))
      && r.body.putUrl == (Put, key) && r.body.getUrl == (Get, key)
  {
    match user
    case None => Error(401, "Unauthenticated")
    case Some(u) =>
      var key := PresignKey(u.id, hex, filename);
      Ok(PresignReply((Put, key), (Get, key), key))
  }

  /**
   * The life of an uploaded image: the presigned key is shown as stored (unsigned) until an update
   * attaches it, after which the card's image is signed under its permanent key, which keeps the
   * upload's extension.
   */
  lemma {:induction false} UploadThenAttach(owners: Owners, w: World, s: Store, deckId: int, cardId: int,
                                            u: User, filename: string, hex: string)
    requires CardInDeck(w, deckId, cardId) && deckId in owners && Authorized(owners[deckId], Some(u))
    requires WellKeyed(w)
    requires '/' !in hex && '.' !in hex && ':' !in hex && ':' !in filename
    requires PresignKey(u.id, hex, filename) in s
    ensures var key := Presign(Some(u), filename, hex).body.objectKey;
      var r := UpdateCardEndpoint(owners, w, s, deckId, cardId, Some(u), Patch(None, None, Some(key), None, None));
      var dst := MovedKey(deckId, cardId, Front, key);
      && ShowImage(Some(key)) == Some(AsStored(key))
      && r.0.Ok? && r.0.body.front == Some(SignedGet(dst))
      && EndsWith(dst, ExtPart(filename))
  {
    var key := PresignKey(u.id, hex, filename);
    assert key == Presign(Some(u), filename, hex).body.objectKey;
    PresignKeyIsKey(u.id, hex, filename, CardsBucket);
    assert TempSource(Some(key)) == Some(key);
    MovePreservesExtension(u.id, hex, filename, deckId, cardId, Front);
    FreshUploadShownAsStored(u.id, hex, filename, deckId, cardId, Front);
  }
}

=== FILE: card_flip.dfy ===
/**
 * The flip state of a flash card in the web client (frontend/features/cards/components/card.tsx):
 * the reducer over which face is shown and whether the flip animation is running, and the three
 * user-interface events that dispatch to it.
 */
module CardFlip {
  import opened Wrappers

  datatype State = State(isFlipping: bool, showBack: bool)

  datatype Action = Flip | Reset | SetFlipping(payload: bool)

  const InitialState: State := State(false, false)

  /**
   * `cardReducer`: FLIP turns the card over, RESET goes back to the front with no animation, and
   * SET_FLIPPING records whether the animation runs.
   */
  function Reduce(s: State, a: Action): (r: State)
    ensures a.Flip? ==> r.showBack == !s.showBack && r.isFlipping == s.isFlipping
    ensures a.Reset? ==> r == InitialState
    ensures a.SetFlipping? ==> r.isFlipping == a.payload && r.showBack == s.showBack
  {
    match a
    case Flip => s.(showBack := !s.showBack)
    case Reset => InitialState
    case SetFlipping(b) => s.(isFlipping := b)
  }

  /** Turning the card over twice leaves it as it was. */
  lemma FlipTwice(s: State)
    ensures Reduce(Reduce(s, Flip), Flip) == s
  {
  }

  /** RESET forgets everything: any two states reset to the same one. */
  lemma ResetForgets(s: State, t: State)
    ensures Reduce(s, Reset) == Reduce(t, Reset) == InitialState
  {
  }

  /** The events the component reacts to: a click, and the start and end of the CSS transition. */
  datatype Event = Click | TransitionStart | TransitionEnd

  /** What each handler dispatches: a click only while no animation runs. */
  function Dispatched(s: State, e: Event): (r: seq<Action>)
    ensures e.Click? ==> (r == [Flip] <==> !s.isFlipping) && (r == [] <==> s.isFlipping)
    ensures e.TransitionStart? ==> r == [SetFlipping(true)]
    ensures e.TransitionEnd? ==> r == [SetFlipping(false)]
  {
    match e
    case Click => if !s.isFlipping then [Flip] else []
    case TransitionStart => [SetFlipping(true)]
    case TransitionEnd => [SetFlipping(false)]
  }

  function ReduceAll(s: State, actions: seq<Action>): State
    decreases |actions|
  {
    if actions == [] then s else ReduceAll(Reduce(s, actions[0]), actions[1..])
  }

  function Handle(s: State, e: Event): State {
    ReduceAll(s, Dispatched(s, e))
  }

  /** The state after a run of events. */
  function Run(s: State, events: seq<Event>): State
    decreases |events|
  {
    if events == [] then s else Run(Handle(s, events[0]), events[1..])
  }

  /** How many of the events turn the card over when run from `s`. */
  function FlipCount(s: State, events: seq<Event>): nat
    decreases |events|
  {
    if events == [] then 0
    else (if events[0].Click? && !s.isFlipping then 1 else 0) + FlipCount(Handle(s, events[0]), events[1..])
  }

  /** Whether the last transition event of `events` started or ended the animation, if there is one. */
  function LastTransition(events: seq<Event>): Option<bool>
    decreases |events|
  {
    if events == [] then None
    else if events[|events| - 1].Click? then LastTransition(events[..|events| - 1])
    else Some(events[|events| - 1].TransitionStart?)
  }

  lemma {:induction false} LastTransitionCons(e: Event, events: seq<Event>)
    ensures LastTransition([e] + events) ==
      if LastTransition(events).Some? then LastTransition(events)
      else if e.Click? then None else Some(e.TransitionStart?)
    decreases |events|
  {
    var all := [e] + events;
    if events != [] {
      assert all[..|all| - 1] == [e] + events[..|events| - 1];
      LastTransitionCons(e, events[..|events| - 1]);
    } else {
      assert all[..|all| - 1] == [];
    }
  }

  /**
   * The face shown after a run is the face shown before, turned over once per effective click; the
   * animation flag is the one the last transition event left, or unchanged when there was none.
   */
  lemma {:induction false} RunLaws(s: State, events: seq<Event>)
    ensures Run(s, events).showBack == (if FlipCount(s, events) % 2 == 0 then s.showBack else !s.showBack)
    ensures Run(s, events).isFlipping == LastTransition(events).GetOr(s.isFlipping)
    decreases |events|
  {
    if events != [] {
      var t := Handle(s, events[0]);
      RunLaws(t, events[1..]);
      LastTransitionCons(events[0], events[1..]);
      assert [events[0]] + events[1..] == events;
    }
  }

  /** While the animation runs, clicks do nothing. */
  lemma {:induction false} ClicksWhileFlipping(s: State, n: nat)
    requires s.isFlipping
    ensures Run(s, seq(n, _ => Click)) == s
    decreases n
  {
    if n > 0 {
      assert seq(n, _ => Click)[1..] == seq(n - 1, _ => Click);
      ClicksWhileFlipping(s, n - 1);
    }
  }
}

=== FILE: cards.dfy ===
/**
 * Cards of a deck and their images (card/service.py): creating a card, merging a partial update
 * into it, moving freshly uploaded images from their temporary key to the card's own key, and the
 * all-or-nothing bulk create/update/delete.
 *
 * Object storage is a map from object key to content. `copy_object` raises when its source is
 * missing; `remove_object` of a missing key does nothing. A raised storage error abandons the
 * database transaction, but objects already copied or removed stay that way, so every outcome
 * carries the store as it was when the operation stopped.
 */
module Cards {
  import opened Wrappers
  import opened Text
  import opened ObjectKeys

  /** A `cards` row. */
  datatype Card = Card(id: int, deckId: int, frontText: string, backText: string,
                       frontImage: Option<string>, backImage: Option<string>, orderIndex: int)

  type Store = map<string, int>

  /** An operation that ran to the end, or stopped because `copy_object` found no source object. */
  datatype Step<+T> = Done(value: T, store: Store) | Raised(missing: string, store: Store)

  /** `create_card`: the row as given, with `order_index or 0`. */
  function NewCard(id: int, deckId: int, frontText: string, backText: string,
                   frontImage: Option<string>, backImage: Option<string>, orderIndex: Option<int>): (c: Card)
    ensures c.id == id && c.deckId == deckId && c.frontText == frontText && c.backText == backText
    ensures c.frontImage == frontImage && c.backImage == backImage
    ensures orderIndex.Some? ==> c.orderIndex == orderIndex.value
    ensures orderIndex.None? ==> c.orderIndex == 0
  {
    Card(id, deckId, frontText, backText, frontImage, backImage, orderIndex.GetOr(0))
  }

  // ---------------------------------------------------------------- partial updates

  /** The optional fields of `SCardUpdate`; `None` leaves the field as it is. */
  datatype Patch = Patch(frontText: Option<string>, backText: Option<string>,
                         frontImage: Option<string>, backImage: Option<string>, orderIndex: Option<int>)

  const EmptyPatch := Patch(None, None, None, None, None)

  /** The field assignments of `update_card`: every field given replaces the stored one. */
  function Merge(c: Card, p: Patch): (r: Card)
    ensures r.id == c.id && r.deckId == c.deckId
    ensures p.frontText.None? ==> r.frontText == c.frontText
    ensures p.frontText.Some? ==> r.frontText == p.frontText.value
    ensures p.backText.None? ==> r.backText == c.backText
    ensures p.backText.Some? ==> r.backText == p.backText.value
    ensures p.frontImage.None? ==> r.frontImage == c.frontImage
    ensures p.frontImage.Some? ==> r.frontImage == p.frontImage
    ensures p.backImage.None? ==> r.backImage == c.backImage
    ensures p.backImage.Some? ==> r.backImage == p.backImage
    ensures p.orderIndex.None? ==> r.orderIndex == c.orderIndex
    ensures p.orderIndex.Some? ==> r.orderIndex == p.orderIndex.value
  {
    Card(c.id, c.deckId, p.frontText.GetOr(c.frontText), p.backText.GetOr(c.backText),
         if p.frontImage.Some? then p.frontImage else c.frontImage,
         if p.backImage.Some? then p.backImage else c.backImage,
         p.orderIndex.GetOr(c.orderIndex))
  }

  /** `q` applied after `p`: a field `q` gives wins, otherwise `p`'s. */
  function Then(p: Patch, q: Patch): Patch {
    Patch(if q.frontText.Some? then q.frontText else p.frontText,
          if q.backText.Some? then q.backText else p.backText,
          if q.frontImage.Some? then q.frontImage else p.frontImage,
          if q.backImage.Some? then q.backImage else p.backImage,
          if q.orderIndex.Some? then q.orderIndex else p.orderIndex)
  }

  /**
   * An empty update changes nothing, repeating an update changes nothing more, and two updates in
   * a row are one update in which the later fields win.
   */
  lemma MergeLaws(c: Card, p: Patch, q: Patch)
    ensures Merge(c, EmptyPatch) == c
    ensures Merge(Merge(c, p), p) == Merge(c, p)
    ensures Merge(Merge(c, p), q) == Merge(c, Then(p, q))
  {
  }

  // ---------------------------------------------------------------- image moves

  /** The object key a non-empty stored value refers to, when it is a temporary upload. */
  function TempSource(url: Option<string>): (r: Option<string>)
    ensures r.Some? <==> url.Some? && url.value != "" && IsTemp(ExtractKey(url.value, CardsBucket))
    ensures r.Some? ==> r.value == ExtractKey(url.value, CardsBucket) && IsTemp(r.value)
  {
    if url.Some? && url.value != "" && IsTemp(ExtractKey(url.value, CardsBucket))
    then Some(ExtractKey(url.value, CardsBucket))
    else None
  }

  function Image(c: Card, side: Side): Option<string> {
    match side
    case Front => c.frontImage
    case Back => c.backImage
  }

  function WithImage(c: Card, side: Side, v: Option<string>): (r: Card)
    ensures Image(r, side) == v
  {
    match side
    case Front => c.(frontImage := v)
    case Back => c.(backImage := v)
  }

  /** `c` and `d` agree on everything but the `side` image. */
  predicate SameBut(c: Card, d: Card, side: Side) {
    c == WithImage(d, side, Image(c, side))
  }

  /** `s'` is `s` except possibly at the keys `a` and `b`. */
  ghost predicate KeptBut(s: Store, s': Store, a: string, b: string) {
    forall k :: k != a && k != b ==> (k in s' <==> k in s) && (k in s ==> s'[k] == s[k])
  }

  /**
   * One side of the temp-image move (the two image blocks of `update_card`, and the same block in
   * the bulk operation): when `url` refers to a temporary upload, its object is copied to the
   * card's key for `side`, the temporary object is removed, and the card stores the new key.
   * Any other value leaves card and store alone.
   */
  function MoveSide(s: Store, c: Card, url: Option<string>, side: Side): (r: Step<Card>)
    ensures TempSource(url).None? ==> r == Done(c, s)
    ensures TempSource(url).Some? ==> (r.Raised? <==> TempSource(url).value !in s)
    ensures r.Raised? ==> r.store == s && r.missing == TempSource(url).value
    ensures r.Done? ==> SameBut(r.value, c, side)
    ensures r.Done? && TempSource(url).Some? ==>
      var src := TempSource(url).value;
      var dst := MovedKey(c.deckId, c.id, side, src);
      && Image(r.value, side) == Some(dst)
      && dst in r.store && r.store[dst] == s[src] && src !in r.store
      && KeptBut(s, r.store, src, dst)
  {
    match TempSource(url)
    case None => Done(c, s)
    case Some(src) =>
      if src !in s then Raised(src, s)
      else
        var dst := MovedKey(c.deckId, c.id, side, src);
        assert src != dst by { assert IsTemp(src) && !IsTemp(dst); }
        Copied(s, src, dst);
        Done(WithImage(c, side, Some(dst)), s[dst := s[src]] - {src})
  }

  /** Copying `src` to `dst` and removing `src` touches those two keys only. */
  lemma Copied(s: Store, src: string, dst: string)
    requires src in s && src != dst
    ensures var t := s[dst := s[src]] - {src};
      dst in t && t[dst] == s[src] && src !in t && KeptBut(s, t, src, dst)
  {
  }

  /**
   * The card as it is once its temporary images have moved: each side given as a temporary
   * upload refers to the card's own key for that side; everything else is as in `c`.
   */
  function WithMoves(c: Card, front: Option<string>, back: Option<string>): Card {
    c.(frontImage := if TempSource(front).Some? then Some(MovedKey(c.deckId, c.id, Front, TempSource(front).value))
                     else c.frontImage,
       backImage := if TempSource(back).Some? then Some(MovedKey(c.deckId, c.id, Back, TempSource(back).value))
                    else c.backImage)
  }

  /** Both sides of the move, front first. */
  function MoveImages(s: Store, c: Card, front: Option<string>, back: Option<string>): (r: Step<Card>)
    ensures r.Done? ==> r.value.id == c.id && r.value.deckId == c.deckId
    ensures r.Done? ==> r.value.frontText == c.frontText && r.value.backText == c.backText
    ensures r.Done? ==> r.value.orderIndex == c.orderIndex
    ensures r.Done? ==> (r.value.frontImage ==
      if TempSource(front).Some? then Some(MovedKey(c.deckId, c.id, Front, TempSource(front).value)) else c.frontImage)
    ensures r.Done? ==> (r.value.backImage ==
      if TempSource(back).Some? then Some(MovedKey(c.deckId, c.id, Back, TempSource(back).value)) else c.backImage)
    ensures TempSource(front).None? && TempSource(back).None? ==> r == Done(c, s)
    ensures TempSource(front).Some? && TempSource(front).value !in s ==> r == Raised(TempSource(front).value, s)
    ensures r.Done? ==> r.value == WithMoves(c, front, back)
  {
    match MoveSide(s, c, front, Front)
    case Raised(k, s1) => Raised(k, s1)
    case Done(c1, s1) => MoveSide(s1, c1, back, Back)
  }

  /**
   * `update_card`: the fields given are merged in, then each given image that refers to a
   * temporary upload is moved to the card's key.
   */
  function UpdateCard(s: Store, c: Card, p: Patch): (r: Step<Card>)
    ensures r.Done? ==> r.value.id == c.id && r.value.deckId == c.deckId
    ensures r.Done? ==> var m := Merge(c, p);
      r.value.frontText == m.frontText && r.value.backText == m.backText && r.value.orderIndex == m.orderIndex
    ensures r.Done? ==> (r.value.frontImage ==
      if TempSource(p.frontImage).Some? then Some(MovedKey(c.deckId, c.id, Front, TempSource(p.frontImage).value))
      else Merge(c, p).frontImage)
    ensures r.Done? ==> (r.value.backImage ==
      if TempSource(p.backImage).Some? then Some(MovedKey(c.deckId, c.id, Back, TempSource(p.backImage).value))
      else Merge(c, p).backImage)
    ensures TempSource(p.frontImage).None? && TempSource(p.backImage).None? ==> r == Done(Merge(c, p), s)
    ensures r.Done? ==> r.value == WithMoves(Merge(c, p), p.frontImage, p.backImage)
  {
    MoveImages(s, Merge(c, p), p.frontImage, p.backImage)
  }

  /**
   * A temporary upload given to an update ends up under the card's key with its content, and the
   * temporary object is gone; so sending the same update again raises, since its source is missing.
   */
  lemma {:induction false} UpdateMovesUpload(s: Store, c: Card, url: string)
    requires TempSource(Some(url)).Some? && TempSource(Some(url)).value in s
    ensures var p := Patch(None, None, Some(url), None, None);
      var src := TempSource(Some(url)).value;
      var dst := MovedKey(c.deckId, c.id, Front, src);
      var r := UpdateCard(s, c, p);
      && r.Done? && r.value.frontImage == Some(dst) && dst in r.store && r.store[dst] == s[src]
      && src !in r.store
      && UpdateCard(r.store, r.value, p) == Raised(src, r.store)
  {
    var p := Patch(None, None, Some(url), None, None);
    var src := TempSource(Some(url)).value;
    var m := Merge(c, p);
    var r1 := MoveSide(s, m, p.frontImage, Front);
    assert r1.Done?;
    var r := UpdateCard(s, c, p);
    assert r == r1;
    assert Merge(r.value, p).frontImage == Some(url);
  }

  // ---------------------------------------------------------------- bulk

  /** `SCardBulkItem`; a `to_delete` of `None` is as falsy as `False`. */
  datatype BulkItem = BulkItem(id: Option<int>, frontText: Option<string>, frontImage: Option<string>,
                               backText: Option<string>, backImage: Option<string>,
                               orderIndex: Option<int>, toDelete: bool)

  /** `if item.id`: a missing id and id 0 are both falsy. */
  predicate HasId(it: BulkItem) {
    it.id.Some? && it.id.value != 0
  }

  /** `not text`: a missing text and the empty text are both falsy. */
  predicate Blank(t: Option<string>) {
    t.None? || t.value == ""
  }

  /** Why an item of the bulk request is refused. */
  datatype BulkProblem = DeleteWithoutId | CardNotFound(id: int) | CardOfOtherDeck(id: int, deck: int) | TextsMissing

  /** The message each problem is reported with. */
  function Message(p: BulkProblem): string {
    match p
    case DeleteWithoutId => "to_delete requires id"
    case CardNotFound(id) => "card " + IntToString(id) + " not found"
    case CardOfOtherDeck(id, deck) => "card " + IntToString(id) + " does not belong to deck " + IntToString(deck)
    case TextsMissing => "front_text and back_text are required for creation"
  }

  /** One entry of the error list: `{"index": str(idx), "error": message}`, the message as `Message(problem)`. */
  datatype BulkError = BulkError(index: nat, problem: BulkProblem)

  /**
   * The check of item `idx` in the validation loop of `bulk_upsert_delete_cards`. Deletes and
   * updates need an id naming a card of this deck; creates need both texts.
   */
  function ItemError(idx: nat, it: BulkItem, db: map<int, Card>, deck: int): (r: Option<BulkError>)
    ensures r.Some? ==> r.value.index == idx
    ensures r.None? <==>
      if HasId(it) then it.id.value in db && db[it.id.value].deckId == deck
      else !it.toDelete && !Blank(it.frontText) && !Blank(it.backText)
  {
    if it.toDelete && !HasId(it) then Some(BulkError(idx, DeleteWithoutId))
    else if HasId(it) then
      var id := it.id.value;
      if id !in db then Some(BulkError(idx, CardNotFound(id)))
      else if db[id].deckId != deck then Some(BulkError(idx, CardOfOtherDeck(id, deck)))
      else None
    else if Blank(it.frontText) || Blank(it.backText) then
      Some(BulkError(idx, TextsMissing))
    else None
  }

  /** The errors of items `from..`, in item order. */
  function Errors(items: seq<BulkItem>, db: map<int, Card>, deck: int, from: nat): (r: seq<BulkError>)
    requires from <= |items|
    ensures forall k :: 0 <= k < |r| ==>
      from <= r[k].index < |items| && ItemError(r[k].index, items[r[k].index], db, deck) == Some(r[k])
    ensures forall k, l :: 0 <= k < l < |r| ==> r[k].index < r[l].index
    ensures r == [] <==> forall i :: from <= i < |items| ==> ItemError(i, items[i], db, deck).None?
    decreases |items| - from
  {
    if from == |items| then []
    else
      var rest := Errors(items, db, deck, from + 1);
      var e := ItemError(from, items[from], db, deck);
      if e.None? then rest else [e.value] + rest
  }

  /** Every item that fails its check has an entry in the error list. */
  lemma {:induction false} ErrorsComplete(items: seq<BulkItem>, db: map<int, Card>, deck: int, from: nat, i: nat)
    requires from <= i < |items| && ItemError(i, items[i], db, deck).Some?
    ensures exists k :: 0 <= k < |Errors(items, db, deck, from)| && Errors(items, db, deck, from)[k].index == i
    decreases |items| - from
  {
    var r := Errors(items, db, deck, from);
    var rest := Errors(items, db, deck, from + 1);
    match ItemError(from, items[from], db, deck)
    case None =>
      assert r == rest;
      ErrorsComplete(items, db, deck, from + 1, i);
    case Some(e) =>
      assert r == [e] + rest;
      if from == i {
        assert r[0].index == i;
      } else {
        ErrorsComplete(items, db, deck, from + 1, i);
        var k :| 0 <= k < |rest| && rest[k].index == i;
        assert r[k + 1] == rest[k];
      }
  }

  /** The database side of the bulk operation: the cards and the next autoincrement id. */
  datatype World = World(cards: map<int, Card>, nextId: int)

  /** Every row is stored under its own id, below the next id to be handed out. */
  predicate WellKeyed(w: World) {
    forall k :: k in w.cards ==> w.cards[k].id == k && k < w.nextId
  }

  /** The update fields of an item. */
  function PatchOf(it: BulkItem): Patch {
    Patch(it.frontText, it.backText, it.frontImage, it.backImage, it.orderIndex)
  }

  /** An item that creates a card: not a delete, and no id. */
  predicate IsCreate(it: BulkItem) {
    !it.toDelete && !HasId(it)
  }

  /** The card an update item leaves: its fields merged into `c`, then its uploads moved. */
  function Updated(c: Card, it: BulkItem): Card {
    WithMoves(Merge(c, PatchOf(it)), it.frontImage, it.backImage)
  }

  /** The card a create item makes under `id`: `create_card`'s row, then its uploads moved. */
  function Created(id: int, deck: int, it: BulkItem): Card {
    WithMoves(NewCard(id, deck, it.frontText.GetOr(""), it.backText.GetOr(""), it.frontImage, it.backImage,
                      it.orderIndex),
              it.frontImage, it.backImage)
  }

  /** The cards of other decks in `before` are still there, unchanged, in `after`. */
  predicate OtherDecksKept(before: map<int, Card>, after: map<int, Card>, deck: int) {
    forall k :: k in before && before[k].deckId != deck ==> k in after && after[k] == before[k]
  }

  /**
   * Why the apply loop stopped: `copy_object` found no source object, or `update_card` flushed and
   * refreshed a card that an earlier item of the same request had deleted.
   */
  datatype Halt = MissingObject(key: string) | DeletedRow(id: int)

  /** The apply loop ran to the end, or stopped with the store as it was then. */
  datatype Run = Ran(world: World, store: Store) | Halted(halt: Halt, store: Store)

  /**
   * One item of the apply loop of `bulk_upsert_delete_cards`. `fetched` is `id_to_card`, read
   * before the loop. Its entries are the session's live objects: an update changes the card as
   * earlier items left it, and a delete removes the row while the object stays in `id_to_card`.
   * Updating such a deleted object still makes `update_card`'s image moves, then its flush and
   * refresh raise. `moveTwice` selects the update branch as written, which repeats the image
   * moves `update_card` has already made.
   */
  function ApplyItem(w: World, s: Store, fetched: map<int, Card>, deck: int, it: BulkItem, moveTwice: bool)
    : (r: Run)
    requires WellKeyed(w)
    requires HasId(it) ==> it.id.value in fetched && fetched[it.id.value].id == it.id.value
    requires HasId(it) ==> fetched[it.id.value].deckId == deck
    requires forall k :: k in fetched ==> k < w.nextId
    ensures r.Ran? ==> r.world.nextId >= w.nextId && WellKeyed(r.world)
    ensures r.Ran? && OtherDecksKept(fetched, w.cards, deck) ==> OtherDecksKept(fetched, r.world.cards, deck)
    ensures r.Ran? && it.toDelete ==>
      r.world == if HasId(it) then w.(cards := w.cards - {it.id.value}) else w
    ensures r.Ran? && !it.toDelete && HasId(it) ==>
      it.id.value in w.cards && r.world == w.(cards := w.cards[it.id.value := Updated(w.cards[it.id.value], it)])
    ensures r.Ran? && IsCreate(it) ==>
      r.world == World(w.cards[w.nextId := Created(w.nextId, deck, it)], w.nextId + 1)
    ensures !it.toDelete && HasId(it) && it.id.value !in w.cards ==>
      r.Halted? && (r.halt.DeletedRow? ==> r.halt.id == it.id.value)
    ensures it.toDelete || (!HasId(it) && TempSource(it.frontImage).None? && TempSource(it.backImage).None?) ==> r.Ran?
  {
    if it.toDelete then
      Ran(if HasId(it) then w.(cards := w.cards - {it.id.value}) else w, s)
    else if HasId(it) then
      var id := it.id.value;
      if id !in w.cards then
        match UpdateCard(s, fetched[id], PatchOf(it))
        case Raised(k, s1) => Halted(MissingObject(k), s1)
        case Done(_, s1) => Halted(DeletedRow(id), s1)
      else
        match UpdateCard(s, w.cards[id], PatchOf(it))
        case Raised(k, s1) => Halted(MissingObject(k), s1)
        case Done(u, s1) =>
          if !moveTwice then Ran(w.(cards := w.cards[id := u]), s1)
          else
            match MoveImages(s1, u, it.frontImage, it.backImage)
            case Raised(k, s2) => Halted(MissingObject(k), s2)
            case Done(v, s2) => Ran(w.(cards := w.cards[id := v]), s2)
    else
      var c := NewCard(w.nextId, deck, it.frontText.GetOr(""), it.backText.GetOr(""),
                       it.frontImage, it.backImage, it.orderIndex);
      match MoveImages(s, c, it.frontImage, it.backImage)
      case Raised(k, s1) => Halted(MissingObject(k), s1)
      case Done(v, s1) => Ran(World(w.cards[v.id := v], w.nextId + 1), s1)
  }

  /** The apply loop over `items`, stopping at the first item that raises. */
  function ApplyAll(w: World, s: Store, fetched: map<int, Card>, deck: int, items: seq<BulkItem>, moveTwice: bool)
    : (r: Run)
    requires WellKeyed(w)
    requires forall i :: 0 <= i < |items| && HasId(items[i]) ==>
      items[i].id.value in fetched && fetched[items[i].id.value].id == items[i].id.value
      && fetched[items[i].id.value].deckId == deck
    requires forall k :: k in fetched ==> k < w.nextId
    ensures r.Ran? ==> r.world.nextId >= w.nextId && WellKeyed(r.world)
    ensures r.Ran? && OtherDecksKept(fetched, w.cards, deck) ==> OtherDecksKept(fetched, r.world.cards, deck)
    decreases |items|
  {
    if items == [] then Ran(w, s)
    else
      match ApplyItem(w, s, fetched, deck, items[0], moveTwice)
      case Halted(h, s1) => Halted(h, s1)
      case Ran(w1, s1) => ApplyAll(w1, s1, fetched, deck, items[1..], moveTwice)
  }

  // ---------------------------------------------------------------- what an applied request does

  /** Item `it` deletes or updates card `k`. */
  predicate NamesCard(it: BulkItem, k: int) {
    HasId(it) && it.id.value == k
  }

  /** Item `it` deletes card `k`. */
  predicate IsDeleteOf(it: BulkItem, k: int) {
    NamesCard(it, k) && it.toDelete
  }

  /** Item `it` updates card `k`. */
  predicate IsUpdateOf(it: BulkItem, k: int) {
    NamesCard(it, k) && !it.toDelete
  }

  /** Some item of the request deletes card `k`. */
  predicate Deletes(items: seq<BulkItem>, k: int)
    ensures Deletes(items, k) <==> exists i :: 0 <= i < |items| && IsDeleteOf(items[i], k)
    decreases |items|
  {
    if items == [] then false
    else
      assert forall i :: 1 <= i < |items| ==> items[i] == items[1..][i - 1];
      IsDeleteOf(items[0], k) || Deletes(items[1..], k)
  }

  /** The updates of card `k` in the request, in request order. */
  function UpdatesOf(items: seq<BulkItem>, k: int): (r: seq<BulkItem>)
    ensures forall j :: 0 <= j < |r| ==> IsUpdateOf(r[j], k)
    ensures r == [] <==> forall i :: 0 <= i < |items| ==> !IsUpdateOf(items[i], k)
    decreases |items|
  {
    if items == [] then []
    else
      assert forall i :: 1 <= i < |items| ==> items[i] == items[1..][i - 1];
      (if IsUpdateOf(items[0], k) then [items[0]] else []) + UpdatesOf(items[1..], k)
  }

  /** The updates of card `k` that come after some delete of `k`, in request order. */
  function UpdatesAfterDelete(items: seq<BulkItem>, k: int): (r: seq<BulkItem>)
    ensures r != [] ==> Deletes(items, k)
    ensures forall j :: 0 <= j < |r| ==> IsUpdateOf(r[j], k)
    decreases |items|
  {
    if items == [] then []
    else if IsDeleteOf(items[0], k) then UpdatesOf(items[1..], k)
    else UpdatesAfterDelete(items[1..], k)
  }

  /** Card `c` with the update items `us` applied one after another, each to the card the last one left. */
  function ApplyUpdates(c: Card, us: seq<BulkItem>): Card
    decreases |us|
  {
    if us == [] then c else ApplyUpdates(Updated(c, us[0]), us[1..])
  }

  /** The fields of the update items `us` as one patch, a later item's fields winning. */
  function Combined(us: seq<BulkItem>): Patch
    decreases |us|
  {
    if us == [] then EmptyPatch else Then(PatchOf(us[0]), Combined(us[1..]))
  }

  /** Updates that carry no upload act on a card as one update in which the later fields win. */
  lemma {:induction false} UpdatesCombine(c: Card, us: seq<BulkItem>)
    requires forall j :: 0 <= j < |us| ==> TempSource(us[j].frontImage).None? && TempSource(us[j].backImage).None?
    ensures ApplyUpdates(c, us) == Merge(c, Combined(us))
    decreases |us|
  {
    if us == [] {
      MergeLaws(c, EmptyPatch, EmptyPatch);
    } else {
      assert forall j :: 0 <= j < |us[1..]| ==> us[1..][j] == us[j + 1];
      UpdatesCombine(Merge(c, PatchOf(us[0])), us[1..]);
      MergeLaws(c, PatchOf(us[0]), Combined(us[1..]));
    }
  }

  /** The create items, in request order. */
  function Creates(items: seq<BulkItem>): seq<BulkItem>
    decreases |items|
  {
    if items == [] then [] else (if IsCreate(items[0]) then [items[0]] else []) + Creates(items[1..])
  }

  /**
   * Card `k` of `before` is, in `after`, as the request's items naming it leave it: no update of
   * `k` comes after a delete of `k`, nor names a card that is not there; a deleted card is gone;
   * and a card that is not deleted is there exactly when it was, holding every update of it
   * applied in request order.
   */
  predicate CardAsRequested(before: World, items: seq<BulkItem>, after: World, k: int) {
    && UpdatesAfterDelete(items, k) == []
    && (k !in before.cards ==> UpdatesOf(items, k) == [])
    && (Deletes(items, k) ==> k !in after.cards)
    && (!Deletes(items, k) ==>
          && (k in after.cards <==> k in before.cards)
          && (k in before.cards ==> after.cards[k] == ApplyUpdates(before.cards[k], UpdatesOf(items, k))))
  }

  /** The `j`-th create item's card is in `after` under the `j`-th new id. */
  predicate CreatedAsRequested(before: World, deck: int, items: seq<BulkItem>, after: World, j: nat)
    requires j < |Creates(items)|
  {
    before.nextId + j in after.cards && after.cards[before.nextId + j] == Created(before.nextId + j, deck, Creates(items)[j])
  }

  /**
   * `after` is `before` with the request applied, card by card, as `CardAsRequested` says for
   * every existing id; the create items add new cards under the next ids, in request order; and
   * no other card exists.
   */
  ghost predicate AppliedAsRequested(before: World, deck: int, items: seq<BulkItem>, after: World) {
    && after.nextId == before.nextId + |Creates(items)|
    && (forall k :: k < before.nextId ==> CardAsRequested(before, items, after, k))
    && (forall j :: 0 <= j < |Creates(items)| ==> CreatedAsRequested(before, deck, items, after, j))
    && WellKeyed(after)
  }

  /** The apply loop, when it runs to the end, applies the request as stated by `AppliedAsRequested`. */
  lemma {:induction false} ApplyAllEffect(w: World, s: Store, fetched: map<int, Card>, deck: int, items: seq<BulkItem>,
                                          moveTwice: bool)
    requires WellKeyed(w)
    requires forall i :: 0 <= i < |items| && HasId(items[i]) ==>
      items[i].id.value in fetched && fetched[items[i].id.value].id == items[i].id.value
      && fetched[items[i].id.value].deckId == deck
    requires forall k :: k in fetched ==> k < w.nextId
    ensures var r := ApplyAll(w, s, fetched, deck, items, moveTwice);
      r.Ran? ==> AppliedAsRequested(w, deck, items, r.world)
    decreases |items|
  {
    if items != [] {
      var it := items[0];
      var rest := items[1..];
      assert items == [it] + rest;
      match ApplyItem(w, s, fetched, deck, it, moveTwice)
      case Halted(_, _) =>
      case Ran(w1, s1) =>
        assert forall i :: 0 <= i < |rest| ==> rest[i] == items[i + 1];
        ApplyAllEffect(w1, s1, fetched, deck, rest, moveTwice);
        var r := ApplyAll(w1, s1, fetched, deck, rest, moveTwice);
        if r.Ran? {
          assert Creates(items) == (if IsCreate(it) then [it] else []) + Creates(rest);
          forall k | k < w.nextId ensures CardAsRequested(w, items, r.world, k) {
            KeyStep(w, w1, deck, it, rest, r.world, k);
          }
          forall j | 0 <= j < |Creates(items)| ensures CreatedAsRequested(w, deck, items, r.world, j) {
            CreateStep(w, w1, fetched, deck, it, rest, r.world, j);
          }
        }
    }
  }

  /** How one item in front of `rest` turns `w` into `w1`. */
  predicate ItemStep(w: World, w1: World, deck: int, it: BulkItem) {
    && (it.toDelete ==> w1 == if HasId(it) then w.(cards := w.cards - {it.id.value}) else w)
    && (!it.toDelete && HasId(it) ==>
          it.id.value in w.cards && w1 == w.(cards := w.cards[it.id.value := Updated(w.cards[it.id.value], it)]))
    && (IsCreate(it) ==> w1 == World(w.cards[w.nextId := Created(w.nextId, deck, it)], w.nextId + 1))
  }

  /** An existing card after one more item in front of the request. */
  lemma {:induction false} KeyStep(w: World, w1: World, deck: int, it: BulkItem, rest: seq<BulkItem>, after: World,
                                   k: int)
    requires k < w.nextId
    requires ItemStep(w, w1, deck, it)
    requires k < w1.nextId ==> CardAsRequested(w1, rest, after, k)
    requires w1.nextId >= w.nextId
    ensures CardAsRequested(w, [it] + rest, after, k)
  {
    var items := [it] + rest;
    assert items[0] == it && items[1..] == rest;
    var us := UpdatesOf(rest, k);
    if IsUpdateOf(it, k) {
      assert UpdatesOf(items, k) == [it] + us;
      assert ([it] + us)[0] == it && ([it] + us)[1..] == us;
      assert ApplyUpdates(w.cards[k], [it] + us) == ApplyUpdates(w1.cards[k], us);
    } else {
      assert UpdatesOf(items, k) == us;
    }
  }

  /** A created card after one more item in front of the request. */
  lemma {:induction false} CreateStep(w: World, w1: World, fetched: map<int, Card>, deck: int, it: BulkItem,
                                      rest: seq<BulkItem>, after: World, j: nat)
    requires WellKeyed(w) && ItemStep(w, w1, deck, it)
    requires forall k :: k in fetched ==> k < w.nextId
    requires forall i :: 0 <= i < |rest| && HasId(rest[i]) ==> rest[i].id.value in fetched
    requires AppliedAsRequested(w1, deck, rest, after)
    requires j < |Creates([it] + rest)|
    ensures CreatedAsRequested(w, deck, [it] + rest, after, j)
  {
    var items := [it] + rest;
    assert items[0] == it && items[1..] == rest;
    assert Creates(items) == (if IsCreate(it) then [it] else []) + Creates(rest);
    if IsCreate(it) {
      if j == 0 {
        assert forall i :: 0 <= i < |rest| ==> !NamesCard(rest[i], w.nextId);
        assert !Deletes(rest, w.nextId) && UpdatesOf(rest, w.nextId) == [];
        assert CardAsRequested(w1, rest, after, w.nextId);
      } else {
        assert Creates(items)[j] == Creates(rest)[j - 1];
        assert CreatedAsRequested(w1, deck, rest, after, j - 1);
      }
    } else {
      assert CreatedAsRequested(w1, deck, rest, after, j);
    }
  }

  /** The outcome of `bulk_upsert_delete_cards`. */
  datatype BulkOutcome =
    | Rejected(errors: seq<BulkError>)
    | Applied(world: World, store: Store)
    | Stopped(halt: Halt, store: Store)

  /** The bulk operation, with the update branch's image moves made once or, as written, twice. */
  function BulkWith(w: World, s: Store, deck: int, items: seq<BulkItem>, moveTwice: bool): (r: BulkOutcome)
    requires WellKeyed(w)
    ensures r.Rejected? <==> Errors(items, w.cards, deck, 0) != []
    ensures r.Rejected? ==> r.errors == Errors(items, w.cards, deck, 0)
    ensures r.Applied? ==> OtherDecksKept(w.cards, r.world.cards, deck)
    ensures r.Applied? ==> AppliedAsRequested(w, deck, items, r.world)
    ensures Errors(items, w.cards, deck, 0) == [] && (exists k :: UpdatesAfterDelete(items, k) != []) ==> r.Stopped?
  {
    var errors := Errors(items, w.cards, deck, 0);
    if errors != [] then Rejected(errors)
    else
      assert forall i :: 0 <= i < |items| ==> ItemError(i, items[i], w.cards, deck).None?;
      ApplyAllEffect(w, s, w.cards, deck, items, moveTwice);
      match ApplyAll(w, s, w.cards, deck, items, moveTwice)
      case Halted(h, s1) => Stopped(h, s1)
      case Ran(w1, s1) =>
        forall k ensures UpdatesAfterDelete(items, k) == [] {
          if Deletes(items, k) {
            var i :| 0 <= i < |items| && IsDeleteOf(items[i], k);
            assert ItemError(i, items[i], w.cards, deck).None?;
            assert CardAsRequested(w, items, w1, k);
          }
        }
        Applied(w1, s1)
  }

  /** `bulk_upsert_delete_cards` as written: an updated card's temporary images are moved twice. */
  function BulkAsWritten(w: World, s: Store, deck: int, items: seq<BulkItem>): (r: BulkOutcome)
    requires WellKeyed(w)
    ensures r.Rejected? <==> Errors(items, w.cards, deck, 0) != []
    ensures r.Applied? ==> OtherDecksKept(w.cards, r.world.cards, deck)
  {
    BulkWith(w, s, deck, items, true)
  }

  /**
   * `bulk_upsert_delete_cards` as evidently intended: the update branch relies on `update_card`
   * for the image moves. All or nothing with respect to the check: a rejected request changes
   * nothing, and an applied one leaves every card of another deck exactly as it was. A request
   * that updates a card after deleting it is never applied.
   */
  function Bulk(w: World, s: Store, deck: int, items: seq<BulkItem>): (r: BulkOutcome)
    requires WellKeyed(w)
    ensures r.Rejected? <==> exists i :: 0 <= i < |items| && ItemError(i, items[i], w.cards, deck).Some?
    ensures r.Rejected? ==> r.errors == Errors(items, w.cards, deck, 0)
    ensures r.Applied? ==> OtherDecksKept(w.cards, r.world.cards, deck)
    ensures r.Applied? ==> AppliedAsRequested(w, deck, items, r.world)
    ensures Errors(items, w.cards, deck, 0) == [] && (exists k :: UpdatesAfterDelete(items, k) != []) ==> r.Stopped?
  {
    BulkWith(w, s, deck, items, false)
  }

  /** An update of card `id` giving only the front text, or only the back text. */
  function TextUpdate(id: int, front: Option<string>, back: Option<string>): BulkItem {
    BulkItem(Some(id), front, None, back, None, None, false)
  }

  /** A delete of card `id`. */
  function DeleteItem(id: int): BulkItem {
    BulkItem(Some(id), None, None, None, None, None, true)
  }

  /**
   * Two updates of the same card in one request both take effect: the second changes the card
   * the first one left, so the card ends with the first's front and the second's back text.
   */
  lemma {:induction false} RepeatedUpdatesAccumulate(w: World, s: Store, deck: int, id: int)
    requires WellKeyed(w)
    requires id != 0 && id in w.cards && w.cards[id].deckId == deck
    ensures var r := Bulk(w, s, deck, [TextUpdate(id, Some("A"), None), TextUpdate(id, None, Some("B"))]);
      && r.Applied? && id in r.world.cards
      && r.world.cards[id].frontText == "A" && r.world.cards[id].backText == "B"
      && r.world.cards[id].frontImage == w.cards[id].frontImage && r.world.cards[id].backImage == w.cards[id].backImage
  {
    var a, b := TextUpdate(id, Some("A"), None), TextUpdate(id, None, Some("B"));
    var items := [a, b];
    assert ItemError(0, a, w.cards, deck).None? && ItemError(1, b, w.cards, deck).None?;
    assert Errors(items, w.cards, deck, 2) == [];
    assert Errors(items, w.cards, deck, 1) == [];
    var w1 := w.(cards := w.cards[id := Merge(w.cards[id], PatchOf(a))]);
    var w2 := w1.(cards := w1.cards[id := Merge(w1.cards[id], PatchOf(b))]);
    assert ApplyItem(w, s, w.cards, deck, a, false) == Ran(w1, s);
    assert ApplyItem(w1, s, w.cards, deck, b, false) == Ran(w2, s);
    assert items[1..] == [b] && [b][1..] == [];
    assert ApplyAll(w2, s, w.cards, deck, [], false) == Ran(w2, s);
    assert ApplyAll(w1, s, w.cards, deck, [b], false) == Ran(w2, s);
    assert ApplyAll(w, s, w.cards, deck, items, false) == Ran(w2, s);
  }

  /**
   * An update of a card that an earlier item of the same request deleted stops the request: the
   * refresh of the deleted row raises, and the endpoint answers 500.
   */
  lemma {:induction false} UpdateAfterDeleteStops(w: World, s: Store, deck: int, id: int)
    requires WellKeyed(w)
    requires id != 0 && id in w.cards && w.cards[id].deckId == deck
    ensures Bulk(w, s, deck, [DeleteItem(id), TextUpdate(id, Some("A"), None)]) == Stopped(DeletedRow(id), s)
  {
    var d, a := DeleteItem(id), TextUpdate(id, Some("A"), None);
    var items := [d, a];
    assert ItemError(0, d, w.cards, deck).None? && ItemError(1, a, w.cards, deck).None?;
    assert Errors(items, w.cards, deck, 2) == [];
    assert Errors(items, w.cards, deck, 1) == [];
    var w1 := w.(cards := w.cards - {id});
    assert ApplyItem(w, s, w.cards, deck, d, false) == Ran(w1, s);
    assert ApplyItem(w1, s, w.cards, deck, a, false) == Halted(DeletedRow(id), s);
    assert items[1..] == [a];
    assert ApplyAll(w, s, w.cards, deck, items, false) == Halted(DeletedRow(id), s);
  }

  /** A bulk update carrying one temporary image for a card of the deck. */
  function UpdateWithUpload(id: int, url: string): BulkItem {
    BulkItem(Some(id), None, Some(url), None, None, None, false)
  }

  /**
   * As written, a bulk update that attaches an uploaded image raises: `update_card` has already
   * moved the upload, so the second copy finds no source object.
   */
  lemma {:induction false} BulkUpdateMovesTwice(w: World, s: Store, deck: int, id: int, url: string)
    requires WellKeyed(w)
    requires id != 0 && id in w.cards && w.cards[id].deckId == deck
    requires TempSource(Some(url)).Some? && TempSource(Some(url)).value in s
    ensures var r := BulkAsWritten(w, s, deck, [UpdateWithUpload(id, url)]);
      r.Stopped? && r.halt == MissingObject(TempSource(Some(url)).value)
  {
    var it := UpdateWithUpload(id, url);
    var src := TempSource(Some(url)).value;
    SingleUpdatePasses(w, deck, id, url);
    UpdateMovesUpload(s, w.cards[id], url);
    var u := UpdateCard(s, w.cards[id], PatchOf(it));
    assert MoveImages(u.store, u.value, it.frontImage, it.backImage) == Raised(src, u.store);
    assert ApplyItem(w, s, w.cards, deck, it, true) == Halted(MissingObject(src), u.store);
    assert ApplyAll(w, s, w.cards, deck, [it], true) == Halted(MissingObject(src), u.store);
    assert BulkWith(w, s, deck, [it], true) == Stopped(MissingObject(src), u.store);
  }

  /** The corrected bulk operation applies the same request and stores the image under the card's key. */
  lemma {:induction false} BulkUpdateMovesOnce(w: World, s: Store, deck: int, id: int, url: string)
    requires WellKeyed(w)
    requires id != 0 && id in w.cards && w.cards[id].deckId == deck
    requires TempSource(Some(url)).Some? && TempSource(Some(url)).value in s
    ensures var src := TempSource(Some(url)).value;
      var r := Bulk(w, s, deck, [UpdateWithUpload(id, url)]);
      && r.Applied? && id in r.world.cards
      && r.world.cards[id].frontImage == Some(MovedKey(deck, id, Front, src))
      && MovedKey(deck, id, Front, src) in r.store && r.store[MovedKey(deck, id, Front, src)] == s[src]
  {
    var it := UpdateWithUpload(id, url);
    SingleUpdatePasses(w, deck, id, url);
    UpdateMovesUpload(s, w.cards[id], url);
    SingleUpdateApplies(w, s, deck, it);
  }

  /** A checked request of one update whose moves succeed stores the updated card and the moved objects. */
  lemma {:induction false} SingleUpdateApplies(w: World, s: Store, deck: int, it: BulkItem)
    requires WellKeyed(w) && Errors([it], w.cards, deck, 0) == []
    requires HasId(it) && !it.toDelete && it.id.value in w.cards
    requires UpdateCard(s, w.cards[it.id.value], PatchOf(it)).Done?
    ensures var u := UpdateCard(s, w.cards[it.id.value], PatchOf(it));
      Bulk(w, s, deck, [it]) == Applied(w.(cards := w.cards[it.id.value := u.value]), u.store)
  {
    var id := it.id.value;
    var u := UpdateCard(s, w.cards[id], PatchOf(it));
    var w1 := w.(cards := w.cards[id := u.value]);
    assert ItemError(0, it, w.cards, deck).None?;
    assert [it][1..] == [];
    assert ApplyItem(w, s, w.cards, deck, it, false) == Ran(w1, u.store);
    assert ApplyAll(w1, u.store, w.cards, deck, [], false) == Ran(w1, u.store);
    assert ApplyAll(w, s, w.cards, deck, [it], false) == Ran(w1, u.store);
  }

  /** An update of a card of the deck passes the bulk check. */
  lemma {:induction false} SingleUpdatePasses(w: World, deck: int, id: int, url: string)
    requires id != 0 && id in w.cards && w.cards[id].deckId == deck
    ensures Errors([UpdateWithUpload(id, url)], w.cards, deck, 0) == []
  {
    var items := [UpdateWithUpload(id, url)];
    assert ItemError(0, items[0], w.cards, deck).None?;
    assert Errors(items, w.cards, deck, 1) == [];
  }
}

=== FILE: consumer.dfy ===
/**
 * The Kafka consumer loop of the events collector (consumer/consumer.py).
 *
 * One consumer owns one buffer per registered table and a map of pending watermarks
 * (topic, partition) -> highest processed offset. Each loop iteration is one `Input`: a poll
 * result, or the shutdown signal. Time, the ClickHouse outcome of every insert and the broker's
 * answer to a synchronous commit are inputs: `failing` names the tables whose inserts raise
 * during that iteration, and whether its commit raises.
 *
 * The commit rule is a parameter. `AsWritten` is the source's rule: commit every pending
 * watermark after any flush. `DrainBeforeCommit` is the corrected rule: flush every non-empty
 * buffer first and commit only when that succeeded (see the README's findings).
 */
module Consumer {
  import opened Wrappers
  import opened Mappers
  import opened Registry
  import opened BatchBuffers

  datatype TopicPartition = TopicPartition(topic: string, partition: int)

  /** The envelope fields the consumer reads after validation. */
  datatype Envelope = Envelope(event_id: int, occured_at: Timestamp)

  /**
   * A message value as the consumer sees it.
   * `envelope` is None when the envelope does not validate; `payload` is the payload validated as
   * its own event class, or None when it validates as none: validation against a registered
   * schema succeeds exactly when the payload is of that schema's class.
   */
  datatype RawEvent =
    | NotJson
    | MissingKey
    | RawEvent(eventType: string, eventVersion: int, envelope: Option<Envelope>, payload: Option<Payload>)

  datatype ParseError = InvalidEnvelope | InvalidPayload

  /** `parse_envelope_and_payload`: envelope first, then the payload against `schema`. */
  function ParseEnvelopeAndPayload(raw: RawEvent, schema: EventKind): (r: Result<(Envelope, Payload), ParseError>)
    requires raw.RawEvent?
    ensures r.Success? <==> raw.envelope.Some? && raw.payload.Some? && KindOf(raw.payload.value) == schema
    ensures r.Success? ==> r.value == (raw.envelope.value, raw.payload.value)
    ensures raw.envelope.None? ==> r == Failure(InvalidEnvelope)
  {
    match raw.envelope
    case None => Failure(InvalidEnvelope)
    case Some(env) =>
      match raw.payload
      case None => Failure(InvalidPayload)
      case Some(p) => if KindOf(p) == schema then Success((env, p)) else Failure(InvalidPayload)
  }

  datatype Message = Message(tp: TopicPartition, offset: nat, value: RawEvent)

  /** What `poll` returned. */
  datatype Polled = NoMessage | PartitionEof | KafkaFailure | Delivered(msg: Message)

  /** The calls that raise during one iteration: the inserts into these tables, and the commit if `commit`. */
  datatype Faults = Faults(inserts: set<string>, commit: bool)

  const NoFaults := Faults({}, false)

  /** One loop iteration: a poll at time `now`, or the shutdown signal observed at the loop head. */
  datatype Input =
    | Poll(now: real, failing: Faults, polled: Polled)
    | Shutdown(now: real, failing: Faults)

  /** Observable effects, in order. A commit carries the offsets it commits (watermark + 1). */
  datatype Effect =
    | Inserted(insert: Insert)
    | InsertFailed(insert: Insert)
    | Committed(offsets: map<TopicPartition, int>)
    | CommitFailed(offsets: map<TopicPartition, int>)
    | Closed

  datatype CommitPolicy = AsWritten | DrainBeforeCommit

  datatype State = State(buffers: seq<Buffer>, pending: map<TopicPartition, int>)

  /** The result of a step: the new state, its effects, and whether it raised. */
  datatype Step = Step(st: State, effects: seq<Effect>, raised: bool)

  /** One buffer per registered table, in registry order, each consistent. */
  predicate WellFormed(s: State) {
    && |s.buffers| == |Tables()|
    && forall i :: 0 <= i < |s.buffers| ==> s.buffers[i].table == Tables()[i] && Valid(s.buffers[i])
  }

  predicate AllEmpty(s: State) {
    forall i :: 0 <= i < |s.buffers| ==> s.buffers[i].rows == []
  }

  predicate HasCommit(effects: seq<Effect>) {
    exists j :: 0 <= j < |effects| && effects[j].Committed?
  }

  /** Effects of flushing alone: inserts that succeeded or raised. */
  predicate OnlyInserts(effects: seq<Effect>) {
    forall j :: 0 <= j < |effects| ==> effects[j].Inserted? || effects[j].InsertFailed?
  }

  lemma OnlyInsertsConcat(a: seq<Effect>, b: seq<Effect>)
    requires OnlyInserts(a) && OnlyInserts(b)
    ensures OnlyInserts(a + b)
  {
    assert forall j :: |a| <= j < |a + b| ==> (a + b)[j] == b[j - |a|];
  }

  lemma HasCommitConcat(a: seq<Effect>, b: seq<Effect>)
    ensures HasCommit(a + b) <==> HasCommit(a) || HasCommit(b)
  {
    if HasCommit(a) {
      var j :| 0 <= j < |a| && a[j].Committed?;
      assert (a + b)[j] == a[j];
    }
    if HasCommit(b) {
      var j :| 0 <= j < |b| && b[j].Committed?;
      assert (a + b)[|a| + j] == b[j];
    }
    if HasCommit(a + b) {
      var j :| 0 <= j < |a + b| && (a + b)[j].Committed?;
      if j >= |a| {
        assert b[j - |a|] == (a + b)[j];
      }
    }
  }

  lemma OnlyInsertsNoCommit(effects: seq<Effect>)
    requires OnlyInserts(effects)
    ensures !HasCommit(effects)
  {
  }

  predicate Due(s: State, now: real) {
    exists i :: 0 <= i < |s.buffers| && ShouldFlush(s.buffers[i], now)
  }

  /** The state at the start of `run`: one empty buffer per table, nothing pending. */
  function Init(now: real): (s: State)
    ensures WellFormed(s) && AllEmpty(s) && s.pending == map[]
  {
    State(seq(|Tables()|, i requires 0 <= i < |Tables()| => New(Tables()[i], now)), map[])
  }

  /**
   * `_commit_offsets`: nothing when nothing is pending; otherwise one synchronous commit of every
   * watermark + 1. It clears the pending map, unless the broker refuses it (`fails`): then it
   * raises before the map is cleared, so those watermarks stay pending.
   */
  function Commit(s: State, fails: bool): (r: Step)
    ensures r.st.buffers == s.buffers
    ensures r.raised <==> s.pending != map[] && fails
    ensures !r.raised ==> r.st.pending == map[]
    ensures r.raised ==> r.st == s && r.effects == [CommitFailed(map tp | tp in s.pending :: s.pending[tp] + 1)]
    ensures s.pending == map[] ==> r.effects == []
    ensures s.pending != map[] && !fails ==>
      r.effects == [Committed(map tp | tp in s.pending :: s.pending[tp] + 1)]
    ensures !HasCommit(r.effects) <==> r.raised || s.pending == map[]
  {
    if s.pending == map[] then Step(s, [], false)
    else if fails then Step(s, [CommitFailed(map tp | tp in s.pending :: s.pending[tp] + 1)], true)
    else
      var e := [Committed(map tp | tp in s.pending :: s.pending[tp] + 1)];
      assert e[0].Committed?;
      Step(s.(pending := map[]), e, false)
  }

  /** The insert effect of flushing `b` successfully: one insert of all its rows, none when empty. */
  function InsertOf(b: Buffer): seq<Effect> {
    if b.rows == [] then [] else [Inserted(Insert(b.table, b.rows))]
  }

  /** One successful insert per non-empty buffer of `bs`, in buffer order. */
  function InsertsOf(bs: seq<Buffer>): seq<Effect>
    decreases |bs|
  {
    if bs == [] then [] else InsertOf(bs[0]) + InsertsOf(bs[1..])
  }

  /** The commit of every pending watermark + 1, or nothing when nothing is pending. */
  function CommitOf(pending: map<TopicPartition, int>): seq<Effect> {
    if pending == map[] then [] else [Committed(map tp | tp in pending :: pending[tp] + 1)]
  }

  /**
   * What a successful shutdown of `s` does, in order: every non-empty buffer is inserted, then
   * the pending watermarks are committed, then the consumer is closed.
   */
  function ShutdownEffects(s: State): seq<Effect> {
    InsertsOf(s.buffers) + CommitOf(s.pending) + [Closed]
  }

  /** Flushes buffer `i`; the insert succeeds unless its table is in `failing.inserts`. */
  function FlushAt(s: State, i: nat, now: real, failing: Faults): (r: Step)
    requires WellFormed(s) && i < |s.buffers|
    ensures WellFormed(r.st) && r.st.pending == s.pending && OnlyInserts(r.effects)
    ensures forall j :: 0 <= j < |s.buffers| && j != i ==> r.st.buffers[j] == s.buffers[j]
    ensures r.raised <==> s.buffers[i].rows != [] && s.buffers[i].table in failing.inserts
    ensures !r.raised ==> r.st.buffers[i].rows == [] && r.effects == InsertOf(s.buffers[i])
    ensures r.raised ==> r.st == s
  {
    var b := s.buffers[i];
    var o := Flush(b, now, b.table !in failing.inserts);
    var effects := match o.attempted
      case None => []
      case Some(ins) => [if o.raised then InsertFailed(ins) else Inserted(ins)];
    Step(s.(buffers := s.buffers[i := o.buffer]), effects, o.raised)
  }

  /**
   * `_flush_all_buffers` from buffer `i` on: flushes each buffer whose size is positive, in order,
   * stopping at the first insert that raises.
   */
  function FlushAllFrom(s: State, i: nat, now: real, failing: Faults): (r: Step)
    requires WellFormed(s) && i <= |s.buffers|
    ensures WellFormed(r.st) && r.st.pending == s.pending && OnlyInserts(r.effects)
    ensures forall j :: 0 <= j < i ==> r.st.buffers[j] == s.buffers[j]
    ensures !r.raised <==>
      forall j :: i <= j < |s.buffers| && s.buffers[j].rows != [] ==> s.buffers[j].table !in failing.inserts
    ensures !r.raised ==> forall j :: i <= j < |s.buffers| ==> r.st.buffers[j].rows == []
    ensures !r.raised ==> r.effects == InsertsOf(s.buffers[i..])
    decreases |s.buffers| - i
  {
    if i == |s.buffers| then Step(s, [], false)
    else if s.buffers[i].size > 0 then
      var f := FlushAt(s, i, now, failing);
      if f.raised then f
      else
        var t := FlushAllFrom(f.st, i + 1, now, failing);
        OnlyInsertsConcat(f.effects, t.effects);
        assert f.st.buffers[i + 1..] == s.buffers[i + 1..];
        assert s.buffers[i..] == [s.buffers[i]] + s.buffers[i + 1..];
        Step(t.st, f.effects + t.effects, t.raised)
    else
      assert s.buffers[i..] == [s.buffers[i]] + s.buffers[i + 1..];
      FlushAllFrom(s, i + 1, now, failing)
  }

  /** The body of `_flush_due_buffers` from buffer `i` on, without its final commit. */
  function FlushDueFrom(s: State, i: nat, now: real, failing: Faults): (r: Step)
    requires WellFormed(s) && i <= |s.buffers|
    ensures WellFormed(r.st) && r.st.pending == s.pending && OnlyInserts(r.effects)
    ensures forall j :: 0 <= j < i ==> r.st.buffers[j] == s.buffers[j]
    ensures !r.raised <==>
      forall j :: i <= j < |s.buffers| && ShouldFlush(s.buffers[j], now) && s.buffers[j].rows != []
        ==> s.buffers[j].table !in failing.inserts
    ensures !r.raised ==> forall j :: i <= j < |s.buffers| ==>
      r.st.buffers[j] == (if ShouldFlush(s.buffers[j], now) then Flush(s.buffers[j], now, true).buffer
                          else s.buffers[j])
    ensures (forall j :: i <= j < |s.buffers| ==> !ShouldFlush(s.buffers[j], now)) ==> r == Step(s, [], false)
    decreases |s.buffers| - i
  {
    if i == |s.buffers| then Step(s, [], false)
    else if ShouldFlush(s.buffers[i], now) then
      var f := FlushAt(s, i, now, failing);
      if f.raised then f
      else
        var t := FlushDueFrom(f.st, i + 1, now, failing);
        OnlyInsertsConcat(f.effects, t.effects);
        Step(t.st, f.effects + t.effects, t.raised)
    else
      FlushDueFrom(s, i + 1, now, failing)
  }

  /** The commit that follows a flush, under each policy. */
  function CommitAfterFlush(s: State, now: real, failing: Faults, policy: CommitPolicy): (r: Step)
    requires WellFormed(s)
    ensures WellFormed(r.st)
    ensures policy == AsWritten ==> r == Commit(s, failing.commit)
    ensures policy == DrainBeforeCommit && HasCommit(r.effects) ==> AllEmpty(r.st)
    ensures r.raised ==> !HasCommit(r.effects)
  {
    match policy
    case AsWritten => Commit(s, failing.commit)
    case DrainBeforeCommit =>
      var f := FlushAllFrom(s, 0, now, failing);
      if f.raised then
        OnlyInsertsNoCommit(f.effects);
        f
      else
        var c := Commit(f.st, failing.commit);
        HasCommitConcat(f.effects, c.effects);
        OnlyInsertsNoCommit(f.effects);
        Step(c.st, f.effects + c.effects, c.raised)
  }

  /** `_flush_due_buffers`: flush every due buffer in order; commit if any was due. */
  function FlushDue(s: State, now: real, failing: Faults, policy: CommitPolicy): (r: Step)
    requires WellFormed(s)
    ensures WellFormed(r.st)
    ensures !Due(s, now) ==> r == Step(s, [], false)
    ensures policy == AsWritten ==>
      (r.raised <==> (exists j :: 0 <= j < |s.buffers| && ShouldFlush(s.buffers[j], now)
                                  && s.buffers[j].rows != [] && s.buffers[j].table in failing.inserts)
                     || (Due(s, now) && s.pending != map[] && failing.commit))
    ensures r.raised ==> !HasCommit(r.effects)
    ensures (policy == AsWritten || failing == NoFaults) && !r.raised ==>
      (HasCommit(r.effects) <==> Due(s, now) && s.pending != map[])
    ensures policy == DrainBeforeCommit && HasCommit(r.effects) ==> AllEmpty(r.st)
  {
    var f := FlushDueFrom(s, 0, now, failing);
    if f.raised || !Due(s, now) then f
    else
      var c := CommitAfterFlush(f.st, now, failing, policy);
      HasCommitConcat(f.effects, c.effects);
      OnlyInsertsNoCommit(f.effects);
      assert policy == AsWritten && c.effects != [] && !c.raised ==> c.effects[0].Committed?;
      assert policy == DrainBeforeCommit && failing == NoFaults && s.pending != map[] ==>
        c.effects[|c.effects| - 1].Committed?;
      Step(c.st, f.effects + c.effects, c.raised)
  }

  /** Registered descriptors are consistent with the consumer's buffers and mappers. */
  lemma {:induction false} DescriptorUsable(eventType: string, version: int)
    requires Lookup(eventType, version).Some?
    ensures var d := Lookup(eventType, version).value;
      d.schema == d.mapper && TableIndex(d.table).Some?
  {
    RegistryShape();
    TablesDistinct();
    var d := Lookup(eventType, version).value;
    var i :| 0 <= i < |Entries()| && Entries()[i] == ((eventType, version), d);
    assert Tables()[i] == d.table;
  }

  /** The watermark after processing `offset` on `tp`. */
  function Advance(pending: map<TopicPartition, int>, tp: TopicPartition, offset: nat): (r: map<TopicPartition, int>)
    ensures r.Keys == pending.Keys + {tp}
    ensures r[tp] >= offset && (tp in pending ==> r[tp] >= pending[tp])
    ensures r[tp] == offset || (tp in pending && r[tp] == pending[tp])
    ensures forall q :: q in pending && q != tp ==> r[q] == pending[q]
  {
    var prev := if tp in pending then pending[tp] else -1;
    pending[tp := if prev >= offset then prev else offset]
  }

  /**
   * `_process_message`. Decoding failures and invalid events raise with nothing changed;
   * an unknown (type, version) is skipped with nothing changed; a valid event's row is appended
   * to its table's buffer, its watermark advanced, and a due buffer flushed and committed.
   */
  function ProcessMessage(s: State, m: Message, now: real, failing: Faults, policy: CommitPolicy): (r: Step)
    requires WellFormed(s)
    ensures WellFormed(r.st)
    ensures m.value.NotJson? || m.value.MissingKey? ==> r == Step(s, [], true)
    ensures m.value.RawEvent? && Lookup(m.value.eventType, m.value.eventVersion).None? ==> r == Step(s, [], false)
    ensures r.raised ==> !HasCommit(r.effects)
    ensures policy == DrainBeforeCommit && HasCommit(r.effects) ==> AllEmpty(r.st)
  {
    match m.value
    case NotJson => Step(s, [], true)
    case MissingKey => Step(s, [], true)
    case RawEvent(eventType, version, _, _) =>
      match Lookup(eventType, version)
      case None => Step(s, [], false)
      case Some(d) =>
        match ParseEnvelopeAndPayload(m.value, d.schema)
        case Failure(_) => Step(s, [], true)
        case Success((env, payload)) =>
          DescriptorUsable(eventType, version);
          var i := TableIndex(d.table).value;
          Accept(s, i, MapRow(d.mapper, env.occured_at, env.event_id, payload), m.tp, m.offset, now, failing, policy)
  }

  /**
   * The valid-event branch of `_process_message`: the row is appended to buffer `i`, the
   * watermark of `tp` advanced to `offset`, and the buffer flushed and committed when due.
   */
  function Accept(s: State, i: nat, row: Row, tp: TopicPartition, offset: nat, now: real, failing: Faults,
                  policy: CommitPolicy): (r: Step)
    requires WellFormed(s) && i < |s.buffers|
    ensures WellFormed(r.st)
    ensures r.raised ==> !HasCommit(r.effects)
    ensures policy == DrainBeforeCommit && HasCommit(r.effects) ==> AllEmpty(r.st)
  {
    var s1 := State(s.buffers[i := Add(s.buffers[i], row)], Advance(s.pending, tp, offset));
    if !ShouldFlush(s1.buffers[i], now) then Step(s1, [], false)
    else
      var f := FlushAt(s1, i, now, failing);
      if f.raised then
        OnlyInsertsNoCommit(f.effects);
        f
      else
        var c := CommitAfterFlush(f.st, now, failing, policy);
        HasCommitConcat(f.effects, c.effects);
        OnlyInsertsNoCommit(f.effects);
        Step(c.st, f.effects + c.effects, c.raised)
  }

  /** The drain at shutdown: flush all non-empty buffers, commit, close. */
  function Drain(s: State, now: real, failing: Faults): (r: Step)
    requires WellFormed(s)
    ensures WellFormed(r.st)
    ensures r.raised <==>
      (exists j :: 0 <= j < |s.buffers| && s.buffers[j].rows != [] && s.buffers[j].table in failing.inserts)
      || (s.pending != map[] && failing.commit)
    ensures (exists j :: 0 <= j < |s.buffers| && s.buffers[j].rows != [] && s.buffers[j].table in failing.inserts) ==>
      OnlyInserts(r.effects)
    ensures r.raised && (forall j :: 0 <= j < |s.buffers| && s.buffers[j].rows != [] ==> s.buffers[j].table !in failing.inserts) ==>
      && r.effects == InsertsOf(s.buffers) + [CommitFailed(map tp | tp in s.pending :: s.pending[tp] + 1)]
      && AllEmpty(r.st) && r.st.pending == s.pending
    ensures !r.raised ==> AllEmpty(r.st) && r.st.pending == map[]
    ensures !r.raised ==> r.effects == ShutdownEffects(s)
  {
    var f := FlushAllFrom(s, 0, now, failing);
    assert s.buffers[0..] == s.buffers;
    if f.raised then f
    else
      var c := Commit(f.st, failing.commit);
      if c.raised then Step(c.st, f.effects + c.effects, true)
      else Step(c.st, f.effects + c.effects + [Closed], false)
  }

  /**
   * One iteration of the `run` loop after a poll. An exception from `_process_message` is logged
   * and swallowed; one from `_flush_due_buffers` is reported as `raised` and escapes `run`.
   */
  function Iteration(s: State, now: real, failing: Faults, polled: Polled, policy: CommitPolicy): (r: Step)
    requires WellFormed(s)
    ensures WellFormed(r.st)
    ensures r.raised ==> polled.NoMessage?
  {
    match polled
    case NoMessage => FlushDue(s, now, failing, policy)
    case PartitionEof => Step(s, [], false)
    case KafkaFailure => Step(s, [], false)
    case Delivered(m) =>
      var p := ProcessMessage(s, m, now, failing, policy);
      Step(p.st, p.effects, false)
  }

  datatype Status = Running | Stopped | Crashed

  datatype Run = Run(st: State, effects: seq<Effect>, status: Status)

  /** `run` fed a sequence of loop iterations, ending at the first shutdown or escaping exception. */
  function RunLoop(s: State, inputs: seq<Input>, policy: CommitPolicy): (r: Run)
    requires WellFormed(s)
    ensures WellFormed(r.st)
    ensures r.status == Stopped ==> AllEmpty(r.st) && r.st.pending == map[]
    ensures r.status == Stopped ==> exists pre :: EndsWithShutdown(r.effects, pre)
    decreases |inputs|
  {
    if inputs == [] then Run(s, [], Running)
    else
      match inputs[0]
      case Shutdown(now, failing) =>
        var d := Drain(s, now, failing);
        assert !d.raised ==> EndsWithShutdown(d.effects, s);
        Run(d.st, d.effects, if d.raised then Crashed else Stopped)
      case Poll(now, failing, polled) =>
        var it := Iteration(s, now, failing, polled, policy);
        if it.raised then Run(it.st, it.effects, Crashed)
        else
          var rest := RunLoop(it.st, inputs[1..], policy);
          EndsWithShutdownPrepend(it.effects, rest.effects);
          Run(rest.st, it.effects + rest.effects, rest.status)
  }

  /** `effects` ends with the shutdown of the well-formed state `pre`. */
  predicate EndsWithShutdown(effects: seq<Effect>, pre: State) {
    && WellFormed(pre)
    && |ShutdownEffects(pre)| <= |effects|
    && effects[|effects| - |ShutdownEffects(pre)|..] == ShutdownEffects(pre)
  }

  lemma EndsWithShutdownPrepend(a: seq<Effect>, b: seq<Effect>)
    ensures (exists pre :: EndsWithShutdown(b, pre)) ==> exists pre :: EndsWithShutdown(a + b, pre)
  {
    if pre :| EndsWithShutdown(b, pre) {
      assert (a + b)[|a + b| - |ShutdownEffects(pre)|..] == b[|b| - |ShutdownEffects(pre)|..];
      assert EndsWithShutdown(a + b, pre);
    }
  }

  lemma EffectsAssoc(a: seq<Effect>, b: seq<Effect>, c: seq<Effect>)
    ensures a + (b + c) == (a + b) + c
  {
  }

  /**
   * How the shutdown drain ends, after `before` was emitted and left the state `pre`: it stops
   * exactly when no insert of a non-empty buffer raises and no commit of pending watermarks
   * does, and then every buffer is inserted, the watermarks committed after those inserts, and
   * the consumer closed last. When only the commit raises, it crashes with every row inserted,
   * the watermarks still pending and the consumer not closed.
   */
  ghost predicate ShutdownOutcome(before: seq<Effect>, pre: State, failing: Faults, r: Run) {
    && (r.status == Stopped <==>
          && (forall j :: 0 <= j < |pre.buffers| && pre.buffers[j].rows != [] ==> pre.buffers[j].table !in failing.inserts)
          && !(failing.commit && pre.pending != map[]))
    && (r.status == Stopped ==>
          r.effects == before + ShutdownEffects(pre) && AllEmpty(r.st) && r.st.pending == map[])
    && ((forall j :: 0 <= j < |pre.buffers| && pre.buffers[j].rows != [] ==> pre.buffers[j].table !in failing.inserts)
        && failing.commit && pre.pending != map[] ==>
          && r.status == Crashed && AllEmpty(r.st) && r.st.pending == pre.pending
          && r.effects == before + InsertsOf(pre.buffers)
                          + [CommitFailed(map tp | tp in pre.pending :: pre.pending[tp] + 1)])
  }

  lemma ShutdownOutcomePrepend(a: seq<Effect>, before: seq<Effect>, pre: State, failing: Faults, r: Run)
    requires ShutdownOutcome(before, pre, failing, r)
    ensures ShutdownOutcome(a + before, pre, failing, Run(r.st, a + r.effects, r.status))
  {
    EffectsAssoc(a, before, ShutdownEffects(pre));
    EffectsAssoc(a, before, InsertsOf(pre.buffers) + [CommitFailed(map tp | tp in pre.pending :: pre.pending[tp] + 1)]);
  }

  /**
   * A run of polls that is still running, followed by the shutdown signal: the loop's effects so
   * far, then the drain of the state the polls left, ending as `ShutdownOutcome` says.
   */
  lemma {:induction false} ShutdownDrains(s: State, polls: seq<Input>, now: real, failing: Faults,
                                          rest: seq<Input>, policy: CommitPolicy)
    requires WellFormed(s)
    requires forall k :: 0 <= k < |polls| ==> polls[k].Poll?
    requires RunLoop(s, polls, policy).status == Running
    ensures var p := RunLoop(s, polls, policy);
      ShutdownOutcome(p.effects, p.st, failing, RunLoop(s, polls + [Shutdown(now, failing)] + rest, policy))
    decreases |polls|
  {
    var inputs := polls + [Shutdown(now, failing)] + rest;
    if polls == [] {
      assert inputs[0] == Shutdown(now, failing);
      var d := Drain(s, now, failing);
      assert RunLoop(s, inputs, policy) == Run(d.st, d.effects, if d.raised then Crashed else Stopped);
      assert RunLoop(s, polls, policy) == Run(s, [], Running);
    } else {
      var it := Iteration(s, polls[0].now, polls[0].failing, polls[0].polled, policy);
      assert inputs[0] == polls[0];
      var tail := polls[1..];
      assert forall k :: 0 <= k < |tail| ==> tail[k] == polls[k + 1];
      var p' := RunLoop(it.st, tail, policy);
      assert !it.raised && RunLoop(s, polls, policy) == Run(p'.st, it.effects + p'.effects, p'.status);
      assert inputs[1..] == tail + [Shutdown(now, failing)] + rest;
      var r' := RunLoop(it.st, inputs[1..], policy);
      assert RunLoop(s, inputs, policy) == Run(r'.st, it.effects + r'.effects, r'.status);
      ShutdownDrains(it.st, tail, now, failing, rest, policy);
      ShutdownOutcomePrepend(it.effects, p'.effects, p'.st, failing, r');
    }
  }

  /** Without a shutdown signal the loop never stops by itself: it runs on or crashes. */
  lemma {:induction false} NoShutdownNeverStops(s: State, inputs: seq<Input>, policy: CommitPolicy)
    requires WellFormed(s)
    requires forall k :: 0 <= k < |inputs| ==> inputs[k].Poll?
    ensures RunLoop(s, inputs, policy).status != Stopped
    decreases |inputs|
  {
    if inputs != [] {
      var it := Iteration(s, inputs[0].now, inputs[0].failing, inputs[0].polled, policy);
      if !it.raised {
        assert forall k :: 0 <= k < |inputs[1..]| ==> inputs[1..][k] == inputs[k + 1];
        NoShutdownNeverStops(it.st, inputs[1..], policy);
      }
    }
  }

  // ---------------------------------------------------------------- properties of one message

  /**
   * A valid event of a registered kind: its row (mapped from the envelope's `occured_at` and
   * `event_id`) is appended to its table's buffer and its watermark advanced. If that buffer is
   * not yet due nothing else happens; if it is due, the whole buffer is inserted in one batch and
   * (as written) every pending watermark is committed; if that insert raises, the row and the
   * watermark stay pending and the exception is swallowed by the loop. If the insert succeeds but
   * the commit raises, the rows are in ClickHouse while their watermarks stay pending.
   */
  lemma {:induction false} ProcessValid(
    s: State, m: Message, now: real, failing: Faults, d: Descriptor, env: Envelope, p: Payload)
    requires WellFormed(s) && m.value.RawEvent?
    requires Lookup(m.value.eventType, m.value.eventVersion) == Some(d)
    requires ParseEnvelopeAndPayload(m.value, d.schema) == Success((env, p))
    ensures TableIndex(d.table).Some? && KindOf(p) == d.mapper
    ensures var i := TableIndex(d.table).value;
      var row := MapRow(d.mapper, env.occured_at, env.event_id, p);
      var b := Add(s.buffers[i], row);
      var pending := Advance(s.pending, m.tp, m.offset);
      var r := ProcessMessage(s, m, now, failing, AsWritten);
      && (!ShouldFlush(b, now) ==> r == Step(State(s.buffers[i := b], pending), [], false))
      && (ShouldFlush(b, now) && d.table !in failing.inserts ==>
            && r.raised == failing.commit && r.st.buffers[i].rows == []
            && r.st.pending == (if failing.commit then pending else map[])
            && r.effects == [Inserted(Insert(d.table, s.buffers[i].rows + [row])),
                             if failing.commit then CommitFailed(map tp | tp in pending :: pending[tp] + 1)
                             else Committed(map tp | tp in pending :: pending[tp] + 1)])
      && (ShouldFlush(b, now) && d.table in failing.inserts ==>
            r == Step(State(s.buffers[i := b], pending), [InsertFailed(Insert(d.table, s.buffers[i].rows + [row]))], true))
  {
    DescriptorUsable(m.value.eventType, m.value.eventVersion);
    var i := TableIndex(d.table).value;
    var row := MapRow(d.mapper, env.occured_at, env.event_id, p);
    assert ProcessMessage(s, m, now, failing, AsWritten) == Accept(s, i, row, m.tp, m.offset, now, failing, AsWritten);
    AcceptAsWritten(s, i, row, m.tp, m.offset, now, failing);
  }

  /** The valid-event branch under the source's commit rule, case by case. */
  lemma {:induction false} AcceptAsWritten(s: State, i: nat, row: Row, tp: TopicPartition, offset: nat, now: real,
                                           failing: Faults)
    requires WellFormed(s) && i < |s.buffers|
    ensures var b := Add(s.buffers[i], row);
      var pending := Advance(s.pending, tp, offset);
      var table := s.buffers[i].table;
      var r := Accept(s, i, row, tp, offset, now, failing, AsWritten);
      && (!ShouldFlush(b, now) ==> r == Step(State(s.buffers[i := b], pending), [], false))
      && (ShouldFlush(b, now) && table !in failing.inserts ==>
            && r.raised == failing.commit && r.st.buffers[i].rows == []
            && r.st.pending == (if failing.commit then pending else map[])
            && r.effects == [Inserted(Insert(table, s.buffers[i].rows + [row])),
                             if failing.commit then CommitFailed(map tp | tp in pending :: pending[tp] + 1)
                             else Committed(map tp | tp in pending :: pending[tp] + 1)])
      && (ShouldFlush(b, now) && table in failing.inserts ==>
            r == Step(State(s.buffers[i := b], pending), [InsertFailed(Insert(table, s.buffers[i].rows + [row]))], true))
  {
  }

  /** Malformed JSON, a missing key or an event that fails validation changes nothing and raises. */
  lemma {:induction false} ProcessInvalid(s: State, m: Message, now: real, failing: Faults, policy: CommitPolicy)
    requires WellFormed(s) && m.value.RawEvent?
    requires Lookup(m.value.eventType, m.value.eventVersion).Some?
    requires ParseEnvelopeAndPayload(m.value, Lookup(m.value.eventType, m.value.eventVersion).value.schema).Failure?
    ensures ProcessMessage(s, m, now, failing, policy) == Step(s, [], true)
  {
  }

  // ---------------------------------------------------------------- the loop

  /** A failed insert in `_flush_due_buffers` escapes `run`: the consumer crashes without committing. */
  lemma {:induction false} DueFlushFailureCrashes(s: State, now: real, failing: Faults, rest: seq<Input>)
    requires WellFormed(s)
    requires exists j :: 0 <= j < |s.buffers| && ShouldFlush(s.buffers[j], now)
                         && s.buffers[j].rows != [] && s.buffers[j].table in failing.inserts
    ensures var r := RunLoop(s, [Poll(now, failing, NoMessage)] + rest, AsWritten);
      r.status == Crashed && !HasCommit(r.effects)
  {
    var f := FlushDueFrom(s, 0, now, failing);
    assert f.raised;
    OnlyInsertsNoCommit(f.effects);
  }

  /**
   * A synchronous commit that raises in `_flush_due_buffers` escapes `run` too, after the due
   * buffers' rows were inserted: the consumer crashes with those rows in ClickHouse, nothing
   * committed, and every watermark still pending, so a restart re-delivers and re-inserts them.
   */
  lemma {:induction false} DueCommitFailureCrashes(s: State, now: real, failing: Faults, rest: seq<Input>)
    requires WellFormed(s) && Due(s, now) && s.pending != map[] && failing.commit
    requires forall j :: 0 <= j < |s.buffers| && ShouldFlush(s.buffers[j], now) && s.buffers[j].rows != []
                         ==> s.buffers[j].table !in failing.inserts
    ensures var r := RunLoop(s, [Poll(now, failing, NoMessage)] + rest, AsWritten);
      && r.status == Crashed && !HasCommit(r.effects) && r.st.pending == s.pending
      && (forall j :: 0 <= j < |s.buffers| ==>
            r.st.buffers[j] == (if ShouldFlush(s.buffers[j], now) then Flush(s.buffers[j], now, true).buffer
                                else s.buffers[j]))
      && r.effects[|r.effects| - 1] == CommitFailed(map tp | tp in s.pending :: s.pending[tp] + 1)
  {
    var f := FlushDueFrom(s, 0, now, failing);
    assert !f.raised;
    var c := Commit(f.st, failing.commit);
    assert FlushDue(s, now, failing, AsWritten) == Step(c.st, f.effects + c.effects, true);
  }

  /** Broker errors and partition-EOF markers are skipped without touching buffers or watermarks. */
  lemma {:induction false} BrokerNoiseIgnored(s: State, now: real, failing: Faults, rest: seq<Input>, policy: CommitPolicy)
    requires WellFormed(s)
    ensures RunLoop(s, [Poll(now, failing, PartitionEof)] + rest, policy) == RunLoop(s, rest, policy)
    ensures RunLoop(s, [Poll(now, failing, KafkaFailure)] + rest, policy) == RunLoop(s, rest, policy)
  {
    assert ([Poll(now, failing, PartitionEof)] + rest)[1..] == rest;
    assert ([Poll(now, failing, KafkaFailure)] + rest)[1..] == rest;
  }

  // ---------------------------------------------------------------- the commit finding

  /**
   * As written, a poll timeout commits the watermarks of rows still sitting in a buffer that is
   * not due, merely because some other buffer is due, even an empty one that inserts nothing.
   * Those offsets are then committed although their rows were never inserted.
   */
  lemma {:induction false} AsWrittenCommitsAheadOfRows(s: State, now: real)
    requires WellFormed(s) && |s.buffers| > 1
    requires s.buffers[0].rows != [] && !ShouldFlush(s.buffers[0], now)
    requires s.buffers[1].rows == [] && ShouldFlush(s.buffers[1], now)
    requires s.pending != map[]
    ensures var r := FlushDue(s, now, NoFaults, AsWritten);
      && !r.raised && HasCommit(r.effects) && r.st.pending == map[]
      && r.st.buffers[0].rows == s.buffers[0].rows
      && !AllEmpty(r.st)
  {
    var f := FlushDueFrom(s, 0, now, NoFaults);
    assert Due(s, now);
    assert f.st.buffers[0] == s.buffers[0];
  }
}

=== FILE: courses.dfy ===
/**
 * The course endpoints of the teaching service (apps/courses/views.py): which courses a user
 * sees, who may create one for whom, and the endpoints that attach decks to a course, reorder
 * them and change them.
 *
 * The decks service is consulted only through an oracle: for each deck id it answers, the
 * `owner_id` its reply carries, if any. Request bodies arrive already parsed from JSON.
 */
module Courses {
  import opened Wrappers
  import opened Text
  import opened TeachingAuth
  import opened TeachingPermissions
  import opened Ordering

  datatype Course = Course(id: int, teacherId: int, isPublished: bool, createdAt: int)

  /** `CourseDeck`: deck `deckId` attached to course `courseId` at position `orderIndex`. */
  datatype CourseDeck = CourseDeck(id: int, courseId: int, deckId: int, orderIndex: int)

  /**
   * Why a request is refused: a `ValidationError` (400); a failed permission check for a request
   * no authentication class accepted, which the framework answers 401 "Authentication credentials
   * were not provided." because the bearer scheme names an authenticate header; a
   * `PermissionDenied` (403); a 404; or an uncaught exception (500).
   */
  datatype Refusal =
    | Invalid(detail: string)
    | AlreadyAttached(deckIds: set<int>)
    | NotAuthenticated
    | Denied(message: string)
    | NotFound
    | Unhandled

  /** The `owner_id` field of a deck as the decks service returns it. */
  datatype OwnerField = Owner(id: int) | NullOwner | MissingOwner

  /** Deck id -> its `owner_id` field; a deck the service does not return (or returns empty) is absent. */
  type DeckOracle = map<int, OwnerField>

  // ---------------------------------------------------------------- visibility

  /** The `teacher_id` and `is_published` query parameters, when given. */
  datatype CourseQuery = CourseQuery(teacherId: Option<int>, isPublished: Option<string>)

  predicate Shown(c: Course, u: User, q: CourseQuery) {
    && (q.teacherId.None? || c.teacherId == q.teacherId.value)
    && (q.isPublished.None? || c.isPublished == (Lower(q.isPublished.value) == "true"))
    && (u.isManager || c.isPublished || c.teacherId == u.id)
  }

  function FilterShown(cs: seq<Course>, u: User, q: CourseQuery): (r: seq<Course>)
    ensures forall c :: c in r <==> c in cs && Shown(c, u, q)
  {
    if cs == [] then []
    else (if Shown(cs[0], u, q) then [cs[0]] else []) + FilterShown(cs[1..], u, q)
  }

  function NewestFirst(c: Course): (int, int) {
    (-c.createdAt, 0)
  }

  /**
   * `get_queryset`: the courses passing the query filters and, for a non-manager, published or
   * taught by the user, newest first.
   */
  function VisibleCourses(cs: seq<Course>, u: User, q: CourseQuery): (r: seq<Course>)
    ensures forall c :: c in r <==> c in cs && Shown(c, u, q)
    ensures SortedBy(r, NewestFirst)
  {
    var r := Sort(FilterShown(cs, u, q), NewestFirst);
    assert forall c :: c in r <==> c in multiset(r);
    r
  }

  /**
   * A non-manager never sees another teacher's unpublished course, whatever the query; a manager
   * without filters sees every course.
   */
  lemma {:induction false} VisibilityLaws(cs: seq<Course>, u: User, q: CourseQuery, c: Course)
    ensures !u.isManager && c in VisibleCourses(cs, u, q) ==> c.isPublished || c.teacherId == u.id
    ensures u.isManager && c in cs ==> c in VisibleCourses(cs, u, CourseQuery(None, None))
  {
  }

  /** `perform_create`: the course's teacher, which only a manager may choose. */
  function CreateTeacher(u: User, requested: Option<int>): (r: Result<int, Refusal>)
    ensures requested.None? ==> r == Success(u.id)
    ensures requested.Some? && u.isManager ==> r == Success(requested.value)
    ensures requested.Some? && !u.isManager ==> r == Failure(Denied("Only managers can set teacher_id"))
  {
    match requested
    case None => Success(u.id)
    case Some(t) => if u.isManager then Success(t) else Failure(Denied("Only managers can set teacher_id"))
  }

  /** Whoever creates a course without naming a teacher teaches it, and so may edit it. */
  lemma CreatorTeaches(u: User, c: Course)
    requires c.teacherId == CreateTeacher(u, None).value
    ensures CourseTeacherOrManager(Authenticated(u), WithTeacher(c.teacherId))
  {
  }

  /**
   * `get_object` for the deck actions: a course the requester cannot see is a 404; one they see but
   * neither teach nor manage is refused by `IsCourseTeacherOrManager` (401 for the anonymous context).
   * The view-level check lets the framework's anonymous user through, and `get_queryset` then
   * fails reading its `is_manager`.
   */
  function CourseAccess(cs: seq<Course>, courseId: int, p: Principal): (r: Result<Course, Refusal>)
    ensures p.Unauthenticated? ==> r == Failure(Unhandled)
    ensures r.Success? ==> r.value in cs && r.value.id == courseId && IsAuthenticated(p)
    ensures !p.Unauthenticated? ==>
      (r.Success? <==> exists c :: c in cs && c.id == courseId && Shown(c, Fields(p), CourseQuery(None, None)) &&
                                   CourseTeacherOrManager(p, WithTeacher(c.teacherId)))
    ensures !p.Unauthenticated? && r.Failure? ==>
      r.error == NotFound || (IsAuthenticated(p) && r.error.Denied?) || (!IsAuthenticated(p) && r.error == NotAuthenticated)
    ensures !p.Unauthenticated? && (forall c :: c in cs ==> c.id != courseId) ==> r == Failure(NotFound)
  {
    if p.Unauthenticated? then Failure(Unhandled)
    else if cs == [] then Failure(NotFound)
    else if cs[0].id == courseId && Shown(cs[0], Fields(p), CourseQuery(None, None)) then
      if CourseTeacherOrManager(p, WithTeacher(cs[0].teacherId)) then Success(cs[0])
      else
        assert forall c :: c in cs && c.id == courseId ==> c == cs[0] || c in cs[1..];
        match CourseAccess(cs[1..], courseId, p)
        case Success(c) => Success(c)
        case Failure(NotFound) =>
          Failure(if IsAuthenticated(p) then Denied("You do not have permission to perform this action.") else NotAuthenticated)
        case Failure(e) => Failure(e)
    else CourseAccess(cs[1..], courseId, p)
  }

  // ---------------------------------------------------------------- deck checks

  /**
   * `_check_deck_permissions`: a deck the decks service does not return is invalid; a manager may
   * use any deck; anyone else only a deck owned by the course's teacher.
   */
  function CheckDeck(decks: DeckOracle, deckId: int, teacherId: int, u: User): (r: Option<Refusal>)
    ensures deckId !in decks ==> r == Some(Invalid("Deck not found"))
    ensures deckId in decks && u.isManager ==> r.None?
    ensures deckId in decks && !u.isManager ==> (r.None? <==> decks[deckId] == Owner(teacherId))
    ensures deckId in decks && r.Some? ==> r.value == Denied("You can only use decks owned by the course teacher")
  {
    if deckId !in decks then Some(Invalid("Deck not found"))
    else if u.isManager then None
    else if decks[deckId] != Owner(teacherId) then Some(Denied("You can only use decks owned by the course teacher"))
    else None
  }

  predicate Attached(rels: seq<CourseDeck>, courseId: int, deckId: int) {
    exists i :: 0 <= i < |rels| && rels[i].courseId == courseId && rels[i].deckId == deckId
  }

  /** The database's `unique_course_deck` constraint. */
  predicate UniquePairs(rels: seq<CourseDeck>) {
    forall i, j :: 0 <= i < j < |rels| ==>
      rels[i].courseId != rels[j].courseId || rels[i].deckId != rels[j].deckId
  }

  /** The largest position among the course's decks, if it has any. */
  function MaxIndex(rels: seq<CourseDeck>, courseId: int): (r: Option<int>)
    ensures r.None? <==> forall i :: 0 <= i < |rels| ==> rels[i].courseId != courseId
    ensures r.Some? ==> exists i :: 0 <= i < |rels| && rels[i].courseId == courseId && rels[i].orderIndex == r.value
    ensures r.Some? ==> forall i :: 0 <= i < |rels| && rels[i].courseId == courseId ==> rels[i].orderIndex <= r.value
  {
    if rels == [] then None
    else
      var rest := MaxIndex(rels[1..], courseId);
      assert forall i :: 1 <= i < |rels| ==> rels[i] == rels[1..][i - 1];
      if rels[0].courseId != courseId then rest
      else if rest.None? || rest.value < rels[0].orderIndex then Some(rels[0].orderIndex)
      else
        var k :| 0 <= k < |rels[1..]| && rels[1..][k].courseId == courseId && rels[1..][k].orderIndex == rest.value;
        assert rels[k + 1] == rels[1..][k];
        rest
  }

  /**
   * `_get_next_order_index`: one past the position of the top relation by descending position,
   * that is past every position in use, or 0 for a course without decks.
   */
  function NextOrderIndex(rels: seq<CourseDeck>, courseId: int): (r: int)
    ensures (forall i :: 0 <= i < |rels| ==> rels[i].courseId != courseId) ==> r == 0
    ensures forall i :: 0 <= i < |rels| && rels[i].courseId == courseId ==> rels[i].orderIndex < r
    ensures (exists i :: 0 <= i < |rels| && rels[i].courseId == courseId) ==>
      exists i :: 0 <= i < |rels| && rels[i].courseId == courseId && rels[i].orderIndex == r - 1
  {
    match MaxIndex(rels, courseId)
    case None => 0
    case Some(m) => m + 1
  }

  /**
   * `POST /courses/{id}/decks/`: a deck already attached is refused; an omitted position is the
   * next one; then the deck check; then the new relation is appended.
   */
  function AttachDeck(rels: seq<CourseDeck>, course: Course, decks: DeckOracle, u: User, deckId: int,
                      orderIndex: Option<int>, newId: int)
    : (r: Result<seq<CourseDeck>, Refusal>)
    ensures Attached(rels, course.id, deckId) ==> r == Failure(Invalid("Deck with this id already exists"))
    ensures !Attached(rels, course.id, deckId) && CheckDeck(decks, deckId, course.teacherId, u).Some? ==>
      r == Failure(CheckDeck(decks, deckId, course.teacherId, u).value)
    ensures !Attached(rels, course.id, deckId) && CheckDeck(decks, deckId, course.teacherId, u).None? ==> r.Success?
    ensures r.Success? ==> |r.value| == |rels| + 1 && r.value[..|rels|] == rels
    ensures r.Success? ==> var n := r.value[|rels|];
      && n.id == newId && n.courseId == course.id && n.deckId == deckId
      && (orderIndex.Some? ==> n.orderIndex == orderIndex.value)
      && (orderIndex.None? ==> n.orderIndex == NextOrderIndex(rels, course.id))
    ensures r.Success? && UniquePairs(rels) ==> UniquePairs(r.value)
  {
    if Attached(rels, course.id, deckId) then Failure(Invalid("Deck with this id already exists"))
    else
      var index := if orderIndex.Some? then orderIndex.value else NextOrderIndex(rels, course.id);
      match CheckDeck(decks, deckId, course.teacherId, u)
      case Some(e) => Failure(e)
      case None =>
        var r := rels + [CourseDeck(newId, course.id, deckId, index)];
        assert r[..|rels|] == rels;
        Success(r)
  }

  /**
   * A deck attached without a position goes after every deck the course had, and the course then
   * has it, so sending the same request again is refused as a duplicate.
   */
  lemma {:induction false} AttachThenAttached(rels: seq<CourseDeck>, course: Course, decks: DeckOracle, u: User,
                                              deckId: int, newId: int, again: int)
    requires AttachDeck(rels, course, decks, u, deckId, None, newId).Success?
    ensures var r := AttachDeck(rels, course, decks, u, deckId, None, newId).value;
      && Attached(r, course.id, deckId)
      && (forall i :: 0 <= i < |rels| && rels[i].courseId == course.id ==> rels[i].orderIndex < r[|rels|].orderIndex)
      && AttachDeck(r, course, decks, u, deckId, None, again) == Failure(Invalid("Deck with this id already exists"))
  {
    var r := AttachDeck(rels, course, decks, u, deckId, None, newId).value;
    assert r[|rels|].courseId == course.id && r[|rels|].deckId == deckId;
  }

  // ---------------------------------------------------------------- reorder

  /**
   * A JSON value where the source tests `isinstance(v, int)`, which booleans pass; `OtherV` is a
   * string, a number with a fraction, a list or an object.
   */
  datatype Value = IntV(i: int) | BoolV(b: bool) | NullV | OtherV

  predicate IsInt(v: Value) {
    v.IntV? || v.BoolV?
  }

  function AsInt(v: Value): int
    requires IsInt(v)
  {
    match v
    case IntV(i) => i
    case BoolV(b) => if b then 1 else 0
  }

  /** One element of a reorder body: something that is not an object, or one with optional keys. */
  datatype ReorderItem = NotAnObject | Move(id: Option<Value>, orderIndex: Option<Value>)

  /** An item that passed the validation loop: an `id` of any JSON type and an integer position. */
  datatype RawMove = RawMove(id: Value, orderIndex: int)

  /** A reorder item with an integer id: relation `id` goes to position `orderIndex`. */
  datatype Position = Position(id: int, orderIndex: int)

  /** `it` is an object with an `id` and an integer `order_index`, and `m` is what it asks for. */
  predicate Names(it: ReorderItem, m: RawMove) {
    && it.Move? && it.id == Some(m.id) && it.orderIndex.Some?
    && IsInt(it.orderIndex.value) && AsInt(it.orderIndex.value) == m.orderIndex
  }

  predicate WellFormedMove(it: ReorderItem) {
    it.Move? && it.id.Some? && it.orderIndex.Some? && IsInt(it.orderIndex.value)
  }

  /** Item `i` is the first malformed one. */
  predicate FirstBadMove(items: seq<ReorderItem>, i: int) {
    0 <= i < |items| && !WellFormedMove(items[i]) && forall j :: 0 <= j < i ==> WellFormedMove(items[j])
  }

  /** The complaint the loop raises about a malformed item. */
  function MoveComplaint(it: ReorderItem): string {
    if it.NotAnObject? then "Each item must be an object"
    else if it.id.None? || it.orderIndex.None? then "Each item must have id and order_index"
    else "order_index must be int"
  }

  /**
   * The validation loop of the reorder endpoint: the items as positions, or the complaint about the
   * first malformed one.
   */
  function ParseMoves(items: seq<ReorderItem>): (r: Result<seq<RawMove>, string>)
    ensures r.Success? <==> forall i :: 0 <= i < |items| ==> WellFormedMove(items[i])
    ensures r.Success? ==> |r.value| == |items| && forall i :: 0 <= i < |items| ==> Names(items[i], r.value[i])
    ensures r.Failure? ==> exists i :: FirstBadMove(items, i) && r.error == MoveComplaint(items[i])
  {
    if items == [] then Success([])
    else
      var it := items[0];
      assert forall i :: 1 <= i < |items| ==> items[i] == items[1..][i - 1];
      if !WellFormedMove(it) then Failure(MoveComplaint(it))
      else match ParseMoves(items[1..])
        case Failure(e) =>
          assert exists i :: FirstBadMove(items, i) && e == MoveComplaint(items[i]) by {
            var k :| FirstBadMove(items[1..], k) && e == MoveComplaint(items[1..][k]);
            assert items[k + 1] == items[1..][k] && FirstBadMove(items, k + 1);
          }
          Failure(e)
        case Success(ms) => Success([RawMove(it.id.value, AsInt(it.orderIndex.value))] + ms)
  }

  /**
   * The ids as the `id__in` lookup and the id-keyed dictionary see them: an integer or a boolean
   * (`True` is 1) names a relation id; a null drops out of the lookup but still counts in
   * `set(ids)`, so the ids cannot all belong to the course; any other type makes the lookup or the
   * dictionary access raise.
   */
  function ResolveIds(ms: seq<RawMove>): (r: Result<seq<Position>, Refusal>)
    ensures r.Success? <==> forall i :: 0 <= i < |ms| ==> IsInt(ms[i].id)
    ensures r.Success? ==> |r.value| == |ms|
    ensures r.Success? ==> forall i :: 0 <= i < |ms| ==> r.value[i] == Position(AsInt(ms[i].id), ms[i].orderIndex)
    ensures (exists i :: 0 <= i < |ms| && ms[i].id.OtherV?) ==> r == Failure(Unhandled)
    ensures r.Failure? && (forall i :: 0 <= i < |ms| ==> !ms[i].id.OtherV?) ==>
      r == Failure(Invalid("Some course_deck ids do not belong to this course"))
  {
    if exists i :: 0 <= i < |ms| && ms[i].id.OtherV? then Failure(Unhandled)
    else if exists i :: 0 <= i < |ms| && ms[i].id.NullV? then
      Failure(Invalid("Some course_deck ids do not belong to this course"))
    else
      Success(seq(|ms|, i requires 0 <= i < |ms| => Position(AsInt(ms[i].id), ms[i].orderIndex)))
  }

  /** The position the last move of relation `id` assigns, if any move names it. */
  function LastMove(ps: seq<Position>, id: int): (r: Option<int>)
    ensures r.None? <==> forall i :: 0 <= i < |ps| ==> ps[i].id != id
  {
    if ps == [] then None
    else if ps[|ps| - 1].id == id then Some(ps[|ps| - 1].orderIndex)
    else LastMove(ps[..|ps| - 1], id)
  }

  /** Move `i` names `id`, and no later move does. */
  predicate LastMoveAt(ps: seq<Position>, id: int, i: int) {
    0 <= i < |ps| && ps[i].id == id && forall j :: i < j < |ps| ==> ps[j].id != id
  }

  /** `LastMove` takes the position of a move of `id` after which no move names it. */
  lemma {:induction false} LastMoveIsLast(ps: seq<Position>, id: int)
    requires LastMove(ps, id).Some?
    ensures exists i :: LastMoveAt(ps, id, i) && ps[i].orderIndex == LastMove(ps, id).value
  {
    var n := |ps| - 1;
    if ps[n].id == id {
      assert LastMoveAt(ps, id, n);
    } else {
      var init := ps[..n];
      assert LastMove(ps, id) == LastMove(init, id);
      LastMoveIsLast(init, id);
      var i :| LastMoveAt(init, id, i) && init[i].orderIndex == LastMove(init, id).value;
      assert ps[i] == init[i];
      forall j | i < j < |ps|
        ensures ps[j].id != id
      {
        if j < n {
          assert ps[j] == init[j];
        }
      }
      assert LastMoveAt(ps, id, i);
    }
  }

  /** The relation ids the moves name. */
  function MovedIds(ps: seq<Position>): (r: set<int>)
    ensures forall id :: id in r <==> exists i :: 0 <= i < |ps| && ps[i].id == id
  {
    set i | 0 <= i < |ps| :: ps[i].id
  }

  /** The ids of the course's relations. */
  function CourseRelIds(rels: seq<CourseDeck>, courseId: int): (r: set<int>)
    ensures forall id :: id in r <==> exists i :: 0 <= i < |rels| && rels[i].courseId == courseId && rels[i].id == id
  {
    set i | 0 <= i < |rels| && rels[i].courseId == courseId :: rels[i].id
  }

  /** Every relation of the course that a move names takes the position its last move gives. */
  function ApplyMoves(rels: seq<CourseDeck>, courseId: int, ps: seq<Position>): (r: seq<CourseDeck>)
    ensures |r| == |rels|
    ensures forall i :: 0 <= i < |rels| ==>
      && r[i].(orderIndex := rels[i].orderIndex) == rels[i]
      && (rels[i].courseId != courseId || rels[i].id !in MovedIds(ps) ==> r[i] == rels[i])
      && (rels[i].courseId == courseId && rels[i].id in MovedIds(ps) ==> Some(r[i].orderIndex) == LastMove(ps, rels[i].id))
  {
    seq(|rels|, i requires 0 <= i < |rels| =>
      var m := LastMove(ps, rels[i].id);
      if rels[i].courseId == courseId && m.Some? then rels[i].(orderIndex := m.value) else rels[i])
  }

  /** The moves a well-formed body with resolvable ids asks for. */
  function Moves(items: seq<ReorderItem>): seq<Position>
    requires ParseMoves(items).Success? && ResolveIds(ParseMoves(items).value).Success?
  {
    ResolveIds(ParseMoves(items).value).value
  }

  /**
   * `POST /courses/{id}/decks/reorder/`: the body must be a list, every item an object with an `id`
   * and an integer `order_index` (the first bad item decides the message), and every id a relation
   * of this course; then each item's position is written in order, so the last item for an id wins.
   */
  function Reorder(rels: seq<CourseDeck>, courseId: int, body: Option<seq<ReorderItem>>)
    : (r: Result<seq<CourseDeck>, Refusal>)
    ensures body.None? ==> r == Failure(Invalid("Expected a list of objects with id and order_index"))
    ensures body.Some? && ParseMoves(body.value).Failure? ==> r == Failure(Invalid(ParseMoves(body.value).error))
    ensures body.Some? && ParseMoves(body.value).Success? && ResolveIds(ParseMoves(body.value).value).Failure? ==>
      r == Failure(ResolveIds(ParseMoves(body.value).value).error)
    ensures r.Success? <==>
      && body.Some? && ParseMoves(body.value).Success? && ResolveIds(ParseMoves(body.value).value).Success?
      && MovedIds(Moves(body.value)) <= CourseRelIds(rels, courseId)
    ensures r.Success? ==> r.value == ApplyMoves(rels, courseId, Moves(body.value))
    ensures r.Failure? && body.Some? && ParseMoves(body.value).Success? && ResolveIds(ParseMoves(body.value).value).Success? ==>
      r.error == Invalid("Some course_deck ids do not belong to this course")
  {
    match body
    case None => Failure(Invalid("Expected a list of objects with id and order_index"))
    case Some(items) =>
      match ParseMoves(items)
      case Failure(msg) => Failure(Invalid(msg))
      case Success(ms) =>
        match ResolveIds(ms)
        case Failure(e) => Failure(e)
        case Success(ps) =>
          if !(MovedIds(ps) <= CourseRelIds(rels, courseId)) then
            Failure(Invalid("Some course_deck ids do not belong to this course"))
          else Success(ApplyMoves(rels, courseId, ps))
  }

  /** A null `id` never belongs to the course, even beside ids that do. */
  lemma {:induction false} NullIdRefused(rels: seq<CourseDeck>, courseId: int, items: seq<ReorderItem>, a: int)
    requires ParseMoves(items).Success?
    requires forall i :: 0 <= i < |items| ==> items[i].id.value != OtherV
    ensures Reorder(rels, courseId, Some(items + [Move(Some(NullV), Some(IntV(a)))]))
      == Failure(Invalid("Some course_deck ids do not belong to this course"))
  {
    var all := items + [Move(Some(NullV), Some(IntV(a)))];
    assert forall i :: 0 <= i < |items| ==> all[i] == items[i];
    assert WellFormedMove(all[|items|]);
    var ms := ParseMoves(all).value;
    assert Names(all[|items|], ms[|items|]);
    assert ms[|items|].id == NullV;
    forall i | 0 <= i < |ms| ensures !ms[i].id.OtherV? {
      assert Names(all[i], ms[i]);
    }
  }

  /** Moving positions keeps the pairs unique. */
  lemma {:induction false} MovesKeepPairs(rels: seq<CourseDeck>, courseId: int, ps: seq<Position>)
    requires UniquePairs(rels)
    ensures UniquePairs(ApplyMoves(rels, courseId, ps))
  {
    var r := ApplyMoves(rels, courseId, ps);
    forall i | 0 <= i < |rels| ensures r[i].courseId == rels[i].courseId && r[i].deckId == rels[i].deckId {
      assert r[i].(orderIndex := rels[i].orderIndex) == rels[i];
    }
  }

  /** Of two items for the same relation, the later one's position is the one kept. */
  lemma {:induction false} LastItemWins(rels: seq<CourseDeck>, courseId: int, items: seq<ReorderItem>, i: nat,
                                        a: int, b: int)
    requires i < |rels| && rels[i].courseId == courseId
    requires Reorder(rels, courseId, Some(items + [Move(Some(IntV(rels[i].id)), Some(IntV(a))), Move(Some(IntV(rels[i].id)), Some(IntV(b)))])).Success?
    ensures Reorder(rels, courseId, Some(items + [Move(Some(IntV(rels[i].id)), Some(IntV(a))), Move(Some(IntV(rels[i].id)), Some(IntV(b)))])).value[i].orderIndex == b
  {
    var all := items + [Move(Some(IntV(rels[i].id)), Some(IntV(a))), Move(Some(IntV(rels[i].id)), Some(IntV(b)))];
    var ms := ParseMoves(all).value;
    var ps := Moves(all);
    assert Names(all[|all| - 1], ms[|ms| - 1]);
    assert ps[|ps| - 1] == Position(rels[i].id, b);
    assert rels[i].id in MovedIds(ps);
  }

  // ---------------------------------------------------------------- batch attach

  /** One element of a batch body: something that is not an object, or one with an optional `deck_id`. */
  datatype BatchItem = NotObject | Attach(deckId: Option<Value>)

  predicate WellFormedAttach(it: BatchItem) {
    it.Attach? && it.deckId.Some? && IsInt(it.deckId.value)
  }

  /** Item `i` is the first malformed one. */
  predicate FirstBadAttach(items: seq<BatchItem>, i: int) {
    0 <= i < |items| && !WellFormedAttach(items[i]) && forall j :: 0 <= j < i ==> WellFormedAttach(items[j])
  }

  /** The complaint the loop raises about a malformed item. */
  function AttachComplaint(it: BatchItem): string {
    if it.NotObject? then "Each item must be an object"
    else if it.deckId.None? then "Each item must have deck_id"
    else "deck_id must be int"
  }

  /** The validation loop of the batch endpoint: the deck ids, or the complaint about the first bad item. */
  function ParseDeckIds(items: seq<BatchItem>): (r: Result<seq<int>, string>)
    ensures r.Success? <==> forall i :: 0 <= i < |items| ==> WellFormedAttach(items[i])
    ensures r.Success? ==> |r.value| == |items| && forall i :: 0 <= i < |items| ==>
      items[i].Attach? && items[i].deckId.Some? && IsInt(items[i].deckId.value) && AsInt(items[i].deckId.value) == r.value[i]
    ensures r.Failure? ==> exists i :: FirstBadAttach(items, i) && r.error == AttachComplaint(items[i])
  {
    if items == [] then Success([])
    else
      var it := items[0];
      assert forall i :: 1 <= i < |items| ==> items[i] == items[1..][i - 1];
      if !WellFormedAttach(it) then Failure(AttachComplaint(it))
      else match ParseDeckIds(items[1..])
        case Failure(e) =>
          assert exists i :: FirstBadAttach(items, i) && e == AttachComplaint(items[i]) by {
            var k :| FirstBadAttach(items[1..], k) && e == AttachComplaint(items[1..][k]);
            assert items[k + 1] == items[1..][k] && FirstBadAttach(items, k + 1);
          }
          Failure(e)
        case Success(ids) => Success([AsInt(it.deckId.value)] + ids)
  }

  /** `set(...)` of a list. */
  function Elements(s: seq<int>): (r: set<int>)
    ensures forall x :: x in r <==> x in s
  {
    if s == [] then {} else {s[0]} + Elements(s[1..])
  }

  predicate Distinct(s: seq<int>) {
    forall i, j :: 0 <= i < j < |s| ==> s[i] != s[j]
  }

  /** Dropping the head keeps distinctness, and adds nothing to it when the head recurs. */
  lemma {:induction false} DistinctCons(s: seq<int>)
    requires s != []
    ensures Distinct(s) <==> s[0] !in s[1..] && Distinct(s[1..])
  {
    var t := s[1..];
    assert forall i :: 1 <= i < |s| ==> s[i] == t[i - 1];
    if s[0] !in t && Distinct(t) {
      forall i, j | 0 <= i < j < |s| ensures s[i] != s[j] {
        if i == 0 { assert s[j] == t[j - 1]; } else { assert s[i] == t[i - 1] && s[j] == t[j - 1]; }
      }
    }
    if Distinct(s) {
      forall i, j | 0 <= i < j < |t| ensures t[i] != t[j] {
        assert t[i] == s[i + 1] && t[j] == s[j + 1];
      }
      assert forall k :: 0 <= k < |t| ==> t[k] == s[k + 1] && s[k + 1] != s[0];
    }
  }

  /** `len(s) != len(set(s))` is the test for a repeated element. */
  lemma {:induction false} DistinctByCount(s: seq<int>)
    ensures |Elements(s)| <= |s|
    ensures |Elements(s)| == |s| <==> Distinct(s)
  {
    if s != [] {
      var t := s[1..];
      DistinctByCount(t);
      DistinctCons(s);
      if s[0] in t {
        assert Elements(s) == Elements(t);
      } else {
        assert Elements(s) == {s[0]} + Elements(t);
        assert s[0] !in Elements(t);
      }
    }
  }

  /** The requested decks the course already has. */
  function AttachedAmong(rels: seq<CourseDeck>, courseId: int, ids: seq<int>): (r: set<int>)
    ensures forall d :: d in r <==> d in ids && Attached(rels, courseId, d)
  {
    set i | 0 <= i < |ids| && Attached(rels, courseId, ids[i]) :: ids[i]
  }

  /**
   * The deck check of a `deck_id` as the request carried it. A boolean passes `isinstance(v, int)`
   * but is sent to the decks service as `True` or `False`, which names no deck.
   */
  function CheckDeckValue(decks: DeckOracle, v: Value, teacherId: int, u: User): (r: Option<Refusal>)
    requires IsInt(v)
    ensures v.BoolV? ==> r == Some(Invalid("Deck not found"))
    ensures v.IntV? ==> r == CheckDeck(decks, v.i, teacherId, u)
  {
    if v.BoolV? then Some(Invalid("Deck not found")) else CheckDeck(decks, v.i, teacherId, u)
  }

  /** The `deck_id` values of a well-formed batch body, as sent. */
  function DeckValues(items: seq<BatchItem>): (r: seq<Value>)
    requires forall i :: 0 <= i < |items| ==> WellFormedAttach(items[i])
    ensures |r| == |items|
    ensures forall i :: 0 <= i < |items| ==> WellFormedAttach(items[i]) && r[i] == items[i].deckId.value && IsInt(r[i])
  {
    seq(|items|, i requires 0 <= i < |items| && WellFormedAttach(items[i]) => items[i].deckId.value)
  }

  /** The first deck check that fails, in request order. */
  function FirstDeckRefusal(decks: DeckOracle, vs: seq<Value>, teacherId: int, u: User): (r: Option<Refusal>)
    requires forall i :: 0 <= i < |vs| ==> IsInt(vs[i])
    ensures r.None? <==> forall i :: 0 <= i < |vs| ==> CheckDeckValue(decks, vs[i], teacherId, u).None?
    ensures r.Some? ==> exists i :: 0 <= i < |vs| && CheckDeckValue(decks, vs[i], teacherId, u) == r
  {
    if vs == [] then None
    else if CheckDeckValue(decks, vs[0], teacherId, u).Some? then CheckDeckValue(decks, vs[0], teacherId, u)
    else
      assert forall i :: 1 <= i < |vs| ==> vs[i] == vs[1..][i - 1];
      var rest := FirstDeckRefusal(decks, vs[1..], teacherId, u);
      assert rest.Some? ==> exists i :: 0 <= i < |vs| && CheckDeckValue(decks, vs[i], teacherId, u) == rest by {
        if rest.Some? {
          var k :| 0 <= k < |vs[1..]| && CheckDeckValue(decks, vs[1..][k], teacherId, u) == rest;
          assert vs[k + 1] == vs[1..][k];
        }
      }
      rest
  }

  /** The new relations, numbered from `firstId` and positioned from `start`, in request order. */
  function NewRelations(courseId: int, ids: seq<int>, firstId: int, start: int): (r: seq<CourseDeck>)
    ensures |r| == |ids|
    ensures forall k :: 0 <= k < |ids| ==>
      r[k].id == firstId + k && r[k].courseId == courseId && r[k].deckId == ids[k] && r[k].orderIndex == start + k
  {
    seq(|ids|, k requires 0 <= k < |ids| => CourseDeck(firstId + k, courseId, ids[k], start + k))
  }

  /**
   * `POST /courses/{id}/decks/batch/`: the body must be a non-empty list of objects with integer
   * `deck_id`s, without repeats and none already attached; every deck must pass the deck check;
   * then the decks are appended in request order at consecutive positions after the last one.
   */
  function Batch(rels: seq<CourseDeck>, course: Course, decks: DeckOracle, u: User, body: Option<seq<BatchItem>>,
                 firstId: int)
    : (r: Result<seq<CourseDeck>, Refusal>)
    ensures body.None? ==> r == Failure(Invalid("Expected a list of objects with deck_id"))
    ensures body == Some([]) ==> r == Failure(Invalid("List cannot be empty"))
    ensures body.Some? && body.value != [] && ParseDeckIds(body.value).Failure? ==>
      r == Failure(Invalid(ParseDeckIds(body.value).error))
    ensures r.Success? <==>
      && body.Some? && body.value != [] && ParseDeckIds(body.value).Success?
      && var ids := ParseDeckIds(body.value).value;
      && Distinct(ids)
      && AttachedAmong(rels, course.id, ids) == {}
      && forall i :: 0 <= i < |body.value| ==> CheckDeckValue(decks, DeckValues(body.value)[i], course.teacherId, u).None?
    ensures r.Failure? && body.Some? && body.value != [] && ParseDeckIds(body.value).Success? &&
            Distinct(ParseDeckIds(body.value).value) && AttachedAmong(rels, course.id, ParseDeckIds(body.value).value) != {} ==>
      r.error == AlreadyAttached(AttachedAmong(rels, course.id, ParseDeckIds(body.value).value))
    ensures r.Success? ==>
      r.value == rels + NewRelations(course.id, ParseDeckIds(body.value).value, firstId, NextOrderIndex(rels, course.id))
  {
    match body
    case None => Failure(Invalid("Expected a list of objects with deck_id"))
    case Some(items) =>
      if items == [] then Failure(Invalid("List cannot be empty"))
      else match ParseDeckIds(items)
      case Failure(msg) => Failure(Invalid(msg))
      case Success(ids) =>
        DistinctByCount(ids);
        if |ids| != |Elements(ids)| then Failure(Invalid("Duplicate deck_ids in request"))
        else
          var existing := AttachedAmong(rels, course.id, ids);
          if existing != {} then Failure(AlreadyAttached(existing))
          else match FirstDeckRefusal(decks, DeckValues(items), course.teacherId, u)
          case Some(e) => Failure(e)
          case None => Success(rels + NewRelations(course.id, ids, firstId, NextOrderIndex(rels, course.id)))
  }

  /**
   * A boolean `deck_id` is an integer to the validation loop, but no batch containing one
   * succeeds: the decks service finds no deck named `True` or `False`.
   */
  lemma {:induction false} BooleanDeckIdNeverAttaches(rels: seq<CourseDeck>, course: Course, decks: DeckOracle,
                                                      u: User, items: seq<BatchItem>, k: nat, firstId: int)
    requires k < |items| && items[k].Attach? && items[k].deckId.Some? && items[k].deckId.value.BoolV?
    ensures Batch(rels, course, decks, u, Some(items), firstId).Failure?
  {
    if ParseDeckIds(items).Success? {
      assert CheckDeckValue(decks, DeckValues(items)[k], course.teacherId, u).Some?;
    }
  }

  /** New relations for distinct decks none of which the course has keep the pairs unique. */
  lemma {:induction false} AppendKeepsPairs(rels: seq<CourseDeck>, courseId: int, ids: seq<int>, firstId: int, start: int)
    requires UniquePairs(rels) && Distinct(ids) && AttachedAmong(rels, courseId, ids) == {}
    ensures UniquePairs(rels + NewRelations(courseId, ids, firstId, start))
  {
    var added := NewRelations(courseId, ids, firstId, start);
    var r := rels + added;
    forall i, j | 0 <= i < j < |r| ensures r[i].courseId != r[j].courseId || r[i].deckId != r[j].deckId {
      if j >= |rels| {
        assert r[j] == added[j - |rels|];
        if i < |rels| {
          assert ids[j - |rels|] in ids && ids[j - |rels|] !in AttachedAmong(rels, courseId, ids);
          assert !Attached(rels, courseId, ids[j - |rels|]);
          assert rels[i] == r[i];
        } else {
          assert r[i] == added[i - |rels|];
        }
      }
    }
  }

  /**
   * A successful batch keeps the course's decks unique, and every new deck sits after every deck
   * the course had.
   */
  lemma {:induction false} BatchKeepsPairs(rels: seq<CourseDeck>, course: Course, decks: DeckOracle, u: User,
                                           body: Option<seq<BatchItem>>, firstId: int)
    requires UniquePairs(rels)
    ensures Batch(rels, course, decks, u, body, firstId).Success? ==>
      var r := Batch(rels, course, decks, u, body, firstId).value;
      && UniquePairs(r)
      && forall i, j :: 0 <= i < |rels| <= j < |r| && rels[i].courseId == course.id ==> r[i].orderIndex < r[j].orderIndex
  {
    if Batch(rels, course, decks, u, body, firstId).Success? {
      var ids := ParseDeckIds(body.value).value;
      var start := NextOrderIndex(rels, course.id);
      AppendKeepsPairs(rels, course.id, ids, firstId, start);
      var added := NewRelations(course.id, ids, firstId, start);
      var r := rels + added;
      assert forall j :: |rels| <= j < |r| ==> r[j] == added[j - |rels|] && r[j].orderIndex >= start;
    }
  }

  // ---------------------------------------------------------------- one relation

  /** The position in the table of the course's relation `relId`, if it has one. */
  function FindRelation(rels: seq<CourseDeck>, courseId: int, relId: int): (r: Option<nat>)
    ensures r.None? <==> forall i :: 0 <= i < |rels| ==> rels[i].courseId != courseId || rels[i].id != relId
    ensures r.Some? ==> r.value < |rels| && rels[r.value].courseId == courseId && rels[r.value].id == relId
  {
    if rels == [] then None
    else if rels[0].courseId == courseId && rels[0].id == relId then Some(0)
    else
      var rest := FindRelation(rels[1..], courseId, relId);
      assert forall i :: 1 <= i < |rels| ==> rels[i] == rels[1..][i - 1];
      if rest.None? then None else Some(rest.value + 1)
  }

  /** The PATCH body: a `deck_id` and an `order_index`, each optional. */
  datatype RelationPatch = RelationPatch(deckId: Option<int>, orderIndex: Option<int>)

  /** `if new_deck_id and new_deck_id != coursedeck.deck_id`: a non-zero deck other than the current one. */
  predicate ChangesDeck(p: RelationPatch, rel: CourseDeck) {
    p.deckId.Some? && p.deckId.value != 0 && p.deckId.value != rel.deckId
  }

  /**
   * PATCH `/courses/{id}/decks/{rel}/`: 404 for a relation outside the course; a new non-zero
   * `deck_id` different from the current one must pass the deck check; swapping in a deck the
   * course already has breaks the uniqueness constraint, which nothing catches (a 500).
   */
  function PatchRelation(rels: seq<CourseDeck>, course: Course, decks: DeckOracle, u: User, relId: int,
                         p: RelationPatch)
    : (r: Result<seq<CourseDeck>, Refusal>)
    ensures FindRelation(rels, course.id, relId).None? ==> r == Failure(NotFound)
    ensures FindRelation(rels, course.id, relId).Some? ==>
      var k := FindRelation(rels, course.id, relId).value;
      && (ChangesDeck(p, rels[k]) && CheckDeck(decks, p.deckId.value, course.teacherId, u).Some? ==>
            r == Failure(CheckDeck(decks, p.deckId.value, course.teacherId, u).value))
      && (ChangesDeck(p, rels[k]) && CheckDeck(decks, p.deckId.value, course.teacherId, u).None? ==>
            (r.Success? <==> !Attached(rels, course.id, p.deckId.value)))
      && (ChangesDeck(p, rels[k]) && r.Failure? && CheckDeck(decks, p.deckId.value, course.teacherId, u).None? ==>
            r.error == Unhandled)
      && (!ChangesDeck(p, rels[k]) ==> r.Success?)
    ensures r.Success? ==> FindRelation(rels, course.id, relId).Some? && |r.value| == |rels|
    ensures r.Success? ==> var k := FindRelation(rels, course.id, relId).value;
      && (forall i :: 0 <= i < |rels| && i != k ==> r.value[i] == rels[i])
      && r.value[k].id == relId && r.value[k].courseId == course.id
      && r.value[k].orderIndex == p.orderIndex.GetOr(rels[k].orderIndex)
      && r.value[k].deckId == (if ChangesDeck(p, rels[k]) then p.deckId.value else rels[k].deckId)
    ensures r.Success? && UniquePairs(rels) ==> UniquePairs(r.value)
  {
    match FindRelation(rels, course.id, relId)
    case None => Failure(NotFound)
    case Some(k) =>
      var rel := rels[k];
      var changes := ChangesDeck(p, rel);
      var check := if changes then CheckDeck(decks, p.deckId.value, course.teacherId, u) else None;
      if check.Some? then Failure(check.value)
      else
        var deckId := if changes then p.deckId.value else rel.deckId;
        var updated := rel.(deckId := deckId, orderIndex := p.orderIndex.GetOr(rel.orderIndex));
        if changes && Attached(rels, course.id, deckId) then Failure(Unhandled)
        else
          var r := rels[k := updated];
          assert UniquePairs(rels) ==> UniquePairs(r) by {
            if UniquePairs(rels) {
              forall i, j | 0 <= i < j < |r| ensures r[i].courseId != r[j].courseId || r[i].deckId != r[j].deckId {
                if i == k || j == k {
                  if !changes {
                    assert r[k].deckId == rels[k].deckId;
                  }
                }
              }
            }
          }
          Success(r)
  }

  /**
   * A successful change of deck swaps it: the course then has the new deck and, its pairs being
   * unique, no longer has the old one; the relation keeps its id.
   */
  lemma {:induction false} PatchSwapsDeck(rels: seq<CourseDeck>, course: Course, decks: DeckOracle, u: User,
                                          relId: int, p: RelationPatch)
    requires UniquePairs(rels)
    requires PatchRelation(rels, course, decks, u, relId, p).Success?
    requires ChangesDeck(p, rels[FindRelation(rels, course.id, relId).value])
    ensures var r := PatchRelation(rels, course, decks, u, relId, p).value;
      var prev := rels[FindRelation(rels, course.id, relId).value].deckId;
      && Attached(r, course.id, p.deckId.value)
      && !Attached(r, course.id, prev)
      && FindRelation(r, course.id, relId).Some?
  {
    var k := FindRelation(rels, course.id, relId).value;
    var r := PatchRelation(rels, course, decks, u, relId, p).value;
    var prev := rels[k].deckId;
    assert r[k].courseId == course.id && r[k].deckId == p.deckId.value;
    forall i | 0 <= i < |r| ensures r[i].courseId != course.id || r[i].deckId != prev {
      if i != k {
        assert r[i] == rels[i];
        assert i < k || k < i;
      }
    }
    assert r[k].id == relId;
  }

  /** Re-sending the current deck (or none) never consults the decks service. */
  lemma SameDeckSkipsCheck(rels: seq<CourseDeck>, course: Course, a: DeckOracle, b: DeckOracle, u: User,
                           relId: int, p: RelationPatch)
    requires FindRelation(rels, course.id, relId).Some?
    requires p.deckId.None? || p.deckId == Some(rels[FindRelation(rels, course.id, relId).value].deckId)
    ensures PatchRelation(rels, course, a, u, relId, p) == PatchRelation(rels, course, b, u, relId, p)
    ensures PatchRelation(rels, course, a, u, relId, p).Success?
  {
  }

  /** DELETE `/courses/{id}/decks/{rel}/`: 404 outside the course, otherwise that relation goes. */
  function DetachDeck(rels: seq<CourseDeck>, courseId: int, relId: int): (r: Result<seq<CourseDeck>, Refusal>)
    ensures r.Failure? <==> forall i :: 0 <= i < |rels| ==> rels[i].courseId != courseId || rels[i].id != relId
    ensures r.Failure? ==> r.error == NotFound
    ensures r.Success? ==> |r.value| == |rels| - 1 && forall x :: x in r.value ==> x in rels
    ensures r.Success? ==> multiset(r.value) + multiset{rels[FindRelation(rels, courseId, relId).value]} == multiset(rels)
  {
    match FindRelation(rels, courseId, relId)
    case None => Failure(NotFound)
    case Some(k) =>
      assert rels == rels[..k] + [rels[k]] + rels[k + 1..];
      Success(rels[..k] + rels[k + 1..])
  }

  function PositionThenId(rel: CourseDeck): (int, int) {
    (rel.orderIndex, rel.id)
  }

  /** GET `/courses/{id}/decks/`: the course's relations, by position then id. */
  function CourseDecks(rels: seq<CourseDeck>, courseId: int): (r: seq<CourseDeck>)
    ensures forall x :: x in r <==> x in rels && x.courseId == courseId
    ensures SortedBy(r, PositionThenId)
  {
    var r := Sort(OfCourse(rels, courseId), PositionThenId);
    assert forall x :: x in r <==> x in multiset(r);
    r
  }

  function OfCourse(rels: seq<CourseDeck>, courseId: int): (r: seq<CourseDeck>)
    ensures forall x :: x in r <==> x in rels && x.courseId == courseId
  {
    if rels == [] then []
    else (if rels[0].courseId == courseId then [rels[0]] else []) + OfCourse(rels[1..], courseId)
  }
}

=== FILE: deck_api.dfy ===
/**
 * The deck endpoints of the decks service (deck/controller.py): the guards each applies, in order,
 * before it reads or changes a deck, how a deck's cards are shown, and the next-cursor header.
 *
 * The deck table is a map from id to deck; the cards loaded with a deck are passed in as a list.
 */
module DeckApi {
  import opened Wrappers
  import opened Text
  import opened DeckAuth
  import opened Decks
  import opened ObjectKeys
  import Cards
  import CardApi
  import DeckStatistics

  type DeckTable = map<int, Deck>

  /** A deck as `SDeckDetailedResponse` returns it, with its cards' images presigned. */
  datatype DeckView = DeckView(deck: Deck, cards: seq<CardApi.CardView>)

  /**
   * The outcome of a deck endpoint: the body, an HTTP error with its detail, or the 400 whose
   * detail lists the unknown category slugs.
   */
  datatype Reply<+T> =
    | Done(body: T)
    | Refused(status: nat, detail: string)
    | BadCategories(slugs: seq<string>)

  /** `_presign_deck_cards`: every card of the deck shown as the card endpoints show it. */
  function PresignDeckCards(cards: seq<Cards.Card>): (r: seq<CardApi.CardView>)
    ensures |r| == |cards|
    ensures forall i :: 0 <= i < |r| ==> r[i].card == cards[i]
    ensures forall i :: 0 <= i < |r| ==> r[i].front == ShowImage(cards[i].frontImage) && r[i].back == ShowImage(cards[i].backImage)
  {
    if cards == [] then [] else [CardApi.View(cards[0])] + PresignDeckCards(cards[1..])
  }

  /**
   * Presigning never signs an empty image value or a key still in the temporary area: those are
   * returned exactly as stored, and every other image is signed under its own key.
   */
  lemma {:induction false} PresignLeavesTempAndEmpty(cards: seq<Cards.Card>, i: nat)
    requires i < |cards|
    ensures var v := PresignDeckCards(cards)[i]; var u := cards[i].frontImage;
      u.Some? && (u.value == "" || IsTemp(u.value)) ==> v.front == Some(AsStored(u.value))
    ensures var v := PresignDeckCards(cards)[i]; var u := cards[i].frontImage;
      u.Some? && u.value != "" && !IsTemp(u.value) ==> v.front == Some(SignedGet(u.value))
    ensures var v := PresignDeckCards(cards)[i]; var u := cards[i].backImage;
      u.Some? && (u.value == "" || IsTemp(u.value)) ==> v.back == Some(AsStored(u.value))
    ensures var v := PresignDeckCards(cards)[i]; var u := cards[i].backImage;
      u.Some? && u.value != "" && !IsTemp(u.value) ==> v.back == Some(SignedGet(u.value))
  {
    var v := PresignDeckCards(cards)[i];
    assert v.front == ShowImage(cards[i].frontImage) && v.back == ShowImage(cards[i].backImage);
  }

  /** The `X-Next-Cursor` header: set, to the decimal id, only for a truthy cursor. */
  function NextCursorHeader(next: Option<int>): (r: Option<string>)
    ensures r.Some? <==> next.Some? && next.value != 0
  {
    if next.Some? && next.value != 0 then Some(IntToString(next.value)) else None
  }

  /** A client parsing the header of a positive cursor gets the cursor back. */
  lemma CursorHeaderRoundTrip(next: nat)
    requires next > 0
    ensures NextCursorHeader(Some(next)).Some? && ParseInt(NextCursorHeader(Some(next)).value) == Some(next)
  {
    ParseNatToString(next);
  }

  /** `SDeckCreate`. */
  datatype DeckCreate = DeckCreate(title: string, ownerId: Option<int>, description: Option<string>,
                                   categories: Option<seq<string>>, tags: Option<seq<string>>)

  /** An error of the deck service as the endpoint reports it; a link conflict is not caught. */
  function ServiceError<T>(e: DeckError): (r: Reply<T>)
    ensures e.UnknownCategories? ==> r == BadCategories(e.slugs)
    ensures e.Conflict? ==> r == Refused(500, "Internal Server Error")
  {
    match e
    case UnknownCategories(slugs) => BadCategories(slugs)
    case Conflict => Refused(500, "Internal Server Error")
  }

  /**
   * `POST /deck/`: 401 without a user, 403 when a non-manager names an owner; the owner is the
   * named one or else the caller. The new deck gets id `nextId`.
   */
  function CreateDeckEndpoint(decks: DeckTable, labels: Labels, nextId: int, user: Option<User>, p: DeckCreate)
    : (r: (Reply<DeckView>, DeckTable, Labels))
    ensures user.None? <==> r.0 == Refused(401, "Unauthenticated")
    ensures user.Some? && p.ownerId.Some? && !user.value.isManager ==> r.0 == Refused(403, "Forbidden")
    ensures !r.0.Done? ==> r.1 == decks && r.2 == labels
    ensures r.0.Done? ==>
      var d := r.0.body.deck;
      && user.Some? && d.id == nextId && d.title == p.title
      && d.ownerId == (if p.ownerId.Some? then p.ownerId.value else user.value.id)
      && Authorized(d.ownerId, user)
      && r.1 == decks[nextId := d] && r.0.body.cards == []
  {
    if user.None? then (Refused(401, "Unauthenticated"), decks, labels)
    else if p.ownerId.Some? && !user.value.isManager then (Refused(403, "Forbidden"), decks, labels)
    else
      var owner := p.ownerId.GetOr(user.value.id);
      match CreateDeck(labels, nextId, owner, p.title, p.description, p.categories, p.tags)
      case Failure(e) => (ServiceError(e), decks, labels)
      case Success((d, l)) => (Done(DeckView(d, [])), decks[nextId := d], l)
  }

  /** `GET /deck/{deck_id}/`: 404 for a missing deck; otherwise the deck, whoever asks. */
  function GetDeckEndpoint(decks: DeckTable, deckId: int, cards: seq<Cards.Card>): (r: Reply<DeckView>)
    ensures r.Done? <==> deckId in decks
    ensures !r.Done? ==> r == Refused(404, "Deck not found")
    ensures r.Done? ==> r.body.deck == decks[deckId] && |r.body.cards| == |cards|
  {
    if deckId !in decks then Refused(404, "Deck not found")
    else Done(DeckView(decks[deckId], PresignDeckCards(cards)))
  }

  /** The guards of update, delete and stats: a missing deck before a forbidden user. */
  function Guard(decks: DeckTable, deckId: int, user: Option<User>): (r: Option<(nat, string)>)
    ensures r.None? <==> deckId in decks && Authorized(decks[deckId].ownerId, user)
    ensures deckId !in decks ==> r == Some((404, "Deck not found"))
    ensures deckId in decks && !Authorized(decks[deckId].ownerId, user) ==> r == Some((403, "Forbidden"))
  {
    if deckId !in decks then Some((404, "Deck not found"))
    else if !Authorized(decks[deckId].ownerId, user) then Some((403, "Forbidden"))
    else None
  }

  /**
   * `PATCH /deck/{deck_id}/`: the guards, then the service update. The payload's `owner_id` is
   * ignored, so an update never changes a deck's owner.
   */
  function UpdateDeckEndpoint(decks: DeckTable, labels: Labels, deckId: int, user: Option<User>, p: DeckPatch,
                              cards: seq<Cards.Card>)
    : (r: (Reply<DeckView>, DeckTable, Labels))
    ensures Guard(decks, deckId, user).Some? ==>
      r == (Refused(Guard(decks, deckId, user).value.0, Guard(decks, deckId, user).value.1), decks, labels)
    ensures !r.0.Done? ==> r.1 == decks && r.2 == labels
    ensures r.0.Done? ==>
      && deckId in decks && Authorized(decks[deckId].ownerId, user)
      && r.0.body.deck.id == decks[deckId].id && r.0.body.deck.ownerId == decks[deckId].ownerId
      && r.1 == decks[deckId := r.0.body.deck]
  {
    match Guard(decks, deckId, user)
    case Some((status, detail)) => (Refused(status, detail), decks, labels)
    case None =>
      match UpdateDeck(labels, decks[deckId], p)
      case Failure(e) => (ServiceError(e), decks, labels)
      case Success((d, l)) => (Done(DeckView(d, PresignDeckCards(cards))), decks[deckId := d], l)
  }

  /** `DELETE /deck/{deck_id}/`: the guards, then the deck is removed. */
  function DeleteDeckEndpoint(decks: DeckTable, deckId: int, user: Option<User>): (r: (Reply<()>, DeckTable))
    ensures Guard(decks, deckId, user).Some? ==>
      r == (Refused(Guard(decks, deckId, user).value.0, Guard(decks, deckId, user).value.1), decks)
    ensures r.0.Done? <==> Guard(decks, deckId, user).None?
    ensures r.0.Done? ==> deckId !in r.1 && forall k :: k in decks && k != deckId ==> k in r.1 && r.1[k] == decks[k]
    ensures !r.0.Done? ==> r.1 == decks
  {
    match Guard(decks, deckId, user)
    case Some((status, detail)) => (Refused(status, detail), decks)
    case None => (Done(()), decks - {deckId})
  }

  /**
   * `GET /deck/{deck_id}/stats/`: the guards, then the deck's statistics, which are created
   * zeroed (and stored) when the deck has none.
   */
  function StatsEndpoint(decks: DeckTable, stats: map<int, DeckStatistics.Stats>, deckId: int, user: Option<User>)
    : (r: (Reply<DeckStatistics.Stats>, map<int, DeckStatistics.Stats>))
    ensures Guard(decks, deckId, user).Some? ==>
      r == (Refused(Guard(decks, deckId, user).value.0, Guard(decks, deckId, user).value.1), stats)
    ensures r.0.Done? <==> Guard(decks, deckId, user).None?
    ensures r.0.Done? && deckId in stats ==> r.0.body == stats[deckId] && r.1 == stats
    ensures r.0.Done? && deckId !in stats ==>
      && r.0.body.deckId == deckId && r.0.body.totalTests == 0
      && r.1 == stats[deckId := r.0.body]
  {
    match Guard(decks, deckId, user)
    case Some((status, detail)) => (Refused(status, detail), stats)
    case None =>
      var (s, stored) := DeckStatistics.Get(if deckId in stats then Some(stats[deckId]) else None, deckId);
      (Done(s), if stored.Some? then stats[deckId := stored.value] else stats)
  }

  /**
   * The guard order seen from outside: for a deck that does not exist every guarded endpoint
   * answers 404 whoever asks, anonymous callers included, so a 403 reveals that the deck exists.
   */
  lemma MissingDeckIs404(decks: DeckTable, labels: Labels, stats: map<int, DeckStatistics.Stats>, deckId: int,
                         user: Option<User>, p: DeckPatch, cards: seq<Cards.Card>)
    requires deckId !in decks
    ensures UpdateDeckEndpoint(decks, labels, deckId, user, p, cards).0 == Refused(404, "Deck not found")
    ensures DeleteDeckEndpoint(decks, deckId, user).0 == Refused(404, "Deck not found")
    ensures StatsEndpoint(decks, stats, deckId, user).0 == Refused(404, "Deck not found")
    ensures GetDeckEndpoint(decks, deckId, cards) == Refused(404, "Deck not found")
  {
  }

  /** Whoever creates a deck may afterwards delete it, and may read its statistics. */
  lemma {:induction false} CreatorMayManage(decks: DeckTable, labels: Labels, nextId: int, user: Option<User>,
                                            p: DeckCreate, stats: map<int, DeckStatistics.Stats>)
    requires CreateDeckEndpoint(decks, labels, nextId, user, p).0.Done?
    ensures var r := CreateDeckEndpoint(decks, labels, nextId, user, p);
      && DeleteDeckEndpoint(r.1, nextId, user).0.Done?
      && StatsEndpoint(r.1, stats, nextId, user).0.Done?
  {
    var r := CreateDeckEndpoint(decks, labels, nextId, user, p);
    assert nextId in r.1 && r.1[nextId] == r.0.body.deck;
    assert Guard(r.1, nextId, user).None?;
  }
}

=== FILE: deck_auth.dfy ===
/**
 * Authentication and authorization in the decks service (decks auth.py): the mock token
 * resolver and the owner-or-manager rule every write endpoint applies.
 */
module DeckAuth {
  import opened Wrappers
  import opened Text

  /** `UserContext`. */
  datatype User = User(id: int, isManager: bool)

  /**
   * `_mock_fetch_user_info_from_auth_service`: no user for an empty token, the manager with id 2
   * for a token ending in `-manager`, the ordinary user with id 1 for anything else.
   */
  function MockUser(token: string): (r: Option<User>)
    ensures r.None? <==> token == ""
    ensures r.Some? ==> (r.value.isManager <==> EndsWith(token, "-manager"))
    ensures r.Some? ==> r.value.id == (if r.value.isManager then 2 else 1)
  {
    if token == "" then None
    else if EndsWith(token, "-manager") then Some(User(2, true))
    else Some(User(1, false))
  }

  /** `is_authorized_for_resource`. */
  predicate Authorized(owner: int, user: Option<User>) {
    match user
    case None => false
    case Some(u) => u.isManager || owner == u.id
  }

  /**
   * Nobody anonymous is authorized, a manager is authorized for every owner, and an ordinary user
   * for exactly one owner: themself.
   */
  lemma AuthorizedOwners(owner: int, other: int, u: User)
    ensures !Authorized(owner, None)
    ensures u.isManager ==> Authorized(owner, Some(u))
    ensures !u.isManager ==> (Authorized(owner, Some(u)) <==> owner == u.id)
    ensures !u.isManager && Authorized(owner, Some(u)) && Authorized(other, Some(u)) ==> owner == other
  {
  }

  /**
   * Through the mock, any token with the `-manager` suffix reaches every resource, and any other
   * non-empty token reaches exactly the resources of user 1.
   */
  lemma MockAuthorization(token: string, owner: int)
    ensures EndsWith(token, "-manager") ==> Authorized(owner, MockUser(token))
    ensures token != "" && !EndsWith(token, "-manager") ==> (Authorized(owner, MockUser(token)) <==> owner == 1)
    ensures token == "" ==> !Authorized(owner, MockUser(token))
  {
    if EndsWith(token, "-manager") {
      assert token != "";
    }
  }
}

=== FILE: deck_stats.dfy ===
/**
 * Aggregate statistics of a deck's test results (deck_stats/service.py): running means over all
 * tests and per-card counters, updated incrementally by each new result.
 *
 * Floating-point values are reals; `int(x / n)` is Python true division followed by truncation
 * toward zero.
 */
module DeckStatistics {
  import opened Wrappers

  /** One answered card of a test result. */
  datatype CardResult = CardResult(cardId: int, correct: bool, answerTime: int)

  /** The JSON entry kept per card. */
  datatype CardStat = CardStat(total: nat, correct: nat, avgTime: int, correctRate: real)

  datatype Stats = Stats(deckId: int, totalTests: nat, avgScore: real, correctRate: real, avgTime: int,
                         cardStats: Option<map<int, CardStat>>)

  /** A test counts as passed from a correct rate of one half. */
  predicate Passed(rate: real) {
    rate >= 0.5
  }

  function Indicator(b: bool): real {
    if b then 1.0 else 0.0
  }

  /** `int(a / n)`: the quotient truncated toward zero. */
  function TruncDiv(a: int, n: int): (r: int)
    requires n > 0
    ensures 0 <= a ==> 0 <= r * n <= a < r * n + n
    ensures a < 0 ==> r * n - n < a <= r * n <= 0
  {
    if a >= 0 then
      DivBounds(a, n);
      a / n
    else
      var q := (-a) / n;
      DivBounds(-a, n);
      assert (-q) * n == -(q * n);
      -q
  }

  lemma DivBounds(a: int, n: int)
    requires a >= 0 && n > 0
    ensures 0 <= (a / n) * n <= a < (a / n) * n + n
  {
  }

  lemma MulMono(a: int, b: int, n: nat)
    requires a <= b
    ensures a * n <= b * n
  {
  }

  lemma MulCancel(q: int, b: int, n: int)
    requires n > 0 && q * n <= b * n
    ensures q <= b
  {
  }

  /** Real division by a non-zero divisor is undone by multiplication. */
  lemma DivMul(a: real, b: real)
    requires b != 0.0
    ensures (a / b) * b == a
  {
  }

  /** A value times a non-zero divisor determines the value. */
  lemma MulDiv(x: real, a: real, b: real)
    requires b != 0.0 && x * b == a
    ensures x == a / b
  {
  }

  // ---------------------------------------------------------------- per card

  /** An entry's counters agree: at least one answer, no more correct answers than answers. */
  predicate CardOk(c: CardStat) {
    c.total >= 1 && c.correct <= c.total && c.correctRate == c.correct as real / c.total as real
  }

  /** The entry a card's first answer creates when the deck has no statistics yet. */
  function FirstCardStat(cr: CardResult): (c: CardStat)
    ensures CardOk(c) && c.total == 1 && (c.correct == 1 <==> cr.correct) && c.avgTime == cr.answerTime
  {
    CardStat(1, if cr.correct then 1 else 0, cr.answerTime, Indicator(cr.correct))
  }

  /** How often `card` occurs in `results`, and how often correctly. */
  function Occurrences(results: seq<CardResult>, card: int): nat {
    if results == [] then 0
    else (if results[0].cardId == card then 1 else 0) + Occurrences(results[1..], card)
  }

  function CorrectOccurrences(results: seq<CardResult>, card: int): nat {
    if results == [] then 0
    else (if results[0].cardId == card && results[0].correct then 1 else 0) + CorrectOccurrences(results[1..], card)
  }

  /**
   * The card map of a deck's first result (the first branch of `update_deck_stats`): one entry per card, the last answer to a
   * card winning when it repeats.
   */
  function FirstCardStats(m: map<int, CardStat>, results: seq<CardResult>): (r: map<int, CardStat>)
    ensures forall c :: c in r <==> c in m || Occurrences(results, c) > 0
    ensures forall c :: c in m && Occurrences(results, c) == 0 ==> r[c] == m[c]
    ensures forall c :: c in r && Occurrences(results, c) > 0 ==> CardOk(r[c]) && r[c].total == 1
    decreases |results|
  {
    if results == [] then m
    else FirstCardStats(m[results[0].cardId := FirstCardStat(results[0])], results[1..])
  }

  /** One card answer of a later result (the per-card loop of `update_deck_stats`). */
  function AddAnswer(m: map<int, CardStat>, cr: CardResult): (r: map<int, CardStat>)
    ensures r.Keys == m.Keys + {cr.cardId}
    ensures forall c :: c in m && c != cr.cardId ==> r[c] == m[c]
    ensures var prev := if cr.cardId in m then m[cr.cardId] else CardStat(0, 0, 0, 0.0);
      && r[cr.cardId].total == prev.total + 1
      && r[cr.cardId].correct == prev.correct + (if cr.correct then 1 else 0)
      && r[cr.cardId].avgTime == TruncDiv(prev.avgTime * prev.total + cr.answerTime, prev.total + 1)
    ensures (cr.cardId in m ==> CardOk(m[cr.cardId])) ==> CardOk(r[cr.cardId])
  {
    var prev := if cr.cardId in m then m[cr.cardId] else CardStat(0, 0, 0, 0.0);
    var total := prev.total + 1;
    var correct := prev.correct + if cr.correct then 1 else 0;
    m[cr.cardId := CardStat(total, correct, TruncDiv(prev.avgTime * prev.total + cr.answerTime, total),
                            correct as real / total as real)]
  }

  /** The answers `m` already counts for `card`, and how many of them were correct. */
  function Total(m: map<int, CardStat>, card: int): nat {
    if card in m then m[card].total else 0
  }

  function Correct(m: map<int, CardStat>, card: int): nat {
    if card in m then m[card].correct else 0
  }

  /**
   * The card loop of a later result: each card's total grows by the number of its answers and its
   * correct count by the number of its correct answers; cards not answered keep their entry.
   */
  function AddAnswers(m: map<int, CardStat>, results: seq<CardResult>): (r: map<int, CardStat>)
    ensures forall c :: c in r <==> c in m || Occurrences(results, c) > 0
    ensures forall c :: c in m && Occurrences(results, c) == 0 ==> r[c] == m[c]
    ensures forall c :: c in r ==>
      && r[c].total == Total(m, c) + Occurrences(results, c)
      && r[c].correct == Correct(m, c) + CorrectOccurrences(results, c)
    decreases |results|
  {
    if results == [] then m
    else AddAnswers(AddAnswer(m, results[0]), results[1..])
  }

  /** The card loop keeps every entry consistent, in particular `correct <= total`. */
  lemma {:induction false} AddAnswersKeepsCardOk(m: map<int, CardStat>, results: seq<CardResult>)
    requires forall c :: c in m ==> CardOk(m[c])
    ensures var r := AddAnswers(m, results); forall c :: c in r ==> CardOk(r[c])
    decreases |results|
  {
    if results != [] {
      var m1 := AddAnswer(m, results[0]);
      assert forall c :: c in m1 ==> CardOk(m1[c]) by {
        forall c | c in m1 ensures CardOk(m1[c]) {
          if c != results[0].cardId {
            assert m1[c] == m[c];
          }
        }
      }
      AddAnswersKeepsCardOk(m1, results[1..]);
      assert AddAnswers(m, results) == AddAnswers(m1, results[1..]);
    }
  }

  // ---------------------------------------------------------------- per deck

  /** The mean of `n` values, `mean`, extended by one more value `x`. */
  function Extend(mean: real, n: nat, x: real): (r: real)
    ensures r * (n + 1) as real == mean * n as real + x
  {
    DivMul(mean * n as real + x, (n + 1) as real);
    (mean * n as real + x) / (n + 1) as real
  }

  /** `update_deck_stats` for a new result with correct rate `rate` and total time `time`. */
  function Update(stats: Option<Stats>, deckId: int, rate: real, time: int, results: seq<CardResult>)
    : (r: Stats)
    ensures r.totalTests == (if stats.None? then 1 else stats.value.totalTests + 1)
    ensures stats.None? ==> r.avgScore == rate && r.correctRate == Indicator(Passed(rate)) && r.avgTime == time
    ensures stats.None? ==> (r.cardStats.None? <==> results == [])
    ensures stats.Some? ==> r.deckId == stats.value.deckId && r.cardStats.Some?
    ensures stats.Some? ==>
      var n := stats.value.totalTests;
      && r.avgScore * (n + 1) as real == stats.value.avgScore * n as real + rate
      && r.correctRate * (n + 1) as real == stats.value.correctRate * n as real + Indicator(Passed(rate))
      && r.avgTime == TruncDiv(stats.value.avgTime * n + time, n + 1)
  {
    match stats
    case None =>
      var cards := FirstCardStats(map[], results);
      assert results != [] ==> results[0].cardId in cards;
      Stats(deckId, 1, rate, Indicator(Passed(rate)), time, if cards == map[] then None else Some(cards))
    case Some(s) =>
      var n := s.totalTests;
      var cards := AddAnswers(s.cardStats.GetOr(map[]), results);
      Stats(s.deckId, n + 1, Extend(s.avgScore, n, rate), Extend(s.correctRate, n, Indicator(Passed(rate))),
            TruncDiv(s.avgTime * n + time, n + 1), Some(cards))
  }

  /** Every card entry of the statistics is consistent. */
  predicate CardsOk(s: Stats) {
    s.cardStats.Some? ==> forall c :: c in s.cardStats.value ==> CardOk(s.cardStats.value[c])
  }

  /** Every update keeps every card's counters consistent, in particular `correct <= total`. */
  lemma UpdateKeepsCardsOk(stats: Option<Stats>, deckId: int, rate: real, time: int, results: seq<CardResult>)
    requires stats.Some? ==> CardsOk(stats.value)
    ensures CardsOk(Update(stats, deckId, rate, time, results))
  {
    var r := Update(stats, deckId, rate, time, results);
    if stats.Some? {
      var m := stats.value.cardStats.GetOr(map[]);
      assert forall c :: c in m ==> CardOk(m[c]);
      AddAnswersKeepsCardOk(m, results);
      assert r.cardStats == Some(AddAnswers(m, results));
    } else {
      var cards := FirstCardStats(map[], results);
      assert forall c :: c in cards ==> CardOk(cards[c]);
    }
  }

  /** `get_deck_stats`: the stored statistics, or zeroed ones, which are then stored. */
  function Get(stored: Option<Stats>, deckId: int): (r: (Stats, Option<Stats>))
    ensures stored.Some? ==> r == (stored.value, stored)
    ensures stored.None? ==> r.1 == Some(r.0)
    ensures stored.None? ==> r.0 == Stats(deckId, 0, 0.0, 0.0, 0, None)
  {
    match stored
    case Some(s) => (s, stored)
    case None =>
      var s := Stats(deckId, 0, 0.0, 0.0, 0, None);
      (s, Some(s))
  }

  // ---------------------------------------------------------------- history

  /** A stored test result as the statistics see it. */
  datatype Test = Test(rate: real, time: int, cards: seq<CardResult>)

  /** The statistics after `tests`, applied in order to a deck without statistics. */
  function Replay(deckId: int, tests: seq<Test>): Option<Stats> {
    if tests == [] then None
    else
      var t := tests[|tests| - 1];
      Some(Update(Replay(deckId, tests[..|tests| - 1]), deckId, t.rate, t.time, t.cards))
  }

  function PassedCount(tests: seq<Test>): nat {
    if tests == [] then 0
    else PassedCount(tests[..|tests| - 1]) + if Passed(tests[|tests| - 1].rate) then 1 else 0
  }

  function RateSum(tests: seq<Test>): real {
    if tests == [] then 0.0
    else RateSum(tests[..|tests| - 1]) + tests[|tests| - 1].rate
  }

  /** Each result counts once. */
  lemma {:induction false} ReplayCounts(deckId: int, tests: seq<Test>)
    requires tests != []
    ensures Replay(deckId, tests).value.totalTests == |tests|
  {
    var init := tests[..|tests| - 1];
    if init != [] {
      ReplayCounts(deckId, init);
    }
  }

  /** One step of a running mean: the mean of `n` values extended by `x` is the mean of `n + 1`. */
  lemma RunningMean(mean: real, sum: real, n: nat, x: real, next: real)
    requires n >= 1 && mean == sum / n as real
    requires next * (n + 1) as real == mean * n as real + x
    ensures next == (sum + x) / (n + 1) as real
  {
    DivMul(sum, n as real);
    MulDiv(next, sum + x, (n + 1) as real);
  }

  /** A later result extends the mean correct rate of the earlier ones by its own rate. */
  lemma ScoreStep(prev: Stats, deckId: int, t: Test, sum: real)
    requires prev.totalTests >= 1 && prev.avgScore == sum / prev.totalTests as real
    ensures Update(Some(prev), deckId, t.rate, t.time, t.cards).avgScore
         == (sum + t.rate) / (prev.totalTests + 1) as real
  {
    var next := Update(Some(prev), deckId, t.rate, t.time, t.cards);
    RunningMean(prev.avgScore, sum, prev.totalTests, t.rate, next.avgScore);
  }

  /** A later result extends the fraction of passed results by one result. */
  lemma PassStep(prev: Stats, deckId: int, t: Test, passed: real)
    requires prev.totalTests >= 1 && prev.correctRate == passed / prev.totalTests as real
    ensures Update(Some(prev), deckId, t.rate, t.time, t.cards).correctRate
         == (passed + Indicator(Passed(t.rate))) / (prev.totalTests + 1) as real
  {
    var next := Update(Some(prev), deckId, t.rate, t.time, t.cards);
    RunningMean(prev.correctRate, passed, prev.totalTests, Indicator(Passed(t.rate)), next.correctRate);
  }

  /** The running `avg_score` is the mean correct rate of all results so far. */
  lemma {:induction false} ReplayMeanScore(deckId: int, tests: seq<Test>)
    requires tests != []
    ensures Replay(deckId, tests).value.avgScore == RateSum(tests) / |tests| as real
  {
    var init := tests[..|tests| - 1];
    if init != [] {
      ReplayCounts(deckId, init);
      ReplayMeanScore(deckId, init);
      ScoreStep(Replay(deckId, init).value, deckId, tests[|tests| - 1], RateSum(init));
    }
  }

  /** The running `correct_rate` is the fraction of results with a rate of at least one half. */
  lemma {:induction false} ReplayPassRate(deckId: int, tests: seq<Test>)
    requires tests != []
    ensures Replay(deckId, tests).value.correctRate == PassedCount(tests) as real / |tests| as real
  {
    var init := tests[..|tests| - 1];
    if init != [] {
      var t := tests[|tests| - 1];
      assert PassedCount(tests) as real == PassedCount(init) as real + Indicator(Passed(t.rate));
      ReplayCounts(deckId, init);
      ReplayPassRate(deckId, init);
      PassStep(Replay(deckId, init).value, deckId, t, PassedCount(init) as real);
    }
  }

  /** With non-negative times, the truncated running mean stays between zero and the largest time. */
  lemma MeanTimeBounded(avg: int, n: nat, time: int, bound: int)
    requires 0 <= avg <= bound && 0 <= time <= bound
    ensures 0 <= TruncDiv(avg * n + time, n + 1) <= bound
  {
    var q := TruncDiv(avg * n + time, n + 1);
    MulMono(avg, bound, n);
    assert avg * n + time <= bound * (n + 1);
    MulCancel(q, bound, n + 1);
  }
}

=== FILE: decks.dfy ===
/**
 * Decks and their labels (deck/service.py): resolving category slugs, getting or creating tags,
 * the cursor-paged deck listing, and the partial deck update.
 *
 * Categories and tags are identified by their slugs, which are unique; a deck's links are the
 * slugs of the rows linked to it, in insertion order. The link tables have the pair
 * (deck, label) as primary key, so the database rejects a link that already exists; the model
 * reports that as a `Conflict`.
 */
module Decks {
  import opened Wrappers

  datatype Deck = Deck(id: int, ownerId: int, title: string, description: Option<string>,
                       categories: seq<string>, tags: seq<string>)

  /** The slugs of existing categories and tags. */
  datatype Labels = Labels(categories: set<string>, tags: set<string>)

  datatype DeckError =
    | UnknownCategories(slugs: seq<string>)
    | Conflict

  // ---------------------------------------------------------------- labels

  /** The entries of `xs` not in `known`, in order, repeats kept. */
  function Missing(xs: seq<string>, known: set<string>): (r: seq<string>)
    ensures |r| <= |xs|
    ensures forall x :: x in r <==> x in xs && x !in known
  {
    if xs == [] then []
    else (if xs[0] in known then [] else [xs[0]]) + Missing(xs[1..], known)
  }

  /** Filtering distributes over concatenation, so the missing entries keep the input order. */
  lemma {:induction false} MissingAppend(a: seq<string>, b: seq<string>, known: set<string>)
    ensures Missing(a + b, known) == Missing(a, known) + Missing(b, known)
  {
    if a == [] {
      assert a + b == b;
    } else {
      assert (a + b)[0] == a[0];
      assert (a + b)[1..] == a[1..] + b;
      MissingAppend(a[1..], b, known);
      var head := if a[0] in known then [] else [a[0]];
      assert Missing(a + b, known) == head + (Missing(a[1..], known) + Missing(b, known));
    }
  }

  /**
   * `_get_or_error_categories`: nothing for no slugs; the unknown slugs, in input order, when any
   * is unknown (the 400 "Unknown categories"); otherwise one category per slug, in input order.
   */
  function ResolveCategories(slugs: seq<string>, known: set<string>): (r: Result<seq<string>, DeckError>)
    ensures slugs == [] ==> r == Success([])
    ensures r.Success? <==> forall i :: 0 <= i < |slugs| ==> slugs[i] in known
    ensures r.Success? ==> r.value == slugs
    ensures r.Failure? ==> r.error == UnknownCategories(Missing(slugs, known)) && Missing(slugs, known) != []
  {
    if slugs == [] then Success([])
    else
      var missing := Missing(slugs, known);
      if missing != [] then
        assert missing[0] in slugs && missing[0] !in known;
        Failure(UnknownCategories(missing))
      else
        assert forall i :: 0 <= i < |slugs| ==> slugs[i] in known by {
          forall i | 0 <= i < |slugs| ensures slugs[i] in known {
            assert slugs[i] !in missing;
          }
        }
        Success(slugs)
  }

  /**
   * `_get_or_create_tags`: one tag per key, in order, found by its slug; a key no existing slug
   * matches becomes a new tag whose name and slug are the key. Returns the linked slugs and the
   * tag slugs afterwards.
   */
  function GetOrCreateTags(keys: seq<string>, existing: set<string>): (r: (seq<string>, set<string>))
    ensures r.0 == keys
    ensures r.1 == existing + set k | k in Missing(keys, existing)
    ensures forall k :: k in keys ==> k in r.1
  {
    (keys, existing + set k | k in Missing(keys, existing))
  }

  lemma NoneMissing(xs: seq<string>, known: set<string>)
    requires forall x :: x in xs ==> x in known
    ensures Missing(xs, known) == []
  {
  }

  /** No slug occurs twice. */
  predicate Distinct(xs: seq<string>) {
    forall i, j :: 0 <= i < j < |xs| ==> xs[i] != xs[j]
  }

  /** Inserting `added` as new links next to `links` violates no primary key. */
  predicate Linkable(links: seq<string>, added: seq<string>) {
    Distinct(added) && forall x :: x in added ==> x !in links
  }

  // ---------------------------------------------------------------- create and update

  /**
   * `create_deck`: the deck row, its categories (which must all exist) and its tags (created when
   * missing). A repeated slug in either list is rejected by the link table.
   */
  function CreateDeck(labels: Labels, id: int, ownerId: int, title: string, description: Option<string>,
                      categories: Option<seq<string>>, tags: Option<seq<string>>)
    : (r: Result<(Deck, Labels), DeckError>)
    ensures r.Success? ==> var d := r.value.0;
      && d.id == id && d.ownerId == ownerId && d.title == title && d.description == description
      && d.categories == categories.GetOr([]) && d.tags == tags.GetOr([])
      && r.value.1.categories == labels.categories
      && labels.tags <= r.value.1.tags && (forall k :: k in d.tags ==> k in r.value.1.tags)
    ensures r.Failure? && r.error.UnknownCategories? ==> r.error.slugs == Missing(categories.GetOr([]), labels.categories)
    ensures r.Success? <==>
      && (forall i :: 0 <= i < |categories.GetOr([])| ==> categories.GetOr([])[i] in labels.categories)
      && Distinct(categories.GetOr([])) && Distinct(tags.GetOr([]))
  {
    var cats :- ResolveCategories(categories.GetOr([]), labels.categories);
    var (tgs, tagSlugs) := GetOrCreateTags(tags.GetOr([]), labels.tags);
    if !Distinct(cats) || !Distinct(tgs) then Failure(Conflict)
    else Success((Deck(id, ownerId, title, description, cats, tgs), labels.(tags := tagSlugs)))
  }

  /** The optional fields of `SDeckUpdate` the service reads. */
  datatype DeckPatch = DeckPatch(title: Option<string>, description: Option<string>,
                                 categories: Option<seq<string>>, tags: Option<seq<string>>)

  /**
   * `update_deck`: title and description are replaced only when given; given categories are
   * resolved and linked in addition to the existing ones; given tags replace the deck's tags
   * wholesale.
   */
  function UpdateDeck(labels: Labels, d: Deck, p: DeckPatch): (r: Result<(Deck, Labels), DeckError>)
    ensures r.Success? ==> var e := r.value.0;
      && e.id == d.id && e.ownerId == d.ownerId
      && e.title == p.title.GetOr(d.title)
      && e.description == (if p.description.Some? then p.description else d.description)
      && e.categories == d.categories + p.categories.GetOr([])
      && e.tags == p.tags.GetOr(d.tags)
      && r.value.1.categories == labels.categories && labels.tags <= r.value.1.tags
    ensures p.categories.Some? && Missing(p.categories.value, labels.categories) != [] ==>
      r == Failure(UnknownCategories(Missing(p.categories.value, labels.categories)))
    ensures r.Success? <==>
      && (p.categories.Some? ==>
            Missing(p.categories.value, labels.categories) == [] && Linkable(d.categories, p.categories.value))
      && (p.tags.Some? ==> Distinct(p.tags.value))
  {
    var cats :- if p.categories.Some? then ResolveCategories(p.categories.value, labels.categories)
                else Success([]);
    if p.categories.Some? && !Linkable(d.categories, cats) then Failure(Conflict)
    else
      var (tgs, tagSlugs) := if p.tags.Some? then GetOrCreateTags(p.tags.value, labels.tags) else (d.tags, labels.tags);
      if p.tags.Some? && !Distinct(tgs) then Failure(Conflict)
      else
        var e := Deck(d.id, d.ownerId, p.title.GetOr(d.title),
                      if p.description.Some? then p.description else d.description,
                      d.categories + cats, tgs);
        Success((e, labels.(tags := tagSlugs)))
  }

  /**
   * An empty patch changes nothing; repeating a tag update changes nothing more, whereas
   * repeating a category update is rejected, since its links already exist.
   */
  lemma UpdateDeckLaws(labels: Labels, d: Deck, tags: seq<string>, cats: seq<string>)
    ensures UpdateDeck(labels, d, DeckPatch(None, None, None, None)) == Success((d, labels))
    ensures var p := DeckPatch(None, None, None, Some(tags));
      UpdateDeck(labels, d, p).Success? ==>
        var (e, l) := UpdateDeck(labels, d, p).value;
        UpdateDeck(l, e, p) == Success((e, l))
    ensures var p := DeckPatch(None, None, Some(cats), None);
      cats != [] && UpdateDeck(labels, d, p).Success? ==>
        var (e, l) := UpdateDeck(labels, d, p).value;
        UpdateDeck(l, e, p) == Failure(Conflict)
  {
    assert d.categories + [] == d.categories;
    var pt := DeckPatch(None, None, None, Some(tags));
    if UpdateDeck(labels, d, pt).Success? {
      var (e, l) := UpdateDeck(labels, d, pt).value;
      NoneMissing(tags, l.tags);
      assert e.categories + [] == e.categories;
      assert (l.tags + set k | k in Missing(tags, l.tags)) == l.tags;
    }
    var p := DeckPatch(None, None, Some(cats), None);
    if cats != [] && UpdateDeck(labels, d, p).Success? {
      var (e, l) := UpdateDeck(labels, d, p).value;
      assert cats[0] in e.categories;
      assert !Linkable(e.categories, cats);
    }
  }

  // ---------------------------------------------------------------- listing

  /** The filters of `list_decks`; an empty category or tag slug filters nothing. */
  datatype Query = Query(author: Option<int>, category: Option<string>, tag: Option<string>, cursor: Option<int>)

  predicate Matches(d: Deck, q: Query) {
    && (q.author.None? || d.ownerId == q.author.value)
    && (q.cursor.None? || d.id > q.cursor.value)
    && (q.category.None? || q.category.value == "" || q.category.value in d.categories)
    && (q.tag.None? || q.tag.value == "" || q.tag.value in d.tags)
  }

  /** Strictly increasing ids: the order of `ORDER BY id ASC` over a primary key. */
  predicate Ascending(ds: seq<Deck>) {
    forall i, j :: 0 <= i < j < |ds| ==> ds[i].id < ds[j].id
  }

  /** The decks of `ds` matching `q`, in the order of `ds`. */
  function Select(ds: seq<Deck>, q: Query): (r: seq<Deck>)
    ensures forall d :: d in r <==> d in ds && Matches(d, q)
    ensures Ascending(ds) ==> Ascending(r)
  {
    if ds == [] then []
    else
      var rest := Select(ds[1..], q);
      if Matches(ds[0], q) then
        assert Ascending(ds) ==> forall d :: d in rest ==> ds[0].id < d.id;
        [ds[0]] + rest
      else rest
  }

  /**
   * `list_decks` over the deck table in id order: the first `limit` matching decks. The database
   * rejects a negative `LIMIT`.
   */
  function ListDecks(ds: seq<Deck>, q: Query, limit: int): (r: Option<seq<Deck>>)
    requires Ascending(ds)
    ensures r.None? <==> limit < 0
    ensures r.Some? ==> |r.value| <= limit && Ascending(r.value)
    ensures r.Some? ==> forall d :: d in r.value ==> d in ds && Matches(d, q)
    ensures r.Some? && |r.value| < limit ==> forall d :: d in ds && Matches(d, q) ==> d in r.value
    ensures r.Some? ==> forall i, d :: 0 <= i < |r.value| && d in ds && Matches(d, q) && d !in r.value ==>
      r.value[i].id < d.id
  {
    if limit < 0 then None
    else
      var s := Select(ds, q);
      var r := if |s| <= limit then s else s[..limit];
      assert forall d :: d in s && d !in r ==> exists j :: limit <= j < |s| && s[j] == d;
      Some(r)
  }

  /** The decks of `s` with an id above `k`, in order. */
  function Above(s: seq<Deck>, k: int): seq<Deck> {
    if s == [] then [] else (if s[0].id > k then [s[0]] else []) + Above(s[1..], k)
  }

  /** Moving the cursor forward to `k` narrows the selection to its decks above `k`. */
  lemma {:induction false} SelectAbove(ds: seq<Deck>, q: Query, k: int)
    requires q.cursor.None? || q.cursor.value <= k
    ensures Select(ds, q.(cursor := Some(k))) == Above(Select(ds, q), k)
  {
    if ds != [] {
      SelectAbove(ds[1..], q, k);
      if Matches(ds[0], q) {
        assert Select(ds, q)[1..] == Select(ds[1..], q);
      }
    }
  }

  /** In an ascending sequence, the decks above the `n`-th id are the ones after it. */
  lemma {:induction false} AboveAscending(s: seq<Deck>, n: nat)
    requires Ascending(s) && 0 < n <= |s|
    ensures Above(s, s[n - 1].id) == s[n..]
  {
    if n == 1 {
      AboveAll(s[1..], s[0].id);
    } else {
      AboveAscending(s[1..], n - 1);
      assert s[1..][n - 2] == s[n - 1];
      assert s[1..][n - 1..] == s[n..];
    }
  }

  lemma {:induction false} AboveAll(s: seq<Deck>, k: int)
    requires forall i :: 0 <= i < |s| ==> s[i].id > k
    ensures Above(s, k) == s
  {
    if s != [] {
      AboveAll(s[1..], k);
    }
  }

  /** A full page continues with the decks after its last one. */
  lemma {:induction false} NextPageSelects(ds: seq<Deck>, q: Query, n: nat)
    requires Ascending(ds)
    requires |ListDecks(ds, q, n).value| == n > 0
    ensures var s := Select(ds, q);
      n <= |s| && ListDecks(ds, q, n).value == s[..n]
      && Select(ds, q.(cursor := Some(s[n - 1].id))) == s[n..]
  {
    var s := Select(ds, q);
    var k := s[n - 1].id;
    assert s[n - 1] in ds && Matches(s[n - 1], q);
    SelectAbove(ds, q, k);
    AboveAscending(s, n);
  }

  /**
   * Cursor paging loses and repeats nothing: when a page of `n` decks is full, continuing from
   * the id of its last deck yields exactly what one larger page would have held after it.
   */
  lemma {:induction false} PagesCompose(ds: seq<Deck>, q: Query, n: nat, m: nat)
    requires Ascending(ds)
    requires |ListDecks(ds, q, n).value| == n > 0
    ensures var page := ListDecks(ds, q, n).value;
      ListDecks(ds, q, n + m).value == page + ListDecks(ds, q.(cursor := Some(page[n - 1].id)), m).value
  {
    NextPageSelects(ds, q, n);
    var s := Select(ds, q);
    var t := s[n..];
    TakeSplit(s, n, m);
  }

  /** Taking `n + m` is taking `n`, then `m` of the rest. */
  lemma TakeSplit(s: seq<Deck>, n: nat, m: nat)
    requires n <= |s|
    ensures (if |s| <= n + m then s else s[..n + m]) == s[..n] + (if |s[n..]| <= m then s[n..] else s[n..][..m])
  {
  }
}

=== FILE: enrollments.dfy ===
/**
 * Enrollments in the teaching service (apps/enrollments/views.py and models.py): who sees which
 * enrollment, enrolling, a student's progress through a course's lessons, and the per-deck progress
 * records a student completes.
 *
 * The per-deck progress record (`DeckProgress`) is used by the views but its model class is not
 * part of this repository's source; it is modelled from its use: one record per enrollment and
 * course deck, with a completion flag and two optional timestamps.
 */
module Enrollments {
  import opened Wrappers
  import opened TeachingAuth
  import opened TeachingPermissions
  import opened Ordering
  import opened Courses

  datatype Enrollment = Enrollment(id: int, courseId: int, studentId: int, enrolledAt: int)

  // ---------------------------------------------------------------- visibility

  /** The `student_id` and `course_id` query parameters, when given. */
  datatype EnrollmentQuery = EnrollmentQuery(studentId: Option<int>, courseId: Option<int>)

  /** Course id -> its teacher. */
  type Teachers = map<int, int>

  predicate Teaches(teachers: Teachers, courseId: int, userId: int) {
    courseId in teachers && teachers[courseId] == userId
  }

  predicate Listed(e: Enrollment, teachers: Teachers, u: User, q: EnrollmentQuery) {
    && (q.studentId.None? || e.studentId == q.studentId.value)
    && (q.courseId.None? || e.courseId == q.courseId.value)
    && (u.isManager || e.studentId == u.id || Teaches(teachers, e.courseId, u.id))
  }

  function FilterListed(es: seq<Enrollment>, teachers: Teachers, u: User, q: EnrollmentQuery): (r: seq<Enrollment>)
    ensures forall e :: e in r <==> e in es && Listed(e, teachers, u, q)
  {
    if es == [] then []
    else (if Listed(es[0], teachers, u, q) then [es[0]] else []) + FilterListed(es[1..], teachers, u, q)
  }

  function NewestEnrollment(e: Enrollment): (int, int) {
    (-e.enrolledAt, 0)
  }

  /**
   * `get_queryset`: the enrollments passing the query filters and, for a non-manager, those where
   * they are the student or teach the course, most recent first.
   */
  function ListEnrollments(es: seq<Enrollment>, teachers: Teachers, u: User, q: EnrollmentQuery): (r: seq<Enrollment>)
    ensures forall e :: e in r <==> e in es && Listed(e, teachers, u, q)
    ensures SortedBy(r, NewestEnrollment)
  {
    var r := Sort(FilterListed(es, teachers, u, q), NewestEnrollment);
    assert forall e :: e in r <==> e in multiset(r);
    r
  }

  /**
   * A non-manager's listing holds only their own enrollments and those in courses they teach; a
   * manager without filters gets every enrollment.
   */
  lemma {:induction false} EnrollmentVisibility(es: seq<Enrollment>, teachers: Teachers, u: User, q: EnrollmentQuery,
                                                e: Enrollment)
    ensures !u.isManager && e in ListEnrollments(es, teachers, u, q) ==>
      e.studentId == u.id || Teaches(teachers, e.courseId, u.id)
    ensures u.isManager && e in es ==> e in ListEnrollments(es, teachers, u, EnrollmentQuery(None, None))
  {
  }

  /**
   * `get_object` for `destroy` and the deck actions: an enrollment outside the requester's listing
   * is a 404; a listed one that is not their own is refused by `IsEnrollmentStudentOrManager`
   * (so a teacher sees their students' enrollments but cannot act on them), as is the anonymous
   * context. The view-level check lets the framework's anonymous user through, and
   * `get_queryset` then fails reading its `is_manager`.
   */
  function EnrollmentAccess(es: seq<Enrollment>, teachers: Teachers, id: int, p: Principal)
    : (r: Result<Enrollment, Refusal>)
    ensures p.Unauthenticated? ==> r == Failure(Unhandled)
    ensures r.Success? ==> r.value in es && r.value.id == id
    ensures !p.Unauthenticated? ==>
      (r.Success? <==> exists e :: e in es && e.id == id && Listed(e, teachers, Fields(p), EnrollmentQuery(None, None)) &&
                                   EnrollmentStudentOrManager(p, e.studentId))
    ensures !p.Unauthenticated? && r.Failure? ==>
      r.error == NotFound || (IsAuthenticated(p) && r.error.Denied?) || (!IsAuthenticated(p) && r.error == NotAuthenticated)
  {
    if p.Unauthenticated? then Failure(Unhandled)
    else if es == [] then Failure(NotFound)
    else if es[0].id == id && Listed(es[0], teachers, Fields(p), EnrollmentQuery(None, None)) then
      if EnrollmentStudentOrManager(p, es[0].studentId) then Success(es[0])
      else
        assert forall e :: e in es && e.id == id ==> e == es[0] || e in es[1..];
        match EnrollmentAccess(es[1..], teachers, id, p)
        case Success(e) => Success(e)
        case Failure(NotFound) =>
          Failure(if IsAuthenticated(p) then Denied("You do not have permission to perform this action.") else NotAuthenticated)
        case Failure(x) => Failure(x)
    else EnrollmentAccess(es[1..], teachers, id, p)
  }

  /** A teacher who is not the student can list a student's enrollment but not open its decks. */
  lemma TeacherListsButCannotOpen(es: seq<Enrollment>, teachers: Teachers, e: Enrollment, t: User)
    requires e in es && Teaches(teachers, e.courseId, t.id) && !t.isManager && t.id != e.studentId
    requires forall x :: x in es && x.id == e.id ==> x == e
    ensures e in ListEnrollments(es, teachers, t, EnrollmentQuery(None, None))
    ensures EnrollmentAccess(es, teachers, e.id, Authenticated(t)).Failure?
  {
  }

  // ---------------------------------------------------------------- enrolling

  /** The database's `unique_together` on course and student. */
  predicate UniqueEnrollments(es: seq<Enrollment>) {
    forall i, j :: 0 <= i < j < |es| ==> es[i].courseId != es[j].courseId || es[i].studentId != es[j].studentId
  }

  predicate Enrolled(es: seq<Enrollment>, courseId: int, studentId: int) {
    exists i :: 0 <= i < |es| && es[i].courseId == courseId && es[i].studentId == studentId
  }

  /**
   * The serializer's check for the model's `unique_together` on course and student: a named
   * student already enrolled in the course is refused while the request is validated. A null
   * student skips the check.
   */
  predicate NamedDuplicate(es: seq<Enrollment>, course: Course, studentId: Option<int>) {
    studentId.Some? && Enrolled(es, course.id, studentId.value)
  }

  /**
   * `create`: validation refuses a named student already enrolled in the course. Then
   * `perform_create` refuses an unpublished course; the student defaults to the requester and
   * only a manager may name one; and a second enrollment of the requester in the same course
   * breaks the uniqueness constraint and is reported as a validation error.
   */
  function Enroll(es: seq<Enrollment>, course: Course, u: User, studentId: Option<int>, newId: int, now: int)
    : (r: Result<seq<Enrollment>, Refusal>)
    ensures NamedDuplicate(es, course, studentId) ==>
      r == Failure(Invalid("The fields course, student_id must make a unique set."))
    ensures !NamedDuplicate(es, course, studentId) && !course.isPublished ==>
      r == Failure(Invalid("Cannot enroll in unpublished course"))
    ensures !NamedDuplicate(es, course, studentId) && course.isPublished && studentId.Some? && !u.isManager ==>
      r == Failure(Denied("Only managers can set student_id"))
    ensures r.Success? <==>
      course.isPublished && (studentId.None? || u.isManager) && !Enrolled(es, course.id, studentId.GetOr(u.id))
    ensures r.Success? ==> r.value == es + [Enrollment(newId, course.id, studentId.GetOr(u.id), now)]
    ensures studentId.None? && r.Failure? && course.isPublished ==>
      r.error == Invalid("Enrollment for this course and student already exists.")
    ensures r.Success? && UniqueEnrollments(es) ==> UniqueEnrollments(r.value)
  {
    if NamedDuplicate(es, course, studentId) then Failure(Invalid("The fields course, student_id must make a unique set."))
    else if !course.isPublished then Failure(Invalid("Cannot enroll in unpublished course"))
    else if studentId.Some? && !u.isManager then Failure(Denied("Only managers can set student_id"))
    else
      var student := studentId.GetOr(u.id);
      if Enrolled(es, course.id, student) then Failure(Invalid("Enrollment for this course and student already exists."))
      else
        var r := es + [Enrollment(newId, course.id, student, now)];
        assert UniqueEnrollments(es) ==> UniqueEnrollments(r) by {
          if UniqueEnrollments(es) {
            forall i, j | 0 <= i < j < |r| ensures r[i].courseId != r[j].courseId || r[i].studentId != r[j].studentId {
              if j == |es| {
                assert r[i] == es[i];
                assert !(es[i].courseId == course.id && es[i].studentId == student);
              }
            }
          }
        }
        Success(r)
  }

  /** Whoever enrolls without naming a student becomes that student, and may act on the enrollment. */
  lemma {:induction false} SelfEnrollment(es: seq<Enrollment>, course: Course, u: User, newId: int, now: int)
    requires course.isPublished && !Enrolled(es, course.id, u.id)
    ensures Enroll(es, course, u, None, newId, now).Success?
    ensures var e := Enroll(es, course, u, None, newId, now).value[|es|];
      e.studentId == u.id && EnrollmentStudentOrManager(Authenticated(u), e.studentId)
  {
  }

  /** `update` and `partial_update`: 405 whatever the body, and nothing changes. */
  function UpdateEnrollment<B>(es: seq<Enrollment>, id: int, body: B): (r: (seq<Enrollment>, nat, string))
    ensures r.0 == es
    ensures r.1 == 405
    ensures r.2 == "Update is not allowed for enrollment"
  {
    (es, 405, "Update is not allowed for enrollment")
  }

  // ---------------------------------------------------------------- lesson progress

  /** `LessonProgress`, reduced to what the progress figures read. */
  datatype LessonProgress = LessonProgress(enrollmentId: int, lessonId: int, isCompleted: bool)

  /** The `unique_together` on enrollment and lesson. */
  predicate UniqueLessonProgress(ps: seq<LessonProgress>) {
    forall i, j :: 0 <= i < j < |ps| ==> ps[i].enrollmentId != ps[j].enrollmentId || ps[i].lessonId != ps[j].lessonId
  }

  /** How many completed progress records the enrollment has. */
  function CompletedCount(ps: seq<LessonProgress>, enrollmentId: int): nat {
    if ps == [] then 0
    else (if ps[0].enrollmentId == enrollmentId && ps[0].isCompleted then 1 else 0) + CompletedCount(ps[1..], enrollmentId)
  }

  /** The lessons the enrollment has completed. */
  function CompletedLessons(ps: seq<LessonProgress>, enrollmentId: int): (r: set<int>)
    ensures forall l :: l in r <==> exists i :: 0 <= i < |ps| && ps[i].enrollmentId == enrollmentId && ps[i].isCompleted && ps[i].lessonId == l
  {
    if ps == [] then {}
    else
      var rest := CompletedLessons(ps[1..], enrollmentId);
      assert forall i :: 1 <= i < |ps| ==> ps[i] == ps[1..][i - 1];
      assert forall l :: l in rest ==> exists i :: 0 <= i < |ps| && ps[i].enrollmentId == enrollmentId && ps[i].isCompleted && ps[i].lessonId == l by {
        forall l | l in rest ensures exists i :: 0 <= i < |ps| && ps[i].enrollmentId == enrollmentId && ps[i].isCompleted && ps[i].lessonId == l {
          var k :| 0 <= k < |ps[1..]| && ps[1..][k].enrollmentId == enrollmentId && ps[1..][k].isCompleted && ps[1..][k].lessonId == l;
          assert ps[k + 1] == ps[1..][k];
        }
      }
      (if ps[0].enrollmentId == enrollmentId && ps[0].isCompleted then {ps[0].lessonId} else {}) + rest
  }

  /** With one record per lesson, counting records counts lessons. */
  lemma {:induction false} CountIsLessons(ps: seq<LessonProgress>, enrollmentId: int)
    requires UniqueLessonProgress(ps)
    ensures CompletedCount(ps, enrollmentId) == |CompletedLessons(ps, enrollmentId)|
  {
    if ps != [] {
      var t := ps[1..];
      assert UniqueLessonProgress(t) by {
        forall i, j | 0 <= i < j < |t| ensures t[i].enrollmentId != t[j].enrollmentId || t[i].lessonId != t[j].lessonId {
          assert t[i] == ps[i + 1] && t[j] == ps[j + 1];
        }
      }
      CountIsLessons(t, enrollmentId);
      if ps[0].enrollmentId == enrollmentId && ps[0].isCompleted {
        assert forall i :: 0 <= i < |t| ==> t[i] == ps[i + 1] && (t[i].enrollmentId != enrollmentId || t[i].lessonId != ps[0].lessonId);
        assert ps[0].lessonId !in CompletedLessons(t, enrollmentId);
      }
    }
  }

  /** `get_progress_percent`: 0 for a course without lessons, else the completed share times 100. */
  function ProgressPercent(lessons: set<int>, ps: seq<LessonProgress>, enrollmentId: int): (r: real)
    ensures lessons == {} ==> r == 0.0
    ensures r >= 0.0
    ensures lessons != {} ==> r * (|lessons| as real) == (CompletedCount(ps, enrollmentId) as real) * 100.0
  {
    if |lessons| == 0 then 0.0
    else Percent(CompletedCount(ps, enrollmentId), |lessons|)
  }

  function Percent(done: nat, total: nat): (r: real)
    requires total > 0
    ensures r >= 0.0 && r * (total as real) == (done as real) * 100.0
  {
    ((done as real) / (total as real)) * 100.0
  }

  /** `is_completed`: false for a course without lessons, else every lesson completed. */
  function IsCompleted(lessons: set<int>, ps: seq<LessonProgress>, enrollmentId: int): (r: bool)
    ensures lessons == {} ==> !r
    ensures r ==> CompletedCount(ps, enrollmentId) == |lessons|
  {
    |lessons| != 0 && CompletedCount(ps, enrollmentId) == |lessons|
  }

  /** For `done <= total`, the share is at most 100, and exactly 100 when all are done. */
  lemma PercentBounds(done: nat, total: nat)
    requires 0 < total && done <= total
    ensures Percent(done, total) <= 100.0
    ensures Percent(done, total) == 100.0 <==> done == total
  {
    var r := Percent(done, total);
    var t := total as real;
    assert r * t == (done as real) * 100.0;
    assert r * t <= 100.0 * t;
    RealCancel(r, 100.0, t);
    if r == 100.0 {
      assert (done as real) * 100.0 == t * 100.0;
    }
  }

  /**
   * When the records belong to lessons of the course, one per lesson, progress lies in [0, 100],
   * and it is 100 exactly when the enrollment is completed.
   */
  lemma {:induction false} ProgressWithinBounds(lessons: set<int>, ps: seq<LessonProgress>, enrollmentId: int)
    requires UniqueLessonProgress(ps)
    requires forall i :: 0 <= i < |ps| && ps[i].enrollmentId == enrollmentId ==> ps[i].lessonId in lessons
    ensures 0.0 <= ProgressPercent(lessons, ps, enrollmentId) <= 100.0
    ensures IsCompleted(lessons, ps, enrollmentId) <==> ProgressPercent(lessons, ps, enrollmentId) == 100.0
  {
    CountIsLessons(ps, enrollmentId);
    var done := CompletedLessons(ps, enrollmentId);
    assert done <= lessons;
    SubsetCard(done, lessons);
    if lessons != {} {
      PercentBounds(CompletedCount(ps, enrollmentId), |lessons|);
    }
  }

  lemma RealCancel(a: real, b: real, t: real)
    requires t > 0.0 && a * t <= b * t
    ensures a <= b
  {
  }

  // ---------------------------------------------------------------- deck progress

  /** The per-deck progress record of an enrollment. */
  datatype DeckProgress = DeckProgress(enrollmentId: int, courseDeckId: int, isCompleted: bool,
                                       completedAt: Option<int>, lastAccessedAt: Option<int>)

  /** A course deck as the deck listing reports it to a student. */
  datatype DeckStatus = DeckStatus(rel: CourseDeck, isCompleted: bool, completedAt: Option<int>, lastAccessedAt: Option<int>)

  /** The enrollment's progress record for a course deck, if it has one (the last one, as a dict keeps). */
  function ProgressFor(ps: seq<DeckProgress>, enrollmentId: int, relId: int): (r: Option<DeckProgress>)
    ensures r.None? <==> forall i :: 0 <= i < |ps| ==> ps[i].enrollmentId != enrollmentId || ps[i].courseDeckId != relId
    ensures r.Some? ==> r.value in ps && r.value.enrollmentId == enrollmentId && r.value.courseDeckId == relId
  {
    if ps == [] then None
    else
      var last := ps[|ps| - 1];
      if last.enrollmentId == enrollmentId && last.courseDeckId == relId then Some(last)
      else
        var r := ProgressFor(ps[..|ps| - 1], enrollmentId, relId);
        assert forall i :: 0 <= i < |ps| - 1 ==> ps[i] == ps[..|ps| - 1][i];
        r
  }

  /** A course deck's status: its record's fields, or not completed with no timestamps. */
  function StatusOf(ps: seq<DeckProgress>, enrollmentId: int, rel: CourseDeck): (r: DeckStatus)
    ensures r.rel == rel
    ensures ProgressFor(ps, enrollmentId, rel.id).None? ==> !r.isCompleted && r.completedAt.None? && r.lastAccessedAt.None?
    ensures ProgressFor(ps, enrollmentId, rel.id).Some? ==> var p := ProgressFor(ps, enrollmentId, rel.id).value;
      r.isCompleted == p.isCompleted && r.completedAt == p.completedAt && r.lastAccessedAt == p.lastAccessedAt
  {
    match ProgressFor(ps, enrollmentId, rel.id)
    case None => DeckStatus(rel, false, None, None)
    case Some(p) => DeckStatus(rel, p.isCompleted, p.completedAt, p.lastAccessedAt)
  }

  /**
   * GET `/enrollments/{id}/decks/`: every deck of the enrollment's course, by position then id,
   * each with the enrollment's progress on it.
   */
  function EnrollmentDecks(rels: seq<CourseDeck>, ps: seq<DeckProgress>, e: Enrollment): (r: seq<DeckStatus>)
    ensures |r| == |CourseDecks(rels, e.courseId)|
    ensures forall i :: 0 <= i < |r| ==> r[i] == StatusOf(ps, e.id, CourseDecks(rels, e.courseId)[i])
    ensures forall x :: x in rels && x.courseId == e.courseId <==> exists i :: 0 <= i < |r| && r[i].rel == x
    ensures forall i, j :: 0 <= i < j < |r| ==> LexLe(PositionThenId(r[i].rel), PositionThenId(r[j].rel))
  {
    var ds := CourseDecks(rels, e.courseId);
    var r := seq(|ds|, i requires 0 <= i < |ds| => StatusOf(ps, e.id, ds[i]));
    assert forall x :: x in ds ==> exists i :: 0 <= i < |r| && r[i].rel == x by {
      forall x | x in ds ensures exists i :: 0 <= i < |r| && r[i].rel == x {
        var i :| 0 <= i < |ds| && ds[i] == x;
        assert r[i].rel == x;
      }
    }
    r
  }

  /** The record `get_or_create` finds or adds for the enrollment and course deck. */
  function GetOrCreate(ps: seq<DeckProgress>, enrollmentId: int, relId: int): (r: (seq<DeckProgress>, nat))
    ensures r.1 < |r.0| && r.0[r.1].enrollmentId == enrollmentId && r.0[r.1].courseDeckId == relId
    ensures ProgressFor(ps, enrollmentId, relId).Some? ==> r.0 == ps
    ensures ProgressFor(ps, enrollmentId, relId).None? ==>
      r.0 == ps + [DeckProgress(enrollmentId, relId, false, None, None)] && r.1 == |ps|
  {
    match FindProgress(ps, enrollmentId, relId)
    case Some(k) => (ps, k)
    case None => (ps + [DeckProgress(enrollmentId, relId, false, None, None)], |ps|)
  }

  function FindProgress(ps: seq<DeckProgress>, enrollmentId: int, relId: int): (r: Option<nat>)
    ensures r.None? <==> ProgressFor(ps, enrollmentId, relId).None?
    ensures r.Some? ==> r.value < |ps| && ps[r.value].enrollmentId == enrollmentId && ps[r.value].courseDeckId == relId
    ensures r.Some? ==> forall i :: 0 <= i < r.value ==> ps[i].enrollmentId != enrollmentId || ps[i].courseDeckId != relId
  {
    if ps == [] then None
    else if ps[0].enrollmentId == enrollmentId && ps[0].courseDeckId == relId then Some(0)
    else
      var rest := FindProgress(ps[1..], enrollmentId, relId);
      assert forall i :: 1 <= i < |ps| ==> ps[i] == ps[1..][i - 1];
      if rest.None? then None else Some(rest.value + 1)
  }

  /**
   * GET `/enrollments/{id}/decks/{rel}/`: 404 for a course deck outside the enrollment's course;
   * otherwise the deck's status, creating an empty progress record when there is none.
   */
  function DeckDetail(rels: seq<CourseDeck>, ps: seq<DeckProgress>, e: Enrollment, relId: int)
    : (r: Result<(seq<DeckProgress>, DeckStatus), Refusal>)
    ensures r.Failure? <==> FindRelation(rels, e.courseId, relId).None?
    ensures r.Failure? ==> r.error == NotFound
    ensures r.Success? ==> r.value.1.rel == rels[FindRelation(rels, e.courseId, relId).value]
    ensures r.Success? && FindProgress(ps, e.id, relId).None? ==>
      && r.value.0 == ps + [DeckProgress(e.id, relId, false, None, None)]
      && !r.value.1.isCompleted && r.value.1.completedAt.None? && r.value.1.lastAccessedAt.None?
    ensures r.Success? && FindProgress(ps, e.id, relId).Some? ==>
      (r.value.0 == ps &&
       var p := ps[FindProgress(ps, e.id, relId).value];
       r.value.1 == DeckStatus(r.value.1.rel, p.isCompleted, p.completedAt, p.lastAccessedAt))
  {
    match FindRelation(rels, e.courseId, relId)
    case None => Failure(NotFound)
    case Some(j) =>
      var (qs, k) := GetOrCreate(ps, e.id, relId);
      var p := qs[k];
      Success((qs, DeckStatus(rels[j], p.isCompleted, p.completedAt, p.lastAccessedAt)))
  }

  /**
   * POST `/enrollments/{id}/decks/{rel}/complete/`: 404 for a course deck outside the enrollment's
   * course; otherwise the record (created if missing) becomes completed, keeps its first completion
   * time, and records `now` as its last access. No other record changes.
   */
  function CompleteDeck(rels: seq<CourseDeck>, ps: seq<DeckProgress>, e: Enrollment, relId: int, now: int)
    : (r: Result<(seq<DeckProgress>, nat), Refusal>)
    ensures r.Failure? <==> FindRelation(rels, e.courseId, relId).None?
    ensures r.Failure? ==> r.error == NotFound
    ensures r.Success? ==> var (qs, k) := r.value;
      && k < |qs| && qs[k].enrollmentId == e.id && qs[k].courseDeckId == relId
      && qs[k].isCompleted && qs[k].lastAccessedAt == Some(now)
      && |qs| >= |ps| && (forall i :: 0 <= i < |ps| && i != k ==> qs[i] == ps[i])
    ensures r.Success? && FindProgress(ps, e.id, relId).Some? ==> var (qs, k) := r.value;
      && k == FindProgress(ps, e.id, relId).value && |qs| == |ps|
      && qs[k].completedAt == (if ps[k].completedAt.Some? then ps[k].completedAt else Some(now))
    ensures r.Success? && FindProgress(ps, e.id, relId).None? ==> var (qs, k) := r.value;
      k == |ps| && |qs| == |ps| + 1 && qs[k].completedAt == Some(now)
  {
    match FindRelation(rels, e.courseId, relId)
    case None => Failure(NotFound)
    case Some(_) =>
      var (qs, k) := GetOrCreate(ps, e.id, relId);
      var p := qs[k];
      var done := p.(isCompleted := true, completedAt := if p.completedAt.None? then Some(now) else p.completedAt,
                     lastAccessedAt := Some(now));
      Success((qs[k := done], k))
  }

  /**
   * Completing a deck again only refreshes the last access: the record stays completed with the
   * time of the first completion.
   */
  lemma {:induction false} CompleteKeepsFirstTime(rels: seq<CourseDeck>, ps: seq<DeckProgress>, e: Enrollment, relId: int,
                                                  t1: int, t2: int)
    requires CompleteDeck(rels, ps, e, relId, t1).Success?
    ensures var (qs, k) := CompleteDeck(rels, ps, e, relId, t1).value;
      && CompleteDeck(rels, qs, e, relId, t2).Success?
      && var (ws, m) := CompleteDeck(rels, qs, e, relId, t2).value;
      && m == k && |ws| == |qs|
      && ws[m] == qs[k].(lastAccessedAt := Some(t2))
  {
    var (qs, k) := CompleteDeck(rels, ps, e, relId, t1).value;
    assert forall i :: 0 <= i < k ==> qs[i] == ps[i];
  }
}

=== FILE: gateway_auth.dfy ===
/**
 * The gateway's authentication (gateway/src/auth/service.py and the middleware in
 * gateway/src/main.py): taking the bearer token out of the `Authorization` header, the checks made
 * on its claims once decoded, and what the middleware leaves on the request for the proxy.
 *
 * Decoding is opaque, as in the auth service: a token's decoding is an input. The clock is the
 * `now` parameter, in whole seconds.
 */
module GatewayAuth {
  import opened Wrappers
  import opened Text
  import opened AuthTokens

  /** `UserContext` as the gateway builds it: the `sub` claim as text and the manager flag. */
  datatype Identity = Identity(id: string, isManager: bool)

  /** How a request is turned away: a 401 with a detail, or an uncaught exception (a 500). */
  datatype Rejection = Unauthorized(detail: string) | ServerError

  // ------------------------------------------------------------ the bearer header

  /** One space in the stripped header, and `bearer` in any case before it. */
  predicate BearerShape(s: string) {
    Count(s, ' ') == 1 && Lower(Partition(s, ' ').head) == "bearer"
  }

  /** Cutting at every space gives two pieces exactly when there is one space: the two halves. */
  lemma {:induction false} SplitInTwo(s: string)
    ensures |Split(s, ' ')| == 2 <==> Count(s, ' ') == 1
    ensures |Split(s, ' ')| == 2 ==> Split(s, ' ') == [Partition(s, ' ').head, Partition(s, ' ').tail]
  {
    CountSplit(s, ' ');
    match IndexOf(s, ' ')
    case None =>
    case Some(k) =>
      var rest := s[k + 1..];
      if |Split(s, ' ')| == 2 {
        assert |Split(rest, ' ')| == 1;
        assert IndexOf(rest, ' ').None?;
        assert Split(rest, ' ') == [rest];
      }
  }

  /**
   * `extract_bearer_token`: no header or an empty one gives nothing; otherwise the stripped header
   * must be exactly `<scheme> <token>` with one space and the scheme `bearer` in any case.
   */
  function ExtractBearerToken(auth: Option<string>): (r: Option<string>)
    ensures auth.None? || auth.value == "" ==> r.None?
    ensures r.Some? <==> auth.Some? && BearerShape(Strip(auth.value))
    ensures r.Some? ==> r.value == Partition(Strip(auth.value), ' ').tail && r.value != "" && ' ' !in r.value
  {
    if auth.None? || auth.value == "" then None
    else
      var s := Strip(auth.value);
      var sp := Split(s, ' ');
      SplitInTwo(s);
      if |sp| != 2 || Lower(sp[0]) != "bearer" then None
      else
        var p := Partition(s, ' ');
        assert s == p.head + [' '] + p.tail;
        assert s != [] && !IsSpace(s[|s| - 1]);
        Some(sp[1])
  }

  /** A scheme spelling `bearer` has no space in it. */
  lemma {:induction false} BearerHasNoSpace(scheme: string)
    requires Lower(scheme) == "bearer"
    ensures ' ' !in scheme && Count(scheme, ' ') == 0 && !IsSpace(scheme[0])
  {
    assert forall i :: 0 <= i < |scheme| ==> LowerChar(scheme[i]) == "bearer"[i] && scheme[i] != ' ';
    assert LowerChar(scheme[0]) == 'b';
    CountAbsent(scheme, ' ');
  }

  /** `Bearer <token>` with a token free of spaces and not ending in whitespace gives the token back. */
  lemma {:induction false} ExtractRoundTrip(scheme: string, token: string)
    requires Lower(scheme) == "bearer"
    requires token != "" && ' ' !in token && !IsSpace(token[|token| - 1])
    ensures ExtractBearerToken(Some(scheme + " " + token)) == Some(token)
  {
    var h := scheme + " " + token;
    BearerHasNoSpace(scheme);
    StripUnpadded(h);
    CountAbsent(token, ' ');
    assert h == scheme + (" " + token);
    CountAppend(scheme, " " + token, ' ');
    CountAppend(" ", token, ' ');
    assert " "[1..] == [];
    assert IndexOf(h, ' ') == Some(|scheme|);
    assert h[..|scheme|] == scheme && h[|scheme| + 1..] == token;
  }

  /** Two spaces between scheme and token give nothing: the header splits into three pieces. */
  lemma {:induction false} DoubleSpaceRejected(scheme: string, token: string)
    requires Lower(scheme) == "bearer"
    requires token != "" && !IsSpace(token[|token| - 1])
    ensures ExtractBearerToken(Some(scheme + "  " + token)) == None
  {
    var h := scheme + "  " + token;
    BearerHasNoSpace(scheme);
    StripUnpadded(h);
    assert h == scheme + ("  " + token);
    CountAppend(scheme, "  " + token, ' ');
    CountAppend("  ", token, ' ');
    assert "  "[1..] == " " && " "[1..] == [];
    assert Count("  ", ' ') == 2;
  }

  /** On a well-formed header the gateway and the auth service take the same token. */
  lemma {:induction false} ExtractorsAgree(scheme: string, token: string)
    requires Lower(scheme) == "bearer"
    requires token != "" && ' ' !in token && !IsSpace(token[|token| - 1])
    ensures ExtractBearerToken(Some(scheme + " " + token)) == Some(token)
    ensures GetAccessToken(scheme + " " + token) == Success(token)
  {
    ExtractRoundTrip(scheme, token);
    AuthTokens.BearerRoundTrip(scheme, token);
  }

  /**
   * With two spaces after the scheme the auth service still accepts, taking the token with a
   * leading space, where the gateway finds no token at all.
   */
  lemma {:induction false} ExtractorsDisagreeOnDoubleSpace(scheme: string, token: string)
    requires Lower(scheme) == "bearer"
    requires token != "" && !IsSpace(token[|token| - 1])
    ensures ExtractBearerToken(Some(scheme + "  " + token)) == None
    ensures GetAccessToken(scheme + "  " + token) == Success(" " + token)
  {
    var padded := " " + token;
    AuthTokens.BearerRoundTrip(scheme, padded);
    assert scheme + "  " + token == scheme + " " + padded by {
      assert "  " == " " + " ";
    }
    DoubleSpaceRejected(scheme, token);
  }

  // ------------------------------------------------------------ the claim checks

  predicate Expired(exp: int, now: int) {
    exp == 0 || exp < now
  }

  /**
   * `get_user_by_token` as written: any decoding error is "Token invalid"; the expiry is converted
   * with `int` before its absence is looked at, so a token without `exp` raises a `TypeError`;
   * then a falsy `sub` and a falsy `isman` are both "Token invalid".
   */
  function GetUserByTokenAsWritten(token: string, decode: string -> Decoded, now: int): (r: Result<Identity, Rejection>)
    ensures !decode(token).Decoded? ==> r == Failure(Unauthorized("Token invalid"))
    ensures decode(token).Decoded? && decode(token).claims.exp.None? ==> r == Failure(ServerError)
    ensures r.Success? ==>
      && decode(token).Decoded?
      && var c := decode(token).claims;
      && c.exp.Some? && !Expired(c.exp.value, now) && c.sub.Some? && c.sub.value != "" && c.isman == Some(true)
      && r.value == Identity(c.sub.value, true)
  {
    match decode(token)
    case ExpiredSignature => Failure(Unauthorized("Token invalid"))
    case Malformed => Failure(Unauthorized("Token invalid"))
    case Decoded(c) =>
      if c.exp.None? then Failure(ServerError)
      else if Expired(c.exp.value, now) then Failure(Unauthorized("Token expired"))
      else if c.sub.None? || c.sub.value == "" then Failure(Unauthorized("Token invalid"))
      else if c.isman != Some(true) then Failure(Unauthorized("Token invalid"))
      else Success(Identity(c.sub.value, true))
  }

  /** A decodable token without `exp` ends in a 500 rather than a 401. */
  lemma MissingExpiryIsServerError(token: string, decode: string -> Decoded, now: int, sub: string)
    requires decode(token) == Decoded(Claims(Some(AccessType), Some(sub), None, None, Some(true)))
    ensures GetUserByTokenAsWritten(token, decode, now) == Failure(ServerError)
  {
  }

  /**
   * The tokens the auth service issues carry no `isman` claim, so the gateway as written turns
   * every one of them away, before or after expiry.
   */
  lemma {:induction false} IssuedTokensRefused(token: string, now: int, userId: nat, ttl: int, jti: string)
    ensures GetUserByTokenAsWritten(token, DecoderOf(token, IssueClaims(userId, AccessType, now, ttl, jti)), now).Failure?
  {
  }

  /**
   * `get_user_by_token` with the absence of `exp` handled first, as its condition intends, and with
   * `isman` read as a flag: absent or false means an ordinary user.
   */
  function GetUserByToken(token: string, decode: string -> Decoded, now: int): (r: Result<Identity, Rejection>)
    ensures r != Failure(ServerError)
    ensures !decode(token).Decoded? ==> r == Failure(Unauthorized("Token invalid"))
    ensures decode(token).Decoded? ==>
      var c := decode(token).claims;
      && (c.exp.None? || Expired(c.exp.value, now) ==> r == Failure(Unauthorized("Token expired")))
      && (r.Success? <==> c.exp.Some? && !Expired(c.exp.value, now) && c.sub.Some? && c.sub.value != "")
      && (r.Success? ==> r.value == Identity(c.sub.value, c.isman == Some(true)))
  {
    match decode(token)
    case ExpiredSignature => Failure(Unauthorized("Token invalid"))
    case Malformed => Failure(Unauthorized("Token invalid"))
    case Decoded(c) =>
      if c.exp.None? || Expired(c.exp.value, now) then Failure(Unauthorized("Token expired"))
      else if c.sub.None? || c.sub.value == "" then Failure(Unauthorized("Token invalid"))
      else Success(Identity(c.sub.value, c.isman == Some(true)))
  }

  /** The correction only widens what is accepted: wherever the original accepts, both agree. */
  lemma CorrectionKeepsAccepted(token: string, decode: string -> Decoded, now: int)
    ensures GetUserByTokenAsWritten(token, decode, now).Success? ==>
      GetUserByToken(token, decode, now) == GetUserByTokenAsWritten(token, decode, now)
    ensures GetUserByTokenAsWritten(token, decode, now) != Failure(ServerError) &&
            GetUserByToken(token, decode, now).Failure? ==>
      GetUserByToken(token, decode, now) == GetUserByTokenAsWritten(token, decode, now)
  {
  }

  /** An access token from the auth service, before its expiry, is an ordinary user with its id. */
  lemma {:induction false} IssuedTokenAccepted(token: string, now: int, issuedAt: int, userId: nat, ttl: int,
                                               jti: string)
    requires issuedAt + ttl != 0 && now <= issuedAt + ttl
    ensures GetUserByToken(token, DecoderOf(token, IssueClaims(userId, AccessType, issuedAt, ttl, jti)), now) ==
            Success(Identity(IntToString(userId), false))
  {
  }

  // ------------------------------------------------------------ the middleware

  /**
   * `auth_middleware`: a request without a usable bearer token goes on with no identity; one with a
   * token goes on with the identity the claim checks give, or is answered with their rejection.
   */
  function Middleware(auth: Option<string>, decode: string -> Decoded, now: int): (r: Result<Option<Identity>, Rejection>)
    ensures ExtractBearerToken(auth).None? ==> r == Success(None)
    ensures ExtractBearerToken(auth).Some? ==>
      var token := ExtractBearerToken(auth).value;
      && (r.Success? <==> GetUserByToken(token, decode, now).Success?)
      && (r.Success? ==> r.value == Some(GetUserByToken(token, decode, now).value))
      && (r.Failure? ==> r.error == GetUserByToken(token, decode, now).error)
    ensures r.Success? && r.value.Some? ==> r.value.value.id != ""
  {
    match ExtractBearerToken(auth)
    case None => Success(None)
    case Some(token) =>
      match GetUserByToken(token, decode, now)
      case Failure(e) => Failure(e)
      case Success(u) => Success(Some(u))
  }

  /** A header the extractor cannot read is not an error: the request goes on as anonymous. */
  lemma {:induction false} MalformedHeaderIsAnonymous(scheme: string, token: string, decode: string -> Decoded, now: int)
    requires Lower(scheme) == "bearer"
    requires token != "" && !IsSpace(token[|token| - 1])
    ensures Middleware(Some(scheme + "  " + token), decode, now) == Success(None)
  {
    DoubleSpaceRejected(scheme, token);
  }
}

=== FILE: gateway_proxy.dfy ===
/**
 * The headers the gateway forwards to a service (`prepare_headers` in gateway/src/core/proxy.py).
 * The identity headers and the shared secret are how a service learns who is calling and that the
 * call came through the gateway, so no client may supply them.
 *
 * A header map is a Python `dict`, so its keys are case-sensitive; the framework hands the request's
 * headers over with every name in lower case, and a service reading the forwarded request matches
 * names without regard to case.
 */
module GatewayProxy {
  import opened Wrappers
  import opened Text
  import opened GatewayAuth

  type Headers = map<string, string>

  const UserIdHeader: string := "X-User-Id"
  const ManagerHeader: string := "X-User-Ismanager"
  const SecretHeader: string := "X-Gateway-Auth"

  /** Two header names a service takes for the same: equal up to the case of their letters. */
  predicate SameName(a: string, b: string) {
    |a| == |b| && forall i :: 0 <= i < |a| ==> LowerChar(a[i]) == LowerChar(b[i])
  }

  predicate IsLowerName(k: string) {
    forall i :: 0 <= i < |k| ==> LowerChar(k[i]) == k[i]
  }

  /**
   * `dict(request.headers)`: every name lower-cased, as the framework stores it; the first header
   * sent keeps its value under its name.
   */
  function IncomingHeaders(raw: seq<(string, string)>): (h: Headers)
    ensures forall k :: k in h ==> IsLowerName(k)
    ensures forall k :: k in h <==> exists i :: 0 <= i < |raw| && Lower(raw[i].0) == k
    ensures |raw| > 0 ==> h[Lower(raw[0].0)] == raw[0].1
  {
    if raw == [] then map[]
    else
      var rest := IncomingHeaders(raw[1..]);
      var name := Lower(raw[0].0);
      assert IsLowerName(name) by {
        assert forall i :: 0 <= i < |name| ==> name[i] == LowerChar(raw[0].0[i]);
      }
      assert forall i :: 1 <= i < |raw| ==> raw[1..][i - 1] == raw[i];
      rest[name := raw[0].1]
  }

  /** Every value a service reading `h` finds under `name`, whatever the case of the key. */
  function Received(h: Headers, name: string): set<string> {
    set k | k in h && SameName(k, name) :: h[k]
  }

  function PyBool(b: bool): string {
    if b then "True" else "False"
  }

  /** The exact keys `prepare_headers` pops. */
  const Popped: set<string> := {"host", "Authorization", UserIdHeader, ManagerHeader, SecretHeader}

  /**
   * What `prepare_headers` adds to the headers it keeps: the identity headers when the middleware
   * left an identity, and the secret always, each under the gateway's own spelling.
   */
  function Stamp(kept: Headers, state: Option<Identity>, secret: string): (r: Headers)
    ensures forall k :: k in r <==>
      k in kept || k == SecretHeader || (state.Some? && (k == UserIdHeader || k == ManagerHeader))
    ensures r[SecretHeader] == secret
    ensures state.Some? ==> r[UserIdHeader] == state.value.id && r[ManagerHeader] == PyBool(state.value.isManager)
    ensures forall k :: k in kept && k !in {UserIdHeader, ManagerHeader, SecretHeader} ==> r[k] == kept[k]
  {
    var withUser := if state.Some? then kept[UserIdHeader := state.value.id][ManagerHeader := PyBool(state.value.isManager)]
                    else kept;
    withUser[SecretHeader := secret]
  }

  /**
   * `prepare_headers` as written: the five keys are popped with the spelling given, then the
   * identity headers and the secret are stamped.
   */
  function PrepareHeadersAsWritten(h: Headers, state: Option<Identity>, secret: string): (r: Headers)
    ensures forall k :: k in r <==>
      (k in h && k !in Popped) || k == SecretHeader || (state.Some? && (k == UserIdHeader || k == ManagerHeader))
    ensures r[SecretHeader] == secret
    ensures state.Some? ==> r[UserIdHeader] == state.value.id && r[ManagerHeader] == PyBool(state.value.isManager)
    ensures forall k :: k in h && k !in Popped ==> r[k] == h[k]
  {
    Stamp(h - Popped, state, secret)
  }

  /** A service sees exactly one value under `name` when one key matches it. */
  lemma {:induction false} ReceivedOne(r: Headers, name: string, k0: string)
    requires k0 in r && SameName(k0, name)
    requires forall k :: k in r && k != k0 ==> !SameName(k, name)
    ensures Received(r, name) == {r[k0]}
  {
  }

  lemma {:induction false} ReceivedNone(r: Headers, name: string)
    requires forall k :: k in r ==> !SameName(k, name)
    ensures Received(r, name) == {}
  {
  }

  /**
   * Since the framework has already lower-cased every name, the pops miss the identity headers: on a
   * request with no token, the service receives exactly the identity headers the client sent.
   */
  lemma {:induction false} ClientIdentityForwarded(raw: seq<(string, string)>, secret: string)
    ensures Received(PrepareHeadersAsWritten(IncomingHeaders(raw), None, secret), UserIdHeader) ==
            Received(IncomingHeaders(raw), UserIdHeader)
    ensures Received(PrepareHeadersAsWritten(IncomingHeaders(raw), None, secret), ManagerHeader) ==
            Received(IncomingHeaders(raw), ManagerHeader)
  {
    LowerCaseNamesPass(IncomingHeaders(raw), secret);
  }

  lemma {:induction false} LowerCaseNamesPass(h: Headers, secret: string)
    requires forall k :: k in h ==> IsLowerName(k)
    ensures Received(PrepareHeadersAsWritten(h, None, secret), UserIdHeader) == Received(h, UserIdHeader)
    ensures Received(PrepareHeadersAsWritten(h, None, secret), ManagerHeader) == Received(h, ManagerHeader)
  {
    var r := PrepareHeadersAsWritten(h, None, secret);
    assert !IsLowerName(UserIdHeader) by {
      assert LowerChar(UserIdHeader[0]) != UserIdHeader[0];
    }
    assert !IsLowerName(ManagerHeader) by {
      assert LowerChar(ManagerHeader[0]) != ManagerHeader[0];
    }
    assert !IsLowerName(SecretHeader) by {
      assert LowerChar(SecretHeader[0]) != SecretHeader[0];
    }
    assert !IsLowerName("Authorization") by {
      assert LowerChar("Authorization"[0]) != "Authorization"[0];
    }
    assert |UserIdHeader| == 9 && |ManagerHeader| == 16 && |SecretHeader| == 14;
    assert forall k :: k in h ==> k !in Popped - {"host"};
    assert forall k :: k in h && (SameName(k, UserIdHeader) || SameName(k, ManagerHeader)) ==> k in r && r[k] == h[k];
    assert forall k :: k in r && (SameName(k, UserIdHeader) || SameName(k, ManagerHeader)) ==> k in h && r[k] == h[k];
  }

  /**
   * Two headers are enough to act as a manager with any user id: a request with no token that sends
   * `X-User-Id: 1` and `X-User-Ismanager: True`, which the framework hands over lower-cased.
   */
  lemma {:induction false} ManagerImpersonation(secret: string)
    ensures var r := PrepareHeadersAsWritten(map["x-user-id" := "1", "x-user-ismanager" := "True"], None, secret);
      Received(r, UserIdHeader) == {"1"} && Received(r, ManagerHeader) == {"True"}
  {
    var h := map["x-user-id" := "1", "x-user-ismanager" := "True"];
    assert IsLowerName("x-user-id") && IsLowerName("x-user-ismanager");
    LowerCaseNamesPass(h, secret);
    ReceivedOne(h, UserIdHeader, "x-user-id");
    ReceivedOne(h, ManagerHeader, "x-user-ismanager");
  }

  /** A name a service would read as one the gateway reserves for itself. */
  predicate IsReserved(k: string) {
    SameName(k, "host") || SameName(k, "Authorization") || SameName(k, UserIdHeader) ||
    SameName(k, ManagerHeader) || SameName(k, SecretHeader)
  }

  function WithoutReserved(h: Headers): (r: Headers)
    ensures forall k :: k in r <==> k in h && !IsReserved(k)
    ensures forall k :: k in r ==> r[k] == h[k]
  {
    map k | k in h && !IsReserved(k) :: h[k]
  }

  /**
   * `prepare_headers` removing the reserved names in any case, as the pops intend; every other
   * header passes unchanged.
   */
  function PrepareHeaders(h: Headers, state: Option<Identity>, secret: string): (r: Headers)
    ensures forall k :: k in h && !IsReserved(k) ==> k in r && r[k] == h[k]
    ensures forall k :: k in r && !IsReserved(k) ==> k in h && r[k] == h[k]
  {
    Stamp(WithoutReserved(h), state, secret)
  }

  /**
   * Whatever the client sent, a service behind the corrected gateway sees the identity the gateway
   * established, or none, the gateway's secret, and no `Authorization` or `host`.
   */
  lemma {:induction false} OnlyGatewayIdentity(h: Headers, state: Option<Identity>, secret: string)
    ensures Received(PrepareHeaders(h, state, secret), UserIdHeader) == if state.Some? then {state.value.id} else {}
    ensures Received(PrepareHeaders(h, state, secret), ManagerHeader) ==
            if state.Some? then {PyBool(state.value.isManager)} else {}
    ensures Received(PrepareHeaders(h, state, secret), SecretHeader) == {secret}
    ensures Received(PrepareHeaders(h, state, secret), "Authorization") == {}
    ensures Received(PrepareHeaders(h, state, secret), "host") == {}
  {
    var kept := WithoutReserved(h);
    var r := PrepareHeaders(h, state, secret);
    assert forall k :: k in kept ==> !IsReserved(k);
    assert |UserIdHeader| == 9 && |ManagerHeader| == 16 && |SecretHeader| == 14;
    if state.Some? {
      ReceivedOne(r, UserIdHeader, UserIdHeader);
      ReceivedOne(r, ManagerHeader, ManagerHeader);
    } else {
      ReceivedNone(r, UserIdHeader);
      ReceivedNone(r, ManagerHeader);
    }
    ReceivedOne(r, SecretHeader, SecretHeader);
    ReceivedNone(r, "Authorization");
    ReceivedNone(r, "host");
  }

  /** Where the client sends no reserved name in any spelling, the original and the correction agree. */
  lemma {:induction false} CorrectionAgreesOnPlainRequests(h: Headers, state: Option<Identity>, secret: string)
    requires forall k :: k in h ==> !IsReserved(k)
    ensures PrepareHeaders(h, state, secret) == PrepareHeadersAsWritten(h, state, secret)
  {
    assert forall k :: k in Popped ==> IsReserved(k);
    assert WithoutReserved(h) == h - Popped;
  }
}

=== FILE: http.dfy ===
/** The outcome of an HTTP endpoint: a body, or the status and detail of the raised `HTTPException`. */
module Http {
  datatype Response<+T> = Ok(body: T) | Error(status: nat, detail: string)
}

=== FILE: json.dfy ===
/**
 * Decoded JSON values as Python sees them after `json.loads` or a DRF request body,
 * with Python's truthiness and `isinstance(x, int)` (which also admits booleans).
 */
module Json {
  datatype JVal =
    | JNull
    | JBool(b: bool)
    | JInt(i: int)
    | JFloat(f: real)
    | JStr(s: string)
    | JList(items: seq<JVal>)
    | JObj(fields: map<string, JVal>)

  /** Python `bool(v)`. */
  predicate Truthy(v: JVal) {
    match v
    case JNull => false
    case JBool(b) => b
    case JInt(i) => i != 0
    case JFloat(f) => f != 0.0
    case JStr(s) => s != []
    case JList(xs) => xs != []
    case JObj(m) => m != map[]
  }

  /** `isinstance(v, int)`: booleans are integers in Python. */
  predicate IsPyInt(v: JVal) {
    v.JInt? || v.JBool?
  }

  /** The integer an `int` instance denotes (`True == 1`, `False == 0`). */
  function PyInt(v: JVal): int
    requires IsPyInt(v)
  {
    match v
    case JInt(i) => i
    case JBool(b) => if b then 1 else 0
  }
}

=== FILE: learn.dfy ===
/**
 * Learn mode of the decks service (learn/service.py): per-user card statistics, the weight that
 * picks the next card, and the progress of a learn session.
 *
 * The database is a record of maps: cards by id (with their deck), decks by id (with their
 * `cards_amount`), statistics by (user, card), and sessions by position (the autoincrement id).
 * Wall-clock time is a parameter `now`, in seconds.
 */
module Learn {
  import opened Wrappers

  type UserId = int
  type DeckId = int
  type CardId = int
  type SessionId = nat

  const TargetStreak: nat := 3
  const WFail: real := 3.0
  const WSuccess: real := 1.0
  const WTime: real := 0.05
  const WDifficulty: real := 2.0
  const WStreak: real := 2.0
  const WLastError: real := 5.0

  /** One `UserCardStats` row. Timestamps are seconds. */
  datatype Stats = Stats(
    successCount: nat, failCount: nat, totalAnswers: nat, correctRate: real, streak: nat,
    difficulty: real, isLearned: bool, lastResult: Option<bool>, lastAnsweredAt: Option<int>)

  /** A row as `ensure_user_card_stats` creates it (also the column defaults). */
  function Fresh(): Stats {
    Stats(0, 0, 0, 0.0, 0, 0.5, false, None, None)
  }

  /**
   * What every row satisfies once written by `record_answer` or created fresh: the total is the
   * sum of the counters, the rate is their ratio, difficulty lies in [0, 1), and a card is
   * learned only with a streak of at least `TargetStreak`.
   */
  predicate Consistent(s: Stats) {
    && s.totalAnswers == s.successCount + s.failCount
    && s.correctRate == (if s.totalAnswers == 0 then 0.0 else s.successCount as real / s.totalAnswers as real)
    && 0.0 <= s.difficulty < 1.0
    && (s.isLearned ==> s.streak >= TargetStreak)
    && s.streak <= s.successCount
  }

  // ---------------------------------------------------------------- record_answer

  /** The statistics update of `record_answer` for one answer at time `now`. */
  function Answer(s: Stats, correct: bool, now: int): (r: Stats)
    ensures correct ==>
      && r.successCount == s.successCount + 1 && r.failCount == s.failCount
      && r.streak == s.streak + 1 && r.lastResult == Some(true)
    ensures !correct ==>
      && r.failCount == s.failCount + 1 && r.successCount == s.successCount
      && r.streak == 0 && r.lastResult == Some(false) && !r.isLearned
    ensures r.totalAnswers == r.successCount + r.failCount
    ensures r.correctRate == r.successCount as real / r.totalAnswers as real
    ensures r.totalAnswers == 1 ==> r.difficulty == (if correct then 0.3 else 0.8)
    ensures r.totalAnswers > 1 ==> r.difficulty == r.failCount as real / (r.totalAnswers + 1) as real
    ensures 0.0 <= r.difficulty < 1.0
    ensures r.isLearned <==> r.streak >= TargetStreak
    ensures r.lastAnsweredAt == Some(now)
    ensures s.streak <= s.successCount ==> Consistent(r)
  {
    var success := if correct then s.successCount + 1 else s.successCount;
    var fail := if correct then s.failCount else s.failCount + 1;
    var streak := if correct then s.streak + 1 else 0;
    var total := success + fail;
    var rate := if total > 0 then success as real / total as real else 0.0;
    Stats(success, fail, total, rate, streak, Difficulty(success, fail, correct), streak >= TargetStreak,
          Some(correct), Some(now))
  }

  /** The difficulty after an answer: fixed on the first answer, the failure share after that. */
  function Difficulty(success: nat, fail: nat, correct: bool): (d: real)
    ensures success + fail == 1 ==> d == (if correct then 0.3 else 0.8)
    ensures success + fail != 1 ==> d == fail as real / (success + fail + 1) as real
    ensures 0.0 <= d < 1.0
  {
    if success + fail == 1 then (if correct then 0.3 else 0.8)
    else
      FailShareBelowOne(fail, success + fail + 1);
      fail as real / (success + fail + 1) as real
  }

  lemma FailShareBelowOne(fail: nat, n: nat)
    requires fail < n
    ensures 0.0 <= fail as real / n as real < 1.0
  {
  }

  /** Answers in order, each a (correct, time) pair, applied to a row. */
  function AnswerAll(s: Stats, answers: seq<(bool, int)>): Stats
    decreases |answers|
  {
    if answers == [] then s else AnswerAll(Answer(s, answers[0].0, answers[0].1), answers[1..])
  }

  function CountCorrect(answers: seq<(bool, int)>): nat {
    if answers == [] then 0 else (if answers[0].0 then 1 else 0) + CountCorrect(answers[1..])
  }

  /** The number of correct answers at the end of `answers`, uninterrupted by a wrong one. */
  function TrailingCorrect(answers: seq<(bool, int)>): nat
    ensures TrailingCorrect(answers) <= |answers|
  {
    if answers == [] then 0
    else if answers[|answers| - 1].0 then TrailingCorrect(answers[..|answers| - 1]) + 1
    else 0
  }

  lemma {:induction false} TrailingCorrectSnoc(answers: seq<(bool, int)>, a: (bool, int))
    ensures TrailingCorrect(answers + [a]) == (if a.0 then TrailingCorrect(answers) + 1 else 0)
  {
    assert (answers + [a])[..|answers|] == answers;
  }

  lemma {:induction false} CountCorrectSnoc(answers: seq<(bool, int)>, a: (bool, int))
    ensures CountCorrect(answers + [a]) == CountCorrect(answers) + (if a.0 then 1 else 0)
  {
    if answers != [] {
      assert (answers + [a])[1..] == answers[1..] + [a];
      CountCorrectSnoc(answers[1..], a);
    }
  }

  lemma {:induction false} AnswerAllSnoc(s: Stats, answers: seq<(bool, int)>, a: (bool, int))
    ensures AnswerAll(s, answers + [a]) == Answer(AnswerAll(s, answers), a.0, a.1)
    decreases |answers|
  {
    if answers != [] {
      assert (answers + [a])[1..] == answers[1..] + [a];
      AnswerAllSnoc(Answer(s, answers[0].0, answers[0].1), answers[1..], a);
    }
  }

  /**
   * The statistics of a card answered from a fresh row are determined by the answer history:
   * successes count the correct answers, failures the wrong ones, the streak is the run of
   * correct answers at the end, and the card is learned exactly when that run reaches three.
   */
  lemma {:induction false} HistoryDeterminesStats(answers: seq<(bool, int)>)
    ensures var r := AnswerAll(Fresh(), answers);
      && r.successCount == CountCorrect(answers)
      && r.failCount == |answers| - CountCorrect(answers)
      && r.totalAnswers == |answers|
      && r.streak == TrailingCorrect(answers)
      && (answers != [] ==> (r.isLearned <==> TrailingCorrect(answers) >= TargetStreak))
      && Consistent(r)
    decreases |answers|
  {
    if answers == [] {
    } else {
      var init := answers[..|answers| - 1];
      var a := answers[|answers| - 1];
      assert init + [a] == answers;
      HistoryDeterminesStats(init);
      AnswerAllSnoc(Fresh(), init, a);
      CountCorrectSnoc(init, a);
      TrailingCorrectSnoc(init, a);
    }
  }

  // ---------------------------------------------------------------- _compute_weight

  /**
   * `_compute_weight` at time `now`: unseen cards and recent errors weigh more, successes and
   * learned status weigh less, and time since the last answer adds 0.05 per hour (100 hours for
   * a card never answered).
   */
  function Weight(s: Stats, now: int): real {
    var hoursSince := match s.lastAnsweredAt
      case None => 100.0
      case Some(t) => (now - t) as real / 3600.0;
    (if s.totalAnswers == 0 then 100.0 else 0.0)
    + (if s.lastResult == Some(false) then WLastError else 0.0)
    + WFail * s.failCount as real
    - WSuccess * s.successCount as real
    + WStreak * (if TargetStreak > s.streak then (TargetStreak - s.streak) as real else 0.0)
    + WTime * hoursSince
    + WDifficulty * s.difficulty
    - (if s.isLearned then 50.0 else 0.0)
  }

  /** A fresh row weighs 100 + 2*3 + 0.05*100 + 2*0.5 = 112, whatever the time. */
  lemma FreshWeight(now: int)
    ensures Weight(Fresh(), now) == 112.0
  {
  }

  /**
   * Other things equal, one more failure adds 3, one more success subtracts 1, and being learned
   * subtracts 50.
   */
  lemma WeightResponds(s: Stats, now: int)
    ensures Weight(s.(failCount := s.failCount + 1), now) == Weight(s, now) + WFail
    ensures Weight(s.(successCount := s.successCount + 1), now) == Weight(s, now) - WSuccess
    ensures !s.isLearned ==> Weight(s.(isLearned := true), now) == Weight(s, now) - 50.0
  {
  }

  // ---------------------------------------------------------------- the store

  datatype Status = Active | Completed

  /** A `LearnSession` row. */
  datatype Session = Session(
    userId: UserId, deckId: DeckId, status: Status, totalCards: nat, learnedCards: nat, endedAt: Option<int>)

  /** A `Card` row, reduced to what learn mode reads. */
  datatype Card = Card(id: CardId, deckId: DeckId)

  /** The rows learn mode reads; `cards` is in the order the database returns them. */
  datatype LearnDb = LearnDb(
    decks: map<DeckId, nat>,
    cards: seq<Card>,
    stats: map<(UserId, CardId), Stats>,
    sessions: seq<Session>)

  function DeckCards(db: LearnDb, deck: DeckId): set<CardId> {
    set i | 0 <= i < |db.cards| && db.cards[i].deckId == deck :: db.cards[i].id
  }

  /** The cards of `deck` for which `user` has a statistics row (the join the queries make). */
  function Rows(db: LearnDb, deck: DeckId, user: UserId): (r: set<CardId>)
    ensures r <= DeckCards(db, deck)
    ensures forall c :: c in r ==> (user, c) in db.stats
  {
    set c | c in DeckCards(db, deck) && (user, c) in db.stats
  }

  /** The same rows as a list, in card order: what the join query returns. */
  function RowList(db: LearnDb, deck: DeckId, user: UserId): (r: seq<CardId>)
    ensures forall c :: c in r <==> c in Rows(db, deck, user)
  {
    RowListFrom(db.cards, deck, user, db.stats)
  }

  function RowListFrom(cards: seq<Card>, deck: DeckId, user: UserId, stats: map<(UserId, CardId), Stats>): (r: seq<CardId>)
    ensures forall c :: c in r <==>
      (user, c) in stats && exists i :: 0 <= i < |cards| && cards[i].deckId == deck && cards[i].id == c
  {
    if cards == [] then []
    else
      var rest := RowListFrom(cards[1..], deck, user, stats);
      assert forall i :: 1 <= i < |cards| ==> cards[1..][i - 1] == cards[i];
      if cards[0].deckId == deck && (user, cards[0].id) in stats then [cards[0].id] + rest else rest
  }

  function LearnedRows(db: LearnDb, deck: DeckId, user: UserId): (r: set<CardId>)
    ensures r <= Rows(db, deck, user)
    ensures forall c :: c in r <==> c in Rows(db, deck, user) && db.stats[(user, c)].isLearned
  {
    set c | c in Rows(db, deck, user) && db.stats[(user, c)].isLearned
  }

  /**
   * `ensure_user_card_stats`: every card of the deck gets a row for `user`, a fresh one where
   * none existed; existing rows are untouched.
   */
  function EnsureStats(db: LearnDb, deck: DeckId, user: UserId): (r: LearnDb)
    ensures r.decks == db.decks && r.cards == db.cards && r.sessions == db.sessions
    ensures forall c :: c in DeckCards(db, deck) ==> (user, c) in r.stats
    ensures forall k :: k in db.stats ==> k in r.stats && r.stats[k] == db.stats[k]
    ensures forall k :: k in r.stats && k !in db.stats ==>
      k.0 == user && k.1 in DeckCards(db, deck) && r.stats[k] == Fresh()
    ensures Rows(r, deck, user) == DeckCards(db, deck)
  {
    var missing := set c | c in DeckCards(db, deck) && (user, c) !in db.stats :: (user, c);
    var stats := map k | k in db.stats.Keys + missing :: if k in db.stats then db.stats[k] else Fresh();
    db.(stats := stats)
  }

  /**
   * `reset_stats_if_all_learned`: when the user has rows for the deck and every one is learned,
   * all of them return to the fresh state; otherwise nothing changes.
   */
  function ResetIfAllLearned(db: LearnDb, deck: DeckId, user: UserId): (r: LearnDb)
    ensures r.decks == db.decks && r.cards == db.cards && r.sessions == db.sessions
    ensures r.stats.Keys == db.stats.Keys
    ensures Rows(r, deck, user) == Rows(db, deck, user)
    ensures var rows := Rows(db, deck, user);
      (rows != {} && forall c :: c in rows ==> db.stats[(user, c)].isLearned) ==>
        && (forall c :: c in rows ==> r.stats[(user, c)] == Fresh())
        && (forall k :: k in db.stats && (k.0 != user || k.1 !in rows) ==> r.stats[k] == db.stats[k])
    ensures var rows := Rows(db, deck, user);
      !(rows != {} && forall c :: c in rows ==> db.stats[(user, c)].isLearned) ==> r == db
  {
    var rows := Rows(db, deck, user);
    if rows != {} && forall c :: c in rows ==> db.stats[(user, c)].isLearned then
      db.(stats := map k | k in db.stats :: if k.0 == user && k.1 in rows then Fresh() else db.stats[k])
    else db
  }

  /** After a reset, no row of the deck is learned any more, so the cycle starts over. */
  lemma ResetClearsLearned(db: LearnDb, deck: DeckId, user: UserId)
    requires Rows(db, deck, user) != {}
    requires forall c :: c in Rows(db, deck, user) ==> db.stats[(user, c)].isLearned
    ensures LearnedRows(ResetIfAllLearned(db, deck, user), deck, user) == {}
  {
  }

  /**
   * `update_session_progress` for session `sid`: `total_cards` never decreases and becomes at
   * least the number of rows, `learned_cards` is the number of learned rows, and the session
   * completes once it has cards and all of them are learned.
   */
  function UpdateProgress(db: LearnDb, sid: SessionId, user: UserId, now: int): (r: LearnDb)
    requires sid < |db.sessions|
    ensures r.decks == db.decks && r.cards == db.cards && r.stats == db.stats
    ensures |r.sessions| == |db.sessions|
    ensures forall j :: 0 <= j < |db.sessions| && j != sid ==> r.sessions[j] == db.sessions[j]
    ensures var s := db.sessions[sid]; var s' := r.sessions[sid];
      && s'.userId == s.userId && s'.deckId == s.deckId
      && s'.totalCards >= s.totalCards
      && s'.totalCards >= |Rows(db, s.deckId, user)|
      && s'.learnedCards == |LearnedRows(db, s.deckId, user)|
      && s'.learnedCards <= s'.totalCards
      && (s'.totalCards > 0 && s'.learnedCards >= s'.totalCards ==> s'.status == Completed && s'.endedAt == Some(now))
      && (!(s'.totalCards > 0 && s'.learnedCards >= s'.totalCards) ==> s'.status == s.status && s'.endedAt == s.endedAt)
  {
    var s := db.sessions[sid];
    var total := |Rows(db, s.deckId, user)|;
    var learned := |LearnedRows(db, s.deckId, user)|;
    SubsetCard(LearnedRows(db, s.deckId, user), Rows(db, s.deckId, user));
    var totalCards := if s.totalCards >= total then s.totalCards else total;
    var s1 := s.(totalCards := totalCards, learnedCards := learned);
    var s2 := if totalCards > 0 && learned >= totalCards then s1.(status := Completed, endedAt := Some(now)) else s1;
    db.(sessions := db.sessions[sid := s2])
  }

  /** The first active session of `user` on `deck`, if any. */
  function FindActive(sessions: seq<Session>, deck: DeckId, user: UserId): (r: Option<SessionId>)
    ensures r.None? <==> forall j :: 0 <= j < |sessions| ==> !IsActiveFor(sessions[j], deck, user)
    ensures r.Some? ==> r.value < |sessions| && IsActiveFor(sessions[r.value], deck, user)
  {
    if sessions == [] then None
    else if IsActiveFor(sessions[0], deck, user) then Some(0)
    else match FindActive(sessions[1..], deck, user)
      case None => None
      case Some(k) => Some(k + 1)
  }

  predicate IsActiveFor(s: Session, deck: DeckId, user: UserId) {
    s.deckId == deck && s.userId == user && s.status == Active
  }

  /** At most one active session per (deck, user). */
  predicate OneActive(db: LearnDb) {
    forall i, j :: 0 <= i < j < |db.sessions| && db.sessions[i].status == Active && db.sessions[j].status == Active
      ==> db.sessions[i].deckId != db.sessions[j].deckId || db.sessions[i].userId != db.sessions[j].userId
  }

  datatype LearnError = DeckNotFound

  /**
   * `start_session`: an active session of this user on this deck is reused (after making sure
   * every card has a row and refreshing its progress); otherwise a missing deck is an error, and
   * a new session is created with `total_cards` the deck's card count, after the stats are
   * ensured and reset if all were learned.
   */
  function StartSession(db: LearnDb, deck: DeckId, user: UserId, now: int): (r: Result<(LearnDb, SessionId), LearnError>)
    ensures FindActive(db.sessions, deck, user).Some? ==>
      r.Success? && r.value.1 == FindActive(db.sessions, deck, user).value && |r.value.0.sessions| == |db.sessions|
    ensures FindActive(db.sessions, deck, user).None? && deck !in db.decks ==> r == Failure(DeckNotFound)
    ensures FindActive(db.sessions, deck, user).None? && deck in db.decks ==>
      && r.Success? && r.value.1 == |db.sessions| && |r.value.0.sessions| == |db.sessions| + 1
      && r.value.0.sessions[r.value.1].deckId == deck && r.value.0.sessions[r.value.1].userId == user
      && r.value.0.sessions[r.value.1].totalCards >= |DeckCards(db, deck)|
    ensures r.Success? ==> r.value.1 < |r.value.0.sessions|
    ensures r.Success? ==> var s := r.value.0.sessions[r.value.1];
      s.deckId == deck && s.userId == user && s.learnedCards <= s.totalCards
    ensures r.Success? ==> forall j :: 0 <= j < |db.sessions| && j != r.value.1 ==> r.value.0.sessions[j] == db.sessions[j]
    ensures r.Success? ==> forall c :: c in DeckCards(db, deck) ==> (user, c) in r.value.0.stats
  {
    match FindActive(db.sessions, deck, user)
    case Some(sid) =>
      var db1 := EnsureStats(db, deck, user);
      Success((UpdateProgress(db1, sid, user, now), sid))
    case None =>
      if deck !in db.decks then Failure(DeckNotFound)
      else
        var db1 := EnsureStats(db, deck, user);
        var db2 := ResetIfAllLearned(db1, deck, user);
        var sid := |db2.sessions|;
        var db3 := db2.(sessions := db2.sessions + [Session(user, deck, Active, |DeckCards(db2, deck)|, 0, None)]);
        Success((UpdateProgress(db3, sid, user, now), sid))
  }

  /** Starting a session never creates a second active session for the same deck and user. */
  lemma {:induction false} StartKeepsOneActive(db: LearnDb, deck: DeckId, user: UserId, now: int)
    requires OneActive(db)
    requires StartSession(db, deck, user, now).Success?
    ensures OneActive(StartSession(db, deck, user, now).value.0)
  {
    var r := StartSession(db, deck, user, now).value;
    var ss, sid := r.0.sessions, r.1;
    var found := FindActive(db.sessions, deck, user);
    if found.Some? {
      var db1 := EnsureStats(db, deck, user);
      assert ss == UpdateProgress(db1, sid, user, now).sessions;
    } else {
      var db2 := ResetIfAllLearned(EnsureStats(db, deck, user), deck, user);
      var db3 := db2.(sessions := db2.sessions + [Session(user, deck, Active, |DeckCards(db2, deck)|, 0, None)]);
      assert ss == UpdateProgress(db3, sid, user, now).sessions;
      assert db3.sessions[sid].deckId == deck && db3.sessions[sid].userId == user;
    }
    assert ss[sid].deckId == deck && ss[sid].userId == user;
    // Apart from the touched one, no session is active for (deck, user).
    assert forall j :: 0 <= j < |db.sessions| && j != sid ==> !IsActiveFor(db.sessions[j], deck, user);
    forall i, j | 0 <= i < j < |ss| && ss[i].status == Active && ss[j].status == Active
      ensures ss[i].deckId != ss[j].deckId || ss[i].userId != ss[j].userId
    {
      if i == sid || j == sid {
        var other := if i == sid then j else i;
        assert ss[other] == db.sessions[other];
      }
    }
  }

  /** `get_session`: the session with this id, only if it belongs to `user`. */
  function GetSession(db: LearnDb, sid: int, user: UserId): (r: Option<SessionId>)
    ensures r.Some? <==> 0 <= sid < |db.sessions| && db.sessions[sid].userId == user
    ensures r.Some? ==> r.value == sid
  {
    if 0 <= sid < |db.sessions| && db.sessions[sid].userId == user then Some(sid) else None
  }

  /**
   * `record_answer` followed by its own progress update: the (user, card) row, created fresh if
   * it was missing, takes one more answer; every other row is untouched.
   */
  function RecordAnswer(db: LearnDb, sid: SessionId, user: UserId, card: CardId, correct: bool, now: int): (r: LearnDb)
    requires sid < |db.sessions|
    ensures (user, card) in r.stats
    ensures r.stats.Keys == db.stats.Keys + {(user, card)}
    ensures forall k :: k in db.stats && k != (user, card) ==> r.stats[k] == db.stats[k]
    ensures (user, card) in db.stats ==>
      r.stats[(user, card)] == AnswerAll(db.stats[(user, card)], [(correct, now)])
    ensures (user, card) !in db.stats ==>
      r.stats[(user, card)] == AnswerAll(Fresh(), [(correct, now)])
    ensures r.stats[(user, card)].lastResult == Some(correct) && r.stats[(user, card)].lastAnsweredAt == Some(now)
    ensures |r.sessions| == |db.sessions| && r.sessions[sid].deckId == db.sessions[sid].deckId
  {
    var prior := if (user, card) in db.stats then db.stats[(user, card)] else Fresh();
    var db1 := db.(stats := db.stats[(user, card) := Answer(prior, correct, now)]);
    assert AnswerAll(prior, [(correct, now)]) == AnswerAll(Answer(prior, correct, now), []);
    UpdateProgress(db1, sid, user, now)
  }

  /**
   * A row built from an answer history (a fresh row is the empty history) is, after one more
   * recorded answer, the row of the history extended by that answer; so its counters, streak and
   * learned flag are those `HistoryDeterminesStats` gives for the longer history.
   */
  lemma {:induction false} RecordAnswerExtendsHistory(db: LearnDb, sid: SessionId, user: UserId, card: CardId,
                                                      correct: bool, now: int, history: seq<(bool, int)>)
    requires sid < |db.sessions|
    requires (user, card) in db.stats ==> db.stats[(user, card)] == AnswerAll(Fresh(), history)
    requires (user, card) !in db.stats ==> history == []
    ensures RecordAnswer(db, sid, user, card, correct, now).stats[(user, card)]
      == AnswerAll(Fresh(), history + [(correct, now)])
  {
    AnswerAllSnoc(Fresh(), history, (correct, now));
    var prior := AnswerAll(Fresh(), history);
    assert AnswerAll(prior, [(correct, now)]) == AnswerAll(Answer(prior, correct, now), []);
    assert history == [] ==> history + [(correct, now)] == [(correct, now)];
  }

  /** `finish_session`: the session is completed at `now`, whatever its progress. */
  function FinishSession(db: LearnDb, sid: SessionId, now: int): (r: LearnDb)
    requires sid < |db.sessions|
    ensures |r.sessions| == |db.sessions| && r.stats == db.stats
    ensures r.sessions[sid].status == Completed && r.sessions[sid].endedAt == Some(now)
    ensures r.sessions[sid].totalCards == db.sessions[sid].totalCards
    ensures r.sessions[sid].learnedCards == db.sessions[sid].learnedCards
    ensures forall j :: 0 <= j < |db.sessions| && j != sid ==> r.sessions[j] == db.sessions[j]
  {
    db.(sessions := db.sessions[sid := db.sessions[sid].(status := Completed, endedAt := Some(now))])
  }

  /** A progress update never reopens a completed session. */
  lemma ProgressNeverReopens(db: LearnDb, sid: SessionId, user: UserId, now: int)
    requires sid < |db.sessions|
    ensures db.sessions[sid].status == Completed ==> UpdateProgress(db, sid, user, now).sessions[sid].status == Completed
  {
  }

  /** The store as `get_next_card` sees it once rows are ensured and a learned deck is reset. */
  function Prepared(db: LearnDb, deck: DeckId, user: UserId): (r: LearnDb)
    ensures Rows(r, deck, user) == DeckCards(db, deck)
    ensures forall c :: c in DeckCards(db, deck) ==> (user, c) in r.stats
  {
    ResetIfAllLearned(EnsureStats(db, deck, user), deck, user)
  }

  /** The heaviest card of a non-empty list and its weight; the first one on ties. */
  method Heaviest(rows: seq<CardId>, stats: map<(UserId, CardId), Stats>, user: UserId, now: int)
    returns (best: CardId, bestWeight: real)
    requires rows != [] && forall j :: 0 <= j < |rows| ==> (user, rows[j]) in stats
    ensures best in rows && (user, best) in stats && bestWeight == Weight(stats[(user, best)], now)
    ensures forall j :: 0 <= j < |rows| ==> Weight(stats[(user, rows[j])], now) <= bestWeight
  {
    best := rows[0];
    bestWeight := Weight(stats[(user, best)], now);
    var i := 1;
    while i < |rows|
      invariant 1 <= i <= |rows| && best in rows
      invariant bestWeight == Weight(stats[(user, best)], now)
      invariant forall j :: 0 <= j < i ==> Weight(stats[(user, rows[j])], now) <= bestWeight
    {
      var w := Weight(stats[(user, rows[i])], now);
      if w > bestWeight {
        best, bestWeight := rows[i], w;
      }
      i := i + 1;
    }
  }

  /**
   * `get_next_card`: after ensuring rows and resetting a fully learned deck, one of the cards of
   * maximal weight, or None when the deck has no cards. `choice` stands for the random choice
   * among equally heavy cards: any of them can be returned.
   */
  method NextCard(db: LearnDb, deck: DeckId, user: UserId, now: int, choice: nat) returns (db': LearnDb, r: Option<CardId>)
    ensures db' == Prepared(db, deck, user)
    ensures r.None? <==> DeckCards(db, deck) == {}
    ensures r.Some? ==> r.value in DeckCards(db, deck) && (user, r.value) in db'.stats
    ensures r.Some? ==> forall c :: c in DeckCards(db, deck) ==>
      (user, c) in db'.stats && Weight(db'.stats[(user, c)], now) <= Weight(db'.stats[(user, r.value)], now)
  {
    db' := Prepared(db, deck, user);
    var rows := RowList(db', deck, user);
    if rows == [] {
      assert DeckCards(db, deck) == {};
      return db', None;
    }
    var best, bestWeight := Heaviest(rows, db'.stats, user, now);
    var top := TopCards(rows, db'.stats, user, now, bestWeight);
    assert best in top;
    r := Some(top[choice % |top|]);
  }

  /** The cards of `rows` whose weight equals `top`, in order. */
  function TopCards(rows: seq<CardId>, stats: map<(UserId, CardId), Stats>, user: UserId, now: int, top: real): (r: seq<CardId>)
    requires forall c :: c in rows ==> (user, c) in stats
    ensures forall c :: c in r <==> c in rows && Weight(stats[(user, c)], now) == top
  {
    if rows == [] then []
    else
      var rest := TopCards(rows[1..], stats, user, now, top);
      assert forall c :: c in rows <==> c == rows[0] || c in rows[1..];
      if Weight(stats[(user, rows[0])], now) == top then [rows[0]] + rest else rest
  }
}

=== FILE: learn_api.dfy ===
/**
 * The learn-mode endpoints (learn/controller.py): which HTTP error each request meets first, and
 * the progress figures returned with a session.
 */
module LearnApi {
  import opened Wrappers
  import opened Http
  import opened Learn

  /** `SLearnProgressResponse`. */
  datatype ProgressBody = ProgressBody(
    sessionId: SessionId, learnedCards: nat, totalCards: nat, progress: real, isCompleted: bool)

  /** `SLearnBatchResponse`: the next card (if any) and the progress figures. */
  datatype BatchBody = BatchBody(sessionId: SessionId, cardId: Option<CardId>, learnedCards: nat, totalCards: nat, progress: real)

  /** `learned_cards / max(total_cards, 1)`. */
  function Ratio(learned: nat, total: nat): (p: real)
    ensures 0.0 <= p
    ensures learned <= total ==> p <= 1.0
    ensures total > 0 ==> (p == 1.0 <==> learned == total)
    ensures learned == 0 <==> p == 0.0
  {
    learned as real / (if total >= 1 then total else 1) as real
  }

  /** `_progress_response`: the total is reported as at least one. */
  function Progress(db: LearnDb, sid: SessionId): (r: ProgressBody)
    requires sid < |db.sessions|
    ensures r.sessionId == sid && r.learnedCards == db.sessions[sid].learnedCards
    ensures r.totalCards >= 1 && r.totalCards >= db.sessions[sid].totalCards
    ensures db.sessions[sid].totalCards > 0 ==> r.totalCards == db.sessions[sid].totalCards
    ensures r.progress == Ratio(r.learnedCards, r.totalCards)
    ensures r.isCompleted <==> db.sessions[sid].status == Completed
  {
    var s := db.sessions[sid];
    var total := if s.totalCards >= 1 then s.totalCards else 1;
    ProgressBody(sid, s.learnedCards, total, Ratio(s.learnedCards, s.totalCards), s.status == Completed)
  }

  /**
   * Right after a progress update the reported progress lies in [0, 1], and it is 1 only for a
   * completed session.
   */
  lemma ProgressAfterUpdate(db: LearnDb, sid: SessionId, user: UserId, now: int)
    requires sid < |db.sessions|
    ensures var r := Progress(UpdateProgress(db, sid, user, now), sid);
      0.0 <= r.progress <= 1.0 && (r.progress == 1.0 ==> r.isCompleted)
  {
  }

  /**
   * `create_learn_session`: 404 for an unknown deck, 400 for a deck whose `cards_amount` is zero,
   * otherwise the started (or resumed) session with its progress.
   */
  function CreateSession(db: LearnDb, deck: DeckId, user: UserId, now: int): (r: Response<(LearnDb, SessionId, real)>)
    ensures deck !in db.decks ==> r == Error(404, "Deck not found")
    ensures deck in db.decks && db.decks[deck] == 0 ==> r == Error(400, "Deck has no cards")
    ensures deck in db.decks && db.decks[deck] != 0 ==>
      && r.Ok? && r.body.1 < |r.body.0.sessions|
      && r.body.0.sessions[r.body.1].deckId == deck && r.body.0.sessions[r.body.1].userId == user
      && 0.0 <= r.body.2 <= 1.0
  {
    if deck !in db.decks then Error(404, "Deck not found")
    else if db.decks[deck] == 0 then Error(400, "Deck has no cards")
    else
      var started := StartSession(db, deck, user, now);
      assert started.Success?;
      var (db', sid) := started.value;
      Ok((db', sid, Ratio(db'.sessions[sid].learnedCards, db'.sessions[sid].totalCards)))
  }

  /** `get_session` as every session endpoint uses it: another user's session is not found. */
  function Owned(db: LearnDb, sid: int, user: UserId): (r: Response<SessionId>)
    ensures r.Ok? <==> 0 <= sid < |db.sessions| && db.sessions[sid].userId == user
    ensures r.Ok? ==> r.body == sid
    ensures !r.Ok? ==> r == Error(404, "Learn session not found")
  {
    match GetSession(db, sid, user)
    case None => Error(404, "Learn session not found")
    case Some(s) => Ok(s)
  }

  /** `get_next_card_endpoint`: 404, then 400 for a finished session, then the next card. */
  method NextCardEndpoint(db: LearnDb, sid: int, user: UserId, now: int, choice: nat)
    returns (r: Response<(LearnDb, BatchBody)>)
    ensures Owned(db, sid, user).Error? ==> r == Error(404, "Learn session not found")
    ensures Owned(db, sid, user).Ok? && db.sessions[sid].status != Active ==>
      r == Error(400, "Learn session is not active")
    ensures Owned(db, sid, user).Ok? && db.sessions[sid].status == Active ==>
      && r.Ok? && r.body.1.sessionId == sid
      && (r.body.1.cardId.None? <==> DeckCards(db, db.sessions[sid].deckId) == {})
      && (r.body.1.cardId.Some? ==> r.body.1.cardId.value in DeckCards(db, db.sessions[sid].deckId))
      && r.body.1.totalCards >= 1 && 0.0 <= r.body.1.progress <= 1.0
  {
    var owned := Owned(db, sid, user);
    if owned.Error? {
      return Error(404, "Learn session not found");
    }
    if db.sessions[sid].status != Active {
      return Error(400, "Learn session is not active");
    }
    var db1, card := NextCard(db, db.sessions[sid].deckId, user, now, choice);
    var db2 := UpdateProgress(db1, sid, user, now);
    var p := Progress(db2, sid);
    return Ok((db2, BatchBody(sid, card, p.learnedCards, p.totalCards, p.progress)));
  }

  /**
   * `submit_answer`: 404, then 400 for a finished session; otherwise the answer is recorded and
   * the progress returned.
   */
  function SubmitAnswer(db: LearnDb, sid: int, card: CardId, user: UserId, correct: bool, now: int)
    : (r: Response<(LearnDb, ProgressBody)>)
    ensures Owned(db, sid, user).Error? ==> r == Error(404, "Learn session not found")
    ensures Owned(db, sid, user).Ok? && db.sessions[sid].status != Active ==>
      r == Error(400, "Learn session is not active")
    ensures Owned(db, sid, user).Ok? && db.sessions[sid].status == Active ==>
      && r.Ok? && (user, card) in r.body.0.stats
      && r.body.0.stats[(user, card)].lastResult == Some(correct)
      && 0.0 <= r.body.1.progress <= 1.0
  {
    match Owned(db, sid, user)
    case Error(status, detail) => Error(status, detail)
    case Ok(s) =>
      if db.sessions[s].status != Active then Error(400, "Learn session is not active")
      else
        var db1 := UpdateProgress(RecordAnswer(db, s, user, card, correct, now), s, user, now);
        Ok((db1, Progress(db1, s)))
  }

  /** `get_session_progress`: 404, else the refreshed progress, for active and finished sessions alike. */
  function SessionProgress(db: LearnDb, sid: int, user: UserId, now: int): (r: Response<(LearnDb, ProgressBody)>)
    ensures Owned(db, sid, user).Error? ==> r == Error(404, "Learn session not found")
    ensures Owned(db, sid, user).Ok? ==>
      r.Ok? && 0.0 <= r.body.1.progress <= 1.0 && (r.body.1.progress == 1.0 ==> r.body.1.isCompleted)
      && (db.sessions[sid].status == Completed ==> r.body.1.isCompleted)
  {
    match Owned(db, sid, user)
    case Error(status, detail) => Error(status, detail)
    case Ok(s) =>
      var db1 := UpdateProgress(db, s, user, now);
      ProgressNeverReopens(db, s, user, now);
      Ok((db1, Progress(db1, s)))
  }

  /** `finish_learn_session`: 404, else the session is completed, even if it already was. */
  function FinishEndpoint(db: LearnDb, sid: int, user: UserId, now: int): (r: Response<(LearnDb, ProgressBody)>)
    ensures Owned(db, sid, user).Error? ==> r == Error(404, "Learn session not found")
    ensures Owned(db, sid, user).Ok? ==>
      && r.Ok? && r.body.1.isCompleted && r.body.1.sessionId == sid
      && |r.body.0.sessions| == |db.sessions| && r.body.0.sessions[sid].endedAt.Some?
      && 0.0 <= r.body.1.progress <= 1.0
  {
    match Owned(db, sid, user)
    case Error(status, detail) => Error(status, detail)
    case Ok(s) =>
      var db1 := FinishSession(db, s, now);
      var db2 := UpdateProgress(db1, s, user, now);
      ProgressNeverReopens(db1, s, user, now);
      Ok((db2, Progress(db2, s)))
  }

  /** Finishing twice leaves the session as finishing once did, apart from the end time. */
  lemma FinishIdempotent(db: LearnDb, sid: int, user: UserId, t1: int, t2: int)
    requires FinishEndpoint(db, sid, user, t1).Ok?
    ensures var once := FinishEndpoint(db, sid, user, t1).body;
      var twice := FinishEndpoint(once.0, sid, user, t2);
      && twice.Ok? && twice.body.1 == once.1
  {
  }
}

=== FILE: lessons.dfy ===
/**
 * The lesson endpoints of the teaching service (apps/lessons/views.py): the listing order, who may
 * create a lesson in a course, and the check on the deck a lesson points at.
 */
module Lessons {
  import opened Wrappers
  import opened TeachingAuth
  import opened TeachingPermissions
  import opened Ordering
  import opened Courses

  /** `Lesson`, reduced to the fields the endpoints read; `deckId` is nullable. */
  datatype Lesson = Lesson(id: int, courseId: int, orderIndex: int, deckId: Option<int>, createdAt: int)

  function OfCourseFilter(ls: seq<Lesson>, courseId: Option<int>): (r: seq<Lesson>)
    ensures forall l :: l in r <==> l in ls && (courseId.None? || l.courseId == courseId.value)
  {
    if ls == [] then []
    else
      (if courseId.None? || ls[0].courseId == courseId.value then [ls[0]] else []) + OfCourseFilter(ls[1..], courseId)
  }

  function NewestThenId(l: Lesson): (int, int) {
    (-l.createdAt, l.id)
  }

  /**
   * `get_queryset`: the lessons of the `course_id` parameter when it is given (and not empty),
   * every lesson otherwise, newest first and then by id.
   */
  function ListLessons(ls: seq<Lesson>, courseId: Option<int>): (r: seq<Lesson>)
    ensures forall l :: l in r <==> l in ls && (courseId.None? || l.courseId == courseId.value)
    ensures SortedBy(r, NewestThenId)
    ensures forall i, j :: 0 <= i < j < |r| ==> r[i].createdAt >= r[j].createdAt
  {
    var r := Sort(OfCourseFilter(ls, courseId), NewestThenId);
    assert forall l :: l in r <==> l in multiset(r);
    r
  }

  /**
   * `_check_deck_permissions`: no deck (id 0 included) needs no check; an unknown deck is invalid;
   * a manager may use any deck; anyone else only one owned by the course teacher. The owner is read
   * with a subscript, so a reply without `owner_id` fails with an uncaught `KeyError`.
   */
  function CheckLessonDeck(decks: DeckOracle, deckId: int, teacherId: int, u: User): (r: Option<Refusal>)
    ensures deckId == 0 ==> r.None?
    ensures deckId != 0 && deckId !in decks ==> r == Some(Invalid("Deck not found"))
    ensures deckId != 0 && deckId in decks && u.isManager ==> r.None?
    ensures deckId != 0 && deckId in decks && !u.isManager ==>
      && (r.None? <==> decks[deckId] == Owner(teacherId))
      && (decks[deckId] == MissingOwner ==> r == Some(Unhandled))
  {
    if deckId == 0 then None
    else if deckId !in decks then Some(Invalid("Deck not found"))
    else if u.isManager then None
    else if decks[deckId].MissingOwner? then Some(Unhandled)
    else if decks[deckId] != Owner(teacherId) then Some(Denied("You can only use decks owned by the course teacher"))
    else None
  }

  /**
   * The lesson check and the course check agree on every deck whose reply carries an `owner_id`;
   * on a reply without one the course check refuses with 403 where the lesson check fails with 500.
   */
  lemma DeckChecksAgree(decks: DeckOracle, deckId: int, teacherId: int, u: User)
    requires deckId != 0
    ensures deckId !in decks || !decks[deckId].MissingOwner? || u.isManager ==>
      CheckLessonDeck(decks, deckId, teacherId, u) == CheckDeck(decks, deckId, teacherId, u)
    ensures deckId in decks && decks[deckId].MissingOwner? && !u.isManager ==>
      && CheckLessonDeck(decks, deckId, teacherId, u) == Some(Unhandled)
      && CheckDeck(decks, deckId, teacherId, u).value.Denied?
  {
  }

  /**
   * `perform_create` as written: the view-level check is the one `IsCourseTeacherOrManager`
   * inherits, which admits every request, so an unauthenticated request reaches the teacher test.
   * The framework's anonymous user has no id, so it is never the teacher, and reading its
   * `is_manager` then fails; the anonymous context (id 0) would pass the test for a course whose
   * teacher id is 0.
   */
  function CreateLessonAsWritten(p: Principal, course: Course, decks: DeckOracle, deckId: Option<int>)
    : (r: Option<Refusal>)
    ensures p.Unauthenticated? ==> r == Some(Unhandled)
    ensures !p.Unauthenticated? && Fields(p).id != course.teacherId && !Fields(p).isManager ==>
      r == Some(Denied("You can only create lessons for your own courses"))
    ensures !p.Unauthenticated? && (Fields(p).id == course.teacherId || Fields(p).isManager) ==>
      r == if deckId.Some? then CheckLessonDeck(decks, deckId.value, course.teacherId, Fields(p)) else None
  {
    if p.Unauthenticated? then Some(Unhandled)
    else
      var u := Fields(p);
      if course.teacherId != u.id && !u.isManager then Some(Denied("You can only create lessons for your own courses"))
      else if deckId.Some? && deckId.value != 0 then CheckLessonDeck(decks, deckId.value, course.teacherId, u)
      else None
  }

  /**
   * A request without credentials gets past the permission check and fails with 500 instead of
   * being refused, whatever the course; with the anonymous context in its place it would create a
   * lesson in any course whose teacher id is 0.
   */
  lemma AnonymousCreatesLesson(course: Course, decks: DeckOracle, deckId: Option<int>)
    ensures CreateLessonAsWritten(Unauthenticated, course, decks, deckId) == Some(Unhandled)
    ensures course.teacherId == 0 ==> CreateLessonAsWritten(Anonymous, course, decks, None).None?
    ensures CreateLesson(Unauthenticated, course, decks, deckId) == Some(NotAuthenticated)
  {
  }

  /**
   * `perform_create` behind the authentication every other lesson action has: an anonymous request
   * is refused before anything else; then a non-manager may only add to a course they teach, and a
   * deck given must pass the deck check.
   */
  function CreateLesson(p: Principal, course: Course, decks: DeckOracle, deckId: Option<int>): (r: Option<Refusal>)
    ensures !IsAuthenticated(p) ==> r == Some(NotAuthenticated)
    ensures r.None? ==> IsAuthenticated(p) && CourseTeacherOrManager(p, WithTeacher(course.teacherId))
    ensures r.None? && deckId.Some? ==> CheckLessonDeck(decks, deckId.value, course.teacherId, p.user).None?
    ensures IsAuthenticated(p) ==> r == CreateLessonAsWritten(p, course, decks, deckId)
  {
    if !IsAuthenticated(p) then Some(NotAuthenticated)
    else CreateLessonAsWritten(p, course, decks, deckId)
  }

  /** What a lesson update says about `deck_id`: nothing, or a value that may be null. */
  datatype DeckField = Absent | Given(deck: Option<int>)

  /**
   * `perform_update`: after the object permission on the lesson's course (401 without credentials,
   * 403 for a user who neither teaches the course nor manages), a new non-null
   * `deck_id` different from the current one must pass the deck check; the saved lesson takes the
   * given fields.
   */
  function UpdateLesson(p: Principal, lesson: Lesson, course: Course, decks: DeckOracle, deck: DeckField,
                        orderIndex: Option<int>)
    : (r: Result<Lesson, Refusal>)
    requires lesson.courseId == course.id
    ensures !IsAuthenticated(p) ==> r == Failure(NotAuthenticated)
    ensures IsAuthenticated(p) && !CourseTeacherOrManager(p, WithCourse(course.teacherId)) ==>
      r == Failure(Denied("You do not have permission to perform this action."))
    ensures r.Failure? && CourseTeacherOrManager(p, WithCourse(course.teacherId)) ==>
      && deck.Given? && deck.deck.Some? && deck.deck != lesson.deckId
      && CheckLessonDeck(decks, deck.deck.value, course.teacherId, p.user) == Some(r.error)
    ensures r.Success? ==> CourseTeacherOrManager(p, WithCourse(course.teacherId))
    ensures r.Success? ==> r.value.id == lesson.id && r.value.courseId == lesson.courseId && r.value.createdAt == lesson.createdAt
    ensures r.Success? ==> r.value.deckId == (if deck.Given? then deck.deck else lesson.deckId)
    ensures r.Success? ==> r.value.orderIndex == orderIndex.GetOr(lesson.orderIndex)
    ensures r.Success? && r.value.deckId != lesson.deckId && r.value.deckId.Some? ==>
      CheckLessonDeck(decks, r.value.deckId.value, course.teacherId, p.user).None?
    ensures (CourseTeacherOrManager(p, WithCourse(course.teacherId)) &&
             (deck.Absent? || deck.deck.None? || deck.deck == lesson.deckId)) ==> r.Success?
  {
    if !IsAuthenticated(p) then Failure(NotAuthenticated)
    else if !CourseTeacherOrManager(p, WithCourse(course.teacherId)) then
      Failure(Denied("You do not have permission to perform this action."))
    else
      var changes := deck.Given? && deck.deck.Some? && deck.deck != lesson.deckId;
      var check := if changes then CheckLessonDeck(decks, deck.deck.value, course.teacherId, p.user) else None;
      if check.Some? then Failure(check.value)
      else
        Success(lesson.(deckId := if deck.Given? then deck.deck else lesson.deckId,
                        orderIndex := orderIndex.GetOr(lesson.orderIndex)))
  }

  /** Clearing a lesson's deck, or re-sending the same one, never depends on the decks service. */
  lemma {:induction false} KeepingDeckIgnoresService(p: Principal, lesson: Lesson, course: Course, a: DeckOracle,
                                                     b: DeckOracle, deck: DeckField)
    requires lesson.courseId == course.id
    requires deck.Absent? || deck.deck.None? || deck.deck == lesson.deckId
    ensures UpdateLesson(p, lesson, course, a, deck, None) == UpdateLesson(p, lesson, course, b, deck, None)
  {
  }
}

=== FILE: mappers.dfy ===
/**
 * Row mappers of the events collector (the four modules under validation/mappers).
 *
 * Each mapper turns (produced_at, event_id, validated payload) into a fixed-arity tuple in the
 * destination table's column order. The payload classes come from the event-contracts package,
 * which is not part of this model; the fields below are the ones the mappers read.
 */
module Mappers {
  import opened Wrappers

  /** ISO-8601 text of a timestamp; the mappers copy timestamps without looking at them. */
  type Timestamp = string

  /** The event kinds the registry knows, one per payload class. */
  datatype EventKind =
    | DeckCreated | CardCreated
    | LearningSessionStarted | LearningSessionFinished
    | CourseCreated | CourseEnrolled | CourseProgressUpdated
    | UserRegistered

  /** Validated payloads, one constructor per version-1 payload class. */
  datatype Payload =
    | DeckCreatedV1(created_at: Timestamp, deck_id: int, author_id: int)
    | CardCreatedV1(created_at: Timestamp, card_id: int, deck_id: int)
    | LearningSessionStartedV1(started_at: Timestamp, user_id: int, deck_id: int, session_id: int)
    | LearningSessionFinishedV1(
        finished_at: Timestamp, user_id: int, deck_id: int, session_id: int,
        learned_cards: int, total_cards_seen: int, duration_sec: int, completed: bool)
    | CourseCreatedV1(created_at: Timestamp, course_id: int, author_id: int)
    | CourseEnrolledV1(enrolled_at: Timestamp, course_id: int, user_id: int)
    | CourseProgressUpdatedV1(
        updated_at: Timestamp, course_id: int, user_id: int, deck_id: int, progress_percent: real)
    | UserRegisteredV1(registered_at: Timestamp, user_id: int, email: string)

  /** One column value of an analytics row. */
  datatype Cell = CTime(t: Timestamp) | CInt(i: int) | CReal(r: real) | CBool(b: bool) | CStr(s: string)

  type Row = seq<Cell>

  function KindOf(p: Payload): EventKind {
    match p
    case DeckCreatedV1(_, _, _) => DeckCreated
    case CardCreatedV1(_, _, _) => CardCreated
    case LearningSessionStartedV1(_, _, _, _) => LearningSessionStarted
    case LearningSessionFinishedV1(_, _, _, _, _, _, _, _) => LearningSessionFinished
    case CourseCreatedV1(_, _, _) => CourseCreated
    case CourseEnrolledV1(_, _, _) => CourseEnrolled
    case CourseProgressUpdatedV1(_, _, _, _, _) => CourseProgressUpdated
    case UserRegisteredV1(_, _, _) => UserRegistered
  }

  /** The payload's own timestamp: when the domain event happened according to its producer. */
  function EventTime(p: Payload): Timestamp {
    match p
    case DeckCreatedV1(t, _, _) => t
    case CardCreatedV1(t, _, _) => t
    case LearningSessionStartedV1(t, _, _, _) => t
    case LearningSessionFinishedV1(t, _, _, _, _, _, _, _) => t
    case CourseCreatedV1(t, _, _) => t
    case CourseEnrolledV1(t, _, _) => t
    case CourseProgressUpdatedV1(t, _, _, _, _) => t
    case UserRegisteredV1(t, _, _) => t
  }

  /** Number of columns of each destination table. */
  function Arity(k: EventKind): nat {
    match k
    case DeckCreated => 5
    case CardCreated => 5
    case LearningSessionStarted => 6
    case LearningSessionFinished => 10
    case CourseCreated => 5
    case CourseEnrolled => 5
    case CourseProgressUpdated => 7
    case UserRegistered => 5
  }

  // ------------------------------------------------------------------ content.py

  function MapDeckCreated(produced_at: Timestamp, event_id: int, event: Payload): Row
    requires event.DeckCreatedV1?
  {
    [CTime(event.created_at), CTime(produced_at), CInt(event_id), CInt(event.deck_id), CInt(event.author_id)]
  }

  function MapCardCreated(produced_at: Timestamp, event_id: int, event: Payload): Row
    requires event.CardCreatedV1?
  {
    [CTime(event.created_at), CTime(produced_at), CInt(event_id), CInt(event.card_id), CInt(event.deck_id)]
  }

  // ------------------------------------------------------------------ learning.py

  function MapLearningSessionStarted(produced_at: Timestamp, event_id: int, event: Payload): Row
    requires event.LearningSessionStartedV1?
  {
    [CTime(event.started_at), CTime(produced_at), CInt(event_id),
     CInt(event.user_id), CInt(event.deck_id), CInt(event.session_id)]
  }

  function MapLearningSessionFinished(produced_at: Timestamp, event_id: int, event: Payload): Row
    requires event.LearningSessionFinishedV1?
  {
    [CTime(event.finished_at), CTime(produced_at), CInt(event_id),
     CInt(event.user_id), CInt(event.deck_id), CInt(event.session_id),
     CInt(event.learned_cards), CInt(event.total_cards_seen), CInt(event.duration_sec),
     CBool(event.completed)]
  }

  // ------------------------------------------------------------------ course.py

  function MapCourseCreated(produced_at: Timestamp, event_id: int, event: Payload): Row
    requires event.CourseCreatedV1?
  {
    [CTime(event.created_at), CTime(produced_at), CInt(event_id), CInt(event.course_id), CInt(event.author_id)]
  }

  function MapCourseEnrolled(produced_at: Timestamp, event_id: int, event: Payload): Row
    requires event.CourseEnrolledV1?
  {
    [CTime(event.enrolled_at), CTime(produced_at), CInt(event_id), CInt(event.course_id), CInt(event.user_id)]
  }

  function MapCourseProgressUpdated(produced_at: Timestamp, event_id: int, event: Payload): Row
    requires event.CourseProgressUpdatedV1?
  {
    [CTime(event.updated_at), CTime(produced_at), CInt(event_id),
     CInt(event.course_id), CInt(event.user_id), CInt(event.deck_id), CReal(event.progress_percent)]
  }

  // ------------------------------------------------------------------ user.py

  function MapUserRegistered(produced_at: Timestamp, event_id: int, event: Payload): Row
    requires event.UserRegisteredV1?
  {
    [CTime(event.registered_at), CTime(produced_at), CInt(event_id), CInt(event.user_id), CStr(event.email)]
  }

  /** The mapper a descriptor of kind `k` carries, applied to a payload of that kind. */
  function MapRow(k: EventKind, produced_at: Timestamp, event_id: int, event: Payload): Row
    requires KindOf(event) == k
  {
    match k
    case DeckCreated => MapDeckCreated(produced_at, event_id, event)
    case CardCreated => MapCardCreated(produced_at, event_id, event)
    case LearningSessionStarted => MapLearningSessionStarted(produced_at, event_id, event)
    case LearningSessionFinished => MapLearningSessionFinished(produced_at, event_id, event)
    case CourseCreated => MapCourseCreated(produced_at, event_id, event)
    case CourseEnrolled => MapCourseEnrolled(produced_at, event_id, event)
    case CourseProgressUpdated => MapCourseProgressUpdated(produced_at, event_id, event)
    case UserRegistered => MapUserRegistered(produced_at, event_id, event)
  }

  /** What a row of table kind `k` says: its produced_at, event id and the event it was made from. */
  datatype Decoded = Decoded(produced_at: Timestamp, event_id: int, event: Payload)

  /**
   * Reads a row back by column position, the way the destination table binds it.
   * It is written independently of the mappers: column `j` of kind `k` is interpreted here.
   */
  function DecodeRow(k: EventKind, r: Row): Option<Decoded> {
    if |r| != Arity(k) || !r[0].CTime? || !r[1].CTime? || !r[2].CInt? then None
    else
      var head := Decoded(r[1].t, r[2].i, DeckCreatedV1("", 0, 0));
      match k
      case DeckCreated =>
        if r[3].CInt? && r[4].CInt? then Some(head.(event := DeckCreatedV1(r[0].t, r[3].i, r[4].i))) else None
      case CardCreated =>
        if r[3].CInt? && r[4].CInt? then Some(head.(event := CardCreatedV1(r[0].t, r[3].i, r[4].i))) else None
      case LearningSessionStarted =>
        if r[3].CInt? && r[4].CInt? && r[5].CInt?
        then Some(head.(event := LearningSessionStartedV1(r[0].t, r[3].i, r[4].i, r[5].i))) else None
      case LearningSessionFinished =>
        if r[3].CInt? && r[4].CInt? && r[5].CInt? && r[6].CInt? && r[7].CInt? && r[8].CInt? && r[9].CBool?
        then Some(head.(event := LearningSessionFinishedV1(
          r[0].t, r[3].i, r[4].i, r[5].i, r[6].i, r[7].i, r[8].i, r[9].b)))
        else None
      case CourseCreated =>
        if r[3].CInt? && r[4].CInt? then Some(head.(event := CourseCreatedV1(r[0].t, r[3].i, r[4].i))) else None
      case CourseEnrolled =>
        if r[3].CInt? && r[4].CInt? then Some(head.(event := CourseEnrolledV1(r[0].t, r[3].i, r[4].i))) else None
      case CourseProgressUpdated =>
        if r[3].CInt? && r[4].CInt? && r[5].CInt? && r[6].CReal?
        then Some(head.(event := CourseProgressUpdatedV1(r[0].t, r[3].i, r[4].i, r[5].i, r[6].r))) else None
      case UserRegistered =>
        if r[3].CInt? && r[4].CStr? then Some(head.(event := UserRegisteredV1(r[0].t, r[3].i, r[4].s))) else None
  }

  /**
   * Every mapper loses nothing and invents nothing: reading its row back by column position
   * gives exactly the produced_at, event id and payload it was given.
   */
  lemma RowRoundTrip(k: EventKind, produced_at: Timestamp, event_id: int, event: Payload)
    requires KindOf(event) == k
    ensures DecodeRow(k, MapRow(k, produced_at, event_id, event)) == Some(Decoded(produced_at, event_id, event))
  {
  }

  /**
   * Every row, whatever its kind, starts with the payload's own timestamp, then produced_at,
   * then the event id, and has exactly the arity of its table.
   */
  lemma RowHeader(k: EventKind, produced_at: Timestamp, event_id: int, event: Payload)
    requires KindOf(event) == k
    ensures var r := MapRow(k, produced_at, event_id, event);
      && |r| == Arity(k)
      && r[0] == CTime(EventTime(event))
      && r[1] == CTime(produced_at)
      && r[2] == CInt(event_id)
  {
  }

  /** Rows of one kind determine their inputs: two different events never produce the same row. */
  lemma RowInjective(k: EventKind, p1: Timestamp, id1: int, e1: Payload, p2: Timestamp, id2: int, e2: Payload)
    requires KindOf(e1) == k && KindOf(e2) == k
    requires MapRow(k, p1, id1, e1) == MapRow(k, p2, id2, e2)
    ensures p1 == p2 && id1 == id2 && e1 == e2
  {
    RowRoundTrip(k, p1, id1, e1);
    RowRoundTrip(k, p2, id2, e2);
  }

  /** The example row of a card_created v1 event: (created_at, produced_at, 42, 7, 3). */
  lemma CardCreatedExample()
    ensures MapRow(CardCreated, "2024-01-01T00:00:00Z", 42, CardCreatedV1("2024-01-01T00:00:00Z", 7, 3))
      == [CTime("2024-01-01T00:00:00Z"), CTime("2024-01-01T00:00:00Z"), CInt(42), CInt(7), CInt(3)]
  {
  }
}

=== FILE: object_keys.dfy ===
/**
 * Object-storage keys of card images: turning a stored URL back into a key (utils/minio.py),
 * the temporary upload key handed out by the presign endpoint, and the permanent key an image is
 * moved to once its card exists (card/service.py, card/controller.py).
 */
module ObjectKeys {
  import opened Wrappers
  import opened Text

  /** `BUCKET_CARDS` with its default value. */
  const CardsBucket: string := "cards"

  /** `://` starts at index `i` of `s`. */
  predicate SepAt(s: string, i: int) {
    0 <= i && i + 3 <= |s| && s[i] == ':' && s[i + 1] == '/' && s[i + 2] == '/'
  }

  /** `"://" in s` */
  predicate HasSep(s: string) {
    exists i :: 0 <= i < |s| && SepAt(s, i)
  }

  /** The index of the first `://` in `s`. */
  function FirstSep(s: string): (r: Option<nat>)
    ensures r.None? <==> !HasSep(s)
    ensures r.Some? ==> SepAt(s, r.value) && forall j :: 0 <= j < r.value ==> !SepAt(s, j)
  {
    if |s| < 3 then
      assert forall i :: !SepAt(s, i);
      None
    else if SepAt(s, 0) then Some(0)
    else match FirstSep(s[1..])
      case None =>
        assert forall i :: SepAt(s, i) ==> i == 0 || SepAt(s[1..], i - 1);
        None
      case Some(k) =>
        assert forall j :: 1 <= j <= k ==> (SepAt(s, j) <==> SepAt(s[1..], j - 1));
        assert SepAt(s, k + 1);
        Some(k + 1)
  }

  /** The index of the first character of `s` in `stops`, or `|s|` when there is none. */
  function FirstOf(s: string, stops: set<char>): (r: nat)
    ensures r <= |s|
    ensures forall j :: 0 <= j < r ==> s[j] !in stops
    ensures r < |s| ==> s[r] in stops
  {
    if s == [] then 0
    else if s[0] in stops then 0
    else 1 + FirstOf(s[1..], stops)
  }

  /**
   * `urlparse(url).path` for a URL with a scheme: after `://` the network location runs to the
   * first `/`, `?` or `#`, and the path from there to the first `?` or `#`.
   */
  function UrlPath(url: string): (r: string)
    requires HasSep(url)
  {
    var k := FirstSep(url).value;
    var rest := url[k + 3..];
    var afterHost := rest[FirstOf(rest, {'/', '?', '#'})..];
    afterHost[..FirstOf(afterHost, {'?', '#'})]
  }

  /**
   * `extract_object_key_from_url`: empty text and text without `://` are already keys; a URL
   * yields its path without leading slashes, minus a leading `bucket/`.
   */
  function ExtractKey(url: string, bucket: string): (r: string)
    ensures url == "" || !HasSep(url) ==> r == url
    ensures HasSep(url) ==> '?' !in r && '#' !in r
  {
    if url == "" then url
    else if !HasSep(url) then url
    else
      var path := LStripChar(UrlPath(url), '/');
      if StartsWith(path, bucket + "/") then path[|bucket| + 1..] else path
  }

  /**
   * A key reached through a URL `scheme://host/bucket/key` is recovered exactly, provided the
   * parts carry none of the characters that delimit URL components.
   */
  lemma {:induction false} ExtractKeyOfUrl(scheme: string, host: string, bucket: string, key: string)
    requires ':' !in scheme && '/' !in scheme
    requires '/' !in host && '?' !in host && '#' !in host
    requires bucket != [] && '/' !in bucket && '?' !in bucket && '#' !in bucket
    requires '?' !in key && '#' !in key
    ensures ExtractKey(scheme + "://" + host + "/" + bucket + "/" + key, bucket) == key
  {
    var url := scheme + "://" + host + "/" + bucket + "/" + key;
    var inner := bucket + "/" + key;
    var tail := "/" + inner;
    assert url == scheme + "://" + (host + tail);
    UrlPathOf(scheme, host, tail);
    LStripOne(inner, '/');
    var path := LStripChar(tail, '/');
    assert path == inner;
    assert StartsWith(path, bucket + "/");
    assert path[|bucket| + 1..] == key;
  }

  /** The path of `scheme://host/...` is everything from the slash after the host. */
  lemma {:induction false} UrlPathOf(scheme: string, host: string, tail: string)
    requires ':' !in scheme && '/' !in scheme
    requires '/' !in host && '?' !in host && '#' !in host
    requires tail != [] && tail[0] == '/' && '?' !in tail && '#' !in tail
    ensures HasSep(scheme + "://" + (host + tail))
    ensures UrlPath(scheme + "://" + (host + tail)) == tail
  {
    var url := scheme + "://" + (host + tail);
    var k := |scheme|;
    assert SepAt(url, k);
    assert forall j :: 0 <= j < k ==> !SepAt(url, j) by {
      forall j | 0 <= j < k ensures !SepAt(url, j) {
        assert url[j] == scheme[j];
      }
    }
    assert FirstSep(url) == Some(k);
    var rest := url[k + 3..];
    assert rest == host + tail;
    FirstOfPrefix(host, tail, {'/', '?', '#'});
    FirstOfPrefix(tail, "", {'?', '#'});
    assert tail + "" == tail;
  }

  /** `FirstOf` stops at the first stop character of `b` when `a` has none. */
  lemma {:induction false} FirstOfPrefix(a: string, b: string, stops: set<char>)
    requires forall c :: c in a ==> c !in stops
    requires b == [] || b[0] in stops
    ensures FirstOf(a + b, stops) == |a|
  {
    if a != [] {
      assert (a + b)[1..] == a[1..] + b;
      FirstOfPrefix(a[1..], b, stops);
    } else {
      assert a + b == b;
    }
  }

  /** Stripping `c` from `[c] + s` gives `s` when `s` does not start with `c`. */
  lemma LStripOne(s: string, c: char)
    requires s == [] || s[0] != c
    ensures LStripChar([c] + s, c) == s
  {
    var t := [c] + s;
    var r := LStripChar(t, c);
    assert t[0] == c;
    assert |t| - |r| >= 1;
    if s != [] {
      assert t[1] == s[0];
      assert |t| - |r| <= 1;
    }
    assert r == t[1..];
  }

  // ---------------------------------------------------------------- keys

  /** A key of an image uploaded but not yet attached to a card. */
  predicate IsTemp(key: string) {
    StartsWith(key, "temp/")
  }

  /**
   * `f".{ext}" if ext else ""` with `ext` the tail of `name.rpartition(".")`, as written. Without
   * a dot the tail is the whole name, so the whole name becomes the "extension".
   */
  function ExtPartAsWritten(name: string): string {
    var ext := RPartition(name, '.').tail;
    if ext != [] then "." + ext else ""
  }

  /** A file name without a dot gets itself, dot-prefixed, as an extension. */
  lemma ExtPartAsWrittenNoDot(name: string)
    requires name != [] && '.' !in name
    ensures ExtPartAsWritten(name) == "." + name
  {
  }

  /** The concrete input: an upload named `photo` gets the suffix `.photo`. */
  lemma ExtPartAsWrittenExample()
    ensures ExtPartAsWritten("photo") == ".photo"
  {
    ExtPartAsWrittenNoDot("photo");
  }

  /**
   * The extension suffix as evidently intended: the same rule applied to the final path segment,
   * and only when that segment has a dot; no dot, no extension.
   */
  function ExtPart(name: string): (r: string)
    ensures r == [] || r[0] == '.'
  {
    var base := RPartition(name, '/').tail;
    if '.' in base then ExtPartAsWritten(base) else ""
  }

  /**
   * The intended suffix is empty or a dot followed by dot-free, slash-free text that ends the
   * name; for a plain file name it is empty without a dot and agrees with the code with one.
   */
  lemma ExtPartShape(name: string)
    ensures var r := ExtPart(name);
      r == [] || (r[0] == '.' && '.' !in r[1..] && '/' !in r && EndsWith(name, r))
  {
    var p := RPartition(name, '/');
    var base := p.tail;
    if '.' in base {
      var q := RPartition(base, '.');
      if q.tail != [] {
        SegmentTailNoSlash(base, q);
        SegmentSuffix(name, p, q);
      }
    }
  }

  lemma {:induction false} SegmentSuffix(name: string, p: Parts, q: Parts)
    requires p.head + p.sep + p.tail == name
    requires q.head + q.sep + q.tail == p.tail && q.sep == ['.']
    ensures EndsWith(name, "." + q.tail)
  {
    var dotExt := "." + q.tail;
    assert p.tail == q.head + dotExt;
    assert name == (p.head + p.sep + q.head) + dotExt;
    EndsWithAppend(p.head + p.sep + q.head, dotExt);
  }

  lemma {:induction false} SegmentTailNoSlash(base: string, q: Parts)
    requires '/' !in base && q.head + q.sep + q.tail == base
    ensures '/' !in q.tail
  {
    var cut := |q.head| + |q.sep|;
    assert forall i :: 0 <= i < |q.tail| ==> q.tail[i] == base[cut + i];
  }

  /** For a plain file name the intended suffix is empty without a dot and agrees with the code with one. */
  lemma ExtPartPlain(name: string)
    requires '/' !in name
    ensures '.' !in name ==> ExtPart(name) == []
    ensures '.' in name ==> ExtPart(name) == ExtPartAsWritten(name)
  {
    assert RPartition(name, '/').tail == name;
  }

  lemma EndsWithAppend(a: string, b: string)
    ensures EndsWith(a + b, b)
  {
    assert (a + b)[|a|..] == b;
  }

  /** A name ending in `.ext`, with `ext` free of dots and slashes, has the suffix `.ext`. */
  lemma {:induction false} ExtPartOfDotted(stem: string, ext: string)
    requires ext != [] && '.' !in ext && '/' !in ext
    ensures ExtPart(stem + "." + ext) == "." + ext
  {
    var name := stem + "." + ext;
    RPartitionTailAppend(stem + ".", ext, '/');
    RPartitionTailAppend(stem, ".", '/');
    var t := RPartition(stem, '/').tail;
    var base := t + "." + ext;
    assert RPartition(name, '/').tail == base;
    assert base[|t|] == '.';
    assert (t + ".")[|t|] == '.';
    RPartitionAfter(t + ".", ext, '.');
  }

  /** Appending text without `c` extends the tail after the last `c`. */
  lemma {:induction false} RPartitionTailAppend(a: string, b: string, c: char)
    requires c !in b
    ensures RPartition(a + b, c).tail == RPartition(a, c).tail + b
  {
    LastIndexOfAppend(a, b, c);
    match LastIndexOf(a, c)
    case None =>
    case Some(k) =>
      assert (a + b)[k + 1..] == a[k + 1..] + b;
  }

  /** Appending text without `c` leaves the last `c` where it was. */
  lemma {:induction false} LastIndexOfAppend(a: string, b: string, c: char)
    requires c !in b
    ensures LastIndexOf(a + b, c) == LastIndexOf(a, c)
    decreases |b|
  {
    if b == [] {
      assert a + b == a;
    } else {
      var s := a + b;
      assert s[|s| - 1] == b[|b| - 1];
      assert s[..|s| - 1] == a + b[..|b| - 1];
      LastIndexOfAppend(a, b[..|b| - 1], c);
    }
  }

  /** A dot-less file name gets no extension. */
  lemma ExtPartExampleNoDot()
    ensures ExtPart("photo") == ""
  {
    ExtPartPlain("photo");
  }

  lemma StartsWithAppend(a: string, b: string)
    ensures StartsWith(a + b, a)
  {
    assert (a + b)[..|a|] == a;
  }

  /**
   * `presign_card_image`'s key, `temp/{user}/uploads/{hex}{ext}`, with `hex` the random UUID
   * supplied by the caller.
   */
  function PresignKey(user: int, hex: string, filename: string): (r: string)
    ensures IsTemp(r)
    ensures EndsWith(r, ExtPart(filename))
  {
    var e := ExtPart(filename);
    var rest := IntToString(user) + "/uploads/" + hex;
    Framed("temp/", rest, e);
    ("temp/" + rest) + e
  }

  /** `a + b + c` starts with `a` and ends with `c`. */
  lemma Framed(a: string, b: string, c: string)
    ensures StartsWith((a + b) + c, a) && EndsWith((a + b) + c, c)
  {
    assert ((a + b) + c)[..|a|] == a;
    EndsWithAppend(a + b, c);
  }

  /**
   * The presign key as written, with the dot-less file-name defect: it agrees with the corrected
   * key for a plain file name with a dot, and carries the whole name as a spurious extension for
   * a plain file name without one.
   */
  function PresignKeyAsWritten(user: int, hex: string, filename: string): (r: string)
    ensures IsTemp(r)
    ensures r == TempDir(user) + hex + ExtPartAsWritten(filename)
    ensures '/' !in filename && '.' in filename ==> r == PresignKey(user, hex, filename)
    ensures '/' !in filename && '.' !in filename && filename != [] ==>
      r == PresignKey(user, hex, filename) + "." + filename
  {
    var rest := IntToString(user) + "/uploads/" + hex;
    Framed("temp/", rest, ExtPartAsWritten(filename));
    Regroup("temp/", IntToString(user), "/uploads/", hex, ExtPartAsWritten(filename));
    PresignKeyParts(user, hex, filename);
    PlainExtParts(filename);
    ("temp/" + rest) + ExtPartAsWritten(filename)
  }

  /** `ExtPartPlain` for a name that may hold a slash: only plain names are described. */
  lemma PlainExtParts(name: string)
    ensures '/' !in name && '.' !in name ==> ExtPart(name) == []
    ensures '/' !in name && '.' in name ==> ExtPart(name) == ExtPartAsWritten(name)
  {
    if '/' !in name {
      ExtPartPlain(name);
    }
  }

  datatype Side = Front | Back

  function SideName(side: Side): string {
    match side
    case Front => "front"
    case Back => "back"
  }

  /** `decks/{deck}/card/{card}/images/{front|back}`: the moved key before its extension. */
  function MovedStem(deck: int, card: int, side: Side): string {
    "decks/" + (IntToString(deck) + "/card/" + IntToString(card) + "/images/" + SideName(side))
  }

  /** The permanent key a temporary image moves to: the card's image stem plus the extension. */
  function MovedKey(deck: int, card: int, side: Side, src: string): (r: string)
    ensures StartsWith(r, "decks/") && !IsTemp(r)
    ensures EndsWith(r, ExtPart(src))
  {
    var stem := MovedStem(deck, card, side);
    MovedStemIsPermanent(deck, card, side);
    PrefixKept(stem, "decks/", ExtPart(src));
    EndsWithAppend(stem, ExtPart(src));
    stem + ExtPart(src)
  }

  lemma MovedStemIsPermanent(deck: int, card: int, side: Side)
    ensures StartsWith(MovedStem(deck, card, side), "decks/")
  {
    var rest := IntToString(deck) + "/card/" + IntToString(card) + "/images/" + SideName(side);
    StartsWithAppend("decks/", rest);
  }

  /** A key under `decks/` is not a temporary one, and stays under `decks/` when extended. */
  lemma PrefixKept(s: string, p: string, tail: string)
    requires StartsWith(s, p)
    ensures StartsWith(s + tail, p)
    ensures p == "decks/" ==> !IsTemp(s + tail)
  {
    assert (s + tail)[..|p|] == s[..|p|];
    if p == "decks/" {
      assert (s + tail)[0] == 'd';
    }
  }

  /** The moved key as written. */
  function MovedKeyAsWritten(deck: int, card: int, side: Side, src: string): string {
    MovedStem(deck, card, side) + ExtPartAsWritten(src)
  }

  /**
   * As written, a dot-less temporary key is appended whole, so the image lands under extra
   * directories below the card (`.../images/front.temp/1/uploads/ab`).
   */
  lemma MovedKeyAsWrittenNests(deck: int, card: int, side: Side, src: string)
    requires src != [] && '.' !in src
    ensures MovedKeyAsWritten(deck, card, side, src) == MovedStem(deck, card, side) + "." + src
    ensures MovedKey(deck, card, side, src) != MovedKeyAsWritten(deck, card, side, src)
  {
    ExtPartAsWrittenNoDot(src);
    ExtPartShape(src);
  }

  /** Decimal text has no colon. */
  lemma IntToStringNoColon(i: int)
    ensures ':' !in IntToString(i)
  {
    var d := NatToString(if i < 0 then -i else i);
    assert forall j :: 0 <= j < |d| ==> d[j] != ':';
  }

  /**
   * A presigned key is already an object key: unless the random name or the file name carries a
   * colon, the key has no `://`, so extracting the key from it gives it back unchanged.
   */
  lemma {:induction false} PresignKeyIsKey(user: int, hex: string, filename: string, bucket: string)
    requires ':' !in hex && ':' !in filename
    ensures ExtractKey(PresignKey(user, hex, filename), bucket) == PresignKey(user, hex, filename)
  {
    var e := ExtPart(filename);
    ExtPartShape(filename);
    assert ':' !in e by {
      if e != [] {
        assert e == filename[|filename| - |e|..];
      }
    }
    TempDirNoColon(user);
    PresignKeyParts(user, hex, filename);
    var key := PresignKey(user, hex, filename);
    assert ':' !in key;
    assert !HasSep(key);
  }

  lemma TempDirNoColon(user: int)
    ensures ':' !in TempDir(user)
  {
    IntToStringNoColon(user);
  }

  /** The prefix of every temp key, up to the random name. */
  function TempDir(user: int): string {
    "temp/" + IntToString(user) + "/uploads/"
  }

  /** A presigned key is the user's temp directory, the random name and the extension. */
  lemma PresignKeyParts(user: int, hex: string, filename: string)
    ensures PresignKey(user, hex, filename) == TempDir(user) + hex + ExtPart(filename)
  {
    var n, e := IntToString(user), ExtPart(filename);
    Regroup("temp/", n, "/uploads/", hex, e);
  }

  lemma Regroup(a: string, b: string, c: string, d: string, e: string)
    ensures (a + (b + c + d)) + e == (a + b + c) + d + e
  {
  }

  lemma TempDirEndsWithSlash(user: int)
    ensures TempDir(user) != [] && TempDir(user)[|TempDir(user)| - 1] == '/'
  {
  }

  /** The temp key of an upload has the extension of the uploaded file name. */
  lemma PresignPreservesExtension(user: int, hex: string, filename: string)
    requires '/' !in hex && '.' !in hex
    ensures ExtPart(PresignKey(user, hex, filename)) == ExtPart(filename)
  {
    PresignKeyParts(user, hex, filename);
    TempDirEndsWithSlash(user);
    ExtPartShape(filename);
    var e := ExtPart(filename);
    if e == [] {
      TempKeyNoExt(TempDir(user), hex);
    } else {
      TempKeyExt(TempDir(user), hex, e);
    }
  }

  /** An uploaded image keeps its file extension when it moves from its temp key to its card. */
  lemma MovePreservesExtension(user: int, hex: string, filename: string, deck: int, card: int, side: Side)
    requires '/' !in hex && '.' !in hex
    ensures EndsWith(MovedKey(deck, card, side, PresignKey(user, hex, filename)), ExtPart(filename))
  {
    PresignPreservesExtension(user, hex, filename);
  }

  lemma {:induction false} TempKeyNoExt(dir: string, hex: string)
    requires dir != [] && dir[|dir| - 1] == '/'
    requires '/' !in hex && '.' !in hex
    ensures ExtPart(dir + hex + "") == ""
  {
    assert dir + hex + "" == dir + hex;
    RPartitionAfter(dir, hex, '/');
  }

  lemma {:induction false} TempKeyExt(dir: string, hex: string, e: string)
    requires |e| > 1 && e[0] == '.' && '.' !in e[1..] && '/' !in e
    ensures ExtPart(dir + hex + e) == e
  {
    assert e == "." + e[1..];
    assert '/' !in e[1..];
    assert dir + hex + e == (dir + hex) + "." + e[1..];
    ExtPartOfDotted(dir + hex, e[1..]);
  }

  /** Splitting at the last `c` of `a + b`, where `a` ends in `c` and `b` has none, leaves `b`. */
  lemma {:induction false} RPartitionAfter(a: string, b: string, c: char)
    requires a != [] && a[|a| - 1] == c && c !in b
    ensures RPartition(a + b, c).tail == b
  {
    var s := a + b;
    assert s[|a| - 1] == c;
    var k := LastIndexOf(s, c).value;
    assert forall j :: |a| <= j < |s| ==> s[j] == b[j - |a|];
    assert k == |a| - 1;
    assert s[k + 1..] == b;
  }

  /** How an image URL is shown in a response. */
  datatype Shown = AsStored(url: string) | SignedGet(key: string)

  /**
   * `_presign_card_images` / `_presign_deck_cards` for one image: a non-empty URL that is not a
   * temp key is replaced by a presigned GET URL for it; empty and temp values are left as stored.
   */
  function ShowImage(url: Option<string>): (r: Option<Shown>)
    ensures url.None? <==> r.None?
    ensures r.Some? && r.value.SignedGet? <==> url.Some? && url.value != "" && !IsTemp(url.value)
    ensures r.Some? && r.value.AsStored? ==> r.value.url == url.value
    ensures r.Some? && r.value.SignedGet? ==> r.value.key == url.value
  {
    match url
    case None => None
    case Some(u) => if u != "" && !IsTemp(u) then Some(SignedGet(u)) else Some(AsStored(u))
  }

  /** A freshly presigned upload is shown as stored until it is moved to its card. */
  lemma FreshUploadShownAsStored(user: int, hex: string, filename: string, deck: int, card: int, side: Side)
    ensures ShowImage(Some(PresignKey(user, hex, filename))) == Some(AsStored(PresignKey(user, hex, filename)))
    ensures ShowImage(Some(MovedKey(deck, card, side, PresignKey(user, hex, filename))))
      == Some(SignedGet(MovedKey(deck, card, side, PresignKey(user, hex, filename))))
  {
  }
}

=== FILE: ordering.dfy ===
/**
 * `ORDER BY` over two integer columns: a lexicographic order on pairs, and an insertion sort that
 * produces it. A descending column is sorted on its negation.
 */
module Ordering {
  /** Lexicographic `<=` on pairs. */
  predicate LexLe(a: (int, int), b: (int, int)) {
    a.0 < b.0 || (a.0 == b.0 && a.1 <= b.1)
  }

  predicate SortedBy<T>(s: seq<T>, key: T -> (int, int)) {
    forall i, j :: 0 <= i < j < |s| ==> LexLe(key(s[i]), key(s[j]))
  }

  /** `x` placed before the first element of `s` it does not follow. */
  function Insert<T(==)>(x: T, s: seq<T>, key: T -> (int, int)): (r: seq<T>)
    requires SortedBy(s, key)
    ensures multiset(r) == multiset(s) + multiset{x}
    ensures |r| == |s| + 1
    ensures r[0] == x || (s != [] && r[0] == s[0])
    ensures SortedBy(r, key)
  {
    if s == [] then [x]
    else if LexLe(key(x), key(s[0])) then [x] + s
    else
      var rest := Insert(x, s[1..], key);
      assert s == [s[0]] + s[1..];
      FollowsHead(x, s, rest, key);
      [s[0]] + rest
  }

  /** Whatever is built from `x` and the tail of `s` follows the head of `s` when `x` does. */
  lemma FollowsHead<T>(x: T, s: seq<T>, rest: seq<T>, key: T -> (int, int))
    requires s != [] && SortedBy(s, key) && !LexLe(key(x), key(s[0]))
    requires multiset(rest) == multiset(s[1..]) + multiset{x}
    ensures forall j :: 0 <= j < |rest| ==> LexLe(key(s[0]), key(rest[j]))
  {
    forall j | 0 <= j < |rest| ensures LexLe(key(s[0]), key(rest[j])) {
      assert rest[j] in multiset(rest);
      if rest[j] != x {
        assert rest[j] in multiset(s[1..]);
        var k :| 0 <= k < |s[1..]| && s[1..][k] == rest[j];
        assert s[k + 1] == rest[j];
      }
    }
  }

  /** The elements of `s` in key order. */
  function Sort<T(==)>(s: seq<T>, key: T -> (int, int)): (r: seq<T>)
    ensures multiset(r) == multiset(s) && |r| == |s|
    ensures SortedBy(r, key)
  {
    if s == [] then []
    else
      assert s == [s[0]] + s[1..];
      Insert(s[0], Sort(s[1..], key), key)
  }
}

=== FILE: registry.dfy ===
/**
 * The event registry (validation/registry.py): (event type, version) -> descriptor naming the
 * payload schema, the destination table and the row mapper.
 *
 * The event-type strings are members of enums defined in the event-contracts package, which is
 * not part of this model; they are written here as the enum member names.
 */
module Registry {
  import opened Wrappers
  import opened Text
  import opened Mappers

  type Key = (string, int)

  /**
   * A descriptor: the schema is identified by the event kind whose payload class it is, the
   * mapper by the event kind whose mapping function it is.
   */
  datatype Descriptor = Descriptor(schema: EventKind, table: string, mapper: EventKind)

  /** The enum member of each event kind. */
  function TypeName(k: EventKind): string {
    match k
    case DeckCreated => "DECK_CREATED"
    case CardCreated => "CARD_CREATED"
    case LearningSessionStarted => "LEARNING_SESSION_STARTED"
    case LearningSessionFinished => "LEARNING_SESSION_FINISHED"
    case CourseCreated => "COURSE_CREATED"
    case CourseEnrolled => "COURSE_ENROLLED"
    case CourseProgressUpdated => "COURSE_PROGRESS_UPDATED"
    case UserRegistered => "USER_REGISTERED"
  }

  /** The registry literal, entries in declaration (and therefore dict iteration) order. */
  function Entries(): seq<(Key, Descriptor)> {
    [ (("DECK_CREATED", 1), Descriptor(DeckCreated, "analytics.deck_created", DeckCreated)),
      (("CARD_CREATED", 1), Descriptor(CardCreated, "analytics.card_created", CardCreated)),
      (("LEARNING_SESSION_STARTED", 1),
        Descriptor(LearningSessionStarted, "analytics.learning_session_started", LearningSessionStarted)),
      (("LEARNING_SESSION_FINISHED", 1),
        Descriptor(LearningSessionFinished, "analytics.learning_session_finished", LearningSessionFinished)),
      (("COURSE_CREATED", 1), Descriptor(CourseCreated, "analytics.course_created", CourseCreated)),
      (("COURSE_ENROLLED", 1), Descriptor(CourseEnrolled, "analytics.course_enrolled", CourseEnrolled)),
      (("COURSE_PROGRESS_UPDATED", 1),
        Descriptor(CourseProgressUpdated, "analytics.course_progress_updated", CourseProgressUpdated)),
      (("USER_REGISTERED", 1), Descriptor(UserRegistered, "analytics.user_registered", UserRegistered)) ]
  }

  /** The kinds in registry order. */
  function Kinds(): seq<EventKind> {
    [DeckCreated, CardCreated, LearningSessionStarted, LearningSessionFinished,
     CourseCreated, CourseEnrolled, CourseProgressUpdated, UserRegistered]
  }

  /** `EVENT_REGISTRY.get((event_type, event_version))`. */
  function Lookup(eventType: string, version: int): (r: Option<Descriptor>)
    ensures r.Some? <==> exists i :: 0 <= i < |Entries()| && Entries()[i].0 == (eventType, version)
    ensures r.Some? ==> exists i :: 0 <= i < |Entries()| && Entries()[i] == ((eventType, version), r.value)
  {
    LookupIn(Entries(), (eventType, version))
  }

  function LookupIn(es: seq<(Key, Descriptor)>, key: Key): (r: Option<Descriptor>)
    ensures r.Some? <==> exists i :: 0 <= i < |es| && es[i].0 == key
    ensures r.Some? ==> exists i :: 0 <= i < |es| && es[i] == (key, r.value)
  {
    if es == [] then None
    else if es[0].0 == key then Some(es[0].1)
    else
      var r := LookupIn(es[1..], key);
      assert forall i :: 1 <= i < |es| ==> es[1..][i - 1] == es[i];
      r
  }

  /**
   * The distinct tables in the order the consumer creates their buffers (in `run`);
   * `TablesDistinct` shows this is what its pass over the registry builds.
   */
  function Tables(): seq<string> {
    ["analytics.deck_created", "analytics.card_created", "analytics.learning_session_started",
     "analytics.learning_session_finished", "analytics.course_created", "analytics.course_enrolled",
     "analytics.course_progress_updated", "analytics.user_registered"]
  }

  /** The tables of `es`, in order. */
  function TablesOf(es: seq<(Key, Descriptor)>): (r: seq<string>)
    ensures |r| == |es| && forall i :: 0 <= i < |es| ==> r[i] == es[i].1.table
  {
    seq(|es|, i requires 0 <= i < |es| => es[i].1.table)
  }

  /** Appends each element of `ts` to `seen` unless it is already there. */
  function Dedup<T(==)>(ts: seq<T>, seen: seq<T>): (r: seq<T>)
    ensures |seen| <= |r| && r[..|seen|] == seen
  {
    if ts == [] then seen
    else
      var seen' := if ts[0] in seen then seen else seen + [ts[0]];
      Dedup(ts[1..], seen')
  }

  /** The index of a table's buffer in `Tables()`. */
  function TableIndex(table: string): (r: Option<nat>)
    ensures r.Some? <==> table in Tables()
    ensures r.Some? ==> r.value < |Tables()| && Tables()[r.value] == table
  {
    IndexIn(Tables(), table)
  }

  function IndexIn(ts: seq<string>, t: string): (r: Option<nat>)
    ensures r.Some? <==> t in ts
    ensures r.Some? ==> r.value < |ts| && ts[r.value] == t
  {
    if ts == [] then None
    else if ts[0] == t then Some(0)
    else match IndexIn(ts[1..], t)
      case None => None
      case Some(k) => Some(k + 1)
  }

  /** The descriptor registered for event kind `k` at version 1. */
  function DescriptorOf(k: EventKind): Descriptor {
    Entries()[IndexOfKind(k)].1
  }

  function IndexOfKind(k: EventKind): (i: nat)
    ensures i < |Kinds()| && Kinds()[i] == k
  {
    match k
    case DeckCreated => 0
    case CardCreated => 1
    case LearningSessionStarted => 2
    case LearningSessionFinished => 3
    case CourseCreated => 4
    case CourseEnrolled => 5
    case CourseProgressUpdated => 6
    case UserRegistered => 7
  }

  /**
   * The shape of the registry: eight entries, one per event kind in `Kinds()` order, every key at
   * version 1, every descriptor's schema and mapper for the same kind, every table in the
   * `analytics` database.
   */
  lemma RegistryShape()
    ensures |Entries()| == 8 && |Kinds()| == 8
    ensures forall i :: 0 <= i < 8 ==>
      var k := Kinds()[i];
      && Entries()[i].0 == (TypeName(k), 1)
      && Entries()[i].1.schema == k
      && Entries()[i].1.mapper == k
      && StartsWith(Entries()[i].1.table, "analytics.")
  {
  }

  /** Every kind is registered at version 1, and looking it up yields its own descriptor. */
  lemma {:induction false} LookupKnown(k: EventKind)
    ensures Lookup(TypeName(k), 1) == Some(DescriptorOf(k))
    ensures DescriptorOf(k).schema == k && DescriptorOf(k).mapper == k
  {
  }

  /** No version other than 1 is registered, and no type name outside the eight enum members. */
  lemma {:induction false} LookupUnknown(eventType: string, version: int)
    requires version != 1 || forall k: EventKind :: TypeName(k) != eventType
    ensures Lookup(eventType, version) == None
  {
    RegistryShape();
  }

  /** When nothing in `ts` repeats and nothing is already seen, the dedup pass keeps it all. */
  lemma {:induction false} DedupKeepsAll<T>(ts: seq<T>, seen: seq<T>)
    requires forall i, j :: 0 <= i < j < |ts| ==> ts[i] != ts[j]
    requires forall i :: 0 <= i < |ts| ==> ts[i] !in seen
    ensures Dedup(ts, seen) == seen + ts
  {
    if ts != [] {
      var tail := ts[1..];
      assert Dedup(ts, seen) == Dedup(tail, seen + [ts[0]]);
      DedupKeepsAll(tail, seen + [ts[0]]);
      assert seen + [ts[0]] + tail == seen + ts;
    }
  }

  /** The registry's tables, entry by entry, are the buffer tables. */
  lemma TablesListed()
    ensures TablesOf(Entries()) == Tables()
  {
  }

  /** No two buffer tables are the same. */
  lemma TablesUnrepeated()
    ensures forall i, j :: 0 <= i < j < |Tables()| ==> Tables()[i] != Tables()[j]
  {
    var ts := Tables();
    // Tables of equal length differ at the first character after the `analytics.` prefix.
    var sig := seq(8, i requires 0 <= i < 8 => (|ts[i]|, ts[i][10]));
    assert sig == [(22, 'd'), (22, 'c'), (34, 'l'), (35, 'l'), (24, 'c'), (25, 'c'), (33, 'c'), (25, 'u')];
    assert forall i, j :: 0 <= i < j < 8 ==> sig[i] != sig[j];
  }

  /**
   * Each table has exactly one buffer: the consumer's pass over the registry keeps every table,
   * since the tables are pairwise distinct, so the buffers follow registry order.
   */
  lemma TablesDistinct()
    ensures Tables() == Dedup(TablesOf(Entries()), [])
    ensures |Tables()| == 8
    ensures forall i :: 0 <= i < 8 ==> Tables()[i] == Entries()[i].1.table
    ensures forall i, j :: 0 <= i < j < |Tables()| ==> Tables()[i] != Tables()[j]
  {
    TablesListed();
    TablesUnrepeated();
    DedupKeepsAll(Tables(), []);
  }
}

=== FILE: teaching_auth.dfy ===
/**
 * Authentication in the teaching service (common/auth.py): the user contexts a request carries
 * and the mock bearer-token scheme that produces them.
 */
module TeachingAuth {
  import opened Wrappers
  import opened Text

  /** `UserContext`. */
  datatype User = User(id: int, isManager: bool)

  /**
   * The user a request carries: an authenticated `UserContext`; the service's own
   * `AnonymousUserContext`; or, for a request that no authentication class accepts, the
   * framework's anonymous user, which has no id and no `is_manager` attribute.
   */
  datatype Principal = Authenticated(user: User) | Anonymous | Unauthenticated

  /** The `is_authenticated` property, which every context class and the framework's user define. */
  predicate IsAuthenticated(p: Principal) {
    p.Authenticated?
  }

  /**
   * The fields a view reads from the request's context: `AnonymousUserContext` has id 0 and is
   * not a manager. The framework's anonymous user has no `is_manager`, so a view that reads it
   * fails; such views branch on `Unauthenticated` before reading the fields.
   */
  function Fields(p: Principal): (u: User)
    requires !p.Unauthenticated?
    ensures p.Authenticated? ==> u == p.user
    ensures p.Anonymous? ==> u.id == 0 && !u.isManager
  {
    match p
    case Authenticated(u) => u
    case Anonymous => User(0, false)
  }

  /**
   * `get_user_context`: the request's context when it is one of the two context classes
   * (`attached`), otherwise the anonymous one.
   */
  function GetUserContext(attached: Option<Principal>): (r: Principal)
    ensures !r.Unauthenticated?
    ensures IsAuthenticated(r) <==> attached.Some? && IsAuthenticated(attached.value)
    ensures attached.Some? && !attached.value.Unauthenticated? ==> r == attached.value
    ensures (attached.None? || attached.value.Unauthenticated?) ==> Fields(r) == User(0, false)
  {
    if attached.Some? && !attached.value.Unauthenticated? then attached.value else Anonymous
  }

  /**
   * The user a mock token stands for: the manager with id 2 for a `-manager` suffix; otherwise a
   * non-manager whose id is the integer after the last `-`, or 1 when there is no `-` or that
   * segment is not an integer.
   */
  function TokenUser(token: string): (r: User)
    ensures EndsWith(token, "-manager") <==> r.isManager
    ensures r.isManager ==> r.id == 2
    ensures !r.isManager && '-' !in token ==> r.id == 1
    ensures !r.isManager && '-' in token ==> r.id == ParseInt(RPartition(token, '-').tail).GetOr(1)
  {
    if EndsWith(token, "-manager") then User(2, true)
    else
      var id := if '-' in token then ParseInt(RPartition(token, '-').tail).GetOr(1) else 1;
      User(id, false)
  }

  /**
   * `MockJWTAuthentication.authenticate`: no authentication unless the header starts with
   * `Bearer `; the token is everything after the first space.
   */
  function Authenticate(header: string): (r: Option<User>)
    ensures r.None? <==> !StartsWith(header, "Bearer ")
    ensures r.Some? ==> r.value == TokenUser(header[7..])
  {
    if StartsWith(header, "Bearer ") then Some(TokenUser(header[7..])) else None
  }

  /**
   * The principal a view sees under the mock scheme: the authenticated user, or, when the header
   * is not a bearer header, the framework's anonymous user (the service sets no other).
   */
  function RequestPrincipal(header: string): (r: Principal)
    ensures IsAuthenticated(r) <==> StartsWith(header, "Bearer ")
    ensures !IsAuthenticated(r) ==> r.Unauthenticated?
    ensures IsAuthenticated(r) ==> r.user == TokenUser(header[7..])
  {
    match Authenticate(header)
    case Some(u) => Authenticated(u)
    case None => Unauthenticated
  }

  /** The last `-` of `a + "-" + b`, when `b` holds none, is the one before `b`. */
  lemma {:induction false} RPartitionAtLast(a: string, b: string)
    requires '-' !in b
    ensures RPartition(a + "-" + b, '-').tail == b
  {
    var s := a + "-" + b;
    assert s[|a|] == '-';
    var k := LastIndexOf(s, '-').value;
    assert forall j :: |a| < j < |s| ==> s[j] == b[j - |a| - 1];
    assert k == |a|;
    assert s[k + 1..] == b;
  }

  /** A non-negative id is the user id of the token `<anything>-<id>`. */
  lemma TokenCarriesId(prefix: string, n: nat)
    ensures Authenticate("Bearer " + (prefix + "-" + NatToString(n))) == Some(User(n, false))
  {
    var token := prefix + "-" + NatToString(n);
    var header := "Bearer " + token;
    assert StartsWith(header, "Bearer ");
    assert header[7..] == token;
    var digits := NatToString(n);
    assert '-' !in digits;
    assert !EndsWith(token, "-manager") by {
      assert token[|token| - 1] == digits[|digits| - 1];
      assert IsDigit(digits[|digits| - 1]);
    }
    assert token[|prefix|] == '-';
    RPartitionAtLast(prefix, digits);
    ParseNatToString(n);
  }

  /** Any token with the `-manager` suffix authenticates the manager, whatever precedes it. */
  lemma ManagerToken(prefix: string)
    ensures Authenticate("Bearer " + (prefix + "-manager")) == Some(User(2, true))
  {
    var token := prefix + "-manager";
    assert ("Bearer " + token)[7..] == token;
    assert token[|token| - 8..] == "-manager";
  }
}

=== FILE: teaching_permissions.dfy ===
/**
 * The permission classes of the teaching service (common/permissions.py). Each class has a
 * view-level check (`has_permission`) and an object-level check (`has_object_permission`);
 * the two course and enrollment classes inherit the view-level check of the base class, which
 * lets every request through.
 */
module TeachingPermissions {
  import opened Wrappers
  import opened TeachingAuth

  /** What `IsCourseTeacherOrManager` finds on an object: a `teacher_id`, a `course`, or neither. */
  datatype Owned =
    | WithTeacher(teacherId: int)
    | WithCourse(courseTeacherId: int)
    | Unowned

  /** `IsManager`, at both levels. */
  predicate IsManager(p: Principal) {
    IsAuthenticated(p) && p.user.isManager
  }

  /** The inherited `BasePermission.has_permission`. */
  predicate BaseHasPermission(p: Principal) {
    true
  }

  /** `IsCourseTeacherOrManager.has_object_permission`. */
  predicate CourseTeacherOrManager(p: Principal, obj: Owned) {
    && IsAuthenticated(p)
    && (p.user.isManager ||
        match obj
        case WithTeacher(t) => t == p.user.id
        case WithCourse(t) => t == p.user.id
        case Unowned => false)
  }

  /** `IsEnrollmentStudentOrManager.has_object_permission` for an enrollment of `studentId`. */
  predicate EnrollmentStudentOrManager(p: Principal, studentId: int) {
    IsAuthenticated(p) && (p.user.isManager || studentId == p.user.id)
  }

  /** The teacher an object is checked against, if it names one. */
  function TeacherOf(obj: Owned): (r: Option<int>)
    ensures r.None? <==> obj.Unowned?
  {
    match obj
    case WithTeacher(t) => Some(t)
    case WithCourse(t) => Some(t)
    case Unowned => None
  }

  /**
   * The three object checks side by side: the anonymous context passes none of them, a manager
   * passes all, and anyone else passes exactly when they are the teacher (or the student) named.
   */
  lemma {:induction false} PermissionLaws(p: Principal, obj: Owned, studentId: int)
    ensures !IsAuthenticated(p) ==>
      !IsManager(p) && !CourseTeacherOrManager(p, obj) && !EnrollmentStudentOrManager(p, studentId)
    ensures IsManager(p) ==> CourseTeacherOrManager(p, obj) && EnrollmentStudentOrManager(p, studentId)
    ensures IsAuthenticated(p) && !p.user.isManager ==>
      && (CourseTeacherOrManager(p, obj) <==> TeacherOf(obj) == Some(p.user.id))
      && (EnrollmentStudentOrManager(p, studentId) <==> studentId == p.user.id)
  {
    if IsAuthenticated(p) && !p.user.isManager {
      match obj
      case WithTeacher(t) =>
      case WithCourse(t) =>
      case Unowned =>
    }
  }
}

=== FILE: test_results.dfy ===
/**
 * The test-result endpoints of the decks service (test_result/controller.py): the checks a
 * submitted result passes before it is stored, and the user filter a listing applies.
 *
 * What happens after the checks (storing the result, the background statistics update, the page
 * query) is delegated to test_result/service.py, which is not part of this model.
 */
module TestResults {
  import opened Wrappers
  import opened DeckAuth
  import Cards

  /** `SCardResultIn`, reduced to what the checks read. */
  datatype CardAnswer = CardAnswer(cardId: int, correct: bool, answerTime: int)

  /** `STestResultCreate`. */
  datatype ResultCreate = ResultCreate(userId: int, totalTime: int, correctRate: real, cardResults: seq<CardAnswer>)

  /** The outcome of the create checks. */
  datatype CreateReply =
    | Refused(status: nat, detail: string)
    | ForeignCards(invalid: set<int>)      // 400: the submitted ids that are not cards of this deck
    | Accepted                             // handed to the service to be stored

  /** The distinct card ids of a submission. */
  function SubmittedIds(answers: seq<CardAnswer>): (r: set<int>)
    ensures forall id :: id in r <==> exists i :: 0 <= i < |answers| && answers[i].cardId == id
    ensures r == {} <==> answers == []
  {
    if answers == [] then {}
    else
      assert answers[0].cardId in {answers[0].cardId};
      {answers[0].cardId} + SubmittedIds(answers[1..])
  }

  /** The ids of the cards of deck `deckId`. */
  function DeckCardIds(w: Cards.World, deckId: int): (r: set<int>)
    ensures forall id :: id in r <==> id in w.cards && w.cards[id].deckId == deckId
  {
    set id | id in w.cards && w.cards[id].deckId == deckId
  }

  /**
   * `POST /deck/{deck_id}/results`: 404 for a missing deck, then 403 when a non-manager submits
   * for someone else, then 400 with the submitted ids that are not cards of this deck. Without a
   * user the handler fails on `user.id`, a 500.
   */
  function CreateResult(owners: map<int, int>, w: Cards.World, deckId: int, user: Option<User>, p: ResultCreate)
    : (r: CreateReply)
    ensures deckId !in owners ==> r == Refused(404, "Deck not found")
    ensures deckId in owners && user.None? ==> r == Refused(500, "Internal Server Error")
    ensures deckId in owners && user.Some? && user.value.id != p.userId && !user.value.isManager ==>
      r == Refused(403, "Forbidden")
    ensures r.ForeignCards? <==>
      (&& deckId in owners && user.Some? && (user.value.id == p.userId || user.value.isManager)
       && !(SubmittedIds(p.cardResults) <= DeckCardIds(w, deckId)))
    ensures r.ForeignCards? ==> r.invalid == SubmittedIds(p.cardResults) - DeckCardIds(w, deckId) && r.invalid != {}
    ensures r == Accepted <==>
      && deckId in owners && user.Some? && (user.value.id == p.userId || user.value.isManager)
      && SubmittedIds(p.cardResults) <= DeckCardIds(w, deckId)
  {
    if deckId !in owners then Refused(404, "Deck not found")
    else if user.None? then Refused(500, "Internal Server Error")
    else if user.value.id != p.userId && !user.value.isManager then Refused(403, "Forbidden")
    else
      var ids := SubmittedIds(p.cardResults);
      if ids != {} && ids - DeckCardIds(w, deckId) != {} then
        ForeignCards(ids - DeckCardIds(w, deckId))
      else Accepted
  }

  /**
   * A result without card answers skips the card check, and a manager may submit for anyone:
   * for an existing deck both are accepted whatever the deck's cards.
   */
  lemma NoAnswersManagerAccepted(owners: map<int, int>, w: Cards.World, deckId: int, u: User, p: ResultCreate)
    requires deckId in owners && u.isManager && p.cardResults == []
    ensures CreateResult(owners, w, deckId, Some(u), p) == Accepted
  {
  }

  /** A submission naming one card of another deck is refused, and that card is listed. */
  lemma {:induction false} ForeignCardListed(owners: map<int, int>, w: Cards.World, deckId: int, u: User, p: ResultCreate,
                                             i: nat)
    requires deckId in owners && u.id == p.userId
    requires i < |p.cardResults| && p.cardResults[i].cardId !in DeckCardIds(w, deckId)
    ensures CreateResult(owners, w, deckId, Some(u), p).ForeignCards?
    ensures p.cardResults[i].cardId in CreateResult(owners, w, deckId, Some(u), p).invalid
  {
    assert p.cardResults[i].cardId in SubmittedIds(p.cardResults);
  }

  /** The outcome of the listing checks: an error, or the user filter the page query receives. */
  datatype ListReply =
    | ListRefused(status: nat, detail: string)
    | Filter(userId: Option<int>)

  /**
   * `GET /deck/{deck_id}/results`: 422 for a `limit` outside 1..100 (checked before the handler
   * runs), 401 without a user, 404 for a missing deck. A caller who may not write the deck only
   * ever sees their own results; an owner or manager filters by the requested `user_id`, if any.
   */
  function ListResults(owners: map<int, int>, deckId: int, user: Option<User>, limit: int, userId: Option<int>)
    : (r: ListReply)
    ensures !(1 <= limit <= 100) ==> r.ListRefused? && r.status == 422
    ensures 1 <= limit <= 100 && user.None? ==> r == ListRefused(401, "Unauthenticated")
    ensures 1 <= limit <= 100 && user.Some? && deckId !in owners ==> r == ListRefused(404, "Deck not found")
    ensures r.Filter? <==> 1 <= limit <= 100 && user.Some? && deckId in owners
    ensures r.Filter? && !Authorized(owners[deckId], user) ==> r.userId == Some(user.value.id)
    ensures r.Filter? && Authorized(owners[deckId], user) ==> r.userId == userId
  {
    if !(1 <= limit <= 100) then ListRefused(422, "Unprocessable Entity")
    else if user.None? then ListRefused(401, "Unauthenticated")
    else if deckId !in owners then ListRefused(404, "Deck not found")
    else if !Authorized(owners[deckId], user) then Filter(Some(user.value.id))
    else Filter(userId)
  }

  /**
   * An ordinary user who does not own the deck cannot widen the listing: whatever `user_id` they
   * ask for, the filter is their own id, the same as when they ask for nothing.
   */
  lemma NonOwnerFilterFixed(owners: map<int, int>, deckId: int, u: User, limit: int, a: Option<int>, b: Option<int>)
    requires deckId in owners && owners[deckId] != u.id && !u.isManager && 1 <= limit <= 100
    ensures ListResults(owners, deckId, Some(u), limit, a) == ListResults(owners, deckId, Some(u), limit, b)
    ensures ListResults(owners, deckId, Some(u), limit, a) == Filter(Some(u.id))
  {
  }
}

=== FILE: text.dfy ===
/**
 * The handful of Python `str` operations the services rely on, over `seq<char>`.
 * Case mapping and whitespace are the ASCII subsets of Python's Unicode tables.
 */
module Text {
  import opened Wrappers

  predicate StartsWith(s: string, prefix: string) {
    |prefix| <= |s| && s[..|prefix|] == prefix
  }

  predicate EndsWith(s: string, suffix: string) {
    |suffix| <= |s| && s[|s| - |suffix|..] == suffix
  }

  /** `sub in s` */
  predicate ContainsSub(s: string, sub: string) {
    StartsWith(s, sub) || (|s| > 0 && ContainsSub(s[1..], sub))
  }

  /** Python's `str.isspace` restricted to ASCII. */
  predicate IsSpace(c: char) {
    c == ' ' || c == '\t' || c == '\n' || c == '\r' || c == '\U{B}' || c == '\U{C}'
    || ('\U{1C}' <= c <= '\U{1F}')
  }

  /** `s.lstrip(c)` for a single character `c`. */
  function LStripChar(s: string, c: char): (r: string)
    ensures |r| <= |s| && r == s[|s| - |r|..]
    ensures forall i :: 0 <= i < |s| - |r| ==> s[i] == c
    ensures r == [] || r[0] != c
  {
    if |s| > 0 && s[0] == c then LStripChar(s[1..], c) else s
  }

  function TrimStart(s: string): (r: string)
    ensures |r| <= |s| && r == s[|s| - |r|..]
    ensures forall i :: 0 <= i < |s| - |r| ==> IsSpace(s[i])
    ensures r == [] || !IsSpace(r[0])
  {
    if |s| > 0 && IsSpace(s[0]) then TrimStart(s[1..]) else s
  }

  function TrimEnd(s: string): (r: string)
    ensures |r| <= |s| && r == s[..|r|]
    ensures forall i :: |r| <= i < |s| ==> IsSpace(s[i])
    ensures r == [] || !IsSpace(r[|r| - 1])
  {
    if |s| > 0 && IsSpace(s[|s| - 1]) then TrimEnd(s[..|s| - 1]) else s
  }

  /** `s.strip()`: the longest slice of `s` that neither starts nor ends with whitespace. */
  function Strip(s: string): string {
    TrimEnd(TrimStart(s))
  }

  /** A string made only of whitespace strips to the empty string, and only such a string does. */
  lemma {:induction false} StripEmptyIffAllSpace(s: string)
    ensures Strip(s) == [] <==> forall i :: 0 <= i < |s| ==> IsSpace(s[i])
  {
    if |s| > 0 && IsSpace(s[0]) {
      StripEmptyIffAllSpace(s[1..]);
      assert forall i :: 1 <= i < |s| ==> s[1..][i - 1] == s[i];
    }
  }

  /** A string that starts and ends with something other than whitespace strips to itself. */
  lemma {:induction false} StripUnpadded(s: string)
    ensures s != [] && !IsSpace(s[0]) && !IsSpace(s[|s| - 1]) ==> Strip(s) == s
  {
  }

  function LowerChar(c: char): char {
    if 'A' <= c <= 'Z' then (c as int + 32) as char else c
  }

  function UpperChar(c: char): char {
    if 'a' <= c <= 'z' then (c as int - 32) as char else c
  }

  function Lower(s: string): (r: string)
    ensures |r| == |s|
    ensures forall i :: 0 <= i < |s| ==> r[i] == LowerChar(s[i])
  {
    if s == [] then [] else [LowerChar(s[0])] + Lower(s[1..])
  }

  /** `s.capitalize()`: first character upper-cased, every other character lower-cased. */
  function Capitalize(s: string): (r: string)
    ensures |r| == |s|
    ensures |s| > 0 ==> r[0] == UpperChar(s[0])
    ensures forall i :: 1 <= i < |s| ==> r[i] == LowerChar(s[i])
  {
    if s == [] then [] else [UpperChar(s[0])] + Lower(s[1..])
  }

  /** Index of the last occurrence of `c` in `s`, if any. */
  function LastIndexOf(s: string, c: char): (r: Option<nat>)
    ensures r.None? <==> c !in s
    ensures r.Some? ==>
      (r.value < |s| && s[r.value] == c && forall j :: r.value < j < |s| ==> s[j] != c)
  {
    if s == [] then None
    else if s[|s| - 1] == c then Some(|s| - 1)
    else LastIndexOf(s[..|s| - 1], c)
  }

  /** Index of the first occurrence of `c` in `s`, if any. */
  function IndexOf(s: string, c: char): (r: Option<nat>)
    ensures r.None? <==> c !in s
    ensures r.Some? ==>
      (r.value < |s| && s[r.value] == c && forall j :: 0 <= j < r.value ==> s[j] != c)
  {
    if s == [] then None
    else if s[0] == c then Some(0)
    else match IndexOf(s[1..], c)
      case None => None
      case Some(k) => Some(k + 1)
  }

  /** `s.rpartition(c)`: (head, separator, tail) split at the LAST `c`; ("", "", s) without one. */
  datatype Parts = Parts(head: string, sep: string, tail: string)

  function RPartition(s: string, c: char): (r: Parts)
    ensures r.head + r.sep + r.tail == s
    ensures c !in s ==> r == Parts("", "", s)
    ensures c in s ==> r.sep == [c] && c !in r.tail
  {
    match LastIndexOf(s, c)
    case None => Parts("", "", s)
    case Some(k) =>
      assert s[..k] + [c] + s[k + 1..] == s;
      Parts(s[..k], [c], s[k + 1..])
  }

  /** `s.partition(c)`: (head, separator, tail) split at the FIRST `c`; (s, "", "") without one. */
  function Partition(s: string, c: char): (r: Parts)
    ensures r.head + r.sep + r.tail == s
    ensures c !in s ==> r == Parts(s, "", "")
    ensures c in s ==> r.sep == [c] && c !in r.head
  {
    match IndexOf(s, c)
    case None => Parts(s, "", "")
    case Some(k) =>
      assert s[..k] + [c] + s[k + 1..] == s;
      Parts(s[..k], [c], s[k + 1..])
  }

  /** `s.split(c)` with an explicit one-character separator: every occurrence cuts. */
  function Split(s: string, c: char): (r: seq<string>)
    ensures |r| >= 1
    ensures forall i :: 0 <= i < |r| ==> c !in r[i]
    decreases |s|
  {
    match IndexOf(s, c)
    case None => [s]
    case Some(k) => [s[..k]] + Split(s[k + 1..], c)
  }

  function Join(parts: seq<string>, c: char): string
    requires |parts| >= 1
  {
    if |parts| == 1 then parts[0] else parts[0] + [c] + Join(parts[1..], c)
  }

  /** Splitting and re-joining on the same separator gives back the original string. */
  lemma {:induction false} SplitJoin(s: string, c: char)
    ensures Join(Split(s, c), c) == s
    decreases |s|
  {
    match IndexOf(s, c)
    case None =>
    case Some(k) =>
      var rest := Split(s[k + 1..], c);
      var parts := [s[..k]] + rest;
      assert parts[1..] == rest;
      assert Join(parts, c) == s[..k] + [c] + Join(rest, c);
      SplitJoin(s[k + 1..], c);
      assert s[..k] + [c] + s[k + 1..] == s;
  }

  /** The number of pieces is one more than the number of separators. */
  function Count(s: string, c: char): nat {
    if s == [] then 0 else (if s[0] == c then 1 else 0) + Count(s[1..], c)
  }

  lemma {:induction false} CountSplit(s: string, c: char)
    ensures |Split(s, c)| == Count(s, c) + 1
    decreases |s|
  {
    match IndexOf(s, c)
    case None => CountAbsent(s, c);
    case Some(k) =>
      CountSplit(s[k + 1..], c);
      CountAt(s, c, k);
  }

  lemma {:induction false} CountAbsent(s: string, c: char)
    requires c !in s
    ensures Count(s, c) == 0
  {
    if s != [] {
      CountAbsent(s[1..], c);
    }
  }

  lemma {:induction false} CountAt(s: string, c: char, k: nat)
    requires k < |s| && s[k] == c && forall j :: 0 <= j < k ==> s[j] != c
    ensures Count(s, c) == 1 + Count(s[k + 1..], c)
  {
    if k > 0 {
      CountAt(s[1..], c, k - 1);
      assert s[1..][k..] == s[k + 1..];
    }
  }

  lemma {:induction false} CountAppend(a: string, b: string, c: char)
    ensures Count(a + b, c) == Count(a, c) + Count(b, c)
  {
    if a == [] {
      assert a + b == b;
    } else {
      assert (a + b)[0] == a[0] && (a + b)[1..] == a[1..] + b;
      CountAppend(a[1..], b, c);
    }
  }

  // ---------------------------------------------------------------- numbers

  predicate IsDigit(c: char) { '0' <= c <= '9' }

  function DigitChar(d: nat): char
    requires d < 10
  {
    ('0' as int + d) as char
  }

  /** `str(n)` for a natural number. */
  function NatToString(n: nat): (r: string)
    ensures |r| >= 1
    ensures forall i :: 0 <= i < |r| ==> IsDigit(r[i])
  {
    if n < 10 then [DigitChar(n)] else NatToString(n / 10) + [DigitChar(n % 10)]
  }

  /** `str(i)` for any integer. */
  function IntToString(i: int): string {
    if i < 0 then "-" + NatToString(-i) else NatToString(i)
  }

  /** Value of the digits of `s`, ignoring `_` separators. */
  function DigitsValue(s: string): nat
    requires forall i :: 0 <= i < |s| ==> IsDigit(s[i]) || s[i] == '_'
  {
    if s == [] then 0
    else if s[|s| - 1] == '_' then DigitsValue(s[..|s| - 1])
    else
      var d := s[|s| - 1];
      assert IsDigit(d);
      DigitsValue(s[..|s| - 1]) * 10 + (d as int - '0' as int)
  }

  /**
   * A Python integer literal as `int(...)` accepts it after stripping: digits with single
   * underscores between them, no sign.
   */
  predicate IsDecimal(s: string) {
    && |s| > 0
    && IsDigit(s[0]) && IsDigit(s[|s| - 1])
    && (forall i :: 0 <= i < |s| ==> IsDigit(s[i]) || s[i] == '_')
    && (forall i :: 0 <= i < |s| - 1 ==> !(s[i] == '_' && s[i + 1] == '_'))
  }

  /** `int(s)` for text containing no `-`: surrounding whitespace and one leading `+` allowed. */
  function ParseInt(s: string): (r: Option<int>)
    ensures r.Some? ==> r.value >= 0
  {
    var t := Strip(s);
    var body := if |t| > 0 && t[0] == '+' then t[1..] else t;
    if IsDecimal(body) then Some(DigitsValue(body)) else None
  }

  lemma {:induction false} DigitsValueOfNatToString(n: nat)
    ensures DigitsValue(NatToString(n)) == n
  {
    if n >= 10 {
      DigitsValueOfNatToString(n / 10);
      var s := NatToString(n);
      assert s[..|s| - 1] == NatToString(n / 10);
    }
  }

  lemma StripDecimal(s: string)
    requires |s| > 0 && forall i :: 0 <= i < |s| ==> IsDigit(s[i])
    ensures Strip(s) == s && IsDecimal(s)
  {
    assert !IsSpace(s[0]);
    assert TrimStart(s) == s;
    assert !IsSpace(s[|s| - 1]);
    assert TrimEnd(s) == s;
  }

  /** `int(str(n)) == n` for natural numbers. */
  lemma ParseNatToString(n: nat)
    ensures ParseInt(NatToString(n)) == Some(n)
  {
    var s := NatToString(n);
    StripDecimal(s);
    DigitsValueOfNatToString(n);
  }

  /** Decimal rendering is injective, so distinct ids never share a key or a `sub` claim. */
  lemma NatToStringInjective(a: nat, b: nat)
    requires NatToString(a) == NatToString(b)
    ensures a == b
  {
    DigitsValueOfNatToString(a);
    DigitsValueOfNatToString(b);
  }
}

=== FILE: user_schemas.dfy ===
/**
 * The field validators of the users service's request and response schemas
 * (users/app/schemas/user_schemas.py): how names and passwords are checked and normalised when a
 * user is created, shown or updated.
 *
 * A validator either returns the value to store or fails with its message. E-mail syntax is left to
 * the schema library and is not part of this model.
 */
module UserSchemas {
  import opened Wrappers
  import opened Text

  const EmptyCreateMessage: string := "Field can not be empty."
  const EmptyUpdateMessage: string := "Field cannot be empty."
  const ShortPasswordMessage: string := "Password must be at least 8 characters long."
  const CreateSpaceMessage: string := "Field can not contain spaces."
  const UpdateSpaceMessage: string := "Password cannot contain spaces."

  // ------------------------------------------------------------ case and whitespace

  lemma CaseKeepsSpace(c: char)
    ensures IsSpace(UpperChar(c)) == IsSpace(c) && IsSpace(LowerChar(c)) == IsSpace(c)
  {
  }

  /** A stripped string starts and ends with something other than whitespace. */
  lemma {:induction false} StrippedEnds(s: string)
    ensures Strip(s) == [] || (!IsSpace(Strip(s)[0]) && !IsSpace(Strip(s)[|Strip(s)| - 1]))
  {
    var t := TrimStart(s);
    assert Strip(s) == t[..|Strip(s)|];
  }

  /** Capitalising changes letters only, so a stripped string stays stripped. */
  lemma {:induction false} CapitalizeStaysStripped(x: string)
    requires x == [] || (!IsSpace(x[0]) && !IsSpace(x[|x| - 1]))
    ensures Strip(Capitalize(x)) == Capitalize(x)
  {
    if x != [] {
      var y := Capitalize(x);
      CaseKeepsSpace(x[0]);
      CaseKeepsSpace(x[|x| - 1]);
      assert !IsSpace(y[|y| - 1]);
      StripUnpadded(y);
    }
  }

  lemma {:induction false} CapitalizeIdempotent(x: string)
    ensures Capitalize(Capitalize(x)) == Capitalize(x)
  {
    var y := Capitalize(x);
    assert forall i :: 1 <= i < |x| ==> LowerChar(LowerChar(x[i])) == LowerChar(x[i]);
    assert |x| > 0 ==> UpperChar(UpperChar(x[0])) == UpperChar(x[0]);
  }

  // ------------------------------------------------------------ names

  /**
   * `check_not_empty_name` of `UserCreate`: only the empty string is refused; anything else is
   * stripped and capitalised, so a name of spaces becomes empty.
   */
  function CreateName(v: string): (r: Result<string, string>)
    ensures r.Failure? <==> v == ""
    ensures r.Failure? ==> r.error == EmptyCreateMessage
    ensures r.Success? ==> |r.value| == |Strip(v)| && (r.value == "" <==> forall i :: 0 <= i < |v| ==> IsSpace(v[i]))
    ensures r.Success? && r.value != "" ==>
      && r.value[0] == UpperChar(Strip(v)[0])
      && (forall i :: 1 <= i < |r.value| ==> r.value[i] == LowerChar(Strip(v)[i]))
      && !IsSpace(r.value[0]) && !IsSpace(r.value[|r.value| - 1])
  {
    if v == "" then Failure(EmptyCreateMessage)
    else
      var x := Strip(v);
      StripEmptyIffAllSpace(v);
      StrippedEnds(v);
      CapitalizeStaysStripped(x);
      StrippedEnds(Capitalize(x));
      Success(Capitalize(x))
  }

  /** A name of whitespace only is accepted at creation and stored empty. */
  lemma {:induction false} BlankNameStoredEmpty(v: string)
    requires v != "" && forall i :: 0 <= i < |v| ==> IsSpace(v[i])
    ensures CreateName(v) == Success("")
  {
  }

  /** Normalising a stored name again changes nothing. */
  lemma {:induction false} CreateNameIdempotent(v: string)
    requires CreateName(v).Success? && CreateName(v).value != ""
    ensures CreateName(CreateName(v).value) == CreateName(v)
  {
    var x := Strip(v);
    StrippedEnds(v);
    CapitalizeStaysStripped(x);
    CapitalizeIdempotent(x);
  }

  /** `check_not_empty_name` of `UserBaseInfo`: the same rule as at creation. */
  function BaseInfoName(v: string): (r: Result<string, string>)
    ensures r.Failure? <==> v == ""
    ensures r.Success? ==> r == CreateName(v)
  {
    if v == "" then Failure(EmptyCreateMessage) else Success(Capitalize(Strip(v)))
  }

  /**
   * `check_not_empty_name` of `UserUpdate`: an omitted name passes; a name that strips to nothing
   * is refused; anything else is stripped and capitalised.
   */
  function UpdateName(v: Option<string>): (r: Result<Option<string>, string>)
    ensures v.None? ==> r == Success(None)
    ensures v.Some? ==> (r.Failure? <==> forall i :: 0 <= i < |v.value| ==> IsSpace(v.value[i]))
    ensures r.Failure? ==> r.error == EmptyUpdateMessage
    ensures v.Some? && r.Success? ==> r.value.Some? && r.value.value != ""
  {
    match v
    case None => Success(None)
    case Some(s) =>
      StripEmptyIffAllSpace(s);
      if Strip(s) == "" then Failure(EmptyUpdateMessage) else Success(Some(Capitalize(Strip(s))))
  }

  /**
   * Creation and update agree on every name that is not blank; a blank one is stored empty at
   * creation and refused at update.
   */
  lemma {:induction false} NameRulesCompared(v: string)
    ensures (exists i :: 0 <= i < |v| && !IsSpace(v[i])) ==>
      UpdateName(Some(v)) == Success(Some(CreateName(v).value))
    ensures v != "" && (forall i :: 0 <= i < |v| ==> IsSpace(v[i])) ==>
      CreateName(v) == Success("") && UpdateName(Some(v)).Failure?
  {
    StripEmptyIffAllSpace(v);
  }

  // ------------------------------------------------------------ passwords

  /** `check_password`: at least eight characters and no space; the value is then stripped. */
  function CheckPassword(v: string, spaceMessage: string): (r: Result<string, string>)
    ensures r.Success? <==> |v| >= 8 && ' ' !in v
    ensures |v| < 8 ==> r == Failure(ShortPasswordMessage)
    ensures |v| >= 8 && ' ' in v ==> r == Failure(spaceMessage)
    ensures r.Success? ==> r.value == Strip(v)
  {
    if |v| < 8 then Failure(ShortPasswordMessage)
    else if ' ' in v then Failure(spaceMessage)
    else Success(Strip(v))
  }

  /**
   * The `UserCreate` password as written: the name rule is listed for `password` too and runs
   * first, so the password is stripped and capitalised before its own check.
   */
  function CreatePasswordAsWritten(v: string): (r: Result<string, string>)
    ensures v == "" ==> r == Failure(EmptyCreateMessage)
    ensures r.Success? ==> r.value == Capitalize(Strip(v)) && |r.value| >= 8
  {
    match CreateName(v)
    case Failure(e) => Failure(e)
    case Success(w) =>
      StrippedEnds(v);
      CapitalizeStaysStripped(Strip(v));
      CheckPassword(w, CreateSpaceMessage)
  }

  /**
   * The `UserCreate` password as its validators' names intend: non-empty, then the password rule
   * alone, exactly as an update applies it.
   */
  function CreatePassword(v: string): (r: Result<string, string>)
    ensures v == "" ==> r == Failure(EmptyCreateMessage)
    ensures v != "" ==> r == CheckPassword(v, CreateSpaceMessage)
    ensures r.Success? && !IsSpace(v[0]) && !IsSpace(v[|v| - 1]) ==> r.value == v
  {
    if v == "" then Failure(EmptyCreateMessage)
    else
      StripUnpadded(v);
      CheckPassword(v, CreateSpaceMessage)
  }

  /**
   * What was typed is not what is kept: a password the correction keeps as typed is kept by the
   * original with its first letter raised and the others lowered, so it differs whenever that
   * recasing changes it.
   */
  lemma {:induction false} PasswordRecased(v: string)
    requires |v| >= 8 && ' ' !in v && !IsSpace(v[0]) && !IsSpace(v[|v| - 1])
    ensures CreatePassword(v) == Success(v)
    ensures CreatePasswordAsWritten(v) == Success(Capitalize(v))
  {
    var w := Capitalize(v);
    assert CreateName(v) == Success(w) by {
      StripUnpadded(v);
    }
    assert CheckPassword(w, CreateSpaceMessage) == Success(w) by {
      CapitalizeStaysStripped(v);
      CapitalizeNoSpace(v);
      StrippedEnds(w);
      UnpaddedPasswordKept(w);
    }
    assert CreatePassword(v) == Success(v) by {
      StripUnpadded(v);
    }
  }

  lemma {:induction false} UnpaddedPasswordKept(w: string)
    requires |w| >= 8 && (forall i :: 0 <= i < |w| ==> w[i] != ' ') && !IsSpace(w[0]) && !IsSpace(w[|w| - 1])
    ensures CheckPassword(w, CreateSpaceMessage) == Success(w)
  {
    StripUnpadded(w);
  }

  lemma {:induction false} CapitalizeNoSpace(v: string)
    requires forall i :: 0 <= i < |v| ==> v[i] != ' '
    ensures forall i :: 0 <= i < |Capitalize(v)| ==> Capitalize(v)[i] != ' '
  {
  }

  /** `passWord1` is one such password: it is stored as `Password1`. */
  lemma {:induction false} PasswordRecasedExample()
    ensures CreatePassword("passWord1") != CreatePasswordAsWritten("passWord1")
  {
    var v := "passWord1";
    PasswordRecased(v);
    assert Capitalize(v)[0] == 'P';
  }

  /** Where both accept, the original keeps the capitalised form of what the correction keeps. */
  lemma {:induction false} AsWrittenCapitalizes(v: string)
    ensures CreatePassword(v).Success? && CreatePasswordAsWritten(v).Success? ==>
      CreatePasswordAsWritten(v).value == Capitalize(CreatePassword(v).value)
  {
  }

  /** `check_password` of `UserUpdate`: an omitted password passes, a given one obeys the rule. */
  function UpdatePassword(v: Option<string>): (r: Result<Option<string>, string>)
    ensures v.None? ==> r == Success(None)
    ensures v.Some? ==> (r.Success? <==> |v.value| >= 8 && ' ' !in v.value)
    ensures v.Some? && r.Success? ==> r.value == Some(Strip(v.value))
  {
    match v
    case None => Success(None)
    case Some(p) =>
      match CheckPassword(p, UpdateSpaceMessage)
      case Failure(e) => Failure(e)
      case Success(w) => Success(Some(w))
  }

  /** With the correction a password is accepted, and kept, alike at creation and at update. */
  lemma {:induction false} PasswordRulesAgree(v: string)
    requires v != ""
    ensures CreatePassword(v).Success? <==> UpdatePassword(Some(v)).Success?
    ensures CreatePassword(v).Success? ==> UpdatePassword(Some(v)).value == Some(CreatePassword(v).value)
  {
  }
}

=== FILE: user_store.dfy ===
/**
 * The users service's store operations (users/app/crud.py) over the `users` table
 * (users/app/models.py): lookups that see active users only, a partial update, a soft delete and
 * creation, with the table's unique e-mail constraint.
 *
 * The table is a map from id to row. Password hashing is a function parameter; the database's
 * choice of a new id is an input.
 */
module UserStore {
  import opened Wrappers

  datatype User = User(id: nat, name: string, surname: string, email: string, passwordHash: string,
                       isManager: bool, isActive: bool)

  type Store = map<nat, User>

  /** Every row is stored under its own id, and no two rows share an e-mail, active or not. */
  predicate Valid(s: Store) {
    && (forall id :: id in s ==> s[id].id == id)
    && (forall a, b :: a in s && b in s && a != b ==> s[a].email != s[b].email)
  }

  /**
   * The errors the store raises: a missing user, a violated constraint (reported as an existing
   * user), and an exception outside the guarded commit (a 500).
   */
  datatype StoreError = NotFound | AlreadyExists | ServerError

  predicate IsActive(s: Store, id: nat) {
    id in s && s[id].isActive
  }

  /** `get_user_by_id`: only an active row is found. */
  function GetUserById(s: Store, id: nat): (r: Option<User>)
    ensures r.Some? <==> IsActive(s, id)
    ensures r.Some? ==> r.value == s[id]
  {
    if id in s && s[id].isActive then Some(s[id]) else None
  }

  /** `get_users`: the active rows. */
  function GetUsers(s: Store): (r: set<User>)
    ensures forall u :: u in r <==> u in s.Values && u.isActive
  {
    set id | id in s && s[id].isActive :: s[id]
  }

  /** `email` is taken by a row other than `id`. */
  predicate EmailTaken(s: Store, email: string, except: nat) {
    exists other :: other in s && other != except && s[other].email == email
  }

  /**
   * A field of a partial update: left out of the request, sent as null, or sent with a value.
   * Only the fields sent are applied.
   */
  datatype Field = Unset | Null | Value(v: string)

  datatype UserPatch = UserPatch(name: Field, surname: Field, email: Field, password: Field)

  function Apply(current: string, f: Field): string
    requires !f.Null?
  {
    if f.Value? then f.v else current
  }

  /**
   * `update_user`: a missing or deactivated user is not found; a null password reaches the hash
   * function outside the guarded commit; a null name, surname or e-mail breaks a non-null column and
   * an e-mail in use by another row breaks the unique one, both reported as an existing user.
   */
  function UpdateUser(s: Store, id: nat, p: UserPatch, hash: string -> string): (r: Result<Store, StoreError>)
    ensures !IsActive(s, id) ==> r == Failure(NotFound)
    ensures IsActive(s, id) && p.password.Null? ==> r == Failure(ServerError)
    ensures r.Success? <==>
      && IsActive(s, id) && !p.password.Null? && !p.name.Null? && !p.surname.Null? && !p.email.Null?
      && !(p.email.Value? && EmailTaken(s, p.email.v, id))
    ensures r.Success? ==>
      && (Valid(s) ==> Valid(r.value)) && r.value.Keys == s.Keys
      && (forall other :: other in s && other != id ==> r.value[other] == s[other])
      && var u := r.value[id];
      && u.id == s[id].id && u.isActive && u.isManager == s[id].isManager
      && u.name == Apply(s[id].name, p.name) && u.surname == Apply(s[id].surname, p.surname)
      && u.email == Apply(s[id].email, p.email)
      && u.passwordHash == (if p.password.Value? then hash(p.password.v) else s[id].passwordHash)
  {
    if !(id in s && s[id].isActive) then Failure(NotFound)
    else if p.password.Null? then Failure(ServerError)
    else if p.name.Null? || p.surname.Null? || p.email.Null? then Failure(AlreadyExists)
    else if p.email.Value? && EmailTaken(s, p.email.v, id) then Failure(AlreadyExists)
    else
      var row := s[id];
      var u := row.(name := Apply(row.name, p.name), surname := Apply(row.surname, p.surname),
                    email := Apply(row.email, p.email),
                    passwordHash := if p.password.Value? then hash(p.password.v) else row.passwordHash);
      Success(s[id := u])
  }

  /** An empty update leaves the store as it was. */
  lemma {:induction false} EmptyUpdateChangesNothing(s: Store, id: nat, hash: string -> string)
    requires IsActive(s, id)
    ensures UpdateUser(s, id, UserPatch(Unset, Unset, Unset, Unset), hash) == Success(s)
  {
    var r := UpdateUser(s, id, UserPatch(Unset, Unset, Unset, Unset), hash);
    assert r.value[id] == s[id];
    assert r.value == s;
  }

  /**
   * `delete_user`: a missing or already deactivated user is not found; otherwise the row stays and
   * is only marked inactive.
   */
  function DeleteUser(s: Store, id: nat): (r: Result<Store, StoreError>)
    ensures r.Failure? <==> !IsActive(s, id)
    ensures r.Failure? ==> r.error == NotFound
    ensures r.Success? ==>
      && r.value.Keys == s.Keys
      && r.value[id] == s[id].(isActive := false)
      && (forall other :: other in s && other != id ==> r.value[other] == s[other])
  {
    if !(id in s && s[id].isActive) then Failure(NotFound)
    else Success(s[id := s[id].(isActive := false)])
  }

  /**
   * After a delete the user can no longer be read or listed, a second delete is refused, the row
   * is kept, and the store stays valid: the e-mail stays taken.
   */
  lemma {:induction false} DeleteIsSoft(s: Store, id: nat)
    requires Valid(s) && IsActive(s, id)
    ensures var t := DeleteUser(s, id).value;
      && Valid(t)
      && GetUserById(t, id).None?
      && s[id] !in GetUsers(t)
      && DeleteUser(t, id) == Failure(NotFound)
      && id in t && t[id].email == s[id].email
      && (forall other :: other != id ==> GetUserById(t, other) == GetUserById(s, other))
  {
    var t := DeleteUser(s, id).value;
    assert forall other :: other in t && other != id ==> t[other].id == other && t[other] != s[id];
  }

  /**
   * `create_user`: the validated fields with the password replaced by its hash, an ordinary active
   * user; an e-mail already in use by any row breaks the unique constraint.
   */
  function CreateUser(s: Store, newId: nat, name: string, surname: string, email: string, password: string,
                      hash: string -> string): (r: Result<Store, StoreError>)
    requires newId !in s
    ensures r.Failure? <==> EmailTaken(s, email, newId)
    ensures r.Failure? ==> r.error == AlreadyExists
    ensures r.Success? ==>
      && (Valid(s) ==> Valid(r.value)) && r.value.Keys == s.Keys + {newId}
      && (forall id :: id in s ==> r.value[id] == s[id])
      && GetUserById(r.value, newId) == Some(User(newId, name, surname, email, hash(password), false, true))
  {
    if EmailTaken(s, email, newId) then Failure(AlreadyExists)
    else Success(s[newId := User(newId, name, surname, email, hash(password), false, true)])
  }

  /** An e-mail stays taken after its user is deleted: a new account cannot reuse it. */
  lemma {:induction false} DeletedEmailStaysTaken(s: Store, id: nat, newId: nat, name: string, surname: string,
                                                  password: string, hash: string -> string)
    requires Valid(s) && IsActive(s, id) && newId !in s
    ensures DeleteUser(s, id).Success?
    ensures CreateUser(DeleteUser(s, id).value, newId, name, surname, s[id].email, password, hash) ==
            Failure(AlreadyExists)
  {
    DeleteIsSoft(s, id);
    var t := DeleteUser(s, id).value;
    assert id in t && id != newId && t[id].email == s[id].email;
  }

  /** With a hash that never returns its input, no password is ever stored in the clear. */
  lemma {:induction false} NoPlaintextStored(s: Store, newId: nat, name: string, surname: string, email: string,
                                             password: string, hash: string -> string)
    requires newId !in s
    requires forall p :: hash(p) != p
    ensures CreateUser(s, newId, name, surname, email, password, hash).Success? ==>
      CreateUser(s, newId, name, surname, email, password, hash).value[newId].passwordHash != password
  {
  }
}

=== FILE: wrappers.dfy ===
/** Failure-compatible wrappers, and one fact about set sizes, shared by every module of the model. */
module Wrappers {

  /** An optional value: Python's `None` or a present value. */
  datatype Option<+T> = None | Some(value: T) {
    predicate IsFailure() { None? }

    function PropagateFailure<U>(): Option<U>
      requires None?
    {
      None
    }

    function Extract(): T
      requires Some?
    {
      value
    }

    function GetOr(default: T): T {
      match this
      case Some(v) => v
      case None => default
    }
  }

  /** A computation that either returns a value or raises an error. */
  datatype Result<+R, +E> = Success(value: R) | Failure(error: E) {
    predicate IsFailure() { Failure? }

    function PropagateFailure<U>(): Result<U, E>
      requires Failure?
    {
      Failure(error)
    }

    function Extract(): R
      requires Success?
    {
      value
    }
  }

  /** A subset is no larger than the set that holds it. */
  lemma SubsetCard<T>(a: set<T>, b: set<T>)
    requires a <= b
    ensures |a| <= |b|
  {
    assert b == a + (b - a);
  }
}
